=== FILE: README.md ===
# Markdown extensions for Japanese writing, Obsidian and Pandoc citations, in Dafny

This project models the parsing core of five remark/micromark extensions:

- **Aozora ruby.** `｜本文《ルビ》` and `本文《ルビ》` become ruby annotations.
  - The syntax extension recognises the markers.
  - Without the `｜` prefix, the base text is recovered from the end of the preceding text. Recovery uses a scanner that settles on one Unicode script.
- **Obsidian wikilinks.** `[[path#heading|text]]` becomes a link.
  - The syntax recognises the brackets, the path and the display text. It refuses `![[…]]` embeds.
  - The mdast handler builds the link node.
  - `PathResolver.resolve` turns the path into a URL through a glob and a slugifier.
- **Pandoc citations.** `[prefix @id, {locator} suffix; …]` and `@id [locator]` become citation nodes.
  - Modelled pieces: the id, locator, prefix and suffix rules; both generations of the grammar (the registered `syntax/index.ts` and the newer `citation.ts` / `citationInText.ts`); and the mdast handler that fills each item's fields.
- **A small citation processor.** Its registry of CSL items feeds two citation styles: the example style and the square style. Each style turns cited items into HAST text nodes.
- **Obsidian block ids.** A trailing `^id`, or a paragraph holding only `^id`, gives the previous block an `id`.

How the model represents the system:

- A tokenizer is a total function from a code sequence and a start position to `Fail` or `Ok(events, end)`. The events are micromark enter/exit events.
- Every tokenizer is proved to nest its events properly inside the span it consumes.
- Each state function of the source is a Dafny function. Its contract is an independent description: the run of codes it stops at, the token sequence it emits, and the condition under which it succeeds. The loops that combine citation items are described by a chain of item positions (`CitationCommon.Chain`), and the walk that recovers a ruby base by the position where it stops (`RubyFromMarkdown.BaseOf`).
- The mdast handlers are folds over the event list. Lemmas compute the tree they build from the grammar's description.
- Unicode script classes, `\s`, the glob, the slugifier and the host's inline parser are parameters.

## Model

| member | source | states |
|---|---|---|
| ScanText.Alternatives | libs/remark-aozora-ruby/src/utils/scanText.ts:2-9 | every scanner's expression has at least one alternative script class |
| ScanText.FirstCovering | libs/remark-aozora-ruby/src/utils/scanText.ts:2-3 | picks the first alternative, in source order, whose class covers the text; every earlier one fails to cover it |
| ScanText.LazyMatch | libs/remark-aozora-ruby/src/utils/scanText.ts:2-3 | the lazy `^([\s\S]*?)(…)$` match: the split is the smallest from which some alternative covers the rest, and the alternative is the first that does |
| ScanText.Scan | libs/remark-aozora-ruby/src/utils/scanText.ts:18-101 | `exec` splits the input into head + run; the run is covered by the class of the next state; no shorter head leaves a covered run; a settled scanner stays settled; the kana scanner only narrows to hiragana or katakana |
| ScanText.NarrowSettles | libs/remark-aozora-ruby/src/utils/scanText.ts:24-34 | the state chosen after a match collects exactly the class that matched; settled states keep themselves; kana narrows only within kana |
| ScanText.RunStart | libs/remark-aozora-ruby/src/utils/scanText.ts:41-48 | where the longest trailing run of one class starts |
| ScanText.CoversIffAfterRunStart | libs/remark-aozora-ruby/src/utils/scanText.ts:41-48 | a suffix is covered by a class exactly when it starts at or after the run start |
| ScanText.SettledScanSplitsAtRunStart | libs/remark-aozora-ruby/src/utils/scanText.ts:41-101 | a settled scanner cuts the input exactly at the start of its class's trailing run |
| ScanText.AnyScanTakesLongestRun | libs/remark-aozora-ruby/src/utils/scanText.ts:18-36 | the first scan takes a run at least as long as any class's trailing run, and exactly that run for the class it settles on |
| ScanText.ScanPicksFirstAlternative | libs/remark-aozora-ruby/src/utils/scanText.ts:2-9 | no alternative covers the text from any earlier split, and the next scanner is the narrowing by the first alternative that covers the run |
| ScanText.AnyScanPrefersEarlier | libs/remark-aozora-ruby/src/utils/scanText.ts:2-9 | among classes with the longest trailing run the first listed wins: every class listed before the winner has a strictly shorter run |
| ScanText.KanaScanNarrows | libs/remark-aozora-ruby/src/utils/scanText.ts:53-65 | the kana scanner stays on kana exactly when `ー` alone covers the run, else narrows to hiragana when hiragana covers it, else to katakana |
| ScanText.DigitsSettleOnHan | libs/remark-aozora-ruby/src/utils/scanText.ts:2-4 | text of no script is taken whole by the first alternative, Han, whose class matches the empty run |
| ScanText.ScannerSettlesOnFirstScript | libs/remark-aozora-ruby/src/utils/scanText.ts:106-116 | once settled on Han, a later hiragana text yields nothing more |
| RubyFromMarkdown.Reverse | libs/remark-aozora-ruby/src/fromMarkdown.ts:67-69 | reversal reads the sequence backwards, element by element |
| RubyFromMarkdown.SettlingWidensClass | libs/remark-aozora-ruby/src/utils/scanText.ts:53-65 | text covered by the class of a scanner state stays covered by any state it settles into |
| RubyFromMarkdown.WalkBack | libs/remark-aozora-ruby/src/fromMarkdown.ts:29-70 | the loop takes nodes from the end of the siblings, possibly splitting the last one it reaches; no text is lost or duplicated; the taken text is one script class; its outcome is the one BaseOf describes (see WalkBackFindsBase) |
| RubyFromMarkdown.WalkSplitFacts | libs/remark-aozora-ruby/src/fromMarkdown.ts:39-46 | splitting a text node keeps its head in the siblings and moves its non-empty tail to the base |
| RubyFromMarkdown.WalkTakeFacts | libs/remark-aozora-ruby/src/fromMarkdown.ts:67-69 | taking a whole node preserves the text, the shape and the script of the walk |
| RubyFromMarkdown.TakeKeepsScript | libs/remark-aozora-ruby/src/fromMarkdown.ts:36-47 | a node matched entirely by the scanner keeps the base text within one script class |
| RubyFromMarkdown.TakeKeepsText | libs/remark-aozora-ruby/src/fromMarkdown.ts:67-69 | popping and pushing a node loses no text |
| RubyFromMarkdown.TakeKeepsShape | libs/remark-aozora-ruby/src/fromMarkdown.ts:67-69 | popping and pushing a node takes it from the end |
| RubyFromMarkdown.ScannerOf | libs/remark-aozora-ruby/src/fromMarkdown.ts:29 | the scanner value steps exactly as the script scanner |
| RubyFromMarkdown.StateFromInit | libs/remark-aozora-ruby/src/fromMarkdown.ts:67-69 | taking the last node whole leaves the scanner seen by every earlier node unchanged, from the state it settled into |
| RubyFromMarkdown.WalkBackFindsBase | libs/remark-aozora-ruby/src/fromMarkdown.ts:29-70 | the loop leaves exactly what BaseOf describes: the nodes from the stop on are taken whole, the node before them has a script boundary, and it is split when it is a text node ending in a non-empty run |
| RubyFromMarkdown.StopGivesBase | libs/remark-aozora-ruby/src/fromMarkdown.ts:36-64 | a walk that stops at the last node leaves the siblings whole, or splits a text node into head and run |
| RubyFromMarkdown.TakeExtendsBase | libs/remark-aozora-ruby/src/fromMarkdown.ts:67-69 | a node taken whole ends the base of the rest of the walk |
| RubyFromMarkdown.TakeKeepsTaken | libs/remark-aozora-ruby/src/fromMarkdown.ts:67-69 | nodes taken whole stay taken whole once the last node is taken too |
| RubyFromMarkdown.BaseOfUnique | libs/remark-aozora-ruby/src/fromMarkdown.ts:29-70 | at most one split of the siblings fits the description, so it determines the walk's outcome |
| RubyFromMarkdown.BuildBaseTextAsWritten | libs/remark-aozora-ruby/src/fromMarkdown.ts:25-71 | as written: the remaining siblings and the base read backwards are exactly what BaseOf describes (nodes taken whole from the end, the stop at the first script boundary, the split of a text node); together they give back the original text |
| RubyFromMarkdown.KeptSiblingsArePrefix | libs/remark-aozora-ruby/src/fromMarkdown.ts:67-69 | every sibling before the last kept one is untouched |
| RubyFromMarkdown.BuildBaseText | libs/remark-aozora-ruby/src/fromMarkdown.ts:25-71 | corrected: the remaining siblings and the base in document order are exactly what BaseOf describes; together they give back the original text; the base is one script class; earlier siblings are untouched |
| RubyFromMarkdown.BaseTextReadsBackwards | libs/remark-aozora-ruby/src/fromMarkdown.ts:67-69 | for `ひらがな` followed by a strong `ー`, the as-written base is `[ー, ひらがな]`, which reads differently from the source |
| RubyFromMarkdown.BaseWalkOfMixedRun | libs/remark-aozora-ruby/src/fromMarkdown.ts:30-70 | the walk over `ひらがな` and a strong `ー` takes both nodes, nearest first |
| RubyFromMarkdown.WalkTwoWhole | libs/remark-aozora-ruby/src/fromMarkdown.ts:30-70 | two wholly matched nodes are pushed last one first |
| RubyFromMarkdown.WalkTakesLast | libs/remark-aozora-ruby/src/fromMarkdown.ts:67-69 | a wholly matched last node heads the base and the walk continues from the narrowed state |
| RubyFromMarkdown.BackwardsReadingDiffers | libs/remark-aozora-ruby/src/fromMarkdown.ts:69 | swapping two texts that begin differently changes the text |
| RubyFromMarkdown.ProlongedMarkSettlesOnKana | libs/remark-aozora-ruby/src/utils/scanText.ts:24-34 | a lone `ー` settles the scanner on kana |
| RubyFromMarkdown.HiraganaNarrowsKana | libs/remark-aozora-ruby/src/utils/scanText.ts:53-65 | hiragana after `ー` narrows kana to hiragana and is taken whole |
| RubyFromMarkdown.EnterRuby | libs/remark-aozora-ruby/src/fromMarkdown.ts:107-128 | corrected order: with a prefix the ruby starts empty and the siblings are untouched; without one the base described by BaseOf moves, in document order, from the siblings into the ruby with no text lost |
| RubyFromMarkdown.EnterRubyAsWritten | libs/remark-aozora-ruby/src/fromMarkdown.ts:107-128 | as written: without a prefix the ruby children are the BaseOf base read backwards; with one the ruby starts empty |
| RubySyntax.ConfigOf | libs/remark-aozora-ruby/src/syntax.ts:182-186 | without options the defaults `｜《》` apply; otherwise each marker is the first code of its option, and an empty option gives no marker (the NaN of `charCodeAt(0)`, which matches no code) |
| RubySyntax.FinishRubyText | libs/remark-aozora-ruby/src/syntax.ts:71-80 | the ruby text runs to the first closing marker or line break; it succeeds exactly when the run stops at a closing marker |
| RubySyntax.StartRubyText | libs/remark-aozora-ruby/src/syntax.ts:62-69 | as FinishRubyText, and an empty ruby text `《》` emits no text token |
| RubySyntax.TokenizeRubyText | libs/remark-aozora-ruby/src/syntax.ts:45-89 | succeeds exactly when an opening marker is followed by a line of ruby text ended by a closing marker; emits open, text and close tokens |
| RubySyntax.FinishBaseText | libs/remark-aozora-ruby/src/syntax.ts:118-126 | the base text runs to the first opening marker or line break, and the ruby text must follow |
| RubySyntax.StartBaseText | libs/remark-aozora-ruby/src/syntax.ts:110-116 | as FinishBaseText, with no text token for an empty base |
| RubySyntax.TokenizeWithPrefix | libs/remark-aozora-ruby/src/syntax.ts:91-133 | equals the grammar description: a prefix marker, a base text, then the ruby text, all inside one ruby token flagged as prefixed |
| RubySyntax.WithPrefixBody | libs/remark-aozora-ruby/src/syntax.ts:101-132 | the prefix state followed by the base-text states gives the grammar description |
| RubySyntax.FinishPrefixed | libs/remark-aozora-ruby/src/syntax.ts:128-132 | closing a prefixed ruby wraps prefix, base, open, text and close in one ruby token |
| RubySyntax.TokenizeWithoutPrefix | libs/remark-aozora-ruby/src/syntax.ts:135-156 | equals the grammar description: an opening marker and the ruby text inside a ruby token flagged as unprefixed |
| RubySyntax.WithoutPrefixBody | libs/remark-aozora-ruby/src/syntax.ts:145-155 | the start and finish states of the unprefixed rule give the grammar description |
| RubySyntax.RubyAt | libs/remark-aozora-ruby/src/syntax.ts:188-216 | a ruby only starts at a prefix or opening marker; at the opening marker it is the unprefixed rule, else at the prefix marker the prefixed rule; the outer token's flag says which |
| RubySyntax.RubyTextEventsFit | libs/remark-aozora-ruby/src/syntax.ts:62-88 | the ruby text tokens nest properly |
| RubySyntax.WithoutPrefixFits | libs/remark-aozora-ruby/src/syntax.ts:135-156 | the unprefixed rule's events nest properly within the codes it consumes |
| RubySyntax.WithPrefixFits | libs/remark-aozora-ruby/src/syntax.ts:91-133 | the prefixed rule's events nest properly within the codes it consumes |
| RubySyntax.RubyAtFits | libs/remark-aozora-ruby/src/syntax.ts:188-216 | whatever the extension recognises nests properly |
| RubySyntax.PrefixedRubyExample | libs/remark-aozora-ruby/src/syntax.ts:91-133 | `｜本文《ルビ》` yields prefix, base `本文`, open, ruby text `ルビ` and close |
| RubySyntax.UnprefixedRubyExample | libs/remark-aozora-ruby/src/syntax.ts:135-156 | `《ルビ》` after `本文` yields open, ruby text and close |
| RubySyntax.UnclosedRubyFails | libs/remark-aozora-ruby/src/syntax.ts:71-80 | without `》` neither form is recognised |
| WikilinkSyntax.PathEnd | libs/remark-obsidian-wikilink/src/syntax.ts:52-64 | the path stops at the first bar, `]` or line break |
| WikilinkSyntax.TextEnd | libs/remark-obsidian-wikilink/src/syntax.ts:85-94 | the display text stops at the first `]` or line break |
| WikilinkSyntax.FinishText | libs/remark-obsidian-wikilink/src/syntax.ts:85-94 | the display text runs to its end and must be followed by `]]` |
| WikilinkSyntax.StartText | libs/remark-obsidian-wikilink/src/syntax.ts:74-83 | as FinishText; an empty display text emits no text token |
| WikilinkSyntax.PrestartText | libs/remark-obsidian-wikilink/src/syntax.ts:66-72 | succeeds exactly on a bar followed by a display text closed by `]]` |
| WikilinkSyntax.FinishPath | libs/remark-obsidian-wikilink/src/syntax.ts:52-64 | inside a path, the body equals the grammar description |
| WikilinkSyntax.StartPath | libs/remark-obsidian-wikilink/src/syntax.ts:31-95 | the body state machine equals the grammar description: a path, then `]]`, or a bar, a display text and `]]` |
| WikilinkSyntax.BodyAtBar | libs/remark-obsidian-wikilink/src/syntax.ts:39-50 | an empty path followed by a bar goes straight to the display text |
| WikilinkSyntax.BodyAtBracket | libs/remark-obsidian-wikilink/src/syntax.ts:39-50 | an empty path followed by `]` goes straight to the closing brackets |
| WikilinkSyntax.BodyWithBrackets | libs/remark-obsidian-wikilink/src/syntax.ts:97-129 | succeeds exactly on `[[` followed by a body, emitting the open token first |
| WikilinkSyntax.BodyEndsWithBracket | libs/remark-obsidian-wikilink/src/syntax.ts:118-128 | a recognised body ends just after a `]` |
| WikilinkSyntax.NormalLink | libs/remark-obsidian-wikilink/src/syntax.ts:131-156 | the bracketed body inside one wikilink token |
| WikilinkSyntax.WikilinkAt | libs/remark-obsidian-wikilink/src/syntax.ts:158-180 | recognised exactly when a normal link is there and the code before is not `!` |
| WikilinkSyntax.WikilinkShape | libs/remark-obsidian-wikilink/src/syntax.ts:31-95 | a recognised link has a path of non-break codes free of bars and `]`, then ends at `]]` or after a display text |
| WikilinkSyntax.WikilinkAtFits | libs/remark-obsidian-wikilink/src/syntax.ts:158-180 | a recognised link's events nest properly |
| WikilinkSyntax.BodyWithClose | libs/remark-obsidian-wikilink/src/syntax.ts:39-64 | a path closed by `]]` emits an optional path token and the close token |
| WikilinkSyntax.BodyWithText | libs/remark-obsidian-wikilink/src/syntax.ts:39-94 | a path followed by a bar and `text]]` emits path, text prefix, text and close tokens |
| WikilinkSyntax.PathAndTextExample | libs/remark-obsidian-wikilink/src/syntax.ts:31-156 | `[[path#id`, a bar and `text]]` yield path `path#id` and text `text` |
| WikilinkSyntax.TextOnlyExample | libs/remark-obsidian-wikilink/src/syntax.ts:39-94 | `[[`, a bar and `text]]` yield no path token |
| WikilinkSyntax.SingleBracketRefused | libs/remark-obsidian-wikilink/src/syntax.ts:118-128 | `[[path#id`, a bar and `text]` are not a link |
| WikilinkSyntax.EmbedRefused | libs/remark-obsidian-wikilink/src/syntax.ts:163-165 | `![[path]]` is not a link |
| WikilinkFromMarkdown.Handle | libs/remark-obsidian-wikilink/src/fromMarkdown.ts:14-42 | entering a wikilink starts an empty link; tokens other than link, path and text change nothing |
| WikilinkFromMarkdown.CompilePath | libs/remark-obsidian-wikilink/src/fromMarkdown.ts:27-30 | a path token sets the URL to its source text |
| WikilinkFromMarkdown.CompileText | libs/remark-obsidian-wikilink/src/fromMarkdown.ts:14-26 | a display text adds its inline content to the link's children |
| WikilinkFromMarkdown.CompileIgnored | libs/remark-obsidian-wikilink/src/fromMarkdown.ts:14-42 | bracket and prefix tokens leave the link as it is |
| WikilinkFromMarkdown.ShownText | libs/remark-obsidian-wikilink/src/fromMarkdown.ts:14-26 | the children come from the display text, or are empty when it is empty |
| WikilinkFromMarkdown.BodyLink | libs/remark-obsidian-wikilink/src/fromMarkdown.ts:14-42 | compiling a body gives the link whose URL is the path and whose children are the display text |
| WikilinkFromMarkdown.WikilinkNode | libs/remark-obsidian-wikilink/src/fromMarkdown.ts:14-42 | a recognised wikilink compiles to the link for its path and text, with the path itself as the child when there is no text |
| WikilinkFromMarkdown.PathLinkExample | libs/remark-obsidian-wikilink/src/fromMarkdown.ts:33-42 | `[[path#id]]` gives url `path#id` and child text `path#id` |
| WikilinkFromMarkdown.TextLinkExample | libs/remark-obsidian-wikilink/src/fromMarkdown.ts:14-42 | `[[`, a bar and `text]]` give an empty url and child text `text` |
| WikilinkResolve.IndexOf | libs/remark-obsidian-wikilink/src/utils/resolve.ts:23 | the first occurrence of a character |
| WikilinkResolve.LastIndexOf | libs/remark-obsidian-wikilink/src/utils/resolve.ts:23 | the last occurrence of a character |
| WikilinkResolve.SplitJoin | libs/remark-obsidian-wikilink/src/utils/resolve.ts:23 | joining the pieces of `split` with the separator gives back the input |
| WikilinkResolve.SplitPiecesFree | libs/remark-obsidian-wikilink/src/utils/resolve.ts:23 | no piece of `split` contains the separator |
| WikilinkResolve.SplitFirst | libs/remark-obsidian-wikilink/src/utils/resolve.ts:23 | the first piece is the text before the first separator |
| WikilinkResolve.SplitMany | libs/remark-obsidian-wikilink/src/utils/resolve.ts:23 | there is more than one piece exactly when the separator occurs |
| WikilinkResolve.SplitLast | libs/remark-obsidian-wikilink/src/utils/resolve.ts:23 | the last piece is the text after the last separator |
| WikilinkResolve.Basename | libs/remark-obsidian-wikilink/src/utils/resolve.ts:27-30 | a base name contains no `/` |
| WikilinkResolve.Extname | libs/remark-obsidian-wikilink/src/utils/resolve.ts:27-30 | the extension is empty or a final `.`-part of the base name; it is empty exactly for names without a dot, `..` and dot files |
| WikilinkResolve.MapSlugify | libs/remark-obsidian-wikilink/src/utils/resolve.ts:31-36 | every path segment is slugified in place |
| WikilinkResolve.Resolve | libs/remark-obsidian-wikilink/src/utils/resolve.ts:22-45 | the url is the file part for the text before the first `#`, and a `#` with the slugified text after the last `#` exactly when there is one |
| WikilinkResolve.SplitHash | libs/remark-obsidian-wikilink/src/utils/resolve.ts:22-45 | `split("#")` gives the path as its first piece and the heading as its last, exactly when there is a `#` |
| WikilinkResolve.ExtnameOfName | libs/remark-obsidian-wikilink/src/utils/resolve.ts:27-30 | for a plain name the extension starts at its last dot, unless that dot is the first character |
| WikilinkResolve.ExtnameOfMarkdownName | libs/remark-obsidian-wikilink/src/utils/resolve.ts:27-30 | `name.md` is looked up as it is |
| WikilinkResolve.ExtnameOfPlainName | libs/remark-obsidian-wikilink/src/utils/resolve.ts:27-30 | `name` is looked up as `name.md` |
| WikilinkResolve.ExtnameOfDotFile | libs/remark-obsidian-wikilink/src/utils/resolve.ts:27-30 | `.obsidian` has no extension |
| WikilinkResolve.ExtnameOfDoubleExtension | libs/remark-obsidian-wikilink/src/utils/resolve.ts:27-30 | only the last part counts: `archive.tar.gz` has extension `.gz` |
| WikilinkResolve.HeadingOnlyExample | libs/remark-obsidian-wikilink/src/utils/resolve.ts:22-45 | `#id` with no file found resolves to `#` and the slugified heading |
| CitationId.IsIdCharacter | libs/remark-pandoc-citation/src/syntax/id.ts:14-57 | an id character is exactly an id letter or id punctuation, never both, and never a code at or below zero |
| CitationId.IdPrefix | libs/remark-pandoc-citation/src/syntax/id.ts:164-191 | succeeds exactly on `@` or `-@`, emitting one prefix token over it |
| CitationId.IdCharEnd | libs/remark-pandoc-citation/src/syntax/id.ts:82-99 | the end of the run of id characters |
| CitationId.FinishCurlyId | libs/remark-pandoc-citation/src/syntax/id.ts:91-99 | a curly key runs over id characters and must end at `}` |
| CitationId.StartCurlyId | libs/remark-pandoc-citation/src/syntax/id.ts:82-88 | as FinishCurlyId; `{}` emits no id token |
| CitationId.CurlyId | libs/remark-pandoc-citation/src/syntax/id.ts:64-109 | succeeds exactly on `{`, id characters and `}`, emitting open, id and close tokens |
| CitationId.CheckBareId | libs/remark-pandoc-citation/src/syntax/id.ts:120-158 | the check/consume loop ends on the longest bare key: letters first and last, no two punctuation characters in a row |
| CitationId.BareId | libs/remark-pandoc-citation/src/syntax/id.ts:114-159 | a bare key is recognised exactly when a letter starts it, and it is the longest bare key there |
| CitationId.LongestBareKeyUnique | libs/remark-pandoc-citation/src/syntax/id.ts:114-159 | there is only one longest bare key at a position |
| CitationId.BareKeyStopsOnlyAtItsEnd | libs/remark-pandoc-citation/src/syntax/id.ts:120-140 | inside a longer bare key the check always goes on |
| CitationId.IdBody | libs/remark-pandoc-citation/src/syntax/id.ts:196-215 | a `{` selects the curly key, anything else the bare key |
| CitationId.Id | libs/remark-pandoc-citation/src/syntax/id.ts:196-215 | an id is an id prefix followed by a key body |
| CitationId.IdFits | libs/remark-pandoc-citation/src/syntax/id.ts:196-215 | an id's events nest properly |
| CitationLocator.FinishLocator | libs/remark-pandoc-citation/src/syntax/locator.ts:124-133 | a locator runs to the first break and must end at its closing bracket |
| CitationLocator.StartLocator | libs/remark-pandoc-citation/src/syntax/locator.ts:113-122 | as FinishLocator; an empty locator emits no locator token |
| CitationLocator.CurlyLocator | libs/remark-pandoc-citation/src/syntax/locator.ts:30-84 | succeeds exactly on `{`, a run free of its break codes, and `}` |
| CitationLocator.SquareLocator | libs/remark-pandoc-citation/src/syntax/locator.ts:91-142 | succeeds exactly on `[`, a run free of its break codes, and `]` |
| CitationLocator.SpacedSquareLocator | libs/remark-pandoc-citation/src/syntax/citationInText.ts:7-28 | spaces and then a square locator; it fails exactly when the square locator fails |
| CitationLocator.SquareLocatorFits | libs/remark-pandoc-citation/src/syntax/locator.ts:91-142 | a square locator's events nest properly |
| CitationCommon.SpaceEnd | libs/remark-pandoc-citation/src/syntax/index.ts:108-131 | the end of the run of spaces |
| CitationCommon.FinishWhitespaces | libs/remark-pandoc-citation/src/syntax/index.ts:123-130 | takes every following space into one token |
| CitationCommon.Whitespaces | libs/remark-pandoc-citation/src/syntax/index.ts:108-131 | never fails; a space token covers the run of spaces when there is one |
| CitationCommon.ItemList | libs/remark-pandoc-citation/src/syntax/citation.ts:220-229 | the items end on a `]`; accepted exactly when the items form a chain (see ItemListIff) |
| CitationCommon.BracketedCitation | libs/remark-pandoc-citation/src/syntax/citation.ts:199-244 | recognised exactly on `[` followed by accepted items; spans from `[` to `]` inside a citation token without the in-text flag |
| CitationCommon.BracketedCitationChain | libs/remark-pandoc-citation/src/syntax/citation.ts:199-244 | recognised exactly on `[` followed by a chain of `;`-separated items ending on `]`; then its events are the brackets around the chain's events |
| CitationCommon.ChainAccepted | libs/remark-pandoc-citation/src/syntax/citation.ts:220-229 | a chain of `;`-separated items ending on `]` is accepted as a list, with the chain's events |
| CitationCommon.ItemStarts | libs/remark-pandoc-citation/src/syntax/citation.ts:220-229 | an accepted list is such a chain, with the list's end and events |
| CitationCommon.ItemListIff | libs/remark-pandoc-citation/src/syntax/citation.ts:220-229 | the list is accepted exactly when its items form a chain, and then it has the chain's events and end |
| CitationCommon.ItemListFits | libs/remark-pandoc-citation/src/syntax/citation.ts:220-229 | the items, with their delimiters, nest properly when every item does |
| CitationCommon.BracketedCitationFits | libs/remark-pandoc-citation/src/syntax/citation.ts:199-244 | the citation nests properly when every item does |
| CitationPrefix.PrefixEnd | libs/remark-pandoc-citation/src/syntax/citation.ts:130-165 | the prefix runs to the first id prefix or break |
| CitationPrefix.ExitPrefix | libs/remark-pandoc-citation/src/syntax/citation.ts:130-143 | a prefix succeeds exactly when an id follows it |
| CitationPrefix.EnterPrefix | libs/remark-pandoc-citation/src/syntax/citation.ts:144-155 | as ExitPrefix; an empty prefix emits no token |
| CitationPrefix.EnterPrefixFits | libs/remark-pandoc-citation/src/syntax/index.ts:23-65 | the prefix events nest properly in either grammar |
| CitationItem.Prefix | libs/remark-pandoc-citation/src/syntax/citation.ts:124-166 | leading spaces, then a prefix up to an `@` or `-@` that must be there |
| CitationItem.LocatorAfterId | libs/remark-pandoc-citation/src/syntax/citation.ts:92-114 | never fails: an optional comma and spaces, then a curly locator if there is one |
| CitationItem.TrailingSpaceStart | libs/remark-pandoc-citation/src/syntax/citation.ts:30-53 | where the trailing spaces of the suffix begin |
| CitationItem.SpacesBeforeStop | libs/remark-pandoc-citation/src/syntax/citation.ts:54-77 | spaces followed by `;` or `]` are a space token and no suffix |
| CitationItem.FinishSuffix | libs/remark-pandoc-citation/src/syntax/citation.ts:30-53 | the suffix runs to `;`, `]` or a break, and must stop at `;` or `]`; its trailing spaces become a space token |
| CitationItem.Suffix | libs/remark-pandoc-citation/src/syntax/citation.ts:24-83 | as FinishSuffix; an empty suffix emits no suffix token |
| CitationItem.SuffixEndsAtStop | libs/remark-pandoc-citation/src/syntax/citation.ts:54-77 | spaces before a stop leave the suffix empty |
| CitationItem.Item | libs/remark-pandoc-citation/src/syntax/citation.ts:171-194 | accepted exactly when the prefix, the key and the suffix after the optional locator are; ends where the suffix does, just before `;` or `]`, inside one item token |
| CitationItem.Citation | libs/remark-pandoc-citation/src/syntax/citation.ts:199-244 | recognised exactly on `[` followed by items; ends with `]` inside one citation token |
| CitationItem.ItemsChain | libs/remark-pandoc-citation/src/syntax/citation.ts:220-229 | the newer items are accepted exactly when they form a chain, and then with the chain's events |
| CitationItem.CitationChain | libs/remark-pandoc-citation/src/syntax/citation.ts:199-244 | the newer citation is recognised exactly on `[` followed by a chain of items ending on `]`, with the brackets around the chain's events |
| CitationItem.CitationInText | libs/remark-pandoc-citation/src/syntax/citationInText.ts:33-64 | recognised exactly when an id is there; an in-text citation token holds one item token with the id and the optional spaced square locator |
| CitationItem.ItemFits | libs/remark-pandoc-citation/src/syntax/citation.ts:171-194 | an item's events nest properly |
| CitationItem.CitationFits | libs/remark-pandoc-citation/src/syntax/citation.ts:199-244 | a citation's events nest properly |
| CitationItem.CitationInTextFits | libs/remark-pandoc-citation/src/syntax/citationInText.ts:33-64 | an in-text citation's events nest properly |
| CitationLegacy.FinishSuffix | libs/remark-pandoc-citation/src/syntax/index.ts:94-102 | the suffix runs to `;`, `]` or a code at or below zero, and must stop at `;` or `]` |
| CitationLegacy.Suffix | libs/remark-pandoc-citation/src/syntax/index.ts:72-103 | as FinishSuffix; an empty suffix emits no token |
| CitationLegacy.AfterComma | libs/remark-pandoc-citation/src/syntax/index.ts:151-182 | one comma is skipped exactly when present |
| CitationLegacy.CommaCurlyLocator | libs/remark-pandoc-citation/src/syntax/index.ts:151-182 | an optional comma and spaces before a curly locator; it fails exactly when the curly locator fails |
| CitationLegacy.OptionalLocator | libs/remark-pandoc-citation/src/syntax/index.ts:151-182 | the attempt succeeds exactly when the curly locator does, and then emits the comma, the spaces and the locator; on failure nothing is consumed |
| CitationLegacy.AfterLocator | libs/remark-pandoc-citation/src/syntax/index.ts:151-182 | the suffix starts after the curly locator when the attempt finds one, else right after the key |
| CitationLegacy.Item | libs/remark-pandoc-citation/src/syntax/index.ts:136-189 | accepted exactly when the prefix, the key and the suffix after the locator attempt are; ends where the suffix does, just before `;` or `]`, inside one item token |
| CitationLegacy.Citation | libs/remark-pandoc-citation/src/syntax/index.ts:194-239 | recognised exactly on `[` followed by accepted items; ends with `]` inside one citation token |
| CitationLegacy.CitationChain | libs/remark-pandoc-citation/src/syntax/index.ts:194-239 | the older citation is recognised exactly on `[` followed by a chain of items ending on `]`, with the brackets around the chain's events |
| CitationLegacy.AuthorInText | libs/remark-pandoc-citation/src/syntax/index.ts:244-282 | recognised exactly when an id is there; a citation token without the in-text flag holds the id and optional locator directly, with no item token |
| CitationLegacy.TriggerOf | libs/remark-pandoc-citation/src/syntax/index.ts:287-304 | `-` and `@` start an author-in-text citation, `[` a bracketed one, and nothing else starts one |
| CitationLegacy.Recognise | libs/remark-pandoc-citation/src/syntax/index.ts:287-304 | `-` and `@` give the author-in-text rule, `[` the bracketed one, any other code fails; never flagged in-text |
| CitationLegacy.RecogniseNewer | libs/remark-pandoc-citation/src/syntax/citationInText.ts:33-64 | `-` and `@` give the newer author-in-text rule, `[` the newer bracketed one, any other code fails; flagged in-text exactly when it does not start at `[` |
| CitationLegacy.AuthorInTextAgrees | libs/remark-pandoc-citation/src/syntax/index.ts:244-282 | both author-in-text rules accept the same inputs and consume the same codes; only the flag and the item token differ |
| CitationLegacy.RecogniseFits | libs/remark-pandoc-citation/src/syntax/index.ts:287-304 | whatever the registered extension recognises nests properly |
| CitationFromMarkdown.Record | libs/remark-pandoc-citation/src/fromMarkdown/index.ts:72-107 | a field token writes its own source text into its field, `locatorOuter` writes the empty locator, and the other fields are unchanged |
| CitationFromMarkdown.Handle | libs/remark-pandoc-citation/src/fromMarkdown/index.ts:51-119 | field tokens change nothing unless an item is open |
| CitationFromMarkdown.CollectFieldUntouched | libs/remark-pandoc-citation/src/fromMarkdown/index.ts:72-107 | a field no event writes keeps its value |
| CitationFromMarkdown.CollectFieldLast | libs/remark-pandoc-citation/src/fromMarkdown/index.ts:72-107 | a field holds what the last event writing it wrote |
| CitationFromMarkdown.CompileFields | libs/remark-pandoc-citation/src/fromMarkdown/index.ts:72-107 | field events fill the open item's data and change nothing else |
| CitationFromMarkdown.CompileItem | libs/remark-pandoc-citation/src/fromMarkdown/index.ts:63-71 | an item token appends one item node to its parent, whose data is collected from the fields inside it |
| CitationFromMarkdown.CompileInText | libs/remark-pandoc-citation/src/fromMarkdown/index.ts:51-71 | an in-text citation token with one item yields an in-text citation node holding that item |
| CitationFromMarkdown.CompileBare | libs/remark-pandoc-citation/src/fromMarkdown/index.ts:51-62 | a citation token with field tokens but no item token yields an empty citation node that is not in-text |
| CitationFromMarkdown.InTextTree | libs/remark-pandoc-citation/src/fromMarkdown/index.ts:51-119 | the newer author-in-text rule yields an in-text citation with one item |
| CitationFromMarkdown.LegacyInTextTree | libs/remark-pandoc-citation/src/fromMarkdown/index.ts:51-119 | the registered author-in-text rule yields an empty citation that is not in-text |
| CitationFromMarkdown.CollectId | libs/remark-pandoc-citation/src/fromMarkdown/index.ts:78-89 | an id fills the id prefix with `@` or `-@` and the id with the key, without braces |
| CitationFromMarkdown.CollectSpacedSquareLocator | libs/remark-pandoc-citation/src/fromMarkdown/index.ts:96-101 | a square locator fills the locator with the text between the brackets |
| CitationFromMarkdown.InTextItemData | libs/remark-pandoc-citation/src/fromMarkdown/index.ts:63-107 | the in-text item holds exactly the id prefix, the key and the locator, with no prefix or suffix |
| CitationFromMarkdown.InTextCitationNode | libs/remark-pandoc-citation/src/fromMarkdown/index.ts:51-119 | `@key [locator]` becomes an in-text citation with one item holding those fields |
| CitationFromMarkdown.CompileItemList | libs/remark-pandoc-citation/src/fromMarkdown/index.ts:63-71 | the items of a citation become its children, one item node each, in order |
| CitationFromMarkdown.CompileBracketed | libs/remark-pandoc-citation/src/fromMarkdown/index.ts:51-119 | a bracketed citation becomes one citation node that is not in-text and holds the item nodes |
| CitationTrees.ItemShaped | libs/remark-pandoc-citation/src/syntax/citation.ts:171-194 | an item token holds only field tokens |
| CitationTrees.CitationTree | libs/remark-pandoc-citation/src/fromMarkdown/index.ts:51-119 | a newer-grammar bracketed citation becomes one citation node with an item node per item |
| CitationTrees.LegacyItemShaped | libs/remark-pandoc-citation/src/syntax/index.ts:136-189 | a registered-grammar item token holds only field tokens |
| CitationTrees.LegacyCitationTree | libs/remark-pandoc-citation/src/fromMarkdown/index.ts:51-119 | a registered-grammar bracketed citation becomes one citation node with an item node per item |
| CitationTrees.CollectCurlyLocator | libs/remark-pandoc-citation/src/fromMarkdown/index.ts:96-101 | a curly locator fills the locator with the text between the braces, and nothing for `{}` |
| CitationTrees.CollectPrefix | libs/remark-pandoc-citation/src/fromMarkdown/index.ts:72-77 | the prefix field is the text between the leading spaces and the id, unless that is empty |
| CitationTrees.CollectLocatorAfterId | libs/remark-pandoc-citation/src/fromMarkdown/index.ts:96-101 | the locator after an id fills the locator field only when a curly locator is there |
| CitationTrees.CollectSuffix | libs/remark-pandoc-citation/src/fromMarkdown/index.ts:102-107 | the suffix field is the suffix without its trailing spaces |
| CitationTrees.ItemFieldsCollected | libs/remark-pandoc-citation/src/fromMarkdown/index.ts:63-107 | every recognised newer-grammar item's data is its prefix, id prefix, key, locator and suffix texts |
| CitationTrees.CollectLegacyPrefix | libs/remark-pandoc-citation/src/fromMarkdown/index.ts:72-77 | the registered grammar's prefix field keeps its leading spaces |
| CitationTrees.CollectOptionalLocator | libs/remark-pandoc-citation/src/fromMarkdown/index.ts:96-101 | the optional locator fills the locator field only when the attempt succeeds, and the suffix starts after it |
| CitationTrees.CollectLegacySuffix | libs/remark-pandoc-citation/src/fromMarkdown/index.ts:102-107 | the registered grammar's suffix field keeps its trailing spaces |
| CitationTrees.LegacyItemFieldsCollected | libs/remark-pandoc-citation/src/fromMarkdown/index.ts:63-107 | every recognised registered-grammar item's data is its prefix, id prefix, key, locator and suffix texts |
| CitationTrees.FirstItemNode | libs/remark-pandoc-citation/src/fromMarkdown/index.ts:63-71 | the first item node of a newer-grammar citation carries the first item's fields |
| CitationTrees.LegacyFirstItemNode | libs/remark-pandoc-citation/src/fromMarkdown/index.ts:63-71 | the first item node of a registered-grammar citation carries the first item's fields |
| CitationTrees.RegisteredInTextLosesItem | libs/remark-pandoc-citation/src/syntax/index.ts:244-304 | as registered, every author-in-text citation becomes an empty citation node that is not in-text |
| CitationTrees.NewerInTextKeepsItem | libs/remark-pandoc-citation/src/syntax/citationInText.ts:33-64 | with the newer rule it becomes an in-text citation holding its id and locator |
| CitationTrees.AtIdExample | libs/remark-pandoc-citation/src/syntax/index.ts:244-304 | `@id` gives an empty non-in-text citation as registered, and an in-text citation with id `id` under the newer rule |
| Csl.DigitChar | libs/remark-pandoc-citation/src/citeproc/index.ts:23 | a digit's character reads back as the digit |
| Csl.NatText | libs/remark-pandoc-citation/src/citeproc/index.ts:23 | `${n}` for a natural number is decimal digits with no leading zero |
| Csl.IntText | libs/remark-pandoc-citation/src/citeproc/index.ts:23 | a negative number gets a minus sign before the digits of its magnitude |
| Csl.IntTextValue | libs/remark-pandoc-citation/src/citeproc/index.ts:23 | reading back `${n}` gives `n` |
| Csl.NumIdKeyInjective | libs/remark-pandoc-citation/src/citeproc/index.ts:21-25 | distinct numeric ids are filed under distinct keys |
| Csl.NumIdMeetsStrId | libs/remark-pandoc-citation/src/citeproc/index.ts:21-25 | the numeric id `5` and the string id `"5"` share one registry key |
| CslRender.Particled | libs/remark-pandoc-citation/src/citeproc/styles/example.ts:19-25 | a particle is joined to the family name by a space only when it ends in a letter |
| CslRender.LowerRunEnd | libs/remark-pandoc-citation/src/citeproc/styles/example.ts:11 | the end of a run of lower-case letters |
| CslRender.Initials | libs/remark-pandoc-citation/src/citeproc/styles/example.ts:11 | abbreviating given names never makes them longer |
| CslRender.InitialsConcat | libs/remark-pandoc-citation/src/citeproc/styles/example.ts:11 | the global replacement works piecewise across a cut that does not split a lower-case run |
| CslRender.InitialsWordStep | libs/remark-pandoc-citation/src/citeproc/styles/example.ts:11 | a capitalised word becomes its capital and a dot |
| CslRender.InitialsKeepsText | libs/remark-pandoc-citation/src/citeproc/styles/example.ts:11 | text with no capitalised word is left as it is |
| CslRender.InitialsOfWord | libs/remark-pandoc-citation/src/citeproc/styles/example.ts:11 | an ASCII capitalised word becomes its initial and a dot |
| CslRender.InitialsTwoWordsExample | libs/remark-pandoc-citation/src/citeproc/styles/example.ts:11 | `Given Name` becomes `G. N.` |
| CslRender.InitialsExample | libs/remark-pandoc-citation/src/citeproc/styles/example.ts:11 | `Given 1` becomes `G. 1` |
| CslRender.NameShort | libs/remark-pandoc-citation/src/citeproc/styles/example.ts:36-53 | without a family name, the given name or `""`; otherwise the family name behind its non-dropping particle, then the suffix after `, ` when `comma-suffix` is truthy and after a space otherwise |
| CslRender.NameLong | libs/remark-pandoc-citation/src/citeproc/styles/example.ts:14-34 | without a family name, the given name or `""`; otherwise the family name behind the non-dropping particle, or the dropping one when there is none, ending in `, ` and the initials when a given name is filled |
| CslRender.NamesShort | libs/remark-pandoc-citation/src/citeproc/styles/example.ts:55-62 | no authors give the empty text; one gives that name; two are joined by ` and `; three or more give the first and `et al.` |
| CslRender.LongNames | libs/remark-pandoc-citation/src/citeproc/styles/example.ts:64-75 | each author's long form, in order |
| CslRender.NamesLong | libs/remark-pandoc-citation/src/citeproc/styles/example.ts:64-75 | the loop yields the first names separated by `, ` and the last after ` and ` |
| CslRender.NameShortIgnoresDroppingParticle | libs/remark-pandoc-citation/src/citeproc/styles/example.ts:36-53 | the short form never shows a dropping particle |
| CslRender.NameLongExtendsShort | libs/remark-pandoc-citation/src/citeproc/styles/example.ts:14-53 | for a name without a lone dropping particle (a dropping particle beside a family name and no non-dropping particle), the long form starts with the short form, equals it without a given name, and with a family and a given name adds `, ` and the initials |
| CslRender.NameExamples | libs/remark-pandoc-citation/src/citeproc/styles/example.ts:14-53 | `de Family, Jr.` short and `de Family, Jr., G.` long; with a false comma-suffix `de Family Jr.` |
| CslRender.DroppingParticleExample | libs/remark-pandoc-citation/src/citeproc/styles/example.ts:19 | a dropping particle shows only in the long form |
| CslRender.DateShort | libs/remark-pandoc-citation/src/citeproc/styles/example.ts:77-84 | no date gives nothing; a first year gives its text; a date without one gives the style's placeholder |
| CslRender.DateShortMissing | libs/remark-pandoc-citation/src/citeproc/style/square.ts:76-83 | the two styles' dates differ exactly for a date without a year |
| CslRender.Plain | libs/remark-pandoc-citation/src/citeproc/styles/example.ts:86-93 | the plain text is the lead of `PlainLead`, the key, and the tail of `PlainTail` over the filled locator and suffix |
| CslRender.PlainLead | libs/remark-pandoc-citation/src/citeproc/styles/example.ts:87-88 | what precedes the key: the filled prefix and a space, then `-@` when suppress-author is truthy and `@` otherwise |
| CslRender.PlainTail | libs/remark-pandoc-citation/src/citeproc/styles/example.ts:89-92 | what follows the key: a comma exactly when a locator or suffix is filled, the locator after a space right behind it, and the suffix, or else the locator, last after a space |
| CslRender.PlainParts | libs/remark-pandoc-citation/src/citeproc/styles/example.ts:86-93 | for every item: the lead, then the key, then a comma exactly when a locator or suffix is filled, the locator after a space right behind the comma, and the suffix, or else the locator, at the end after a space |
| CslRender.PlainExample | libs/remark-pandoc-citation/src/citeproc/styles/example.ts:86-93 | `see -@id, p. 1 more` with every part present |
| CslRender.AuthorShortOrder | libs/remark-pandoc-citation/src/citeproc/styles/example.ts:95-99 | no data gives `""`; an `author` list, even an empty one, gives its short names; otherwise the publisher, then the container title, then `""` |
| CslRender.AuthorLong | libs/remark-pandoc-citation/src/citeproc/styles/example.ts:101-105 | the long author names, otherwise the publisher |
| CslRender.PushWords | libs/remark-pandoc-citation/src/citeproc/styles/example.ts:142-182 | pushing a text keeps the list delimited and adds the text to its words |
| CslRender.PushIfAnyWords | libs/remark-pandoc-citation/src/citeproc/styles/example.ts:142-182 | a guarded push adds only a non-empty text |
| CslRender.JoinWords | libs/remark-pandoc-citation/src/citeproc/styles/example.ts:262-279 | joining two delimited lists with a delimiter concatenates their words |
| CslRender.NonEmptyConcat | libs/remark-pandoc-citation/src/citeproc/styles/example.ts:142-182 | dropping empty texts works piecewise |
| CslRender.SeparatedIsJoin | libs/remark-pandoc-citation/src/citeproc/styles/example.ts:304-328 | the first item, then `; ` before each further one, is the items' renderings joined by `; ` |
| CslRender.JoinOfSingles | libs/remark-pandoc-citation/src/citeproc/styles/example.ts:304-316 | when every item renders as one node, the joined citation holds item `i`'s node at position `2i`, with `; ` between |
| CslRender.BracketedJoinsDiffer | libs/remark-pandoc-citation/src/citeproc/styles/example.ts:304-316 | two renderings that differ on one item give different bracketed citations |
| ExampleStyle.CitationPrefix | libs/remark-pandoc-citation/src/citeproc/styles/example.ts:142-158 | the prefix parts are appended to the nodes given |
| ExampleStyle.CitationSuffix | libs/remark-pandoc-citation/src/citeproc/styles/example.ts:160-182 | the suffix parts are appended to the nodes given |
| ExampleStyle.CitationPrefixWords | libs/remark-pandoc-citation/src/citeproc/styles/example.ts:142-158 | the prefix adds the prefix text and the short author, unless suppressed, each only when not empty |
| ExampleStyle.CitationSuffixWords | libs/remark-pandoc-citation/src/citeproc/styles/example.ts:160-182 | the suffix adds the year (`0000` when missing), the locator and the suffix, each only when not empty |
| ExampleStyle.Citation | libs/remark-pandoc-citation/src/citeproc/styles/example.ts:262-279 | a citation is one node: plain text exactly when the item has no data |
| ExampleStyle.CitationInText | libs/remark-pandoc-citation/src/citeproc/styles/example.ts:281-301 | without data the plain text; with data the parts end in a bracketed span |
| ExampleStyle.CitationWords | libs/remark-pandoc-citation/src/citeproc/styles/example.ts:262-279 | the span shows the non-empty lead and tail texts, delimited, and ends with the bibliography entry |
| ExampleStyle.CitationInTextWords | libs/remark-pandoc-citation/src/citeproc/styles/example.ts:281-301 | the lead texts stand before the bracket with a space; the tail texts and the bibliography are inside |
| ExampleStyle.GetCitation | libs/remark-pandoc-citation/src/citeproc/styles/example.ts:304-316 | the citations of the items, joined by `; ` between brackets |
| ExampleStyle.GetCitationInText | libs/remark-pandoc-citation/src/citeproc/styles/example.ts:318-328 | the in-text citations of the items, joined by `; ` |
| ExampleStyle.NotFoundExample | libs/remark-pandoc-citation/src/citeproc/styles/example.ts:86-93 | an unknown item renders as `@id` |
| ExampleStyle.OptionsExample | libs/remark-pandoc-citation/src/citeproc/styles/example.ts:262-279 | a full item renders `[prefix Family, locator suffix …]` |
| ExampleStyle.OptionsInTextExample | libs/remark-pandoc-citation/src/citeproc/styles/example.ts:281-301 | in text it renders `prefix Family [locator suffix …]` |
| SquareStyle.PrefixAgrees | libs/remark-pandoc-citation/src/citeproc/style/square.ts:105-118 | the square prefix is the example style's prefix |
| SquareStyle.SuffixAgrees | libs/remark-pandoc-citation/src/citeproc/style/square.ts:120-139 | the square suffix is the example style's suffix, except that a missing year is left out rather than shown as `0000` |
| SquareStyle.CitationPrefix | libs/remark-pandoc-citation/src/citeproc/style/square.ts:105-118 | at most three nodes, the same as the example style's prefix started from no nodes |
| SquareStyle.CitationSuffix | libs/remark-pandoc-citation/src/citeproc/style/square.ts:120-139 | at most five nodes, the same as the example style's suffix started from no nodes whenever the date is absent or has a year |
| SquareStyle.CitationPrefixWords | libs/remark-pandoc-citation/src/citeproc/style/square.ts:105-118 | the prefix shows the non-empty prefix text and short author |
| SquareStyle.CitationSuffixWords | libs/remark-pandoc-citation/src/citeproc/style/square.ts:120-139 | the suffix shows the non-empty year, locator and suffix |
| SquareStyle.CitationAsWritten | libs/remark-pandoc-citation/src/citeproc/style/square.ts:141-162 | as written: one node, plain text exactly when the item has no data |
| SquareStyle.TrailingSpace | libs/remark-pandoc-citation/src/citeproc/style/square.ts:159 | as written, an item with an author but no year, locator or suffix ends its span with a stray space |
| SquareStyle.TrailingSpaceExample | libs/remark-pandoc-citation/src/citeproc/style/square.ts:159 | an author-only item renders `[Family ]` |
| SquareStyle.Citation | libs/remark-pandoc-citation/src/citeproc/style/square.ts:141-162 | corrected: one node, plain text exactly when the item has no data |
| SquareStyle.CitationDropsTrailingSpace | libs/remark-pandoc-citation/src/citeproc/style/square.ts:159 | the correction differs from the code only by that stray space |
| SquareStyle.CitationWords | libs/remark-pandoc-citation/src/citeproc/style/square.ts:141-162 | the corrected span is delimited and shows the non-empty lead and tail texts |
| SquareStyle.CitationInText | libs/remark-pandoc-citation/src/citeproc/style/square.ts:164-189 | without data the plain text; with data the parts end in a bracketed span |
| SquareStyle.CitationInTextWords | libs/remark-pandoc-citation/src/citeproc/style/square.ts:164-189 | the lead texts stand before the bracket with a space; the tail texts are inside |
| SquareStyle.GetCitation | libs/remark-pandoc-citation/src/citeproc/style/square.ts:192-205 | corrected: the corrected item spans of `SquareStyle.Citation`, joined by `; ` between brackets |
| SquareStyle.GetCitationAsWritten | libs/remark-pandoc-citation/src/citeproc/style/square.ts:192-205 | as written: the item spans of `SquareStyle.CitationAsWritten`, joined by `; ` between brackets |
| SquareStyle.GetCitationAsWrittenAgrees | libs/remark-pandoc-citation/src/citeproc/style/square.ts:141-162 | the written and the corrected citation are equal exactly when no item with data has a prefix part and no suffix part |
| SquareStyle.RenderingsAgree | libs/remark-pandoc-citation/src/citeproc/style/square.ts:192-205 | when no item ends in the trailing space, the written and the corrected citation are equal |
| SquareStyle.RenderingsDiffer | libs/remark-pandoc-citation/src/citeproc/style/square.ts:192-205 | one item ending in the trailing space makes the written citation differ from the corrected one |
| SquareStyle.AuthorOnlyGetCitation | libs/remark-pandoc-citation/src/citeproc/style/square.ts:159 | the author-only item gives `[Family ]` as written and `[Family]` corrected |
| SquareStyle.GetCitationInText | libs/remark-pandoc-citation/src/citeproc/style/square.ts:206-216 | the in-text citations of the items, joined by `; ` |
| Citeproc.NewProcessor | libs/remark-pandoc-citation/src/citeproc/index.ts:13-19 | a new processor has an empty registry |
| Citeproc.AddAll | libs/remark-pandoc-citation/src/citeproc/index.ts:21-25 | adding items files each under `${id}` and keeps earlier entries |
| Citeproc.AddItems | libs/remark-pandoc-citation/src/citeproc/index.ts:21-25 | adding items changes only the registry |
| Citeproc.LastFiledUnder | libs/remark-pandoc-citation/src/citeproc/index.ts:21-25 | the last of the items filed under a key, if any |
| Citeproc.AddAllLookup | libs/remark-pandoc-citation/src/citeproc/index.ts:21-25 | looking a key up after adding gives the last added item with that key, otherwise the earlier entry |
| Citeproc.ResolveItem | libs/remark-pandoc-citation/src/citeproc/index.ts:50-53 | item data given inline wins; otherwise the registry's entry for `${id}`; nothing else changes |
| Citeproc.Resolve | libs/remark-pandoc-citation/src/citeproc/index.ts:50-53 | no item list gives no items; otherwise each item is resolved in place |
| Citeproc.ResolveIdempotent | libs/remark-pandoc-citation/src/citeproc/index.ts:50-53 | resolving twice changes nothing |
| Citeproc.GetCitation | libs/remark-pandoc-citation/src/citeproc/index.ts:48-55 | corrected: the style's citation of the resolved items, the square style with its corrected item spans |
| Citeproc.GetCitationAsWritten | libs/remark-pandoc-citation/src/citeproc/index.ts:48-55 | as written: the style's citation of the resolved items, the square style with the item spans of the code |
| Citeproc.GetCitationAsWrittenAgrees | libs/remark-pandoc-citation/src/citeproc/index.ts:48-55 | the two agree exactly for the example style or when no resolved item ends in the square style's trailing space |
| Citeproc.GetCitationInText | libs/remark-pandoc-citation/src/citeproc/index.ts:57-64 | the style's in-text citation of the resolved items |
| Citeproc.EmptyCitation | libs/remark-pandoc-citation/src/citeproc/index.ts:48-64 | a citation without items renders as `[]`, and in text as nothing |
| Citeproc.SingleItemFallsBack | libs/remark-pandoc-citation/src/citeproc/index.ts:48-64 | one item renders as plain text exactly when neither it nor the registry has its data |
| Citeproc.RegisteredExample | libs/remark-pandoc-citation/src/citeproc/index.ts:48-64 | a registered item cited by id renders `[Family 2025]` in the square style |
| BlockId.WithHId | libs/remark-obsidian-block-id/src/index.ts:43-47 | setting the id in place gives the node that id |
| BlockId.IdRunStart | libs/remark-obsidian-block-id/src/index.ts:30 | the start of the trailing run of `[\w-]` characters |
| BlockId.MatchPosition | libs/remark-obsidian-block-id/src/index.ts:30 | a match puts `^` right before the trailing run of id characters, at the start or after a whitespace character |
| BlockId.MatchMarker | libs/remark-obsidian-block-id/src/index.ts:30 | returns a match of the expression when there is one, and nothing exactly when none exists |
| BlockId.NoMarkerAtRunStart | libs/remark-obsidian-block-id/src/index.ts:30 | without `^` at the right place there is no match |
| BlockId.MarkerAfterSpace | libs/remark-obsidian-block-id/src/index.ts:30 | with `^` after a whitespace character, the text before that is the content group |
| BlockId.MatchUnique | libs/remark-obsidian-block-id/src/index.ts:30 | the expression matches in at most one way |
| BlockId.MarkerExamples | libs/remark-obsidian-block-id/src/index.ts:30 | `paragraph ^id`, `^id` and ` ^id` match; `a^id` and `^` do not |
| BlockId.ApplyId | libs/remark-obsidian-block-id/src/index.ts:35-59 | only the target node changes; it gets the id and shows the same content; it is wrapped exactly when not intrusive or it already has an id |
| BlockId.SetLastText | libs/remark-obsidian-block-id/src/index.ts:80 | replacing the last text changes nothing else |
| BlockId.VisitParagraph | libs/remark-obsidian-block-id/src/index.ts:61-86 | a marker-only paragraph after another block is removed and gives that block its id, resuming at the same index; a trailing marker is cut and gives the paragraph its id; otherwise nothing changes |
| BlockId.VisitHeading | libs/remark-obsidian-block-id/src/index.ts:88-104 | only a trailing marker counts: it is cut and gives the heading its id |
| BlockId.VisitNode | libs/remark-obsidian-block-id/src/index.ts:116-131 | a paragraph is visited by the paragraph rule and a heading by the heading rule; other nodes are left alone; a resumed visit removed exactly one sibling |
| BlockId.ParagraphTakesMarkerParagraph | libs/remark-obsidian-block-id/src/index.ts:71-77 | `paragraph` then `^id` gives one wrapped paragraph, or with intrusive ids the paragraph with id `id` |
| BlockId.ParagraphTakesTrailingMarker | libs/remark-obsidian-block-id/src/index.ts:78-82 | `paragraph ^id` gives a wrapped paragraph `paragraph` |
| BlockId.LeadingMarkerParagraphStays | libs/remark-obsidian-block-id/src/index.ts:73 | a marker paragraph with nothing before it stays |
| BlockId.HeadingTakesMarkerParagraph | libs/remark-obsidian-block-id/src/index.ts:71-77 | a heading takes the id of the marker paragraph after it |
| BlockId.HeadingTakesTrailingMarker | libs/remark-obsidian-block-id/src/index.ts:94-101 | `heading ^id` gives, intrusively, a heading `heading` with id `id` |
| BlockId.MarkerOnlyHeadingStays | libs/remark-obsidian-block-id/src/index.ts:97 | a heading that is only a marker keeps it as text |

## Left out

- Micromark itself (`effects.attempt`, `enter`, `exit`, `consume`, `ok`/`nok`) is not part of this model. Its behaviour is folded into total functions over code sequences. Each function returns the event list and end position of a successful attempt, or a failure.
- The mdast `CompileContext`, `unist-util-visit` and `mdast-util-to-string` are not part of this model. Handlers are folds over event lists, the visit is one call per node, and `stringify` becomes the flat text of a node.
- Unicode script tables (`\p{sc=Han}` and the others, `\p{Lu}`, `\p{Ll}`, `\p{L}`) and `\s` are parameters. The lemmas that name concrete characters state the facts about those characters that they need.
- JavaScript strings and micromark codes are UTF-16 code units. The model uses one integer or `char` per unit and applies the `u`-flag expressions unit by unit, so characters outside the Basic Multilingual Plane (surrogate pairs) are not modelled.
- RubyFromMarkdown.EnterRuby: uses the corrected base order (document order, see "## Findings"); `RubyFromMarkdown.EnterRubyAsWritten` keeps the order of the code as written.
- SquareStyle.GetCitation: renders each item with the corrected span of `SquareStyle.Citation` (no trailing space, see "## Findings"); `SquareStyle.GetCitationAsWritten` keeps the span of the code as written.
- Citeproc.GetCitation: with the square style it inherits the corrected item span of `SquareStyle.GetCitation`; `Citeproc.GetCitationAsWritten` keeps the span of the code as written.
- RubyFromMarkdown.WalkBack: the `m === null` fallbacks of `scanText.ts` (`["", ""]`) are not modelled, because every scanner's expression matches every input.
- Plugin wiring is left out because it is configuration, not logic. This covers `index.ts` of each extension, `remarkObsidianWikilink`'s link visitor and `find.ts`.
- `addItemsFromJson`, `addItemsFromFile`, `addItemsFromFrontmatter` and `validation.ts` are left out because they are file I/O and JSON schema validation.
- `makeBibliography` of the example style is left out: it builds the reference entry with DOI and URL links. The model keeps a `Bibliography(item)` node in its place.
- `makeExternalLink` and `makeCiteTag` of the example style are left out for the same reason.
- `makeNameLong` and `makeNamesLong` of the square style are dead code and are left out. They use the non-global `INITIAL_REGEXP` of `square.ts:10`, with which `replaceAll` would throw.
- `path.join` normalisation (`.`, `..`, double slashes) in `resolve.ts` is left out. `path.parse` is modelled for POSIX paths: the base name and the extension.
- WikilinkResolve.Resolve: `glob` and `slugify` are the caller's functions and appear as parameters.
- The backslash escape `\[[` is handled by the host parser's character escapes, not by these extensions, so it is not modelled.
- The `display` parameter of the wikilink handler stands for the host's inline parsing of the display text, for example `**strong**`.
- CitationFromMarkdown.Record: field values are the token's source codes, not JavaScript strings.
- Csl.IntText: ids and date parts are unbounded integers. Non-integer numbers and their `${}` rendering are not modelled.
- Where the code and the tests disagree, the model follows the code:
  - `syntax/index.test.ts:123-133` expects item, `locatorOuter` and in-text tokens for `@id` and `@id [locator]`, but the registered `syntax/index.ts` emits none of them.
  - `fromMarkdown/index.test.ts:79-91` expects trimmed prefix and suffix fields, but the registered grammar stores the untrimmed slices.
- `tokenizeWhitespaces` is imported from `syntax/common.ts` by `citation.ts` and `citationInText.ts`, but is not defined there. The model uses the definition in `syntax/index.ts:108-131`.

## Findings

| source | as written | input that shows it | evidently intended | confidence | as-written member | corrected member |
|---|---|---|---|---|---|---|
| libs/remark-aozora-ruby/src/fromMarkdown.ts:67-69 | base nodes are pushed nearest-first, so a base made of several nodes reads backwards. The test's `containSubset` ignores order, so it does not catch this | `ひらがな**ー**《…》`: siblings `[ひらがな, strong(ー)]` give the ruby children `[strong(ー), ひらがな]` | the base text in document order | not executed | RubyFromMarkdown.BuildBaseTextAsWritten, RubyFromMarkdown.BaseTextReadsBackwards | RubyFromMarkdown.BuildBaseText |
| libs/remark-pandoc-citation/src/syntax/index.ts:244-304 | the registered author-in-text rule emits no item token and no in-text flag, so the citation node is empty and not in-text | `@id` | an in-text citation holding the item `id`, as `citationInText.ts` produces | not executed | CitationTrees.RegisteredInTextLosesItem, CitationTrees.AtIdExample | CitationTrees.NewerInTextKeepsItem |
| libs/remark-pandoc-citation/src/citeproc/style/square.ts:159 | a space is put between prefix and suffix even when the suffix is empty | an item with an author and no year, locator or suffix renders `[Family ]` | `[Family]` | not executed | SquareStyle.CitationAsWritten, SquareStyle.TrailingSpace, SquareStyle.TrailingSpaceExample, SquareStyle.GetCitationAsWritten, SquareStyle.AuthorOnlyGetCitation | SquareStyle.Citation, SquareStyle.CitationDropsTrailingSpace, SquareStyle.GetCitation |

=== FILE: block_id.dfy ===
/** Obsidian block ids (remark-obsidian-block-id/src/index.ts): a paragraph
    or heading whose last text ends in ` ^id` gets that id, and a paragraph
    that is only `^id` gives it to the block before it and disappears. The
    model is the rewrite of one sibling list when the visitor reaches the
    node at `index`. */
module BlockId {
  import opened Wrappers

  /** The mdast nodes the rewrite distinguishes; `hId` is
      `data.hProperties.id`. `Wrapper` is the `obsidianBlockId` node, a `div`
      carrying the id around the node it was given to. */
  datatype Node =
    | Paragraph(children: seq<Node>, hId: Option<string>)
    | Heading(depth: int, children: seq<Node>, hId: Option<string>)
    | Text(value: string, hId: Option<string>)
    | Wrapper(child: Node, id: string)
    | Other(kind: string, children: seq<Node>, hId: Option<string>)

  /** `node.data?.hProperties?.id`. */
  function HId(n: Node): Option<string> {
    match n
    case Wrapper(_, id) => Some(id)
    case Paragraph(_, h) => h
    case Heading(_, _, h) => h
    case Text(_, h) => h
    case Other(_, _, h) => h
  }

  /** The node with `data.hProperties.id` set in place. */
  function WithHId(n: Node, id: string): (r: Node)
    requires !n.Wrapper?
    ensures HId(r) == Some(id)
  {
    match n
    case Paragraph(c, _) => Paragraph(c, Some(id))
    case Heading(d, c, _) => Heading(d, c, Some(id))
    case Text(v, _) => Text(v, Some(id))
    case Other(k, c, _) => Other(k, c, Some(id))
  }

  /** The node without any id of its own: what it shows, apart from ids. */
  function Unlabelled(n: Node): Node {
    match n
    case Wrapper(c, _) => Unlabelled(c)
    case Paragraph(c, _) => Paragraph(c, None)
    case Heading(d, c, _) => Heading(d, c, None)
    case Text(v, _) => Text(v, None)
    case Other(k, c, _) => Other(k, c, None)
  }

  // ----- the marker -----------------------------------------------------------

  /** `[\w-]` without the `u` flag: ASCII letters, digits, `_` and `-`. */
  predicate IsIdChar(c: char) {
    'A' <= c <= 'Z' || 'a' <= c <= 'z' || '0' <= c <= '9' || c == '_' || c == '-'
  }

  predicate IsIdWord(w: string) {
    |w| > 0 && forall k | 0 <= k < |w| :: IsIdChar(w[k])
  }

  /** A match of `BLOCK_ID_REGEXP`: the `content` group (absent when the
      marker is the whole text) and the `id` group. */
  datatype Marker = Marker(content: Option<string>, id: string)

  /** `BLOCK_ID_REGEXP` = `^(?:(?<content>[\s\S]*)\s)?\^(?<id>[\w-]+)$`
      matches `s` with groups `m`; `isSpace` is `\s`. */
  predicate Matches(isSpace: char -> bool, s: string, m: Marker) {
    IsIdWord(m.id)
    && match m.content
       case None => s == "^" + m.id
       case Some(c) =>
         |s| == |c| + 2 + |m.id| && s[..|c|] == c && isSpace(s[|c|]) && s[|c| + 1] == '^' && s[|c| + 2..] == m.id
  }

  /** The start of the run of id characters that ends at `k`. */
  function IdRunStart(s: string, k: nat): (j: nat)
    requires k <= |s|
    ensures j <= k
    ensures forall m | j <= m < k :: IsIdChar(s[m])
    ensures j > 0 ==> !IsIdChar(s[j - 1])
    decreases k
  {
    if k > 0 && IsIdChar(s[k - 1]) then IdRunStart(s, k - 1) else k
  }

  /** A run of id characters reaching the end, right after a character that
      is not one, is the run `IdRunStart` finds. */
  lemma {:induction false} IdRunStartAt(s: string, p: nat, k: nat)
    requires 0 < p <= k <= |s| && !IsIdChar(s[p - 1])
    requires forall m | p <= m < |s| :: IsIdChar(s[m])
    ensures IdRunStart(s, k) == p
    decreases k
  {
    if k > p {
      IdRunStartAt(s, p, k - 1);
    }
  }

  /** Where a match puts the `^`: right before the run of id characters that
      ends the text, either first or after a whitespace character. */
  lemma MatchPosition(isSpace: char -> bool, s: string, x: Marker)
    ensures Matches(isSpace, s, x) ==>
      var j := |s| - |x.id|;
      0 < j && s[j - 1] == '^' && IdRunStart(s, |s|) == j
      && (x.content.None? ==> j == 1)
      && (x.content.Some? ==> j >= 2 && isSpace(s[j - 2]))
  {
    if Matches(isSpace, s, x) {
      var p := |s| - |x.id|;
      assert s[p..] == x.id && s[p - 1] == '^';
      IdRunStartAt(s, p, |s|);
    }
  }

  /** `value.match(BLOCK_ID_REGEXP)`: the id is the run of id characters at
      the end, which must follow `^`; the `^` is either the first character
      or follows a whitespace character, everything before which is the
      content. */
  function MatchMarker(isSpace: char -> bool, s: string): (m: Option<Marker>)
    ensures m.Some? ==> Matches(isSpace, s, m.value)
    ensures m.None? ==> forall x :: !Matches(isSpace, s, x)
  {
    var j := IdRunStart(s, |s|);
    NoMarkerAtRunStart(isSpace, s);
    if j == |s| || j == 0 || s[j - 1] != '^' then None
    else if j == 1 then
      MarkerAtStart(isSpace, s);
      Some(Marker(None, s[j..]))
    else if isSpace(s[j - 2]) then
      MarkerAfterSpace(isSpace, s, j);
      Some(Marker(Some(s[..j - 2]), s[j..]))
    else None
  }

  /** Without a `^` right before the run of id characters that ends the
      text, first or after a whitespace character, nothing matches. */
  lemma NoMarkerAtRunStart(isSpace: char -> bool, s: string)
    ensures var j := IdRunStart(s, |s|);
      j == |s| || j == 0 || s[j - 1] != '^' || (j >= 2 && !isSpace(s[j - 2]))
      ==> forall x :: !Matches(isSpace, s, x)
  {
    forall x
      ensures var j := IdRunStart(s, |s|);
        Matches(isSpace, s, x) ==> !(j == |s| || j == 0 || s[j - 1] != '^' || (j >= 2 && !isSpace(s[j - 2])))
    {
      MatchPosition(isSpace, s, x);
    }
  }

  /** The run of id characters that ends the text, when not empty, is an id. */
  lemma RunIsIdWord(s: string, j: nat)
    requires j < |s| && j == IdRunStart(s, |s|)
    ensures IsIdWord(s[j..])
  {
    forall k | 0 <= k < |s| - j
      ensures IsIdChar(s[j..][k])
    {
      assert s[j..][k] == s[j + k];
    }
  }

  /** With it first, the whole text is the marker. */
  lemma MarkerAtStart(isSpace: char -> bool, s: string)
    requires IdRunStart(s, |s|) == 1 < |s| && s[0] == '^'
    ensures Matches(isSpace, s, Marker(None, s[1..]))
  {
    RunIsIdWord(s, 1);
    assert s == "^" + s[1..];
  }

  /** With it after a whitespace character, the text before that is the
      content. */
  lemma MarkerAfterSpace(isSpace: char -> bool, s: string, j: nat)
    requires j == IdRunStart(s, |s|) && 2 <= j < |s| && s[j - 1] == '^' && isSpace(s[j - 2])
    ensures Matches(isSpace, s, Marker(Some(s[..j - 2]), s[j..]))
  {
    RunIsIdWord(s, j);
    var c, id := s[..j - 2], s[j..];
    assert |c| == j - 2 && |s| == |c| + 2 + |id|;
    assert s[..|c|] == c;
    assert s[|c| + 2..] == id;
  }

  /** The regular expression matches in at most one way. */
  lemma MatchUnique(isSpace: char -> bool, s: string, a: Marker, b: Marker)
    requires Matches(isSpace, s, a) && Matches(isSpace, s, b)
    ensures a == b
  {
    var pa, pb := |s| - |a.id|, |s| - |b.id|;
    assert s[pa..] == a.id && s[pa - 1] == '^';
    assert s[pb..] == b.id && s[pb - 1] == '^';
    IdRunStartAt(s, pa, |s|);
    IdRunStartAt(s, pb, |s|);
    assert a.id == b.id;
    if a.content.Some? && b.content.Some? {
      assert a.content.value == s[..|s| - |a.id| - 2] == b.content.value;
    }
  }

  /** `MatchUnique` as an implication, for use where the matches are only
      supposed. */
  lemma MatchesAgree(isSpace: char -> bool, s: string, a: Marker, b: Marker)
    ensures Matches(isSpace, s, a) && Matches(isSpace, s, b) ==> a == b
  {
    if Matches(isSpace, s, a) && Matches(isSpace, s, b) {
      MatchUnique(isSpace, s, a, b);
    }
  }

  /** What the expression makes of a few texts; `\s` is read as the ASCII
      space here. */
  lemma MarkerExamples()
    ensures MatchMarker(c => c == ' ', "paragraph ^id") == Some(Marker(Some("paragraph"), "id"))
    ensures MatchMarker(c => c == ' ', "^id") == Some(Marker(None, "id"))
    ensures MatchMarker(c => c == ' ', " ^id") == Some(Marker(Some(""), "id"))
    ensures MatchMarker(c => c == ' ', "a^id") == None
    ensures MatchMarker(c => c == ' ', "^") == None
  {
    var sp := (c: char) => c == ' ';
    assert Matches(sp, "paragraph ^id", Marker(Some("paragraph"), "id"));
    assert Matches(sp, "^id", Marker(None, "id"));
    assert Matches(sp, " ^id", Marker(Some(""), "id"));
    assert IdRunStart("a^id", 4) == 2;
    assert IdRunStart("^", 1) == 1;
  }

  // ----- the rewrite ----------------------------------------------------------

  /** `applyId`: in intrusive mode a node without an id of its own gets the
      id in place; otherwise the node is wrapped in a `div` that carries it.
      An index past the end changes nothing. */
  function ApplyId(nodes: seq<Node>, index: nat, id: string, intrusive: bool): (r: seq<Node>)
    ensures |r| == |nodes|
    ensures forall j | 0 <= j < |nodes| && j != index :: r[j] == nodes[j]
    ensures index < |nodes| ==> HId(r[index]) == Some(id) && Unlabelled(r[index]) == Unlabelled(nodes[index])
    ensures index < |nodes| ==> (r[index].Wrapper? && r[index].child == nodes[index] <==> !intrusive || HId(nodes[index]).Some?)
  {
    if index >= |nodes| then nodes
    else
      var node := nodes[index];
      if intrusive && HId(node).None? then nodes[index := WithHId(node, id)]
      else nodes[index := Wrapper(node, id)]
  }

  /** The result of a visit: the rewritten sibling list and where visiting
      goes on — `CONTINUE` with the next node, or `[CONTINUE, index]`. */
  datatype Action = Continue | ResumeAt(index: nat)
  datatype Visit = Visit(siblings: seq<Node>, action: Action)

  /** The last child of a paragraph or heading, when it is a text. */
  function LastText(n: Node): Option<string>
    requires n.Paragraph? || n.Heading?
  {
    if |n.children| > 0 && n.children[|n.children| - 1].Text? then Some(n.children[|n.children| - 1].value)
    else None
  }

  /** The node with the value of its last child replaced. */
  function SetLastText(n: Node, v: string): (r: Node)
    requires (n.Paragraph? || n.Heading?) && LastText(n).Some?
    ensures (r.Paragraph? || r.Heading?) && LastText(r) == Some(v)
    ensures |r.children| == |n.children| && r.children[..|r.children| - 1] == n.children[..|n.children| - 1]
  {
    var k := |n.children| - 1;
    var children := n.children[k := Text(v, n.children[k].hId)];
    if n.Paragraph? then Paragraph(children, n.hId) else Heading(n.depth, children, n.hId)
  }

  /** The node ends in a marker with content: its text is cut back to the
      content and the node itself gets the id. */
  predicate TrailingMarker(isSpace: char -> bool, n: Node, m: Marker)
    requires n.Paragraph? || n.Heading?
  {
    LastText(n).Some? && Matches(isSpace, LastText(n).value, m) && m.content.Some?
  }

  /** The paragraph is nothing but a marker. */
  predicate BareMarker(isSpace: char -> bool, n: Node, id: string)
    requires n.Paragraph?
  {
    |n.children| == 1 && LastText(n).Some? && Matches(isSpace, LastText(n).value, Marker(None, id))
  }

  /** `visitParagraph` on `siblings[index]`. */
  function VisitParagraph(isSpace: char -> bool, siblings: seq<Node>, index: nat, intrusive: bool): (r: Visit)
    requires index < |siblings| && siblings[index].Paragraph?
    ensures r.action.ResumeAt? <==> index > 0 && exists id :: BareMarker(isSpace, siblings[index], id)
    ensures forall id | index > 0 && BareMarker(isSpace, siblings[index], id) ::
      r == Visit(ApplyId(siblings, index - 1, id, intrusive)[..index] + siblings[index + 1..], ResumeAt(index))
    ensures forall m | TrailingMarker(isSpace, siblings[index], m) ::
      r == Visit(ApplyId(siblings[index := SetLastText(siblings[index], m.content.value)], index, m.id, intrusive), Continue)
    ensures ((forall m :: !TrailingMarker(isSpace, siblings[index], m))
             && (index == 0 || forall id :: !BareMarker(isSpace, siblings[index], id)))
      ==> r == Visit(siblings, Continue)
  {
    var node := siblings[index];
    match LastText(node)
    case None => Visit(siblings, Continue)
    case Some(v) =>
      match MatchMarker(isSpace, v)
      case None => Visit(siblings, Continue)
      case Some(m) =>
        if m.content.None? then
          if |node.children| == 1 && index > 0 then
            var applied := ApplyId(siblings, index - 1, m.id, intrusive);
            assert BareMarker(isSpace, node, m.id);
            assert forall id | BareMarker(isSpace, node, id) :: id == m.id by {
              forall id | BareMarker(isSpace, node, id)
                ensures id == m.id
              {
                assert Matches(isSpace, v, m) && Matches(isSpace, v, Marker(None, id));
                MatchesAgree(isSpace, v, m, Marker(None, id));
              }
            }
            Visit(applied[..index] + applied[index + 1..], ResumeAt(index))
          else
            assert forall x :: !TrailingMarker(isSpace, node, x) by {
              forall x | TrailingMarker(isSpace, node, x)
                ensures false
              {
                MatchesAgree(isSpace, v, m, x);
              }
            }
            Visit(siblings, Continue)
        else
          assert forall id :: !BareMarker(isSpace, node, id) by {
            forall id | BareMarker(isSpace, node, id)
              ensures false
            {
              MatchesAgree(isSpace, v, m, Marker(None, id));
            }
          }
          assert TrailingMarker(isSpace, node, m);
          assert forall x | TrailingMarker(isSpace, node, x) :: x == m by {
            forall x | TrailingMarker(isSpace, node, x)
              ensures x == m
            {
              assert Matches(isSpace, v, m) && Matches(isSpace, v, x);
              MatchesAgree(isSpace, v, m, x);
            }
          }
          Visit(ApplyId(siblings[index := SetLastText(node, m.content.value)], index, m.id, intrusive), Continue)
  }

  /** `visitHeading` on `siblings[index]`: only the trailing form counts. */
  function VisitHeading(isSpace: char -> bool, siblings: seq<Node>, index: nat, intrusive: bool): (r: Visit)
    requires index < |siblings| && siblings[index].Heading?
    ensures r.action == Continue
    ensures forall m | TrailingMarker(isSpace, siblings[index], m) ::
      r.siblings == ApplyId(siblings[index := SetLastText(siblings[index], m.content.value)], index, m.id, intrusive)
    ensures (forall m :: !TrailingMarker(isSpace, siblings[index], m)) ==> r.siblings == siblings
  {
    var node := siblings[index];
    match LastText(node)
    case None => Visit(siblings, Continue)
    case Some(v) =>
      match MatchMarker(isSpace, v)
      case None => Visit(siblings, Continue)
      case Some(m) =>
        if m.content.None? then
          assert forall x :: !TrailingMarker(isSpace, node, x) by {
            forall x | TrailingMarker(isSpace, node, x)
              ensures false
            {
              MatchesAgree(isSpace, v, m, x);
            }
          }
          Visit(siblings, Continue)
        else
          assert forall x | TrailingMarker(isSpace, node, x) :: x == m by {
            forall x | TrailingMarker(isSpace, node, x)
              ensures x == m
            {
              assert Matches(isSpace, v, m) && Matches(isSpace, v, x);
              MatchesAgree(isSpace, v, m, x);
            }
          }
          assert TrailingMarker(isSpace, node, m);
          Visit(ApplyId(siblings[index := SetLastText(node, m.content.value)], index, m.id, intrusive), Continue)
  }

  /** The plugin's visitor on `siblings[index]`: paragraphs and headings are
      rewritten, every other node is left alone. */
  function VisitNode(isSpace: char -> bool, siblings: seq<Node>, index: nat, intrusive: bool): (r: Visit)
    requires index < |siblings|
    ensures siblings[index].Paragraph? ==> r == VisitParagraph(isSpace, siblings, index, intrusive)
    ensures siblings[index].Heading? ==> r == VisitHeading(isSpace, siblings, index, intrusive)
    ensures !siblings[index].Paragraph? && !siblings[index].Heading? ==> r == Visit(siblings, Continue)
    ensures r.action.ResumeAt? ==> r.action.index == index && |r.siblings| == |siblings| - 1
    ensures r.action == Continue ==> |r.siblings| == |siblings|
  {
    match siblings[index]
    case Paragraph(_, _) => VisitParagraph(isSpace, siblings, index, intrusive)
    case Heading(_, _, _) => VisitHeading(isSpace, siblings, index, intrusive)
    case _ => Visit(siblings, Continue)
  }

  /** `paragraph`, then `^id` in a paragraph of its own: the marker paragraph
      is consumed and the paragraph takes its id; `\s` is read as the ASCII
      space. */
  lemma ParagraphTakesMarkerParagraph()
    ensures var sp := (c: char) => c == ' ';
      var p := Paragraph([Text("paragraph", None)], None);
      var marker := Paragraph([Text("^id", None)], None);
      VisitNode(sp, [p, marker], 1, false) == Visit([Wrapper(p, "id")], ResumeAt(1))
      && VisitNode(sp, [p, marker], 1, true) == Visit([Paragraph([Text("paragraph", None)], Some("id"))], ResumeAt(1))
  {
    var sp := (c: char) => c == ' ';
    var p := Paragraph([Text("paragraph", None)], None);
    var marker := Paragraph([Text("^id", None)], None);
    assert Matches(sp, "^id", Marker(None, "id"));
    assert BareMarker(sp, marker, "id");
    assert [Wrapper(p, "id"), marker][..1] + [Wrapper(p, "id"), marker][2..] == [Wrapper(p, "id")];
  }

  /** `paragraph ^id` in one paragraph: the marker is cut off the text. */
  lemma ParagraphTakesTrailingMarker()
    ensures var sp := (c: char) => c == ' ';
      var p := Paragraph([Text("paragraph", None)], None);
      VisitNode(sp, [Paragraph([Text("paragraph ^id", None)], None)], 0, false) == Visit([Wrapper(p, "id")], Continue)
  {
    var sp := (c: char) => c == ' ';
    assert Matches(sp, "paragraph ^id", Marker(Some("paragraph"), "id"));
    assert TrailingMarker(sp, Paragraph([Text("paragraph ^id", None)], None), Marker(Some("paragraph"), "id"));
    assert [Text("paragraph ^id", None)][0 := Text("paragraph", None)] == [Text("paragraph", None)];
  }

  /** A marker paragraph with nothing before it is left alone. */
  lemma LeadingMarkerParagraphStays()
    ensures var sp := (c: char) => c == ' ';
      var p := Paragraph([Text("paragraph", None)], None);
      var marker := Paragraph([Text("^id", None)], None);
      VisitNode(sp, [marker, p], 0, false) == Visit([marker, p], Continue)
  {
    var sp := (c: char) => c == ' ';
    assert Matches(sp, "^id", Marker(None, "id"));
  }

  /** A heading takes the id of a marker paragraph after it. */
  lemma HeadingTakesMarkerParagraph()
    ensures var sp := (c: char) => c == ' ';
      var h := Heading(1, [Text("heading", None)], None);
      var marker := Paragraph([Text("^id", None)], None);
      VisitNode(sp, [h, marker], 1, false) == Visit([Wrapper(h, "id")], ResumeAt(1))
  {
    var sp := (c: char) => c == ' ';
    var h := Heading(1, [Text("heading", None)], None);
    var marker := Paragraph([Text("^id", None)], None);
    assert Matches(sp, "^id", Marker(None, "id"));
    assert BareMarker(sp, marker, "id");
    assert [Wrapper(h, "id"), marker][..1] + [Wrapper(h, "id"), marker][2..] == [Wrapper(h, "id")];
  }

  /** A heading takes the id of a trailing marker. */
  lemma HeadingTakesTrailingMarker()
    ensures var sp := (c: char) => c == ' ';
      VisitNode(sp, [Heading(1, [Text("heading ^id", None)], None)], 0, true)
        == Visit([Heading(1, [Text("heading", None)], Some("id"))], Continue)
  {
    var sp := (c: char) => c == ' ';
    assert Matches(sp, "heading ^id", Marker(Some("heading"), "id"));
    assert TrailingMarker(sp, Heading(1, [Text("heading ^id", None)], None), Marker(Some("heading"), "id"));
    assert [Text("heading ^id", None)][0 := Text("heading", None)] == [Text("heading", None)];
  }

  /** A heading that is only a marker keeps it as text. */
  lemma MarkerOnlyHeadingStays()
    ensures var sp := (c: char) => c == ' ';
      VisitNode(sp, [Heading(1, [Text("^id", None)], None)], 0, false)
        == Visit([Heading(1, [Text("^id", None)], None)], Continue)
  {
    var sp := (c: char) => c == ' ';
    assert Matches(sp, "^id", Marker(None, "id"));
    assert forall m :: !TrailingMarker(sp, Heading(1, [Text("^id", None)], None), m) by {
      forall m | TrailingMarker(sp, Heading(1, [Text("^id", None)], None), m)
        ensures false
      {
        MatchesAgree(sp, "^id", m, Marker(None, "id"));
      }
    }
  }
}

=== FILE: citation_common.dfy ===
/** What both revisions of the Pandoc citation grammar share
    (remark-pandoc-citation/src/syntax/common.ts and the whitespace rule of
    remark-pandoc-citation/src/syntax/index.ts): the token types and the run of
    spaces between the parts of an item. */
module CitationCommon {
  import opened Micromark

  /** The token types; `PandocCitation(true)` is a `pandocCitation` token
      carrying `_pandocCitationInText: true`. `CitationLocatorOuter` has a
      handler in the mdast extension but neither grammar emits it. */
  datatype CitationKind =
    | PandocCitation(inText: bool)
    | CitationOpen
    | CitationClose
    | CitationItem
    | CitationPrefix
    | CitationIdPrefix
    | CitationId
    | CitationLocatorOuter
    | CitationLocator
    | CitationSuffix
    | CitationItemDelimiter
    | CitationComma
    | CitationSpace

  /** The codes that end a suffix, and with it an item. */
  const SuffixStops: set<int> := {Semicolon, RightSquareBracket}

  /** The first position from `i` on that does not hold U+0020. */
  function SpaceEnd(s: seq<int>, i: nat): (k: nat)
    requires i <= |s|
    ensures i <= k <= |s|
    ensures forall m :: i <= m < k ==> s[m] == Space
    ensures k < |s| ==> s[k] != Space
    decreases |s| - i
  {
    if i < |s| && s[i] == Space then SpaceEnd(s, i + 1) else i
  }

  /** `finish` of `tokenizeWhitespaces`: inside a run that began at `start`. */
  function FinishWhitespaces(s: seq<int>, start: nat, i: nat): (r: Outcome<CitationKind>)
    requires start < i <= |s|
    ensures r == Ok(Leaf(CitationSpace, start, SpaceEnd(s, i)), SpaceEnd(s, i))
    decreases |s| - i
  {
    if CodeAt(s, i) != Char(Space) then Ok(Leaf(CitationSpace, start, i), i)
    else FinishWhitespaces(s, start, i + 1)
  }

  /** `tokenizeWhitespaces`: a run of spaces, possibly empty, which never
      fails; only a run of at least one space gets a `pandocCitationSpace`
      token. Tabs and line endings are not spaces. */
  function Whitespaces(s: seq<int>, i: nat): (r: Outcome<CitationKind>)
    requires i <= |s|
    ensures r == Ok(LeafIfAny(CitationSpace, i, SpaceEnd(s, i)), SpaceEnd(s, i))
  {
    if CodeAt(s, i) != Char(Space) then Ok([], i)
    else FinishWhitespaces(s, i, i + 1)
  }

  lemma WhitespacesFit(s: seq<int>, i: nat)
    requires i <= |s|
    ensures Fits(Whitespaces(s, i), i, |s|)
  {
    WellFormedLeaf(CitationSpace, i, SpaceEnd(s, i));
  }

  // ----- tokenizeCitation -----

  /** A recogniser of one citation item, given by where it starts: at every
      position of the input it either fails or ends further on, inside the
      input. Both revisions of the grammar run the same citation loop over
      their own item rule. */
  predicate Advances(s: seq<int>, item: nat -> Outcome<CitationKind>) {
    forall j: nat :: j <= |s| && item(j).Ok? ==> j < item(j).end <= |s|
  }

  /** Every outcome of the item rule nests properly within the input. */
  predicate AllFit(s: seq<int>, item: nat -> Outcome<CitationKind>) {
    forall j: nat :: j <= |s| ==> Fits(item(j), j, |s|)
  }

  /** The items from `i` on (`next` of `tokenizeCitation`): after each item a
      `]` ends the list, a `;` becomes a `pandocCitationItemDelimiter` token
      followed by another item, and any other code fails. The result ends on
      the `]`, which is not consumed here. */
  function ItemList(s: seq<int>, i: nat, item: nat -> Outcome<CitationKind>): (r: Outcome<CitationKind>)
    requires i <= |s| && Advances(s, item)
    ensures r.Ok? ==> i < r.end < |s| && s[r.end] == RightSquareBracket
    decreases |s| - i
  {
    var first := item(i);
    if first.Fail? then Fail
    else if CodeAt(s, first.end) == Char(RightSquareBracket) then first
    else if CodeAt(s, first.end) == Char(Semicolon) then
      Prepend(first.events + Leaf(CitationItemDelimiter, first.end, first.end + 1), ItemList(s, first.end + 1, item))
    else Fail
  }

  /** `starts` lists where the items of a list from `i` begin: each is
      accepted by the item rule, each but the last is followed by `;` and the
      next begins right after it, and the last ends at `e`, on a `]`. */
  predicate Chain(s: seq<int>, i: nat, item: nat -> Outcome<CitationKind>, starts: seq<nat>, e: nat) {
    && |starts| > 0
    && starts[0] == i
    && (forall k :: 0 <= k < |starts| ==> item(starts[k]).Ok?)
    && (forall k :: 0 <= k < |starts| - 1 ==>
          CodeAt(s, item(starts[k]).end) == Char(Semicolon) && starts[k + 1] == item(starts[k]).end + 1)
    && item(starts[|starts| - 1]).end == e
    && CodeAt(s, e) == Char(RightSquareBracket)
  }

  /** The events of the items that `starts` lists, a delimiter token on each
      `;` between two of them. */
  function ChainEvents(item: nat -> Outcome<CitationKind>, starts: seq<nat>): seq<Event<CitationKind>>
    requires forall k :: 0 <= k < |starts| ==> item(starts[k]).Ok?
    decreases |starts|
  {
    if |starts| == 0 then []
    else
      var first := item(starts[0]);
      if |starts| == 1 then first.events
      else first.events + Leaf(CitationItemDelimiter, first.end, first.end + 1) + ChainEvents(item, starts[1..])
  }

  /** A chain of items is accepted as a list, with the chain's events. */
  lemma {:induction false} ChainAccepted(s: seq<int>, i: nat, item: nat -> Outcome<CitationKind>, starts: seq<nat>, e: nat)
    requires i <= |s| && Advances(s, item)
    requires Chain(s, i, item, starts, e)
    ensures ItemList(s, i, item) == Ok(ChainEvents(item, starts), e)
    decreases |starts|
  {
    var first := item(i);
    assert first.Ok?;
    if |starts| > 1 {
      assert CodeAt(s, first.end) == Char(Semicolon);
      var rest := starts[1..];
      assert Chain(s, first.end + 1, item, rest, e) by {
        forall k | 0 <= k < |rest| - 1
          ensures CodeAt(s, item(rest[k]).end) == Char(Semicolon) && rest[k + 1] == item(rest[k]).end + 1
        {
          assert rest[k] == starts[k + 1] && rest[k + 1] == starts[k + 2];
        }
      }
      ChainAccepted(s, first.end + 1, item, rest, e);
    }
  }

  /** Where the items of an accepted list begin. */
  function ItemStarts(s: seq<int>, i: nat, item: nat -> Outcome<CitationKind>): (starts: seq<nat>)
    requires i <= |s| && Advances(s, item) && ItemList(s, i, item).Ok?
    ensures Chain(s, i, item, starts, ItemList(s, i, item).end)
    ensures ItemList(s, i, item).events == ChainEvents(item, starts)
    decreases |s| - i
  {
    var first := item(i);
    if CodeAt(s, first.end) == Char(RightSquareBracket) then [i]
    else
      var rest := ItemStarts(s, first.end + 1, item);
      var starts := [i] + rest;
      assert starts[1..] == rest;
      starts
  }

  /** The list from `i` is accepted exactly when its items form a chain. */
  lemma ItemListIff(s: seq<int>, i: nat, item: nat -> Outcome<CitationKind>)
    requires i <= |s| && Advances(s, item)
    ensures ItemList(s, i, item).Ok? <==> exists starts: seq<nat>, e: nat :: Chain(s, i, item, starts, e)
    ensures forall starts: seq<nat>, e: nat :: Chain(s, i, item, starts, e) ==> ItemList(s, i, item) == Ok(ChainEvents(item, starts), e)
  {
    if ItemList(s, i, item).Ok? {
      var starts := ItemStarts(s, i, item);
    }
    forall starts: seq<nat>, e: nat | Chain(s, i, item, starts, e)
      ensures ItemList(s, i, item) == Ok(ChainEvents(item, starts), e)
    {
      ChainAccepted(s, i, item, starts, e);
    }
  }

  /** A `[` at `p` followed by a chain of items that ends at `e`. */
  predicate BracketedChain(s: seq<int>, p: nat, item: nat -> Outcome<CitationKind>, starts: seq<nat>, e: nat) {
    CodeAt(s, p) == Char(LeftSquareBracket) && Chain(s, p + 1, item, starts, e)
  }

  /** `tokenizeCitation` at `p` over an item rule: `[`, the items, `]`, all
      inside one `pandocCitation` token without the in-text flag. */
  function BracketedCitation(s: seq<int>, p: nat, item: nat -> Outcome<CitationKind>): (r: Outcome<CitationKind>)
    requires p <= |s| && Advances(s, item)
    ensures r.Ok? <==> CodeAt(s, p) == Char(LeftSquareBracket) && ItemList(s, p + 1, item).Ok?
    ensures r.Ok? ==> p < r.end <= |s| && s[p] == LeftSquareBracket && s[r.end - 1] == RightSquareBracket
    ensures r.Ok? ==> |r.events| >= 2 && r.events[0] == Enter(Token(PandocCitation(false), p, r.end))
  {
    if CodeAt(s, p) != Char(LeftSquareBracket) then Fail
    else
      var items := ItemList(s, p + 1, item);
      if items.Fail? then Fail
      else
        var e := items.end;
        Ok(Span(PandocCitation(false), p, e + 1, Leaf(CitationOpen, p, p + 1) + items.events + Leaf(CitationClose, e, e + 1)), e + 1)
  }

  /** A bracketed citation is recognised exactly on `[` followed by a chain
      of items ending on a `]`, and then its events are the brackets around
      the chain's events. */
  lemma BracketedCitationChain(s: seq<int>, p: nat, item: nat -> Outcome<CitationKind>)
    requires p <= |s| && Advances(s, item)
    ensures BracketedCitation(s, p, item).Ok? <==> exists starts: seq<nat>, e: nat :: BracketedChain(s, p, item, starts, e)
    ensures forall starts: seq<nat>, e: nat :: BracketedChain(s, p, item, starts, e) ==>
      BracketedCitation(s, p, item) == Ok(Span(PandocCitation(false), p, e + 1, Leaf(CitationOpen, p, p + 1) + ChainEvents(item, starts) + Leaf(CitationClose, e, e + 1)), e + 1)
  {
    if CodeAt(s, p) == Char(LeftSquareBracket) {
      ItemListIff(s, p + 1, item);
      var items := ItemList(s, p + 1, item);
      if items.Ok? {
        assert BracketedChain(s, p, item, ItemStarts(s, p + 1, item), items.end);
      }
    }
  }

  lemma DelimitedFit(first: seq<Event<CitationKind>>, e: nat, rest: seq<Event<CitationKind>>, i: nat, end: nat)
    requires i <= e < end
    requires WellFormed(first, i, e) && WellFormed(rest, e + 1, end)
    ensures WellFormed(first + Leaf(CitationItemDelimiter, e, e + 1) + rest, i, end)
  {
    WellFormedLeaf(CitationItemDelimiter, e, e + 1);
    WellFormedConcat(first, Leaf(CitationItemDelimiter, e, e + 1), i, e, e + 1);
    WellFormedConcat(first + Leaf(CitationItemDelimiter, e, e + 1), rest, i, e + 1, end);
  }

  /** When every item nests properly, so does the whole list. */
  lemma {:induction false} ItemListFits(s: seq<int>, i: nat, item: nat -> Outcome<CitationKind>)
    requires i <= |s| && Advances(s, item) && AllFit(s, item)
    ensures Fits(ItemList(s, i, item), i, |s|)
    decreases |s| - i
  {
    var first := item(i);
    if first.Ok? && CodeAt(s, first.end) == Char(Semicolon) {
      var rest := ItemList(s, first.end + 1, item);
      if rest.Ok? {
        ItemListFits(s, first.end + 1, item);
        DelimitedFit(first.events, first.end, rest.events, i, rest.end);
      }
    }
  }

  /** When every item nests properly, so does the whole bracketed citation. */
  lemma BracketedCitationFits(s: seq<int>, p: nat, item: nat -> Outcome<CitationKind>)
    requires p <= |s| && Advances(s, item) && AllFit(s, item)
    ensures Fits(BracketedCitation(s, p, item), p, |s|)
  {
    if BracketedCitation(s, p, item).Ok? {
      var items := ItemList(s, p + 1, item);
      var e := items.end;
      ItemListFits(s, p + 1, item);
      BracketPartsFit(p, e, items.events);
    }
  }

  lemma BracketPartsFit(p: nat, e: nat, inner: seq<Event<CitationKind>>)
    requires p + 1 <= e && WellFormed(inner, p + 1, e)
    ensures WellFormed(Span(PandocCitation(false), p, e + 1,
                            Leaf(CitationOpen, p, p + 1) + inner + Leaf(CitationClose, e, e + 1)), p, e + 1)
  {
    WellFormedLeaf(CitationOpen, p, p + 1);
    WellFormedLeaf(CitationClose, e, e + 1);
    WellFormedConcat(Leaf(CitationOpen, p, p + 1), inner, p, p + 1, e);
    WellFormedConcat(Leaf(CitationOpen, p, p + 1) + inner, Leaf(CitationClose, e, e + 1), p, e, e + 1);
    WellFormedSpan(PandocCitation(false), p, e + 1, Leaf(CitationOpen, p, p + 1) + inner + Leaf(CitationClose, e, e + 1));
  }
}

=== FILE: citation_from_markdown.dfy ===
/** The mdast side of the Pandoc citation extension
    (remark-pandoc-citation/src/fromMarkdown/index.ts): a `pandocCitation` node
    per citation token, a `pandocCitationItem` node per item token, and the
    item's fields filled in from the source codes of its prefix, id prefix,
    key, locator and suffix tokens.

    The host's compile context is a stack of open nodes. `this.enter` pushes a
    node and `this.exit` pops it; here the popped node is appended to the node
    below it at that moment, which gives the same tree as the host's appending
    at enter time, because the handlers only ever change the top node. */
module CitationFromMarkdown {
  import opened Wrappers
  import opened Micromark
  import opened CitationCommon
  import opened CitationId
  import opened CitationLocator
  import CitationItem
  import CitationLegacy

  /** `PandocCitationItemData`: each field holds the untrimmed source codes of
      the last token that set it, and is absent until one does. */
  datatype ItemData = ItemData(
    prefix: Option<seq<int>>,
    idPrefix: Option<seq<int>>,
    id: Option<seq<int>>,
    locator: Option<seq<int>>,
    suffix: Option<seq<int>>)

  /** The `data: {}` an item node starts with. */
  const NoData: ItemData := ItemData(None, None, None, None, None)

  /** The nodes on the stack: the node a citation is entered in (a paragraph,
      say), a citation and an item. */
  datatype Node =
    | Host(children: seq<Node>)
    | CitationNode(inText: bool, children: seq<Node>)
    | ItemNode(data: ItemData)

  /** The tokens that open and close nodes. */
  predicate Structural(k: CitationKind) {
    k.PandocCitation? || k == CitationItem
  }

  /** The token types that stand for a field of the item. */
  predicate IsField(k: CitationKind) {
    k in {CitationPrefix, CitationIdPrefix, CitationId, CitationLocator, CitationSuffix}
  }

  /** The field the enter handler of a `k` token writes (`locatorOuter`
      writes the locator); other types write nothing. */
  function Target(k: CitationKind): CitationKind {
    if k == CitationLocatorOuter then CitationLocator else k
  }

  /** The value that handler writes: the token's source codes, except that
      `locatorOuter` writes the empty string. */
  function Written(s: seq<int>, t: Token<CitationKind>): seq<int> {
    if t.kind == CitationLocatorOuter then [] else Slice(s, t)
  }

  /** A field of the item data, by the token type that fills it. */
  function Field(d: ItemData, f: CitationKind): Option<seq<int>>
    requires IsField(f)
  {
    match f
    case CitationPrefix => d.prefix
    case CitationIdPrefix => d.idPrefix
    case CitationId => d.id
    case CitationLocator => d.locator
    case _ => d.suffix
  }

  /** The enter handler of a field token on the item it belongs to: it writes
      exactly one field, the one of its type, or none. */
  function Record(d: ItemData, s: seq<int>, t: Token<CitationKind>): (r: ItemData)
    ensures forall f :: IsField(f) ==> Field(r, f) == if Target(t.kind) == f then Some(Written(s, t)) else Field(d, f)
  {
    match t.kind
    case CitationPrefix => d.(prefix := Some(Slice(s, t)))
    case CitationIdPrefix => d.(idPrefix := Some(Slice(s, t)))
    case CitationId => d.(id := Some(Slice(s, t)))
    case CitationLocatorOuter => d.(locator := Some([]))
    case CitationLocator => d.(locator := Some(Slice(s, t)))
    case CitationSuffix => d.(suffix := Some(Slice(s, t)))
    case _ => d
  }

  /** A closed node joins its parent's children; an item has none. */
  function Adopt(parent: Node, child: Node): Node {
    match parent
    case Host(cs) => Host(cs + [child])
    case CitationNode(flag, cs) => CitationNode(flag, cs + [child])
    case ItemNode(_) => parent
  }

  /** Whether the top of the stack is an item node. */
  predicate TopIsItem(stack: seq<Node>) {
    |stack| > 0 && stack[|stack| - 1].ItemNode?
  }

  /** What one event does to the stack. A citation enters with its token's
      in-text flag (`false` for a token without one) and no children, an item
      with empty data; a field token changes the top node only when that is an
      item; exiting a citation or an item closes the top node. */
  function Handle(s: seq<int>, e: Event<CitationKind>, stack: seq<Node>): (r: seq<Node>)
    ensures !Structural(e.token.kind) && !TopIsItem(stack) ==> r == stack
  {
    var t := e.token;
    if e.Enter? then
      if t.kind.PandocCitation? then stack + [CitationNode(t.kind.inText, [])]
      else if t.kind == CitationItem then stack + [ItemNode(NoData)]
      else if TopIsItem(stack) then stack[..|stack| - 1] + [ItemNode(Record(stack[|stack| - 1].data, s, t))]
      else stack
    else if Structural(t.kind) && |stack| >= 2 then stack[..|stack| - 2] + [Adopt(stack[|stack| - 2], stack[|stack| - 1])]
    else stack
  }

  /** The events, in order, applied to `stack`. */
  function Compile(s: seq<int>, evs: seq<Event<CitationKind>>, stack: seq<Node>): seq<Node>
    decreases |evs|
  {
    if |evs| == 0 then stack else Handle(s, evs[|evs| - 1], Compile(s, evs[..|evs| - 1], stack))
  }

  /** The field handlers of `evs`, in order, applied to one item's data. */
  function Collect(s: seq<int>, evs: seq<Event<CitationKind>>, d: ItemData): ItemData
    decreases |evs|
  {
    if |evs| == 0 then d
    else
      var e := evs[|evs| - 1];
      var before := Collect(s, evs[..|evs| - 1], d);
      if e.Enter? then Record(before, s, e.token) else before
  }

  /** Whether the event is an enter of a token that writes field `f`. */
  predicate Writes(e: Event<CitationKind>, f: CitationKind) {
    e.Enter? && Target(e.token.kind) == f
  }

  /** Events that open and close no node. */
  predicate FieldEvents(evs: seq<Event<CitationKind>>)
    decreases |evs|
  {
    |evs| == 0 || (!Structural(evs[|evs| - 1].token.kind) && FieldEvents(evs[..|evs| - 1]))
  }

  // ----- the fold and its declarative reading -----

  /** A field no token writes stays as it was. */
  lemma {:induction false} CollectFieldUntouched(s: seq<int>, evs: seq<Event<CitationKind>>, d: ItemData, f: CitationKind)
    requires IsField(f) && forall k :: 0 <= k < |evs| ==> !Writes(evs[k], f)
    ensures Field(Collect(s, evs, d), f) == Field(d, f)
    decreases |evs|
  {
    if |evs| > 0 {
      var front := evs[..|evs| - 1];
      assert forall k :: 0 <= k < |front| ==> front[k] == evs[k];
      CollectFieldUntouched(s, front, d, f);
    }
  }

  /** A field ends up as the value of the last token that writes it. */
  lemma {:induction false} CollectFieldLast(s: seq<int>, evs: seq<Event<CitationKind>>, d: ItemData, f: CitationKind, k: nat)
    requires IsField(f) && k < |evs| && Writes(evs[k], f)
    requires forall m :: k < m < |evs| ==> !Writes(evs[m], f)
    ensures Field(Collect(s, evs, d), f) == Some(Written(s, evs[k].token))
    decreases |evs|
  {
    var front := evs[..|evs| - 1];
    if k < |evs| - 1 {
      assert forall m :: 0 <= m < |front| ==> front[m] == evs[m];
      CollectFieldLast(s, front, d, f, k);
    }
  }

  lemma {:induction false} CollectConcat(s: seq<int>, a: seq<Event<CitationKind>>, b: seq<Event<CitationKind>>, d: ItemData)
    ensures Collect(s, a + b, d) == Collect(s, b, Collect(s, a, d))
    decreases |b|
  {
    if |b| == 0 {
      assert a + b == a;
    } else {
      assert (a + b)[..|a + b| - 1] == a + b[..|b| - 1];
      CollectConcat(s, a, b[..|b| - 1], d);
    }
  }

  lemma {:induction false} CompileConcat(s: seq<int>, a: seq<Event<CitationKind>>, b: seq<Event<CitationKind>>, stack: seq<Node>)
    ensures Compile(s, a + b, stack) == Compile(s, b, Compile(s, a, stack))
    decreases |b|
  {
    if |b| == 0 {
      assert a + b == a;
    } else {
      assert (a + b)[..|a + b| - 1] == a + b[..|b| - 1];
      CompileConcat(s, a, b[..|b| - 1], stack);
    }
  }

  /** A token with nothing inside writes its field at its enter event. */
  lemma CollectLeaf(s: seq<int>, kind: CitationKind, i: nat, j: nat, d: ItemData)
    ensures Collect(s, Leaf(kind, i, j), d) == Record(d, s, Token(kind, i, j))
  {
    var evs := Leaf(kind, i, j);
    assert evs == [Enter(Token(kind, i, j)), Exit(Token(kind, i, j))];
    var first := evs[..1];
    assert first == [Enter(Token(kind, i, j))];
    assert first[..0] == [];
    assert Collect(s, first, d) == Record(d, s, Token(kind, i, j));
  }

  /** Field events on top of an item fill in that item and nothing else. */
  lemma {:induction false} CompileFields(s: seq<int>, evs: seq<Event<CitationKind>>, rest: seq<Node>, d: ItemData)
    requires FieldEvents(evs)
    ensures Compile(s, evs, rest + [ItemNode(d)]) == rest + [ItemNode(Collect(s, evs, d))]
    decreases |evs|
  {
    if |evs| > 0 {
      var front := evs[..|evs| - 1];
      CompileFields(s, front, rest, d);
      var stack := rest + [ItemNode(Collect(s, front, d))];
      assert stack[..|stack| - 1] == rest;
    }
  }

  /** Field events on top of anything but an item change nothing: the
      handlers look at the top node only. */
  lemma {:induction false} CompileFieldsIgnored(s: seq<int>, evs: seq<Event<CitationKind>>, stack: seq<Node>)
    requires FieldEvents(evs) && !TopIsItem(stack)
    ensures Compile(s, evs, stack) == stack
    decreases |evs|
  {
    if |evs| > 0 {
      var front := evs[..|evs| - 1];
      CompileFieldsIgnored(s, front, stack);
    }
  }

  lemma CompileSpan(s: seq<int>, kind: CitationKind, i: nat, j: nat, inner: seq<Event<CitationKind>>, stack: seq<Node>)
    ensures Compile(s, Span(kind, i, j, inner), stack)
         == Handle(s, Exit(Token(kind, i, j)), Compile(s, inner, Handle(s, Enter(Token(kind, i, j)), stack)))
  {
    var enter, exit := [Enter(Token(kind, i, j))], [Exit(Token(kind, i, j))];
    CompileConcat(s, enter + inner, exit, stack);
    CompileConcat(s, enter, inner, stack);
    assert enter[..0] == [];
    assert exit[..0] == [];
  }

  /** An item token around field events becomes one item node, with the
      fields its events write, appended to the node below it. */
  lemma CompileItem(s: seq<int>, i: nat, j: nat, inner: seq<Event<CitationKind>>, stack: seq<Node>)
    requires FieldEvents(inner) && |stack| >= 1
    ensures Compile(s, Span(CitationItem, i, j, inner), stack)
         == stack[..|stack| - 1] + [Adopt(stack[|stack| - 1], ItemNode(Collect(s, inner, NoData)))]
  {
    CompileSpan(s, CitationItem, i, j, inner, stack);
    CompileFields(s, inner, stack, NoData);
    var after := stack + [ItemNode(Collect(s, inner, NoData))];
    assert after[..|after| - 2] == stack[..|stack| - 1];
  }

  // ----- which events are field events -----

  lemma {:induction false} FieldEventsConcat(a: seq<Event<CitationKind>>, b: seq<Event<CitationKind>>)
    requires FieldEvents(a) && FieldEvents(b)
    ensures FieldEvents(a + b)
    decreases |b|
  {
    if |b| == 0 {
      assert a + b == a;
    } else {
      FieldEventsConcat(a, b[..|b| - 1]);
      assert (a + b)[..|a + b| - 1] == a + b[..|b| - 1];
      assert (a + b)[|a + b| - 1] == b[|b| - 1];
    }
  }

  lemma LeafFieldEvents(kind: CitationKind, i: nat, j: nat)
    requires !Structural(kind)
    ensures FieldEvents(Leaf(kind, i, j)) && FieldEvents(LeafIfAny(kind, i, j))
  {
    var evs := Leaf(kind, i, j);
    assert evs[..1][..0] == [];
    assert FieldEvents(evs[..1]);
  }

  /** A key's events open no node. */
  lemma IdFieldEvents(s: seq<int>, p: nat)
    requires Id(s, p).Ok?
    ensures FieldEvents(Id(s, p).events)
  {
    var q := IdPrefix(s, p).end;
    LeafFieldEvents(CitationIdPrefix, p, q);
    IdBodyFieldEvents(s, q);
    FieldEventsConcat(IdPrefix(s, p).events, IdBody(s, q).events);
  }

  lemma IdBodyFieldEvents(s: seq<int>, q: nat)
    requires q <= |s| && IdBody(s, q).Ok?
    ensures FieldEvents(IdBody(s, q).events)
  {
    if CodeAt(s, q) == Char(LeftCurlyBrace) {
      CurlyFieldEvents(q, IdCharEnd(s, q + 1));
    } else {
      LeafFieldEvents(CitationId, q, IdBody(s, q).end);
    }
  }

  lemma CurlyFieldEvents(q: nat, j: nat)
    ensures FieldEvents(CurlyEvents(q, j))
  {
    LeafFieldEvents(CitationOpen, q, q + 1);
    LeafFieldEvents(CitationId, q + 1, j);
    LeafFieldEvents(CitationClose, j, j + 1);
    FieldEventsConcat(Leaf(CitationOpen, q, q + 1), LeafIfAny(CitationId, q + 1, j));
    FieldEventsConcat(Leaf(CitationOpen, q, q + 1) + LeafIfAny(CitationId, q + 1, j), Leaf(CitationClose, j, j + 1));
  }

  lemma LocatorEventsFieldEvents(q: nat, j: nat)
    ensures FieldEvents(LocatorEvents(q, j))
  {
    LeafFieldEvents(CitationOpen, q, q + 1);
    LeafFieldEvents(CitationLocator, q + 1, j);
    LeafFieldEvents(CitationClose, j, j + 1);
    FieldEventsConcat(Leaf(CitationOpen, q, q + 1), LeafIfAny(CitationLocator, q + 1, j));
    FieldEventsConcat(Leaf(CitationOpen, q, q + 1) + LeafIfAny(CitationLocator, q + 1, j), Leaf(CitationClose, j, j + 1));
  }

  /** The spaces and `[…]` locator after an author-in-text key open no node. */
  lemma SpacedSquareLocatorFieldEvents(s: seq<int>, i: nat)
    requires i <= |s| && SpacedSquareLocator(s, i).Ok?
    ensures FieldEvents(SpacedSquareLocator(s, i).events)
  {
    var k := SpaceEnd(s, i);
    var parts := LeafIfAny(CitationSpace, i, k) + SquareLocator(s, k).events;
    SpacedSquareLocatorEvents(s, i);
    assert FieldEvents(parts) by {
      SquareLocatorFieldEvents(s, k);
      LeafFieldEvents(CitationSpace, i, k);
      FieldEventsConcat(LeafIfAny(CitationSpace, i, k), SquareLocator(s, k).events);
    }
    FieldEventsEqual(SpacedSquareLocator(s, i).events, parts);
  }

  lemma SpacedSquareLocatorEvents(s: seq<int>, i: nat)
    requires i <= |s| && SpacedSquareLocator(s, i).Ok?
    ensures SquareLocator(s, SpaceEnd(s, i)).Ok?
    ensures SpacedSquareLocator(s, i).events == LeafIfAny(CitationSpace, i, SpaceEnd(s, i)) + SquareLocator(s, SpaceEnd(s, i)).events
  {
  }

  lemma SquareLocatorFieldEvents(s: seq<int>, k: nat)
    requires k <= |s| && SquareLocator(s, k).Ok?
    ensures FieldEvents(SquareLocator(s, k).events)
  {
    LocatorEventsFieldEvents(k, RunEnd(s, k + 1, 0, SquareStops));
  }

  lemma FieldEventsEqual(a: seq<Event<CitationKind>>, b: seq<Event<CitationKind>>)
    requires a == b && FieldEvents(b)
    ensures FieldEvents(a)
  {
  }

  // ----- author-in-text citations -----

  /** The key and the locator of an author-in-text citation, as both
      revisions emit them. */
  function InTextInner(s: seq<int>, p: nat): (evs: seq<Event<CitationKind>>)
    requires p <= |s| && Id(s, p).Ok?
    ensures FieldEvents(evs)
  {
    var id := Id(s, p);
    var locator := SpacedSquareLocator(s, id.end);
    IdFieldEvents(s, p);
    if locator.Ok? then
      SpacedSquareLocatorFieldEvents(s, id.end);
      FieldEventsConcat(id.events, locator.events);
      id.events + locator.events
    else id.events
  }

  /** A flagged citation around one item around field events. */
  lemma CompileInText(s: seq<int>, p: nat, e: nat, inner: seq<Event<CitationKind>>, cs: seq<Node>)
    requires FieldEvents(inner)
    ensures Compile(s, Span(PandocCitation(true), p, e, Span(CitationItem, p, e, inner)), [Host(cs)])
         == [Host(cs + [CitationNode(true, [ItemNode(Collect(s, inner, NoData))])])]
  {
    var open := [Host(cs), CitationNode(true, [])];
    var item := ItemNode(Collect(s, inner, NoData));
    CompileSpan(s, PandocCitation(true), p, e, Span(CitationItem, p, e, inner), [Host(cs)]);
    assert Handle(s, Enter(Token(PandocCitation(true), p, e)), [Host(cs)]) == open;
    CompileItem(s, p, e, inner, open);
    assert open[..1] == [Host(cs)];
    assert Adopt(open[1], item) == CitationNode(true, [item]) by {
      assert [] + [item] == [item];
    }
    var filled := [Host(cs), CitationNode(true, [item])];
    assert Compile(s, Span(CitationItem, p, e, inner), open) == filled;
    assert filled[..0] == [];
  }

  /** A citation without the flag directly around field events. */
  lemma CompileBare(s: seq<int>, p: nat, e: nat, inner: seq<Event<CitationKind>>, cs: seq<Node>)
    requires FieldEvents(inner)
    ensures Compile(s, Span(PandocCitation(false), p, e, inner), [Host(cs)]) == [Host(cs + [CitationNode(false, [])])]
  {
    var open := [Host(cs), CitationNode(false, [])];
    CompileSpan(s, PandocCitation(false), p, e, inner, [Host(cs)]);
    assert Handle(s, Enter(Token(PandocCitation(false), p, e)), [Host(cs)]) == open;
    CompileFieldsIgnored(s, inner, open);
    assert open[..0] == [];
  }

  /** With the newer grammar an author-in-text citation becomes one in-text
      citation node holding one item, whose fields come from the key and the
      locator. */
  lemma InTextTree(s: seq<int>, p: nat, cs: seq<Node>)
    requires p <= |s| && CitationItem.CitationInText(s, p).Ok?
    ensures Compile(s, CitationItem.CitationInText(s, p).events, [Host(cs)])
         == [Host(cs + [CitationNode(true, [ItemNode(Collect(s, InTextInner(s, p), NoData))])])]
  {
    var r := CitationItem.CitationInText(s, p);
    var inner := InTextInner(s, p);
    assert r.events == Span(PandocCitation(true), p, r.end, Span(CitationItem, p, r.end, inner));
    CompileInText(s, p, r.end, inner, cs);
  }

  /** With the registered grammar an author-in-text citation becomes a
      citation node without the in-text flag and without any item: there is
      no item token, so every field handler finds the citation on top of the
      stack and does nothing. */
  lemma LegacyInTextTree(s: seq<int>, p: nat, cs: seq<Node>)
    requires p <= |s| && CitationLegacy.AuthorInText(s, p).Ok?
    ensures Compile(s, CitationLegacy.AuthorInText(s, p).events, [Host(cs)])
         == [Host(cs + [CitationNode(false, [])])]
  {
    var r := CitationLegacy.AuthorInText(s, p);
    var inner := InTextInner(s, p);
    assert r.events == Span(PandocCitation(false), p, r.end, inner);
    CompileBare(s, p, r.end, inner, cs);
  }

  // ----- the fields of an author-in-text item -----

  /** The codes strictly between brackets at `q` and `j`, absent when there
      are none (no token is emitted for an empty key or locator). */
  function Between(s: seq<int>, q: nat, j: nat): Option<seq<int>>
    requires q < j <= |s|
  {
    if q + 1 < j then Some(s[q + 1..j]) else None
  }

  /** The key after an id prefix ending at `q`: between the braces, or the
      bare key. */
  function Key(s: seq<int>, q: nat): Option<seq<int>>
    requires q <= |s| && IdBody(s, q).Ok?
  {
    var body := IdBody(s, q);
    if CodeAt(s, q) == Char(LeftCurlyBrace) then Between(s, q, IdCharEnd(s, q + 1))
    else
      assert IsLongestBareKey(s, q, body.end);
      Some(s[q..body.end])
  }

  lemma CollectLeafIfAny(s: seq<int>, kind: CitationKind, i: nat, j: nat, d: ItemData)
    ensures Collect(s, LeafIfAny(kind, i, j), d) == if i < j then Record(d, s, Token(kind, i, j)) else d
  {
    if i < j {
      CollectLeaf(s, kind, i, j, d);
    }
  }

  /** Brackets and spaces write no field. */
  lemma CollectQuiet(s: seq<int>, kind: CitationKind, i: nat, j: nat, d: ItemData)
    requires kind in {CitationOpen, CitationClose, CitationSpace, CitationComma}
    ensures Collect(s, Leaf(kind, i, j), d) == d
    ensures Collect(s, LeafIfAny(kind, i, j), d) == d
  {
    CollectLeaf(s, kind, i, j, d);
  }

  /** A braced key writes the key field, unless it is empty. */
  lemma CollectCurly(s: seq<int>, q: nat, j: nat, d: ItemData)
    requires q < j <= |s|
    ensures Collect(s, CurlyEvents(q, j), d) == if q + 1 < j then d.(id := Between(s, q, j)) else d
  {
    var a, b, c := Leaf(CitationOpen, q, q + 1), LeafIfAny(CitationId, q + 1, j), Leaf(CitationClose, j, j + 1);
    CollectConcat(s, a + b, c, d);
    CollectConcat(s, a, b, d);
    CollectQuiet(s, CitationOpen, q, q + 1, d);
    CollectLeafIfAny(s, CitationId, q + 1, j, d);
    CollectQuiet(s, CitationClose, j, j + 1, Collect(s, b, d));
  }

  /** A bracketed locator writes the locator field, unless it is empty. */
  lemma CollectLocator(s: seq<int>, q: nat, j: nat, d: ItemData)
    requires q < j <= |s|
    ensures Collect(s, LocatorEvents(q, j), d) == if q + 1 < j then d.(locator := Between(s, q, j)) else d
  {
    var a, b, c := Leaf(CitationOpen, q, q + 1), LeafIfAny(CitationLocator, q + 1, j), Leaf(CitationClose, j, j + 1);
    CollectConcat(s, a + b, c, d);
    CollectConcat(s, a, b, d);
    CollectQuiet(s, CitationOpen, q, q + 1, d);
    CollectLeafIfAny(s, CitationLocator, q + 1, j, d);
    CollectQuiet(s, CitationClose, j, j + 1, Collect(s, b, d));
  }

  /** A key writes the id prefix and the key fields, each with its exact
      source codes. */
  lemma CollectId(s: seq<int>, p: nat, d: ItemData)
    requires p <= |s| && Id(s, p).Ok?
    ensures var q := IdPrefix(s, p).end;
      Collect(s, Id(s, p).events, d) == d.(idPrefix := Some(s[p..q]), id := if Key(s, q).Some? then Key(s, q) else d.id)
  {
    var q := IdPrefix(s, p).end;
    var d1 := d.(idPrefix := Some(s[p..q]));
    assert Collect(s, Id(s, p).events, d) == Collect(s, IdBody(s, q).events, d1) by {
      CollectConcat(s, IdPrefix(s, p).events, IdBody(s, q).events, d);
      CollectLeaf(s, CitationIdPrefix, p, q, d);
    }
    CollectIdBody(s, q, d1);
  }

  /** The key after the id prefix writes the key field, unless it is empty. */
  lemma CollectIdBody(s: seq<int>, q: nat, d: ItemData)
    requires q <= |s| && IdBody(s, q).Ok?
    ensures Collect(s, IdBody(s, q).events, d) == d.(id := if Key(s, q).Some? then Key(s, q) else d.id)
  {
    var body := IdBody(s, q);
    if CodeAt(s, q) == Char(LeftCurlyBrace) {
      CollectCurly(s, q, IdCharEnd(s, q + 1), d);
    } else {
      assert IsLongestBareKey(s, q, body.end);
      CollectLeaf(s, CitationId, q, body.end, d);
    }
  }

  /** The locator written after a key ending at `i`: the codes between the
      brackets of a `[…]` locator found after spaces, absent when there is no
      such locator or it is empty. */
  function SquareLocatorText(s: seq<int>, i: nat): Option<seq<int>>
    requires i <= |s|
  {
    var k := SpaceEnd(s, i);
    if SquareLocator(s, k).Ok? then Between(s, k, RunEnd(s, k + 1, 0, SquareStops)) else None
  }

  /** The spaces and `[…]` locator after a key write the locator field. */
  lemma CollectSpacedSquareLocator(s: seq<int>, i: nat, d: ItemData)
    requires i <= |s| && SpacedSquareLocator(s, i).Ok? && d.locator == None
    ensures Collect(s, SpacedSquareLocator(s, i).events, d) == d.(locator := SquareLocatorText(s, i))
  {
    var k := SpaceEnd(s, i);
    var j := RunEnd(s, k + 1, 0, SquareStops);
    CollectConcat(s, LeafIfAny(CitationSpace, i, k), LocatorEvents(k, j), d);
    CollectQuiet(s, CitationSpace, i, k, d);
    CollectLocator(s, k, j, d);
  }

  /** The item of an author-in-text citation: the id prefix and the key as
      written, the locator between its brackets when there is a non-empty
      one, and no prefix or suffix. */
  lemma InTextItemData(s: seq<int>, p: nat)
    requires p <= |s| && Id(s, p).Ok?
    ensures Collect(s, InTextInner(s, p), NoData)
         == ItemData(None, Some(s[p..IdPrefix(s, p).end]), Key(s, IdPrefix(s, p).end), SquareLocatorText(s, Id(s, p).end), None)
  {
    var id := Id(s, p);
    var q := IdPrefix(s, p).end;
    var locator := SpacedSquareLocator(s, id.end);
    var d1 := Collect(s, id.events, NoData);
    assert d1 == ItemData(None, Some(s[p..q]), Key(s, q), None, None) by {
      CollectId(s, p, NoData);
    }
    InTextInnerSplit(s, p);
    if locator.Ok? {
      CollectSpacedSquareLocator(s, id.end, d1);
    }
  }

  lemma InTextInnerSplit(s: seq<int>, p: nat)
    requires p <= |s| && Id(s, p).Ok?
    ensures var id := Id(s, p); var locator := SpacedSquareLocator(s, id.end);
      Collect(s, InTextInner(s, p), NoData)
      == if locator.Ok? then Collect(s, locator.events, Collect(s, id.events, NoData)) else Collect(s, id.events, NoData)
  {
    var id := Id(s, p);
    var locator := SpacedSquareLocator(s, id.end);
    if locator.Ok? {
      CollectConcat(s, id.events, locator.events, NoData);
    }
  }

  /** An author-in-text citation of the newer grammar, as a tree: an in-text
      citation node with one item holding the id prefix and the key as
      written and the locator between its brackets. */
  lemma InTextCitationNode(s: seq<int>, p: nat, cs: seq<Node>)
    requires p <= |s| && CitationItem.CitationInText(s, p).Ok?
    ensures var q := IdPrefix(s, p).end;
      Compile(s, CitationItem.CitationInText(s, p).events, [Host(cs)])
      == [Host(cs + [CitationNode(true, [ItemNode(ItemData(None, Some(s[p..q]), Key(s, q), SquareLocatorText(s, Id(s, p).end), None))])])]
  {
    InTextTree(s, p, cs);
    InTextItemData(s, p);
  }

  // ----- bracketed citations -----

  /** The events inside an item token. */
  function Inner(r: Outcome<CitationKind>): seq<Event<CitationKind>>
    requires r.Ok?
  {
    if |r.events| >= 2 then r.events[1..|r.events| - 1] else []
  }

  /** An item outcome that is one item token at `i` around field events. */
  predicate Shaped(r: Outcome<CitationKind>, i: nat) {
    r.Ok? ==> |r.events| >= 2 && r.events == Span(CitationItem, i, r.end, Inner(r)) && FieldEvents(Inner(r))
  }

  /** Every item outcome from `i` to the end of the input is shaped. */
  predicate ShapedFrom(s: seq<int>, item: nat -> Outcome<CitationKind>, i: nat)
    decreases |s| + 1 - i
  {
    i > |s| || (Shaped(item(i), i) && ShapedFrom(s, item, i + 1))
  }

  lemma {:induction false} ShapedFromLater(s: seq<int>, item: nat -> Outcome<CitationKind>, i: nat, j: nat)
    requires ShapedFrom(s, item, i) && i <= j
    ensures ShapedFrom(s, item, j)
    decreases j - i
  {
    if i < j && i <= |s| {
      ShapedFromLater(s, item, i + 1, j);
    }
  }

  lemma {:induction false} ShapedFromAll(s: seq<int>, item: nat -> Outcome<CitationKind>, i: nat)
    requires forall j: nat :: j <= |s| ==> Shaped(item(j), j)
    ensures ShapedFrom(s, item, i)
    decreases |s| + 1 - i
  {
    if i <= |s| {
      ShapedFromAll(s, item, i + 1);
    }
  }

  /** The item nodes a list of items becomes, one per item, in order. */
  function ItemNodes(s: seq<int>, i: nat, item: nat -> Outcome<CitationKind>): (r: seq<Node>)
    requires i <= |s| && Advances(s, item)
    decreases |s| - i
  {
    var first := item(i);
    if first.Fail? then []
    else
      var node := ItemNode(Collect(s, Inner(first), NoData));
      if CodeAt(s, first.end) == Char(Semicolon) then [node] + ItemNodes(s, first.end + 1, item) else [node]
  }

  /** One item token on top of a citation node adds one child to it. */
  lemma CompileOneItem(s: seq<int>, first: Outcome<CitationKind>, i: nat, rest: seq<Node>, flag: bool, cs: seq<Node>)
    requires Shaped(first, i) && first.Ok?
    ensures Compile(s, first.events, rest + [CitationNode(flag, cs)])
         == rest + [CitationNode(flag, cs + [ItemNode(Collect(s, Inner(first), NoData))])]
  {
    var open := rest + [CitationNode(flag, cs)];
    CompileItem(s, i, first.end, Inner(first), open);
    assert open[..|open| - 1] == rest;
  }

  /** A delimiter between two parts of a list changes nothing. */
  lemma CompileDelimited(s: seq<int>, a: seq<Event<CitationKind>>, e: nat, b: seq<Event<CitationKind>>, start: seq<Node>, mid: seq<Node>, end: seq<Node>)
    requires Compile(s, a, start) == mid && !TopIsItem(mid) && Compile(s, b, mid) == end
    ensures Compile(s, a + Leaf(CitationItemDelimiter, e, e + 1) + b, start) == end
  {
    var delim := Leaf(CitationItemDelimiter, e, e + 1);
    CompileConcat(s, a, delim, start);
    LeafFieldEvents(CitationItemDelimiter, e, e + 1);
    CompileFieldsIgnored(s, delim, mid);
    CompileConcat(s, a + delim, b, start);
  }

  /** The item node of the item at `i`. */
  function FirstNode(s: seq<int>, i: nat, item: nat -> Outcome<CitationKind>): Node
    requires item(i).Ok?
  {
    ItemNode(Collect(s, Inner(item(i)), NoData))
  }

  /** Each item of a list becomes one child of the citation node on top of
      the stack, in order; the delimiters leave no trace. */
  lemma {:induction false} CompileItemList(s: seq<int>, i: nat, item: nat -> Outcome<CitationKind>, rest: seq<Node>, flag: bool, cs: seq<Node>)
    requires i <= |s| && Advances(s, item) && ShapedFrom(s, item, i)
    requires ItemList(s, i, item).Ok?
    ensures Compile(s, ItemList(s, i, item).events, rest + [CitationNode(flag, cs)])
         == rest + [CitationNode(flag, cs + ItemNodes(s, i, item))]
    decreases |s| - i
  {
    var first := item(i);
    assert Shaped(first, i);
    if CodeAt(s, first.end) == Char(Semicolon) {
      ShapedFromLater(s, item, i, first.end + 1);
      CompileItemList(s, first.end + 1, item, rest, flag, cs + [FirstNode(s, i, item)]);
      CompileItemListNext(s, i, item, rest, flag, cs);
    } else {
      CompileItemListLast(s, i, item, rest, flag, cs);
    }
  }

  lemma CompileItemListLast(s: seq<int>, i: nat, item: nat -> Outcome<CitationKind>, rest: seq<Node>, flag: bool, cs: seq<Node>)
    requires i <= |s| && Advances(s, item) && ShapedFrom(s, item, i)
    requires ItemList(s, i, item).Ok? && CodeAt(s, item(i).end) != Char(Semicolon)
    ensures Compile(s, ItemList(s, i, item).events, rest + [CitationNode(flag, cs)])
         == rest + [CitationNode(flag, cs + ItemNodes(s, i, item))]
  {
    var first := item(i);
    assert Shaped(first, i);
    CompileOneItem(s, first, i, rest, flag, cs);
    assert ItemNodes(s, i, item) == [FirstNode(s, i, item)];
  }

  lemma CompileItemListNext(s: seq<int>, i: nat, item: nat -> Outcome<CitationKind>, rest: seq<Node>, flag: bool, cs: seq<Node>)
    requires i <= |s| && Advances(s, item) && ShapedFrom(s, item, i)
    requires ItemList(s, i, item).Ok? && CodeAt(s, item(i).end) == Char(Semicolon)
    requires var e := item(i).end; var node := FirstNode(s, i, item);
      Compile(s, ItemList(s, e + 1, item).events, rest + [CitationNode(flag, cs + [node])])
      == rest + [CitationNode(flag, cs + [node] + ItemNodes(s, e + 1, item))]
    ensures Compile(s, ItemList(s, i, item).events, rest + [CitationNode(flag, cs)])
         == rest + [CitationNode(flag, cs + ItemNodes(s, i, item))]
  {
    var first := item(i);
    var e := first.end;
    var node := FirstNode(s, i, item);
    var more := ItemList(s, e + 1, item);
    var tail := ItemNodes(s, e + 1, item);
    ItemListCons(s, i, item);
    ItemNodesCons(s, i, item);
    assert Compile(s, first.events, rest + [CitationNode(flag, cs)]) == rest + [CitationNode(flag, cs + [node])] by {
      assert Shaped(first, i);
      CompileOneItem(s, first, i, rest, flag, cs);
    }
    CompileNext(s, first.events, e, more.events, rest, flag, cs, node, tail);
  }

  lemma ItemListCons(s: seq<int>, i: nat, item: nat -> Outcome<CitationKind>)
    requires i <= |s| && Advances(s, item)
    requires ItemList(s, i, item).Ok? && CodeAt(s, item(i).end) == Char(Semicolon)
    ensures var e := item(i).end;
      ItemList(s, i, item).events == item(i).events + Leaf(CitationItemDelimiter, e, e + 1) + ItemList(s, e + 1, item).events
  {
  }

  lemma ItemNodesCons(s: seq<int>, i: nat, item: nat -> Outcome<CitationKind>)
    requires i <= |s| && Advances(s, item)
    requires item(i).Ok? && CodeAt(s, item(i).end) == Char(Semicolon)
    ensures ItemNodes(s, i, item) == [FirstNode(s, i, item)] + ItemNodes(s, item(i).end + 1, item)
  {
  }

  lemma CompileNext(s: seq<int>, a: seq<Event<CitationKind>>, e: nat, b: seq<Event<CitationKind>>,
                    rest: seq<Node>, flag: bool, cs: seq<Node>, node: Node, tail: seq<Node>)
    requires Compile(s, a, rest + [CitationNode(flag, cs)]) == rest + [CitationNode(flag, cs + [node])]
    requires Compile(s, b, rest + [CitationNode(flag, cs + [node])]) == rest + [CitationNode(flag, cs + [node] + tail)]
    ensures Compile(s, a + Leaf(CitationItemDelimiter, e, e + 1) + b, rest + [CitationNode(flag, cs)])
         == rest + [CitationNode(flag, cs + ([node] + tail))]
  {
    var mid := rest + [CitationNode(flag, cs + [node])];
    TopIsCitation(rest, flag, cs + [node]);
    CompileDelimited(s, a, e, b, rest + [CitationNode(flag, cs)], mid, rest + [CitationNode(flag, cs + [node] + tail)]);
    ConsAssoc(cs, node, tail);
  }

  lemma TopIsCitation(rest: seq<Node>, flag: bool, cs: seq<Node>)
    ensures !TopIsItem(rest + [CitationNode(flag, cs)])
  {
  }

  lemma ConsAssoc(cs: seq<Node>, node: Node, tail: seq<Node>)
    ensures cs + [node] + tail == cs + ([node] + tail)
  {
  }

  /** Brackets around the items change nothing. */
  lemma CompileBrackets(s: seq<int>, p: nat, e: nat, evs: seq<Event<CitationKind>>, start: seq<Node>, end: seq<Node>)
    requires !TopIsItem(start) && Compile(s, evs, start) == end && !TopIsItem(end)
    ensures Compile(s, Leaf(CitationOpen, p, p + 1) + evs + Leaf(CitationClose, e, e + 1), start) == end
  {
    var open := Leaf(CitationOpen, p, p + 1);
    var close := Leaf(CitationClose, e, e + 1);
    CompileConcat(s, open + evs, close, start);
    CompileConcat(s, open, evs, start);
    LeafFieldEvents(CitationOpen, p, p + 1);
    LeafFieldEvents(CitationClose, e, e + 1);
    CompileFieldsIgnored(s, open, start);
    CompileFieldsIgnored(s, close, end);
  }

  /** A citation span whose body turns an empty citation node into one with
      `nodes` adds that node to the host. */
  lemma CompileCitationSpan(s: seq<int>, flag: bool, p: nat, q: nat, inner: seq<Event<CitationKind>>, cs: seq<Node>, nodes: seq<Node>)
    requires Compile(s, inner, [Host(cs), CitationNode(flag, [])]) == [Host(cs), CitationNode(flag, nodes)]
    ensures Compile(s, Span(PandocCitation(flag), p, q, inner), [Host(cs)]) == [Host(cs + [CitationNode(flag, nodes)])]
  {
    var filled := [Host(cs), CitationNode(flag, nodes)];
    CompileSpan(s, PandocCitation(flag), p, q, inner, [Host(cs)]);
    assert Handle(s, Enter(Token(PandocCitation(flag), p, q)), [Host(cs)]) == [Host(cs), CitationNode(flag, [])];
    assert filled[..0] == [];
  }

  /** A bracketed citation becomes one citation node without the in-text flag,
      with one item node per item, in order. */
  lemma CompileBracketed(s: seq<int>, p: nat, item: nat -> Outcome<CitationKind>, cs: seq<Node>)
    requires p <= |s| && Advances(s, item) && forall j: nat :: j <= |s| ==> Shaped(item(j), j)
    requires BracketedCitation(s, p, item).Ok?
    ensures Compile(s, BracketedCitation(s, p, item).events, [Host(cs)])
         == [Host(cs + [CitationNode(false, ItemNodes(s, p + 1, item))])]
  {
    ShapedFromAll(s, item, p + 1);
    CompileBracketedFrom(s, p, item, cs);
  }

  lemma CompileBracketedFrom(s: seq<int>, p: nat, item: nat -> Outcome<CitationKind>, cs: seq<Node>)
    requires p <= |s| && Advances(s, item) && ShapedFrom(s, item, p + 1)
    requires BracketedCitation(s, p, item).Ok?
    ensures Compile(s, BracketedCitation(s, p, item).events, [Host(cs)])
         == [Host(cs + [CitationNode(false, ItemNodes(s, p + 1, item))])]
  {
    CompileItemsIntoEmpty(s, p + 1, item, cs);
    CompileBracketedNodes(s, p, item, cs, ItemNodes(s, p + 1, item));
  }

  /** A bracketed citation compiles to one citation node holding whatever
      its item list compiles to. */
  lemma CompileBracketedNodes(s: seq<int>, p: nat, item: nat -> Outcome<CitationKind>, cs: seq<Node>, nodes: seq<Node>)
    requires p <= |s| && Advances(s, item) && BracketedCitation(s, p, item).Ok?
    requires Compile(s, ItemList(s, p + 1, item).events, [Host(cs), CitationNode(false, [])]) == [Host(cs), CitationNode(false, nodes)]
    ensures Compile(s, BracketedCitation(s, p, item).events, [Host(cs)]) == [Host(cs + [CitationNode(false, nodes)])]
  {
    var items := ItemList(s, p + 1, item);
    BracketedCitationEvents(s, p, item);
    CompileBracketedSpan(s, p, items.end, items.events, cs, nodes);
  }

  lemma CompileBracketedSpan(s: seq<int>, p: nat, e: nat, evs: seq<Event<CitationKind>>, cs: seq<Node>, nodes: seq<Node>)
    requires Compile(s, evs, [Host(cs), CitationNode(false, [])]) == [Host(cs), CitationNode(false, nodes)]
    ensures Compile(s, Span(PandocCitation(false), p, e + 1, Leaf(CitationOpen, p, p + 1) + evs + Leaf(CitationClose, e, e + 1)), [Host(cs)])
         == [Host(cs + [CitationNode(false, nodes)])]
  {
    CompileBrackets(s, p, e, evs, [Host(cs), CitationNode(false, [])], [Host(cs), CitationNode(false, nodes)]);
    CompileCitationSpan(s, false, p, e + 1, Leaf(CitationOpen, p, p + 1) + evs + Leaf(CitationClose, e, e + 1), cs, nodes);
  }

  lemma CompileItemsIntoEmpty(s: seq<int>, i: nat, item: nat -> Outcome<CitationKind>, cs: seq<Node>)
    requires i <= |s| && Advances(s, item) && ShapedFrom(s, item, i)
    requires ItemList(s, i, item).Ok?
    ensures Compile(s, ItemList(s, i, item).events, [Host(cs), CitationNode(false, [])])
         == [Host(cs), CitationNode(false, ItemNodes(s, i, item))]
  {
    var nodes := ItemNodes(s, i, item);
    CompileItemList(s, i, item, [Host(cs)], false, []);
    assert [] + nodes == nodes;
    assert [Host(cs)] + [CitationNode(false, [])] == [Host(cs), CitationNode(false, [])];
    assert [Host(cs)] + [CitationNode(false, [] + nodes)] == [Host(cs), CitationNode(false, nodes)];
  }

  lemma BracketedCitationEvents(s: seq<int>, p: nat, item: nat -> Outcome<CitationKind>)
    requires p <= |s| && Advances(s, item) && BracketedCitation(s, p, item).Ok?
    ensures var items := ItemList(s, p + 1, item); var e := items.end;
      BracketedCitation(s, p, item).events
      == Span(PandocCitation(false), p, e + 1, Leaf(CitationOpen, p, p + 1) + items.events + Leaf(CitationClose, e, e + 1))
  {
  }
}

=== FILE: citation_id.dfy ===
/** The citation key of a Pandoc citation (remark-pandoc-citation/src/syntax/id.ts):
    `@` or `-@`, then either `{…}` around any run of id characters, or a bare
    key that starts with a word character and takes a punctuation character
    only when a word character follows it. */
module CitationId {
  import opened Micromark
  import opened CitationCommon

  // ----- character classes -----

  /** `\w`: an ASCII letter, digit or `_`. */
  predicate IsWordCode(v: int) {
    0x30 <= v <= 0x39 || 0x41 <= v <= 0x5A || 0x61 <= v <= 0x7A || v == 0x5F
  }

  /** `:.#$%&-+?<>~/` */
  const PunctuationCodes: set<int> := {0x3A, 0x2E, 0x23, 0x24, 0x25, 0x26, 0x2D, 0x2B, 0x3F, 0x3C, 0x3E, 0x7E, 0x2F}

  /** `isIdLetter`: a positive code whose UTF-16 unit is a word character. */
  predicate IsIdLetter(c: Code) {
    c.Char? && c.value > 0 && IsWordCode(c.value)
  }

  /** `isIdPunctuation`: a positive code whose unit is one of the punctuation characters. */
  predicate IsIdPunctuation(c: Code) {
    c.Char? && c.value > 0 && c.value in PunctuationCodes
  }

  /** `isIdCharacter`, the single character class `[\w_:.#$%&\-+?<>~/]`: it
      holds of exactly the letters and the punctuation, which never overlap,
      and of nothing at or below zero. */
  predicate IsIdCharacter(c: Code): (b: bool)
    ensures b <==> IsIdLetter(c) || IsIdPunctuation(c)
    ensures !(IsIdLetter(c) && IsIdPunctuation(c))
    ensures b ==> c.Char? && c.value > 0
  {
    c.Char? && c.value > 0 && (IsWordCode(c.value) || c.value in PunctuationCodes)
  }

  // ----- tokenizeIdPrefix -----

  /** An id prefix starts at `j`: `@`, or `-` directly followed by `@`. */
  predicate StartsIdPrefix(s: seq<int>, j: nat) {
    CodeAt(s, j) == Char(AtSign) || (CodeAt(s, j) == Char(Dash) && CodeAt(s, j + 1) == Char(AtSign))
  }

  /** `tokenizeIdPrefix`: one `pandocCitationIdPrefix` token over `@` or `-@`;
      a `-` that is not followed by `@` fails. */
  function IdPrefix(s: seq<int>, p: nat): (r: Outcome<CitationKind>)
    ensures r.Ok? <==> StartsIdPrefix(s, p)
    ensures r.Ok? ==> r.end == (if s[p] == AtSign then p + 1 else p + 2) <= |s|
    ensures r.Ok? ==> r.events == Leaf(CitationIdPrefix, p, r.end)
  {
    var c := CodeAt(s, p);
    if c == Char(Dash) then
      if CodeAt(s, p + 1) != Char(AtSign) then Fail
      else Ok(Leaf(CitationIdPrefix, p, p + 2), p + 2)
    else if c == Char(AtSign) then Ok(Leaf(CitationIdPrefix, p, p + 1), p + 1)
    else Fail
  }

  // ----- tokenizeIdBodyWithCurlyBrackets -----

  /** The first position from `i` on that does not hold an id character. */
  function IdCharEnd(s: seq<int>, i: nat): (j: nat)
    requires i <= |s|
    ensures i <= j <= |s|
    ensures forall m :: i <= m < j ==> IsIdCharacter(Char(s[m]))
    ensures j < |s| ==> !IsIdCharacter(Char(s[j]))
    decreases |s| - i
  {
    if i < |s| && IsIdCharacter(Char(s[i])) then IdCharEnd(s, i + 1) else i
  }

  function CloseCurly(s: seq<int>, i: nat): (r: Outcome<CitationKind>)
    ensures r.Ok? <==> CodeAt(s, i) == Char(RightCurlyBrace)
    ensures r.Ok? ==> r == Ok(Leaf(CitationClose, i, i + 1), i + 1)
  {
    if CodeAt(s, i) != Char(RightCurlyBrace) then Fail
    else Ok(Leaf(CitationClose, i, i + 1), i + 1)
  }

  /** The events of `{`, the key over [q + 1, j) (no token when it is empty), `}`. */
  function CurlyEvents(q: nat, j: nat): seq<Event<CitationKind>> {
    Leaf(CitationOpen, q, q + 1) + LeafIfAny(CitationId, q + 1, j) + Leaf(CitationClose, j, j + 1)
  }

  /** `finish`: inside a key that began at `start`. */
  function FinishCurlyId(s: seq<int>, start: nat, i: nat): (r: Outcome<CitationKind>)
    requires start < i <= |s|
    ensures var j := IdCharEnd(s, i);
      (r.Ok? <==> j < |s| && s[j] == RightCurlyBrace)
      && (r.Ok? ==> r == Ok(Leaf(CitationId, start, j) + Leaf(CitationClose, j, j + 1), j + 1))
    decreases |s| - i
  {
    var c := CodeAt(s, i);
    if c == Char(RightCurlyBrace) then Prepend(Leaf(CitationId, start, i), CloseCurly(s, i))
    else if !IsIdCharacter(c) then Fail
    else FinishCurlyId(s, start, i + 1)
  }

  /** `start`: just after `{`; `{}` is allowed. */
  function StartCurlyId(s: seq<int>, i: nat): (r: Outcome<CitationKind>)
    requires i <= |s|
    ensures var j := IdCharEnd(s, i);
      (r.Ok? <==> j < |s| && s[j] == RightCurlyBrace)
      && (r.Ok? ==> r == Ok(LeafIfAny(CitationId, i, j) + Leaf(CitationClose, j, j + 1), j + 1))
  {
    var c := CodeAt(s, i);
    if c == Char(RightCurlyBrace) then CloseCurly(s, i)
    else if !IsIdCharacter(c) then Fail
    else FinishCurlyId(s, i, i + 1)
  }

  /** `tokenizeIdBodyWithCurlyBrackets` from `open` at `q`: `{`, any run of id
      characters (even none, or all punctuation), then `}`; any other code
      before the `}`, the end of input included, fails. */
  function CurlyId(s: seq<int>, q: nat): (r: Outcome<CitationKind>)
    requires q <= |s|
    ensures r.Ok? <==> (q < |s| && CodeAt(s, q) == Char(LeftCurlyBrace)
                        && var j := IdCharEnd(s, q + 1); j < |s| && s[j] == RightCurlyBrace)
    ensures r.Ok? ==> q < |s| && var j := IdCharEnd(s, q + 1); r == Ok(CurlyEvents(q, j), j + 1)
  {
    if CodeAt(s, q) != Char(LeftCurlyBrace) then Fail
    else
      var r := Prepend(Leaf(CitationOpen, q, q + 1), StartCurlyId(s, q + 1));
      assert r.Ok? ==> r.events == CurlyEvents(q, IdCharEnd(s, q + 1));
      r
  }

  // ----- tokenizeIdBodyWithoutBrackets -----

  /** What the `check` looks for at `k`: a letter, or a punctuation
      character followed by a letter. */
  predicate Extends(s: seq<int>, k: nat) {
    IsIdLetter(CodeAt(s, k)) || (IsIdPunctuation(CodeAt(s, k)) && IsIdLetter(CodeAt(s, k + 1)))
  }

  /** [q, e) is a bare key: id characters only, a letter first and last, no
      two punctuation characters next to each other. */
  predicate IsBareKey(s: seq<int>, q: nat, e: nat) {
    q < e <= |s|
    && IsIdLetter(Char(s[q])) && IsIdLetter(Char(s[e - 1]))
    && (forall m :: q <= m < e ==> IsIdCharacter(Char(s[m])))
    && (forall m :: q <= m < e - 1 ==> !(IsIdPunctuation(Char(s[m])) && IsIdPunctuation(Char(s[m + 1]))))
  }

  /** The longest bare key at `q`: a bare key that cannot be extended. */
  predicate IsLongestBareKey(s: seq<int>, q: nat, e: nat) {
    IsBareKey(s, q, e) && !Extends(s, e)
  }

  /** What the key looks like while the `check` loop runs: a bare key, or one
      followed by a punctuation character whose following letter the `check`
      has already seen. */
  predicate PartialKey(s: seq<int>, q: nat, k: nat) {
    q < k <= |s|
    && IsIdLetter(Char(s[q]))
    && (forall m :: q <= m < k ==> IsIdCharacter(Char(s[m])))
    && (forall m :: q <= m < k - 1 ==> !(IsIdPunctuation(Char(s[m])) && IsIdPunctuation(Char(s[m + 1]))))
    && (IsIdLetter(Char(s[k - 1])) || IsIdLetter(CodeAt(s, k)))
  }

  /** The `check` state at `k`: on success `consume` takes one code and checks
      again; on failure `exit` closes the key without consuming. */
  function CheckBareId(s: seq<int>, start: nat, k: nat): (r: Outcome<CitationKind>)
    requires PartialKey(s, start, k)
    ensures r.Ok? && r.events == Leaf(CitationId, start, r.end)
    ensures IsLongestBareKey(s, start, r.end)
    decreases |s| - k
  {
    if Extends(s, k) then
      assert k < |s|;
      assert IsIdLetter(CodeAt(s, k)) ==> IsIdLetter(Char(s[k]));
      assert !IsIdLetter(Char(s[k])) ==> IsIdLetter(Char(s[k - 1])) && IsIdLetter(CodeAt(s, k + 1));
      CheckBareId(s, start, k + 1)
    else
      Ok(Leaf(CitationId, start, k), k)
  }

  /** `tokenizeIdBodyWithoutBrackets` from `enter` at `q`: it fails only when
      the code at `q` is not a letter, and then takes the longest bare key,
      leaving the first code that does not extend it unconsumed. */
  function BareId(s: seq<int>, q: nat): (r: Outcome<CitationKind>)
    ensures r.Ok? <==> IsIdLetter(CodeAt(s, q))
    ensures r.Ok? ==> r.events == Leaf(CitationId, q, r.end) && IsLongestBareKey(s, q, r.end)
  {
    if !IsIdLetter(CodeAt(s, q)) then Fail
    else CheckBareId(s, q, q + 1)
  }

  /** Only one end makes a longest bare key, so the key the tokenizer takes is
      the one the pattern describes. */
  lemma LongestBareKeyUnique(s: seq<int>, q: nat, e1: nat, e2: nat)
    requires IsLongestBareKey(s, q, e1) && IsLongestBareKey(s, q, e2)
    ensures e1 == e2
  {
    if e1 < e2 {
      BareKeyStopsOnlyAtItsEnd(s, q, e1, e2);
    } else if e2 < e1 {
      BareKeyStopsOnlyAtItsEnd(s, q, e2, e1);
    }
  }

  lemma BareKeyStopsOnlyAtItsEnd(s: seq<int>, q: nat, e1: nat, e2: nat)
    requires e1 < e2 && IsBareKey(s, q, e2) && q < e1
    ensures Extends(s, e1)
  {
    assert IsIdCharacter(Char(s[e1]));
    if !IsIdLetter(Char(s[e1])) {
      assert e1 < e2 - 1;
      assert !IsIdPunctuation(Char(s[e1 + 1]));
      assert IsIdCharacter(Char(s[e1 + 1]));
    }
  }

  // ----- tokenizeId -----

  /** The key after the id prefix: the brace form is attempted first and the
      bare form only when it fails. */
  function IdBody(s: seq<int>, q: nat): (r: Outcome<CitationKind>)
    requires q <= |s|
    ensures CodeAt(s, q) == Char(LeftCurlyBrace) ==> r == CurlyId(s, q)
    ensures CodeAt(s, q) != Char(LeftCurlyBrace) ==> r == BareId(s, q)
  {
    FirstOk(CurlyId(s, q), BareId(s, q))
  }

  /** `tokenizeId`: the id prefix, then the key. */
  function Id(s: seq<int>, p: nat): (r: Outcome<CitationKind>)
    ensures r.Ok? <==> StartsIdPrefix(s, p) && IdBody(s, IdPrefix(s, p).end).Ok?
    ensures r.Ok? ==> p < r.end <= |s|
    ensures r.Ok? ==> r == Prepend(IdPrefix(s, p).events, IdBody(s, IdPrefix(s, p).end))
  {
    var prefix := IdPrefix(s, p);
    if prefix.Fail? then Fail
    else
      var body := IdBody(s, prefix.end);
      assert body.Ok? ==> body.end <= |s| by {
        if body.Ok? && CodeAt(s, prefix.end) != Char(LeftCurlyBrace) {
          assert IsLongestBareKey(s, prefix.end, body.end);
        }
      }
      Prepend(prefix.events, body)
  }

  // ----- well-formedness -----

  lemma CurlyEventsFit(q: nat, j: nat)
    requires q < j
    ensures WellFormed(CurlyEvents(q, j), q, j + 1)
  {
    var a, b, c := Leaf(CitationOpen, q, q + 1), LeafIfAny(CitationId, q + 1, j), Leaf(CitationClose, j, j + 1);
    assert WellFormed(a + b, q, j) by {
      WellFormedLeaf(CitationOpen, q, q + 1);
      WellFormedLeaf(CitationId, q + 1, j);
      WellFormedConcat(a, b, q, q + 1, j);
    }
    WellFormedLeaf(CitationClose, j, j + 1);
    WellFormedConcat(a + b, c, q, j, j + 1);
  }

  lemma CurlyIdFits(s: seq<int>, q: nat)
    requires q <= |s|
    ensures Fits(CurlyId(s, q), q, |s|)
  {
    if CurlyId(s, q).Ok? {
      CurlyEventsFit(q, IdCharEnd(s, q + 1));
    }
  }

  lemma IdBodyFits(s: seq<int>, q: nat)
    requires q <= |s|
    ensures Fits(IdBody(s, q), q, |s|)
  {
    if CodeAt(s, q) == Char(LeftCurlyBrace) {
      CurlyIdFits(s, q);
    } else if BareId(s, q).Ok? {
      WellFormedLeaf(CitationId, q, BareId(s, q).end);
    }
  }

  lemma IdFits(s: seq<int>, p: nat)
    requires p <= |s|
    ensures Fits(Id(s, p), p, |s|)
  {
    var r := Id(s, p);
    if r.Ok? {
      var prefix := IdPrefix(s, p);
      IdBodyFits(s, prefix.end);
      WellFormedLeaf(CitationIdPrefix, p, prefix.end);
      WellFormedConcat(prefix.events, IdBody(s, prefix.end).events, p, prefix.end, r.end);
    }
  }
}

=== FILE: citation_item.dfy ===
/** The newer revision of the Pandoc citation grammar
    (remark-pandoc-citation/src/syntax/citation.ts and citationInText.ts):
    `[prefix @key, {locator} suffix; …]` and the author-in-text `@key [locator]`.
    Here the prefix skips leading spaces, a comma and spaces after the key stay
    consumed when no locator follows, and the suffix leaves out its trailing
    spaces. */
module CitationItem {
  import opened Micromark
  import opened CitationCommon
  import opened CitationId
  import opened CitationLocator
  import opened CitationPrefix

  // ----- tokenizePrefix -----

  /** `tokenizePrefix`: spaces, then the prefix text up to the first id
      prefix; a `;`, a `]`, the end of input or a line ending before the id
      prefix fails. */
  function Prefix(s: seq<int>, i: nat): (r: Outcome<CitationKind>)
    requires i <= |s|
    ensures var k := SpaceEnd(s, i); var j := PrefixEnd(s, k, CarriageReturnLineFeed);
      (r.Ok? <==> StartsIdPrefix(s, j))
      && (r.Ok? ==> r == Ok(LeafIfAny(CitationSpace, i, k) + LeafIfAny(CitationPrefix, k, j), j))
  {
    var w := Whitespaces(s, i);
    Prepend(w.events, EnterPrefix(s, CarriageReturnLineFeed, w.end))
  }

  // ----- tokenizeLocatorAfterId -----

  /** `tokenizeLocatorAfterId`: an optional `,` and spaces, then the attempt
      at an unbracketed or a `{…}` locator. It never fails, and the comma and
      the spaces stay consumed whether or not a locator follows them. */
  function LocatorAfterId(s: seq<int>, i: nat): (r: Outcome<CitationKind>)
    requires i <= |s|
    ensures var c := if CodeAt(s, i) == Char(Comma) then i + 1 else i;
      var k := SpaceEnd(s, c);
      var head := LeafIfAny(CitationComma, i, c) + LeafIfAny(CitationSpace, c, k);
      r.Ok? && k <= r.end
      && (CurlyLocator(s, k).Ok? ==> r == Ok(head + CurlyLocator(s, k).events, CurlyLocator(s, k).end))
      && (CurlyLocator(s, k).Fail? ==> r == Ok(head, k))
  {
    var comma := if CodeAt(s, i) == Char(Comma) then Leaf(CitationComma, i, i + 1) else [];
    var w := Whitespaces(s, if CodeAt(s, i) == Char(Comma) then i + 1 else i);
    var locator := FirstOk(UnbracketedLocator(s, w.end), CurlyLocator(s, w.end));
    if locator.Ok? then Ok(comma + w.events + locator.events, locator.end)
    else Ok(comma + w.events, w.end)
  }

  // ----- tokenizeSuffix -----

  /** Where the spaces that end just before `e` begin, but not before `lo`. */
  function TrailingSpaceStart(s: seq<int>, lo: nat, e: nat): (m: nat)
    requires lo <= e <= |s|
    ensures lo <= m <= e
    ensures forall k :: m <= k < e ==> s[k] == Space
    ensures m > lo ==> s[m - 1] != Space
    decreases e - lo
  {
    if e > lo && s[e - 1] == Space then TrailingSpaceStart(s, lo, e - 1) else e
  }

  lemma {:induction false} TrailingSpaceStartAll(s: seq<int>, lo: nat, e: nat)
    requires lo <= e <= |s|
    requires forall k :: lo <= k < e ==> s[k] == Space
    ensures TrailingSpaceStart(s, lo, e) == lo
    decreases e - lo
  {
    if e > lo {
      TrailingSpaceStartAll(s, lo, e - 1);
    }
  }

  lemma {:induction false} TrailingSpaceStartRaise(s: seq<int>, lo: nat, e: nat)
    requires lo < e <= |s| && TrailingSpaceStart(s, lo, e) > lo
    ensures TrailingSpaceStart(s, lo + 1, e) == TrailingSpaceStart(s, lo, e)
    decreases e - lo
  {
    if s[e - 1] == Space {
      TrailingSpaceStartRaise(s, lo, e - 1);
    }
  }

  /** The attempt inside the suffix: spaces directly followed by `;` or `]`. */
  function SpacesBeforeStop(s: seq<int>, j: nat): (r: Outcome<CitationKind>)
    requires j <= |s|
    ensures var k := SpaceEnd(s, j);
      (r.Ok? <==> k < |s| && s[k] in SuffixStops)
      && (r.Ok? ==> r == Ok(LeafIfAny(CitationSpace, j, k), k))
  {
    var w := Whitespaces(s, j);
    if CodeAt(s, w.end) == Char(Semicolon) || CodeAt(s, w.end) == Char(RightSquareBracket) then w else Fail
  }

  /** `finish`: inside a suffix that began at `start`; before each code it
      attempts to close the suffix and take the spaces up to `;` or `]`. */
  function FinishSuffix(s: seq<int>, start: nat, j: nat): (r: Outcome<CitationKind>)
    requires start < j <= |s|
    ensures var e := RunEnd(s, j, CarriageReturnLineFeed, SuffixStops);
      var m := TrailingSpaceStart(s, j, e);
      (r.Ok? <==> e < |s| && s[e] > CarriageReturnLineFeed)
      && (r.Ok? ==> r == Ok(Leaf(CitationSuffix, start, m) + LeafIfAny(CitationSpace, m, e), e))
    decreases |s| - j
  {
    var tail := SpacesBeforeStop(s, j);
    if tail.Ok? then
      SuffixEndsAtStop(s, j);
      Prepend(Leaf(CitationSuffix, start, j), tail)
    else if IsLineBreak(CodeAt(s, j)) then Fail
    else
      SuffixRunContinues(s, j);
      FinishSuffix(s, start, j + 1)
  }

  /** `start` of `tokenizeSuffix`: a spaces-only suffix gets no suffix token. */
  function Suffix(s: seq<int>, i: nat): (r: Outcome<CitationKind>)
    requires i <= |s|
    ensures var e := RunEnd(s, i, CarriageReturnLineFeed, SuffixStops);
      var m := TrailingSpaceStart(s, i, e);
      (r.Ok? <==> e < |s| && s[e] > CarriageReturnLineFeed)
      && (r.Ok? ==> r == Ok(LeafIfAny(CitationSuffix, i, m) + LeafIfAny(CitationSpace, m, e), e))
  {
    var tail := SpacesBeforeStop(s, i);
    if tail.Ok? then
      SuffixEndsAtStop(s, i);
      tail
    else if IsLineBreak(CodeAt(s, i)) then Fail
    else
      SuffixRunContinues(s, i);
      FinishSuffix(s, i, i + 1)
  }

  /** When the attempt succeeds at `j`, the suffix text ends at `j`. */
  lemma SuffixEndsAtStop(s: seq<int>, j: nat)
    requires j <= |s| && SpacesBeforeStop(s, j).Ok?
    ensures var k := SpaceEnd(s, j);
      RunEnd(s, j, CarriageReturnLineFeed, SuffixStops) == k && TrailingSpaceStart(s, j, k) == j
      && LeafIfAny(CitationSuffix, j, j) == []
  {
    var k := SpaceEnd(s, j);
    RunEndAt(s, j, k, CarriageReturnLineFeed, SuffixStops);
    TrailingSpaceStartAll(s, j, k);
  }

  /** When the attempt fails at a content code `j`, the suffix goes on past it. */
  lemma SuffixRunContinues(s: seq<int>, j: nat)
    requires j < |s| && SpacesBeforeStop(s, j).Fail? && s[j] > CarriageReturnLineFeed
    ensures var e := RunEnd(s, j, CarriageReturnLineFeed, SuffixStops);
      e == RunEnd(s, j + 1, CarriageReturnLineFeed, SuffixStops)
      && (e < |s| && s[e] > CarriageReturnLineFeed ==> j < TrailingSpaceStart(s, j, e) == TrailingSpaceStart(s, j + 1, e))
  {
    var e := RunEnd(s, j, CarriageReturnLineFeed, SuffixStops);
    SpacesUpToStop(s, j, j);
    if e < |s| && s[e] > CarriageReturnLineFeed {
      SpacesUpToStop(s, j, e);
      TrailingSpaceStartRaise(s, j, e);
    }
  }

  /** Spaces that run up to `;` or `]` make the attempt succeed. */
  lemma SpacesUpToStop(s: seq<int>, j: nat, e: nat)
    requires j <= e < |s|
    ensures (forall k :: j <= k < e ==> s[k] == Space) && s[e] in SuffixStops ==> SpacesBeforeStop(s, j).Ok?
  {
    if (forall k :: j <= k < e ==> s[k] == Space) && s[e] in SuffixStops {
      SpaceEndAt(s, j, e);
    }
  }

  lemma {:induction false} SpaceEndAt(s: seq<int>, i: nat, e: nat)
    requires i <= e < |s| && s[e] != Space
    requires forall k :: i <= k < e ==> s[k] == Space
    ensures SpaceEnd(s, i) == e
    decreases e - i
  {
    if i < e {
      SpaceEndAt(s, i + 1, e);
    }
  }

  // ----- tokenizeCitationItem -----

  /** `tokenizeCitationItem`: prefix, key, optional locator part and suffix,
      all inside one `pandocCitationItem` token, which ends where the suffix
      does, on the `;` or `]` after it. */
  function Item(s: seq<int>, i: nat): (r: Outcome<CitationKind>)
    requires i <= |s|
    ensures r.Ok? ==> i < r.end < |s| && s[r.end] in SuffixStops
    ensures r.Ok? ==> |r.events| >= 2 && r.events[0] == Enter(Token(CitationItem, i, r.end)) && r.events[|r.events| - 1] == Exit(Token(CitationItem, i, r.end))
    ensures var prefix := Prefix(s, i);
      r.Ok? <==> prefix.Ok? && Id(s, prefix.end).Ok? && Suffix(s, LocatorAfterId(s, Id(s, prefix.end).end).end).Ok?
    ensures r.Ok? ==> r.end == Suffix(s, LocatorAfterId(s, Id(s, Prefix(s, i).end).end).end).end
  {
    var prefix := Prefix(s, i);
    if prefix.Fail? then Fail
    else
      var id := Id(s, prefix.end);
      if id.Fail? then Fail
      else
        var locator := LocatorAfterId(s, id.end);
        var suffix := Suffix(s, locator.end);
        if suffix.Fail? then Fail
        else Ok(Span(CitationItem, i, suffix.end, prefix.events + id.events + locator.events + suffix.events), suffix.end)
  }

  // ----- tokenizeCitation -----

  /** `tokenizeCitationItem` as the item rule of the citation loop. */
  function ItemAt(s: seq<int>): (item: nat -> Outcome<CitationKind>)
    ensures Advances(s, item)
    ensures forall j: nat :: j <= |s| ==> item(j) == Item(s, j)
  {
    (j: nat) => if j <= |s| then Item(s, j) else Fail
  }

  /** The items of a bracketed citation from `i` on. */
  function Items(s: seq<int>, i: nat): (r: Outcome<CitationKind>)
    requires i <= |s|
    ensures r.Ok? ==> i < r.end < |s| && s[r.end] == RightSquareBracket
  {
    ItemList(s, i, ItemAt(s))
  }

  /** The items from `i` are accepted exactly when they form a chain of
      `;`-separated items ending on a `]`, and then with the chain's events. */
  lemma ItemsChain(s: seq<int>, i: nat)
    requires i <= |s|
    ensures Items(s, i).Ok? <==> exists starts: seq<nat>, e: nat :: Chain(s, i, ItemAt(s), starts, e)
    ensures forall starts: seq<nat>, e: nat :: Chain(s, i, ItemAt(s), starts, e) ==> Items(s, i) == Ok(ChainEvents(ItemAt(s), starts), e)
  {
    ItemListIff(s, i, ItemAt(s));
  }

  /** `tokenizeCitation` at `p`: `[`, the items, `]`. */
  function Citation(s: seq<int>, p: nat): (r: Outcome<CitationKind>)
    requires p <= |s|
    ensures r.Ok? <==> CodeAt(s, p) == Char(LeftSquareBracket) && Items(s, p + 1).Ok?
    ensures r.Ok? ==> p < r.end <= |s| && s[p] == LeftSquareBracket && s[r.end - 1] == RightSquareBracket
    ensures r.Ok? ==> |r.events| >= 2 && r.events[0] == Enter(Token(PandocCitation(false), p, r.end))
  {
    BracketedCitation(s, p, ItemAt(s))
  }

  /** A citation is accepted exactly when a `[` is followed by a chain of
      items ending on a `]`, and then its events are the brackets around the
      chain's events. */
  lemma CitationChain(s: seq<int>, p: nat)
    requires p <= |s|
    ensures Citation(s, p).Ok? <==> exists starts: seq<nat>, e: nat :: BracketedChain(s, p, ItemAt(s), starts, e)
    ensures forall starts: seq<nat>, e: nat :: BracketedChain(s, p, ItemAt(s), starts, e) ==>
      Citation(s, p) == Ok(Span(PandocCitation(false), p, e + 1, Leaf(CitationOpen, p, p + 1) + ChainEvents(ItemAt(s), starts) + Leaf(CitationClose, e, e + 1)), e + 1)
  {
    BracketedCitationChain(s, p, ItemAt(s));
  }

  // ----- tokenizeCitationInText -----

  /** `tokenizeCitationInText` at `p`: a flagged `pandocCitation` around one
      `pandocCitationItem` around the key and, when the attempt finds one,
      spaces and a `[…]` locator. Only the key can make it fail. */
  function CitationInText(s: seq<int>, p: nat): (r: Outcome<CitationKind>)
    requires p <= |s|
    ensures r.Ok? <==> Id(s, p).Ok?
    ensures r.Ok? ==> var e := if SpacedSquareLocator(s, Id(s, p).end).Ok? then SpacedSquareLocator(s, Id(s, p).end).end else Id(s, p).end;
      r == Ok(Span(PandocCitation(true), p, e, Span(CitationItem, p, e,
                 Id(s, p).events + (if SpacedSquareLocator(s, Id(s, p).end).Ok? then SpacedSquareLocator(s, Id(s, p).end).events else []))), e)
  {
    var id := Id(s, p);
    if id.Fail? then Fail
    else
      var locator := SpacedSquareLocator(s, id.end);
      var inner := if locator.Ok? then id.events + locator.events else id.events;
      var e := if locator.Ok? then locator.end else id.end;
      assert inner == id.events + (if locator.Ok? then locator.events else []);
      Ok(Span(PandocCitation(true), p, e, Span(CitationItem, p, e, inner)), e)
  }

  // ----- well-formedness -----

  lemma PrefixFits(s: seq<int>, i: nat)
    requires i <= |s|
    ensures Fits(Prefix(s, i), i, |s|)
  {
    var k := SpaceEnd(s, i);
    if Prefix(s, i).Ok? {
      var j := PrefixEnd(s, k, CarriageReturnLineFeed);
      WellFormedLeaf(CitationSpace, i, k);
      WellFormedLeaf(CitationPrefix, k, j);
      WellFormedConcat(LeafIfAny(CitationSpace, i, k), LeafIfAny(CitationPrefix, k, j), i, k, j);
    }
  }

  lemma LocatorAfterIdFits(s: seq<int>, i: nat)
    requires i <= |s|
    ensures Fits(LocatorAfterId(s, i), i, |s|)
  {
    var c := if CodeAt(s, i) == Char(Comma) then i + 1 else i;
    var k := SpaceEnd(s, c);
    var head := LeafIfAny(CitationComma, i, c) + LeafIfAny(CitationSpace, c, k);
    assert WellFormed(head, i, k) by {
      WellFormedLeaf(CitationComma, i, c);
      WellFormedLeaf(CitationSpace, c, k);
      WellFormedConcat(LeafIfAny(CitationComma, i, c), LeafIfAny(CitationSpace, c, k), i, c, k);
    }
    if CurlyLocator(s, k).Ok? {
      CurlyLocatorFits(s, k);
      WellFormedConcat(head, CurlyLocator(s, k).events, i, k, CurlyLocator(s, k).end);
    }
  }

  lemma SuffixFits(s: seq<int>, i: nat)
    requires i <= |s|
    ensures Fits(Suffix(s, i), i, |s|)
  {
    if Suffix(s, i).Ok? {
      var e := RunEnd(s, i, CarriageReturnLineFeed, SuffixStops);
      var m := TrailingSpaceStart(s, i, e);
      WellFormedLeaf(CitationSuffix, i, m);
      WellFormedLeaf(CitationSpace, m, e);
      WellFormedConcat(LeafIfAny(CitationSuffix, i, m), LeafIfAny(CitationSpace, m, e), i, m, e);
    }
  }

  lemma ItemFits(s: seq<int>, i: nat)
    requires i <= |s|
    ensures Fits(Item(s, i), i, |s|)
  {
    var r := Item(s, i);
    if r.Ok? {
      var prefix := Prefix(s, i);
      var id := Id(s, prefix.end);
      var locator := LocatorAfterId(s, id.end);
      var suffix := Suffix(s, locator.end);
      PrefixFits(s, i);
      IdFits(s, prefix.end);
      LocatorAfterIdFits(s, id.end);
      SuffixFits(s, locator.end);
      var a := prefix.events + id.events;
      WellFormedConcat(prefix.events, id.events, i, prefix.end, id.end);
      WellFormedConcat(a, locator.events, i, id.end, locator.end);
      WellFormedConcat(a + locator.events, suffix.events, i, locator.end, suffix.end);
      WellFormedSpan(CitationItem, i, suffix.end, a + locator.events + suffix.events);
    }
  }

  /** A bracketed citation's events nest properly and stay between its `[`
      and its `]`. */
  lemma CitationFits(s: seq<int>, p: nat)
    requires p <= |s|
    ensures Fits(Citation(s, p), p, |s|)
  {
    var item := ItemAt(s);
    forall j: nat | j <= |s|
      ensures Fits(item(j), j, |s|)
    {
      ItemFits(s, j);
    }
    BracketedCitationFits(s, p, item);
  }

  /** An author-in-text citation's events nest properly: the citation
      encloses the item, which encloses the key and the locator. */
  lemma CitationInTextFits(s: seq<int>, p: nat)
    requires p <= |s|
    ensures Fits(CitationInText(s, p), p, |s|)
  {
    var r := CitationInText(s, p);
    if r.Ok? {
      var id := Id(s, p);
      var locator := SpacedSquareLocator(s, id.end);
      IdFits(s, p);
      var inner := id.events + (if locator.Ok? then locator.events else []);
      assert WellFormed(inner, p, r.end) by {
        if locator.Ok? {
          SpacedSquareLocatorFits(s, id.end);
          WellFormedConcat(id.events, locator.events, p, id.end, locator.end);
        } else {
          assert inner == id.events;
        }
      }
      WellFormedSpan(CitationItem, p, r.end, inner);
      WellFormedSpan(PandocCitation(true), p, r.end, Span(CitationItem, p, r.end, inner));
    }
  }
}

=== FILE: citation_legacy.dfy ===
/** The older revision of the Pandoc citation grammar, the one
    `pandocCitationSyntax` registers (remark-pandoc-citation/src/syntax/index.ts).
    Against the newer revision: the prefix does not skip leading spaces and
    breaks on every code at or below zero, a comma and spaces after the key are
    rolled back when no `{…}` locator follows, the suffix keeps its trailing
    spaces, and the author-in-text form has neither an item token nor the
    in-text flag. */
module CitationLegacy {
  import opened Wrappers
  import opened Micromark
  import opened CitationCommon
  import opened CitationId
  import opened CitationLocator
  import opened CitationPrefix
  import CitationItem

  // ----- tokenizeSuffix -----

  /** `finish`: inside a suffix that began at `start`. */
  function FinishSuffix(s: seq<int>, start: nat, j: nat): (r: Outcome<CitationKind>)
    requires start < j <= |s|
    ensures var e := RunEnd(s, j, 0, SuffixStops);
      (r.Ok? <==> e < |s| && s[e] in SuffixStops)
      && (r.Ok? ==> r == Ok(Leaf(CitationSuffix, start, e), e))
    decreases |s| - j
  {
    var c := CodeAt(s, j);
    if c == Eof || c.value <= 0 then Fail
    else if c.value in SuffixStops then Ok(Leaf(CitationSuffix, start, j), j)
    else FinishSuffix(s, start, j + 1)
  }

  /** `tokenizeSuffix`: every code up to the next `;` or `]`, trailing spaces
      included; the end of input or a code at or below zero first fails. An
      empty suffix gets no token. */
  function Suffix(s: seq<int>, i: nat): (r: Outcome<CitationKind>)
    requires i <= |s|
    ensures var e := RunEnd(s, i, 0, SuffixStops);
      (r.Ok? <==> e < |s| && s[e] in SuffixStops)
      && (r.Ok? ==> r == Ok(LeafIfAny(CitationSuffix, i, e), e))
  {
    var c := CodeAt(s, i);
    if c == Eof || c.value <= 0 then Fail
    else if c.value in SuffixStops then Ok([], i)
    else FinishSuffix(s, i, i + 1)
  }

  // ----- optionalLocator -----

  /** Where the spaces after the key begin: after the comma, if there is one. */
  function AfterComma(s: seq<int>, i: nat): (c: nat)
    requires i <= |s|
    ensures i <= c <= |s|
    ensures c == i + 1 <==> CodeAt(s, i) == Char(Comma)
  {
    if CodeAt(s, i) == Char(Comma) then i + 1 else i
  }

  /** The second alternative of the attempt: an optional `,`, spaces and a
      `{…}` locator, which only succeeds with the locator. */
  function CommaCurlyLocator(s: seq<int>, i: nat): (r: Outcome<CitationKind>)
    requires i <= |s|
    ensures var c := AfterComma(s, i); var k := SpaceEnd(s, c);
      (r.Ok? <==> CurlyLocator(s, k).Ok?)
      && (r.Ok? ==> r == Ok(LeafIfAny(CitationComma, i, c) + LeafIfAny(CitationSpace, c, k) + CurlyLocator(s, k).events, CurlyLocator(s, k).end))
  {
    var comma := if CodeAt(s, i) == Char(Comma) then Leaf(CitationComma, i, i + 1) else [];
    var w := Whitespaces(s, AfterComma(s, i));
    Prepend(comma + w.events, CurlyLocator(s, w.end))
  }

  /** `optionalLocator`: the attempt over the unbracketed locator and the
      comma–spaces–`{…}` alternative. When neither succeeds it leaves nothing,
      so the comma and the spaces go back to the suffix. */
  function OptionalLocator(s: seq<int>, i: nat): (r: Outcome<CitationKind>)
    requires i <= |s|
    ensures var c := AfterComma(s, i); var k := SpaceEnd(s, c);
      (r.Ok? <==> CurlyLocator(s, k).Ok?)
      && (r.Ok? ==> r.end == CurlyLocator(s, k).end && i < r.end <= |s|)
      && (r.Ok? ==> r.events == LeafIfAny(CitationComma, i, c) + LeafIfAny(CitationSpace, c, k) + CurlyLocator(s, k).events)
  {
    FirstOk(UnbracketedLocator(s, i), CommaCurlyLocator(s, i))
  }

  /** Where the suffix of an item begins once its key ends at `i`: after the
      `{…}` locator when the attempt finds one, else right after the key. */
  function AfterLocator(s: seq<int>, i: nat): (a: nat)
    requires i <= |s|
    ensures var k := SpaceEnd(s, AfterComma(s, i));
      (CurlyLocator(s, k).Ok? ==> a == CurlyLocator(s, k).end)
      && (CurlyLocator(s, k).Fail? ==> a == i)
    ensures i <= a <= |s|
  {
    var locator := OptionalLocator(s, i);
    if locator.Ok? then locator.end else i
  }

  // ----- tokenizeCitationItem -----

  /** `tokenizeCitationItem`: prefix (no space skipping, floor zero), key,
      optional locator and suffix inside one `pandocCitationItem` token; both
      outcomes of the locator attempt go on to the suffix. */
  function Item(s: seq<int>, i: nat): (r: Outcome<CitationKind>)
    requires i <= |s|
    ensures r.Ok? ==> i < r.end < |s| && s[r.end] in SuffixStops
    ensures r.Ok? ==> |r.events| >= 2 && r.events[0] == Enter(Token(CitationItem, i, r.end)) && r.events[|r.events| - 1] == Exit(Token(CitationItem, i, r.end))
    ensures var prefix := EnterPrefix(s, 0, i);
      r.Ok? <==> prefix.Ok? && Id(s, prefix.end).Ok? && Suffix(s, AfterLocator(s, Id(s, prefix.end).end)).Ok?
    ensures r.Ok? ==> r.end == Suffix(s, AfterLocator(s, Id(s, EnterPrefix(s, 0, i).end).end)).end
  {
    var prefix := EnterPrefix(s, 0, i);
    if prefix.Fail? then Fail
    else
      var id := Id(s, prefix.end);
      if id.Fail? then Fail
      else
        var locator := OptionalLocator(s, id.end);
        var after := AfterLocator(s, id.end);
        var suffix := Suffix(s, after);
        if suffix.Fail? then Fail
        else Ok(Span(CitationItem, i, suffix.end, prefix.events + id.events + (if locator.Ok? then locator.events else []) + suffix.events), suffix.end)
  }

  // ----- tokenizeCitation -----

  /** The older `tokenizeCitationItem` as the item rule of the citation loop;
      the twin of `CitationItem.ItemAt` over the older item rule. */
  function ItemAt(s: seq<int>): (item: nat -> Outcome<CitationKind>)
    ensures Advances(s, item)
    ensures forall j: nat :: j <= |s| ==> item(j) == Item(s, j)
  {
    (j: nat) => if j <= |s| then Item(s, j) else Fail
  }

  /** `tokenizeCitation` of the older revision: the same loop as the newer
      one over the older item rule. */
  function Citation(s: seq<int>, p: nat): (r: Outcome<CitationKind>)
    requires p <= |s|
    ensures r.Ok? <==> CodeAt(s, p) == Char(LeftSquareBracket) && ItemList(s, p + 1, ItemAt(s)).Ok?
    ensures r.Ok? ==> p < r.end <= |s| && s[p] == LeftSquareBracket && s[r.end - 1] == RightSquareBracket
    ensures r.Ok? ==> |r.events| >= 2 && r.events[0] == Enter(Token(PandocCitation(false), p, r.end))
  {
    BracketedCitation(s, p, ItemAt(s))
  }

  /** An older citation is recognised exactly on `[` followed by a chain of
      items ending on a `]`, and then its events are the brackets around the
      chain's events. */
  lemma CitationChain(s: seq<int>, p: nat)
    requires p <= |s|
    ensures Citation(s, p).Ok? <==> exists starts: seq<nat>, e: nat :: BracketedChain(s, p, ItemAt(s), starts, e)
    ensures forall starts: seq<nat>, e: nat :: BracketedChain(s, p, ItemAt(s), starts, e) ==>
      Citation(s, p) == Ok(Span(PandocCitation(false), p, e + 1, Leaf(CitationOpen, p, p + 1) + ChainEvents(ItemAt(s), starts) + Leaf(CitationClose, e, e + 1)), e + 1)
  {
    BracketedCitationChain(s, p, ItemAt(s));
  }

  // ----- tokenizeAuthorInTextCitation -----

  /** `tokenizeAuthorInTextCitation` at `p`: a `pandocCitation` token without
      the in-text flag around the key and, when the attempt finds one, spaces
      and a `[…]` locator; there is no item token. Only the key can make it
      fail. */
  function AuthorInText(s: seq<int>, p: nat): (r: Outcome<CitationKind>)
    requires p <= |s|
    ensures r.Ok? <==> Id(s, p).Ok?
    ensures r.Ok? ==> var locator := SpacedSquareLocator(s, Id(s, p).end);
      var e := if locator.Ok? then locator.end else Id(s, p).end;
      r == Ok(Span(PandocCitation(false), p, e, Id(s, p).events + (if locator.Ok? then locator.events else [])), e)
  {
    var id := Id(s, p);
    if id.Fail? then Fail
    else
      var locator := SpacedSquareLocator(s, id.end);
      if locator.Ok? then Ok(Span(PandocCitation(false), p, locator.end, id.events + locator.events), locator.end)
      else
        assert id.events + [] == id.events;
        Ok(Span(PandocCitation(false), p, id.end, id.events), id.end)
  }

  // ----- pandocCitationSyntax -----

  /** The text constructs of the extension, by their trigger codes. */
  datatype Construct = AuthorInTextConstruct | CitationConstruct

  /** The `text` map of `pandocCitationSyntax`: `-` and `@` start an
      author-in-text citation, `[` a bracketed one, and no other code is a
      trigger. */
  function TriggerOf(c: Code): (r: Option<Construct>)
    ensures r == Some(AuthorInTextConstruct) <==> c == Char(Dash) || c == Char(AtSign)
    ensures r == Some(CitationConstruct) <==> c == Char(LeftSquareBracket)
  {
    if c == Char(Dash) || c == Char(AtSign) then Some(AuthorInTextConstruct)
    else if c == Char(LeftSquareBracket) then Some(CitationConstruct)
    else None
  }

  /** What the registered extension recognises at `p`. */
  function Recognise(s: seq<int>, p: nat): (r: Outcome<CitationKind>)
    requires p <= |s|
    ensures r.Ok? ==> p < |s| && s[p] in {Dash, AtSign, LeftSquareBracket} && p < r.end <= |s|
    ensures r.Ok? ==> |r.events| >= 2 && r.events[0] == Enter(Token(PandocCitation(false), p, r.end))
    ensures CodeAt(s, p) == Char(Dash) || CodeAt(s, p) == Char(AtSign) ==> r == AuthorInText(s, p)
    ensures CodeAt(s, p) == Char(LeftSquareBracket) ==> r == Citation(s, p)
  {
    match TriggerOf(CodeAt(s, p))
    case None => Fail
    case Some(AuthorInTextConstruct) =>
      var r := AuthorInText(s, p);
      assert r.Ok? ==> Id(s, p).Ok? && StartsIdPrefix(s, p);
      r
    case Some(CitationConstruct) => Citation(s, p)
  }

  /** The same triggers dispatched to the newer rules of citationInText.ts
      and citation.ts, which the extension exports but does not register:
      with them an author-in-text citation is flagged and carries its item. */
  function RecogniseNewer(s: seq<int>, p: nat): (r: Outcome<CitationKind>)
    requires p <= |s|
    ensures r.Ok? ==> p < |s| && s[p] in {Dash, AtSign, LeftSquareBracket} && p < r.end <= |s|
    ensures r.Ok? ==> |r.events| >= 2 && r.events[0] == Enter(Token(PandocCitation(s[p] != LeftSquareBracket), p, r.end))
    ensures CodeAt(s, p) == Char(Dash) || CodeAt(s, p) == Char(AtSign) ==> r == CitationItem.CitationInText(s, p)
    ensures CodeAt(s, p) == Char(LeftSquareBracket) ==> r == CitationItem.Citation(s, p)
  {
    match TriggerOf(CodeAt(s, p))
    case None => Fail
    case Some(AuthorInTextConstruct) =>
      var r := CitationItem.CitationInText(s, p);
      assert r.Ok? ==> Id(s, p).Ok? && StartsIdPrefix(s, p);
      r
    case Some(CitationConstruct) => CitationItem.Citation(s, p)
  }

  // ----- properties -----

  /** The registered grammar and the newer author-in-text rule accept the
      same inputs and end at the same place; the newer one only adds the item
      token and the in-text flag around the same inner events. */
  lemma AuthorInTextAgrees(s: seq<int>, p: nat)
    requires p <= |s|
    ensures AuthorInText(s, p).Ok? <==> CitationItem.CitationInText(s, p).Ok?
    ensures AuthorInText(s, p).Ok? ==>
      var r := AuthorInText(s, p);
      var inner := r.events[1..|r.events| - 1];
      r.end == CitationItem.CitationInText(s, p).end
      && r.events == Span(PandocCitation(false), p, r.end, inner)
      && CitationItem.CitationInText(s, p).events == Span(PandocCitation(true), p, r.end, Span(CitationItem, p, r.end, inner))
  {
  }

  lemma SuffixFits(s: seq<int>, i: nat)
    requires i <= |s|
    ensures Fits(Suffix(s, i), i, |s|)
  {
    WellFormedLeaf(CitationSuffix, i, RunEnd(s, i, 0, SuffixStops));
  }

  lemma OptionalLocatorFits(s: seq<int>, i: nat)
    requires i <= |s|
    ensures Fits(OptionalLocator(s, i), i, |s|)
  {
    var c := AfterComma(s, i);
    var k := SpaceEnd(s, c);
    var locator := CurlyLocator(s, k);
    if locator.Ok? {
      var head := LeafIfAny(CitationComma, i, c) + LeafIfAny(CitationSpace, c, k);
      assert WellFormed(head, i, k) by {
        WellFormedLeaf(CitationComma, i, c);
        WellFormedLeaf(CitationSpace, c, k);
        WellFormedConcat(LeafIfAny(CitationComma, i, c), LeafIfAny(CitationSpace, c, k), i, c, k);
      }
      CurlyLocatorFits(s, k);
      WellFormedConcat(head, locator.events, i, k, locator.end);
    }
  }

  lemma ItemFits(s: seq<int>, i: nat)
    requires i <= |s|
    ensures Fits(Item(s, i), i, |s|)
  {
    var r := Item(s, i);
    if r.Ok? {
      var prefix := EnterPrefix(s, 0, i);
      var id := Id(s, prefix.end);
      var locator := OptionalLocator(s, id.end);
      var after := if locator.Ok? then locator.end else id.end;
      var suffix := Suffix(s, after);
      EnterPrefixFits(s, 0, i);
      IdFits(s, prefix.end);
      SuffixFits(s, after);
      var a := prefix.events + id.events;
      WellFormedConcat(prefix.events, id.events, i, prefix.end, id.end);
      var l := if locator.Ok? then locator.events else [];
      assert WellFormed(a + l, i, after) by {
        if locator.Ok? {
          OptionalLocatorFits(s, id.end);
          WellFormedConcat(a, l, i, id.end, after);
        } else {
          assert a + l == a;
        }
      }
      WellFormedConcat(a + l, suffix.events, i, after, suffix.end);
      WellFormedSpan(CitationItem, i, suffix.end, a + l + suffix.events);
    }
  }

  lemma CitationFits(s: seq<int>, p: nat)
    requires p <= |s|
    ensures Fits(Citation(s, p), p, |s|)
  {
    var item := ItemAt(s);
    forall j: nat | j <= |s|
      ensures Fits(item(j), j, |s|)
    {
      ItemFits(s, j);
    }
    BracketedCitationFits(s, p, item);
  }

  lemma AuthorInTextFits(s: seq<int>, p: nat)
    requires p <= |s|
    ensures Fits(AuthorInText(s, p), p, |s|)
  {
    var r := AuthorInText(s, p);
    if r.Ok? {
      var id := Id(s, p);
      var locator := SpacedSquareLocator(s, id.end);
      IdFits(s, p);
      var inner := id.events + (if locator.Ok? then locator.events else []);
      assert WellFormed(inner, p, r.end) by {
        if locator.Ok? {
          SpacedSquareLocatorFits(s, id.end);
          WellFormedConcat(id.events, locator.events, p, id.end, locator.end);
        } else {
          assert inner == id.events;
        }
      }
      WellFormedSpan(PandocCitation(false), p, r.end, inner);
    }
  }

  /** Whatever the registered extension recognises nests properly. */
  lemma RecogniseNewerFits(s: seq<int>, p: nat)
    requires p <= |s|
    ensures Fits(RecogniseNewer(s, p), p, |s|)
  {
    CitationItem.CitationInTextFits(s, p);
    CitationItem.CitationFits(s, p);
  }

  lemma RecogniseFits(s: seq<int>, p: nat)
    requires p <= |s|
    ensures Fits(Recognise(s, p), p, |s|)
  {
    AuthorInTextFits(s, p);
    CitationFits(s, p);
  }
}

=== FILE: citation_locator.dfy ===
/** The locator of a citation item (remark-pandoc-citation/src/syntax/locator.ts):
    `{…}` in a bracketed citation, `[…]` after an author-in-text key, and an
    unbracketed form that is not implemented and always fails. */
module CitationLocator {
  import opened Micromark
  import opened CitationCommon

  /** `tokenizeLocatorWithoutBrackets`: a stub that fails at once, without
      consuming anything. */
  function UnbracketedLocator(s: seq<int>, p: nat): (r: Outcome<CitationKind>)
    ensures r.Fail?
  {
    Fail
  }

  /** What may not appear inside `{…}`: the end of input, any code at or below
      zero (line endings, tabs, virtual spaces), `;` and `]`. */
  const CurlyStops: set<int> := {Semicolon, RightSquareBracket, RightCurlyBrace}

  /** What may not appear inside `[…]`: only the end of input and codes at or
      below zero; `;` is content. */
  const SquareStops: set<int> := {RightSquareBracket}

  /** The events of an opening bracket at `q`, the locator over [q + 1, j) (no
      token when it is empty) and the closing bracket at `j`. */
  function LocatorEvents(q: nat, j: nat): seq<Event<CitationKind>> {
    Leaf(CitationOpen, q, q + 1) + LeafIfAny(CitationLocator, q + 1, j) + Leaf(CitationClose, j, j + 1)
  }

  /** `close` of either locator. */
  function CloseLocator(s: seq<int>, i: nat, closing: int): (r: Outcome<CitationKind>)
    ensures r.Ok? <==> CodeAt(s, i) == Char(closing)
    ensures r.Ok? ==> r == Ok(Leaf(CitationClose, i, i + 1), i + 1)
  {
    if CodeAt(s, i) != Char(closing) then Fail
    else Ok(Leaf(CitationClose, i, i + 1), i + 1)
  }

  /** `finish` of either locator, inside a locator that began at `start`;
      `stops` holds the closing bracket and the codes that break it. */
  function FinishLocator(s: seq<int>, start: nat, i: nat, closing: int, stops: set<int>): (r: Outcome<CitationKind>)
    requires start < i <= |s| && closing in stops && closing > 0
    ensures var j := RunEnd(s, i, 0, stops);
      (r.Ok? <==> j < |s| && s[j] == closing)
      && (r.Ok? ==> r == Ok(Leaf(CitationLocator, start, j) + Leaf(CitationClose, j, j + 1), j + 1))
    decreases |s| - i
  {
    var c := CodeAt(s, i);
    if c == Eof || c.value <= 0 || (c.value in stops && c.value != closing) then Fail
    else if c == Char(closing) then Prepend(Leaf(CitationLocator, start, i), CloseLocator(s, i, closing))
    else FinishLocator(s, start, i + 1, closing, stops)
  }

  /** `start` of either locator, just after the opening bracket; an empty
      locator is allowed. */
  function StartLocator(s: seq<int>, i: nat, closing: int, stops: set<int>): (r: Outcome<CitationKind>)
    requires i <= |s| && closing in stops && closing > 0
    ensures var j := RunEnd(s, i, 0, stops);
      (r.Ok? <==> j < |s| && s[j] == closing)
      && (r.Ok? ==> r == Ok(LeafIfAny(CitationLocator, i, j) + Leaf(CitationClose, j, j + 1), j + 1))
  {
    var c := CodeAt(s, i);
    if c == Eof || c.value <= 0 || (c.value in stops && c.value != closing) then Fail
    else if c == Char(closing) then CloseLocator(s, i, closing)
    else FinishLocator(s, i, i + 1, closing, stops)
  }

  /** `tokenizeLocatorWithCurlyBrackets` at `q`: `{`, the codes up to the
      first `}`, `}`; a `;`, a `]`, the end of input or a code at or below zero
      before that `}` fails. */
  function CurlyLocator(s: seq<int>, q: nat): (r: Outcome<CitationKind>)
    requires q <= |s|
    ensures r.Ok? <==> (q < |s| && CodeAt(s, q) == Char(LeftCurlyBrace)
                        && var j := RunEnd(s, q + 1, 0, CurlyStops); j < |s| && s[j] == RightCurlyBrace)
    ensures r.Ok? ==> q < |s| && var j := RunEnd(s, q + 1, 0, CurlyStops); r == Ok(LocatorEvents(q, j), j + 1)
  {
    if CodeAt(s, q) != Char(LeftCurlyBrace) then Fail
    else
      var r := Prepend(Leaf(CitationOpen, q, q + 1), StartLocator(s, q + 1, RightCurlyBrace, CurlyStops));
      assert r.Ok? ==> r.events == LocatorEvents(q, RunEnd(s, q + 1, 0, CurlyStops));
      r
  }

  /** `tokenizeLocatorWithSquareBrackets` at `q`: `[`, the codes up to the
      first `]`, `]`; only the end of input or a code at or below zero before
      that `]` fails. */
  function SquareLocator(s: seq<int>, q: nat): (r: Outcome<CitationKind>)
    requires q <= |s|
    ensures r.Ok? <==> (q < |s| && CodeAt(s, q) == Char(LeftSquareBracket)
                        && var j := RunEnd(s, q + 1, 0, SquareStops); j < |s| && s[j] == RightSquareBracket)
    ensures r.Ok? ==> q < |s| && var j := RunEnd(s, q + 1, 0, SquareStops); r == Ok(LocatorEvents(q, j), j + 1)
  {
    if CodeAt(s, q) != Char(LeftSquareBracket) then Fail
    else
      var r := Prepend(Leaf(CitationOpen, q, q + 1), StartLocator(s, q + 1, RightSquareBracket, SquareStops));
      assert r.Ok? ==> r.events == LocatorEvents(q, RunEnd(s, q + 1, 0, SquareStops));
      r
  }

  /** The locator after an author-in-text key: spaces, then a `[…]` locator,
      attempted as one, so that without a locator the spaces are not taken
      either. */
  function SpacedSquareLocator(s: seq<int>, i: nat): (r: Outcome<CitationKind>)
    requires i <= |s|
    ensures var k := SpaceEnd(s, i);
      (r.Ok? <==> SquareLocator(s, k).Ok?)
      && (r.Ok? ==> r == Ok(LeafIfAny(CitationSpace, i, k) + SquareLocator(s, k).events, SquareLocator(s, k).end))
  {
    var w := Whitespaces(s, i);
    Prepend(w.events, SquareLocator(s, w.end))
  }

  lemma LocatorEventsFit(q: nat, j: nat)
    requires q < j
    ensures WellFormed(LocatorEvents(q, j), q, j + 1)
  {
    var a, b, c := Leaf(CitationOpen, q, q + 1), LeafIfAny(CitationLocator, q + 1, j), Leaf(CitationClose, j, j + 1);
    assert WellFormed(a + b, q, j) by {
      WellFormedLeaf(CitationOpen, q, q + 1);
      WellFormedLeaf(CitationLocator, q + 1, j);
      WellFormedConcat(a, b, q, q + 1, j);
    }
    WellFormedLeaf(CitationClose, j, j + 1);
    WellFormedConcat(a + b, c, q, j, j + 1);
  }

  lemma CurlyLocatorFits(s: seq<int>, q: nat)
    requires q <= |s|
    ensures Fits(CurlyLocator(s, q), q, |s|)
  {
    if CurlyLocator(s, q).Ok? {
      LocatorEventsFit(q, RunEnd(s, q + 1, 0, CurlyStops));
    }
  }

  lemma SquareLocatorFits(s: seq<int>, q: nat)
    requires q <= |s|
    ensures Fits(SquareLocator(s, q), q, |s|)
  {
    if SquareLocator(s, q).Ok? {
      LocatorEventsFit(q, RunEnd(s, q + 1, 0, SquareStops));
    }
  }

  lemma SpacedSquareLocatorFits(s: seq<int>, i: nat)
    requires i <= |s|
    ensures Fits(SpacedSquareLocator(s, i), i, |s|)
  {
    var k := SpaceEnd(s, i);
    if SquareLocator(s, k).Ok? {
      SquareLocatorFits(s, k);
      WellFormedLeaf(CitationSpace, i, k);
      WellFormedConcat(LeafIfAny(CitationSpace, i, k), SquareLocator(s, k).events, i, k, SquareLocator(s, k).end);
    }
  }
}

=== FILE: citation_prefix.dfy ===
/** The prefix of a citation item, the free text in front of `@` or `-@`.
    Both revisions of the item grammar (remark-pandoc-citation/src/syntax/citation.ts
    and remark-pandoc-citation/src/syntax/index.ts) scan it with the same loop:
    before each code a `check` looks for an id prefix, and the loop stops at the
    first one; they differ only in which codes break the prefix. */
module CitationPrefix {
  import opened Micromark
  import opened CitationCommon
  import opened CitationId

  /** `isBreak` of a prefix: the end of input, a code at or below `floor`, `;`
      or `]`. The newer revision uses the line-ending floor (so tabs are
      content), the older one zero. */
  predicate IsPrefixBreak(c: Code, floor: int) {
    c == Eof || c.value <= floor || c.value == Semicolon || c.value == RightSquareBracket
  }

  /** The first position from `k` on where an id prefix starts or the prefix breaks. */
  function PrefixEnd(s: seq<int>, k: nat, floor: int): (j: nat)
    requires k <= |s|
    ensures k <= j <= |s|
    ensures forall m :: k <= m < j ==> !StartsIdPrefix(s, m) && !IsPrefixBreak(Char(s[m]), floor)
    ensures j < |s| ==> StartsIdPrefix(s, j) || IsPrefixBreak(Char(s[j]), floor)
    decreases |s| - k
  {
    if k == |s| || StartsIdPrefix(s, k) || IsPrefixBreak(Char(s[k]), floor) then k
    else PrefixEnd(s, k + 1, floor)
  }

  /** The state after the first prefix code (`exit` in citation.ts, `finish`
      in index.ts): a found id prefix closes the prefix token without being
      consumed. */
  function ExitPrefix(s: seq<int>, floor: int, start: nat, j: nat): (r: Outcome<CitationKind>)
    requires start < j <= |s|
    ensures var e := PrefixEnd(s, j, floor);
      (r.Ok? <==> StartsIdPrefix(s, e))
      && (r.Ok? ==> r == Ok(Leaf(CitationPrefix, start, e), e))
    decreases |s| - j
  {
    if IdPrefix(s, j).Ok? then Ok(Leaf(CitationPrefix, start, j), j)
    else if IsPrefixBreak(CodeAt(s, j), floor) then Fail
    else ExitPrefix(s, floor, start, j + 1)
  }

  /** The first state of the prefix (`enter` in citation.ts, `start` in
      index.ts): an id prefix right away means no prefix token. */
  function EnterPrefix(s: seq<int>, floor: int, k: nat): (r: Outcome<CitationKind>)
    requires k <= |s|
    ensures var e := PrefixEnd(s, k, floor);
      (r.Ok? <==> StartsIdPrefix(s, e))
      && (r.Ok? ==> r == Ok(LeafIfAny(CitationPrefix, k, e), e))
  {
    if IdPrefix(s, k).Ok? then Ok([], k)
    else if IsPrefixBreak(CodeAt(s, k), floor) then Fail
    else ExitPrefix(s, floor, k, k + 1)
  }

  lemma EnterPrefixFits(s: seq<int>, floor: int, k: nat)
    requires k <= |s|
    ensures Fits(EnterPrefix(s, floor, k), k, |s|)
  {
    WellFormedLeaf(CitationPrefix, k, PrefixEnd(s, k, floor));
  }
}

=== FILE: citation_trees.dfy ===
/** Whole citations of both grammar revisions, compiled into trees by the
    handlers of remark-pandoc-citation/src/fromMarkdown/index.ts: every item
    a tokenizer emits is one item token around field tokens, so a bracketed
    citation becomes one citation node with one item node per item. */
module CitationTrees {
  import opened Wrappers
  import opened Micromark
  import opened CitationCommon
  import opened CitationId
  import opened CitationLocator
  import opened CitationPrefix
  import CitationItem
  import CitationLegacy
  import opened CitationFromMarkdown

  /** An item token around field events has the item shape. */
  lemma ShapedSpan(i: nat, e: nat, inner: seq<Event<CitationKind>>)
    requires FieldEvents(inner)
    ensures Shaped(Ok(Span(CitationKind.CitationItem, i, e, inner), e), i)
  {
    var evs := Span(CitationKind.CitationItem, i, e, inner);
    assert evs[1..|evs| - 1] == inner;
  }

  lemma FieldEvents4(a: seq<Event<CitationKind>>, b: seq<Event<CitationKind>>, c: seq<Event<CitationKind>>, d: seq<Event<CitationKind>>)
    requires FieldEvents(a) && FieldEvents(b) && FieldEvents(c) && FieldEvents(d)
    ensures FieldEvents(a + b + c + d)
  {
    FieldEventsConcat(a, b);
    FieldEventsConcat(a + b, c);
    FieldEventsConcat(a + b + c, d);
  }

  lemma CurlyLocatorFieldEvents(s: seq<int>, k: nat)
    requires k <= |s| && CurlyLocator(s, k).Ok?
    ensures FieldEvents(CurlyLocator(s, k).events)
  {
    LocatorEventsFieldEvents(k, RunEnd(s, k + 1, 0, CurlyStops));
  }

  // ----- the newer item -----

  lemma PrefixFieldEvents(s: seq<int>, i: nat)
    requires i <= |s| && CitationItem.Prefix(s, i).Ok?
    ensures FieldEvents(CitationItem.Prefix(s, i).events)
  {
    var k := SpaceEnd(s, i);
    var j := PrefixEnd(s, k, CarriageReturnLineFeed);
    LeafFieldEvents(CitationSpace, i, k);
    LeafFieldEvents(CitationKind.CitationPrefix, k, j);
    FieldEventsConcat(LeafIfAny(CitationSpace, i, k), LeafIfAny(CitationKind.CitationPrefix, k, j));
  }

  lemma LocatorAfterIdFieldEvents(s: seq<int>, i: nat)
    requires i <= |s|
    ensures FieldEvents(CitationItem.LocatorAfterId(s, i).events)
  {
    var c := if CodeAt(s, i) == Char(Comma) then i + 1 else i;
    var k := SpaceEnd(s, c);
    var head := LeafIfAny(CitationComma, i, c) + LeafIfAny(CitationSpace, c, k);
    LeafFieldEvents(CitationComma, i, c);
    LeafFieldEvents(CitationSpace, c, k);
    FieldEventsConcat(LeafIfAny(CitationComma, i, c), LeafIfAny(CitationSpace, c, k));
    if CurlyLocator(s, k).Ok? {
      CurlyLocatorFieldEvents(s, k);
      FieldEventsConcat(head, CurlyLocator(s, k).events);
    }
  }

  lemma SuffixFieldEvents(s: seq<int>, i: nat)
    requires i <= |s| && CitationItem.Suffix(s, i).Ok?
    ensures FieldEvents(CitationItem.Suffix(s, i).events)
  {
    var e := RunEnd(s, i, CarriageReturnLineFeed, SuffixStops);
    var m := CitationItem.TrailingSpaceStart(s, i, e);
    LeafFieldEvents(CitationSuffix, i, m);
    LeafFieldEvents(CitationSpace, m, e);
    FieldEventsConcat(LeafIfAny(CitationSuffix, i, m), LeafIfAny(CitationSpace, m, e));
  }

  /** Every item of the newer grammar is one item token around field tokens. */
  lemma ItemShaped(s: seq<int>, i: nat)
    requires i <= |s|
    ensures Shaped(CitationItem.Item(s, i), i)
  {
    var r := CitationItem.Item(s, i);
    if r.Ok? {
      var prefix := CitationItem.Prefix(s, i);
      var id := Id(s, prefix.end);
      var locator := CitationItem.LocatorAfterId(s, id.end);
      var suffix := CitationItem.Suffix(s, locator.end);
      PrefixFieldEvents(s, i);
      IdFieldEvents(s, prefix.end);
      LocatorAfterIdFieldEvents(s, id.end);
      SuffixFieldEvents(s, locator.end);
      FieldEvents4(prefix.events, id.events, locator.events, suffix.events);
      ShapedSpan(i, suffix.end, prefix.events + id.events + locator.events + suffix.events);
    }
  }

  lemma ItemsShaped(s: seq<int>)
    ensures forall j: nat :: j <= |s| ==> Shaped(CitationItem.ItemAt(s)(j), j)
  {
    forall j: nat | j <= |s|
      ensures Shaped(CitationItem.ItemAt(s)(j), j)
    {
      ItemShaped(s, j);
    }
  }

  /** A bracketed citation of the newer grammar becomes one citation node
      without the in-text flag, with one item node per item, in order. */
  lemma CitationTree(s: seq<int>, p: nat, cs: seq<Node>)
    requires p <= |s| && CitationItem.Citation(s, p).Ok?
    ensures var item := CitationItem.ItemAt(s);
      Compile(s, CitationItem.Citation(s, p).events, [Host(cs)])
      == [Host(cs + [CitationNode(false, ItemNodes(s, p + 1, item))])]
  {
    var item := CitationItem.ItemAt(s);
    assert CitationItem.Citation(s, p) == BracketedCitation(s, p, item);
    ItemsShaped(s);
    CompileBracketed(s, p, item, cs);
  }

  // ----- the registered item -----

  lemma LegacyPrefixFieldEvents(s: seq<int>, i: nat)
    requires i <= |s| && EnterPrefix(s, 0, i).Ok?
    ensures FieldEvents(EnterPrefix(s, 0, i).events)
  {
    LeafFieldEvents(CitationKind.CitationPrefix, i, PrefixEnd(s, i, 0));
  }

  lemma OptionalLocatorFieldEvents(s: seq<int>, i: nat)
    requires i <= |s| && CitationLegacy.OptionalLocator(s, i).Ok?
    ensures FieldEvents(CitationLegacy.OptionalLocator(s, i).events)
  {
    var c := CitationLegacy.AfterComma(s, i);
    var k := SpaceEnd(s, c);
    assert CitationLegacy.OptionalLocator(s, i) == CitationLegacy.CommaCurlyLocator(s, i);
    LeafFieldEvents(CitationComma, i, c);
    LeafFieldEvents(CitationSpace, c, k);
    CurlyLocatorFieldEvents(s, k);
    FieldEventsConcat(LeafIfAny(CitationComma, i, c), LeafIfAny(CitationSpace, c, k));
    FieldEventsConcat(LeafIfAny(CitationComma, i, c) + LeafIfAny(CitationSpace, c, k), CurlyLocator(s, k).events);
  }

  lemma LegacySuffixFieldEvents(s: seq<int>, i: nat)
    requires i <= |s| && CitationLegacy.Suffix(s, i).Ok?
    ensures FieldEvents(CitationLegacy.Suffix(s, i).events)
  {
    LeafFieldEvents(CitationSuffix, i, RunEnd(s, i, 0, SuffixStops));
  }

  /** Every item of the registered grammar is one item token around field
      tokens. */
  lemma LegacyItemShaped(s: seq<int>, i: nat)
    requires i <= |s|
    ensures Shaped(CitationLegacy.Item(s, i), i)
  {
    var r := CitationLegacy.Item(s, i);
    if r.Ok? {
      var prefix := EnterPrefix(s, 0, i);
      var id := Id(s, prefix.end);
      var locator := CitationLegacy.OptionalLocator(s, id.end);
      var after := if locator.Ok? then locator.end else id.end;
      var suffix := CitationLegacy.Suffix(s, after);
      var middle := if locator.Ok? then locator.events else [];
      LegacyPrefixFieldEvents(s, i);
      IdFieldEvents(s, prefix.end);
      if locator.Ok? {
        OptionalLocatorFieldEvents(s, id.end);
      }
      LegacySuffixFieldEvents(s, after);
      FieldEvents4(prefix.events, id.events, middle, suffix.events);
      ShapedSpan(i, suffix.end, prefix.events + id.events + middle + suffix.events);
    }
  }

  lemma LegacyItemsShaped(s: seq<int>)
    ensures forall j: nat :: j <= |s| ==> Shaped(CitationLegacy.ItemAt(s)(j), j)
  {
    forall j: nat | j <= |s|
      ensures Shaped(CitationLegacy.ItemAt(s)(j), j)
    {
      LegacyItemShaped(s, j);
    }
  }

  /** A bracketed citation of the registered grammar becomes one citation
      node without the in-text flag, with one item node per item, in order. */
  lemma LegacyCitationTree(s: seq<int>, p: nat, cs: seq<Node>)
    requires p <= |s| && CitationLegacy.Citation(s, p).Ok?
    ensures var item := CitationLegacy.ItemAt(s);
      Compile(s, CitationLegacy.Citation(s, p).events, [Host(cs)])
      == [Host(cs + [CitationNode(false, ItemNodes(s, p + 1, item))])]
  {
    var item := CitationLegacy.ItemAt(s);
    assert CitationLegacy.Citation(s, p) == BracketedCitation(s, p, item);
    LegacyItemsShaped(s);
    CompileBracketed(s, p, item, cs);
  }

  // ----- the fields of a bracketed item -----

  /** The codes in [i, j), absent when there are none: the value a field
      token over [i, j) writes, since an empty field gets no token. */
  function Text(s: seq<int>, i: nat, j: nat): Option<seq<int>>
    requires i <= j <= |s|
  {
    if i < j then Some(s[i..j]) else None
  }

  /** The codes between the braces of a `{…}` locator at `l`, absent when
      there is no such locator or it is empty. */
  function CurlyText(s: seq<int>, l: nat): Option<seq<int>>
    requires l <= |s|
  {
    if CurlyLocator(s, l).Ok? then Between(s, l, RunEnd(s, l + 1, 0, CurlyStops)) else None
  }

  /** Where a `{…}` locator attempted at `l` leaves off: after its `}`, or at
      `l` when there is none. */
  function AfterCurly(s: seq<int>, l: nat): (b: nat)
    requires l <= |s|
    ensures l <= b <= |s|
  {
    if CurlyLocator(s, l).Ok? then CurlyLocator(s, l).end else l
  }

  lemma CollectCurlyLocator(s: seq<int>, l: nat, d: ItemData)
    requires l <= |s| && CurlyLocator(s, l).Ok? && d.locator == None
    ensures Collect(s, CurlyLocator(s, l).events, d) == d.(locator := CurlyText(s, l))
  {
    CollectLocator(s, l, RunEnd(s, l + 1, 0, CurlyStops), d);
  }

  /** Where the prefix of a newer item at `i` ends: the id prefix after the
      leading spaces and the prefix text. */
  function KeyStart(s: seq<int>, i: nat): (j: nat)
    requires i <= |s|
    ensures i <= j <= |s|
  {
    PrefixEnd(s, SpaceEnd(s, i), CarriageReturnLineFeed)
  }

  /** The prefix text of a newer item at `i`: without its leading spaces. */
  function PrefixText(s: seq<int>, i: nat): Option<seq<int>>
    requires i <= |s|
  {
    Text(s, SpaceEnd(s, i), KeyStart(s, i))
  }

  /** Where the `{…}` locator after a key ending at `a` is looked for: after
      an optional comma and spaces. */
  function LocatorStart(s: seq<int>, a: nat): (l: nat)
    requires a <= |s|
    ensures a <= l <= |s|
  {
    SpaceEnd(s, if CodeAt(s, a) == Char(Comma) then a + 1 else a)
  }

  /** The suffix text from `b` on: up to the `;` or `]` (or the break) that
      ends it, without its trailing spaces. */
  function SuffixText(s: seq<int>, b: nat): Option<seq<int>>
    requires b <= |s|
  {
    var e := RunEnd(s, b, CarriageReturnLineFeed, SuffixStops);
    Text(s, b, CitationItem.TrailingSpaceStart(s, b, e))
  }

  /** The fields the handlers store for an item of the newer grammar at `i`:
      the prefix without its leading spaces, the id prefix and the key as
      written, the locator between its braces, and the suffix without its
      trailing spaces; the spaces and the comma between the key and the
      locator belong to no field. */
  function ItemFields(s: seq<int>, i: nat): ItemData
    requires i <= |s| && Id(s, KeyStart(s, i)).Ok?
  {
    var j := KeyStart(s, i);
    var q := IdPrefix(s, j).end;
    var l := LocatorStart(s, Id(s, j).end);
    ItemData(PrefixText(s, i), Some(s[j..q]), Key(s, q), CurlyText(s, l), SuffixText(s, AfterCurly(s, l)))
  }

  lemma CollectPrefix(s: seq<int>, i: nat, d: ItemData)
    requires i <= |s| && CitationItem.Prefix(s, i).Ok? && d.prefix == None
    ensures Collect(s, CitationItem.Prefix(s, i).events, d) == d.(prefix := PrefixText(s, i))
  {
    var k := SpaceEnd(s, i);
    var j := PrefixEnd(s, k, CarriageReturnLineFeed);
    CollectConcat(s, LeafIfAny(CitationSpace, i, k), LeafIfAny(CitationKind.CitationPrefix, k, j), d);
    CollectQuiet(s, CitationSpace, i, k, d);
    CollectLeafIfAny(s, CitationKind.CitationPrefix, k, j, d);
  }

  lemma CollectLocatorAfterId(s: seq<int>, a: nat, d: ItemData)
    requires a <= |s| && d.locator == None
    ensures Collect(s, CitationItem.LocatorAfterId(s, a).events, d) == d.(locator := CurlyText(s, LocatorStart(s, a)))
    ensures CitationItem.LocatorAfterId(s, a).end == AfterCurly(s, LocatorStart(s, a))
  {
    var c := if CodeAt(s, a) == Char(Comma) then a + 1 else a;
    var l := SpaceEnd(s, c);
    var head := LeafIfAny(CitationComma, a, c) + LeafIfAny(CitationSpace, c, l);
    assert Collect(s, head, d) == d by {
      CollectConcat(s, LeafIfAny(CitationComma, a, c), LeafIfAny(CitationSpace, c, l), d);
      CollectQuiet(s, CitationComma, a, c, d);
      CollectQuiet(s, CitationSpace, c, l, d);
    }
    if CurlyLocator(s, l).Ok? {
      CollectConcat(s, head, CurlyLocator(s, l).events, d);
      CollectCurlyLocator(s, l, d);
    }
  }

  lemma CollectSuffix(s: seq<int>, b: nat, d: ItemData)
    requires b <= |s| && CitationItem.Suffix(s, b).Ok? && d.suffix == None
    ensures Collect(s, CitationItem.Suffix(s, b).events, d) == d.(suffix := SuffixText(s, b))
  {
    var e := RunEnd(s, b, CarriageReturnLineFeed, SuffixStops);
    var m := CitationItem.TrailingSpaceStart(s, b, e);
    CollectConcat(s, LeafIfAny(CitationSuffix, b, m), LeafIfAny(CitationSpace, m, e), d);
    CollectLeafIfAny(s, CitationSuffix, b, m, d);
    CollectQuiet(s, CitationSpace, m, e, Collect(s, LeafIfAny(CitationSuffix, b, m), d));
  }

  lemma Collect4(s: seq<int>, a: seq<Event<CitationKind>>, b: seq<Event<CitationKind>>, c: seq<Event<CitationKind>>, e: seq<Event<CitationKind>>, d: ItemData)
    ensures Collect(s, a + b + c + e, d) == Collect(s, e, Collect(s, c, Collect(s, b, Collect(s, a, d))))
  {
    CollectConcat(s, a + b + c, e, d);
    CollectConcat(s, a + b, c, d);
    CollectConcat(s, a, b, d);
  }

  lemma InnerOfSpan(i: nat, e: nat, inner: seq<Event<CitationKind>>)
    ensures Inner(Ok(Span(CitationKind.CitationItem, i, e, inner), e)) == inner
  {
    var evs := Span(CitationKind.CitationItem, i, e, inner);
    assert evs[1..|evs| - 1] == inner;
  }

  /** The item node of a newer item holds exactly its fields. */
  lemma ItemFieldsCollected(s: seq<int>, i: nat)
    requires i <= |s| && CitationItem.Item(s, i).Ok?
    ensures Id(s, KeyStart(s, i)).Ok?
    ensures Collect(s, Inner(CitationItem.Item(s, i)), NoData) == ItemFields(s, i)
  {
    var prefix := CitationItem.Prefix(s, i);
    var id := Id(s, prefix.end);
    var locator := CitationItem.LocatorAfterId(s, id.end);
    var suffix := CitationItem.Suffix(s, locator.end);
    assert CitationItem.Item(s, i) == Ok(Span(CitationKind.CitationItem, i, suffix.end, prefix.events + id.events + locator.events + suffix.events), suffix.end);
    InnerOfSpan(i, suffix.end, prefix.events + id.events + locator.events + suffix.events);
    CollectParts(s, i, prefix, id, locator, suffix);
  }

  lemma CollectParts(s: seq<int>, i: nat, prefix: Outcome<CitationKind>, id: Outcome<CitationKind>, locator: Outcome<CitationKind>, suffix: Outcome<CitationKind>)
    requires i <= |s| && prefix == CitationItem.Prefix(s, i) && prefix.Ok?
    requires id == Id(s, prefix.end) && id.Ok? && locator == CitationItem.LocatorAfterId(s, id.end)
    requires suffix == CitationItem.Suffix(s, locator.end) && suffix.Ok?
    ensures prefix.end == KeyStart(s, i)
    ensures Collect(s, prefix.events + id.events + locator.events + suffix.events, NoData) == ItemFields(s, i)
  {
    var j := prefix.end;
    assert j == KeyStart(s, i);
    var q := IdPrefix(s, j).end;
    assert IdPrefix(s, j).Ok? && j <= q <= |s|;
    var d1 := NoData.(prefix := PrefixText(s, i));
    CollectPrefix(s, i, NoData);
    var d2 := d1.(idPrefix := Some(s[j..q]), id := Key(s, q));
    CollectId(s, j, d1);
    var l := LocatorStart(s, id.end);
    var d3 := d2.(locator := CurlyText(s, l));
    CollectLocatorAfterId(s, id.end, d2);
    CollectSuffix(s, locator.end, d3);
    Collect4(s, prefix.events, id.events, locator.events, suffix.events, NoData);
  }

  /** Where the suffix of a registered item begins, after a key ending at
      `a`: after the `{…}` locator, or right after the key when there is none. */
  function LegacySuffixStart(s: seq<int>, a: nat): (b: nat)
    requires a <= |s|
    ensures a <= b <= |s|
  {
    var l := LocatorStart(s, a);
    if CurlyLocator(s, l).Ok? then CurlyLocator(s, l).end else a
  }

  /** The suffix text of a registered item from `b` on, trailing spaces
      included. */
  function LegacySuffixText(s: seq<int>, b: nat): Option<seq<int>>
    requires b <= |s|
  {
    Text(s, b, RunEnd(s, b, 0, SuffixStops))
  }

  /** The fields the handlers store for an item of the registered grammar at
      `i`: the prefix with its leading spaces, the id prefix and the key as
      written, the locator between its braces, and the suffix with its
      trailing spaces; without a locator the comma and the spaces after the
      key open the suffix. */
  function LegacyItemFields(s: seq<int>, i: nat): ItemData
    requires i <= |s| && Id(s, PrefixEnd(s, i, 0)).Ok?
  {
    var j := PrefixEnd(s, i, 0);
    var q := IdPrefix(s, j).end;
    var a := Id(s, j).end;
    ItemData(Text(s, i, j), Some(s[j..q]), Key(s, q), CurlyText(s, LocatorStart(s, a)), LegacySuffixText(s, LegacySuffixStart(s, a)))
  }

  lemma CollectLegacyPrefix(s: seq<int>, i: nat, d: ItemData)
    requires i <= |s| && EnterPrefix(s, 0, i).Ok? && d.prefix == None
    ensures Collect(s, EnterPrefix(s, 0, i).events, d) == d.(prefix := Text(s, i, PrefixEnd(s, i, 0)))
  {
    CollectLeafIfAny(s, CitationKind.CitationPrefix, i, PrefixEnd(s, i, 0), d);
  }

  /** The locator attempt of a registered item writes the locator field and
      leaves the suffix to begin where `LegacySuffixStart` says. */
  lemma CollectOptionalLocator(s: seq<int>, a: nat, d: ItemData)
    requires a <= |s| && d.locator == None
    ensures var r := CitationLegacy.OptionalLocator(s, a);
      (if r.Ok? then Collect(s, r.events, d) else d) == d.(locator := CurlyText(s, LocatorStart(s, a)))
      && (if r.Ok? then r.end else a) == LegacySuffixStart(s, a)
  {
    var c := CitationLegacy.AfterComma(s, a);
    var l := SpaceEnd(s, c);
    assert CitationLegacy.OptionalLocator(s, a) == CitationLegacy.CommaCurlyLocator(s, a);
    if CurlyLocator(s, l).Ok? {
      var head := LeafIfAny(CitationComma, a, c) + LeafIfAny(CitationSpace, c, l);
      assert Collect(s, head, d) == d by {
        CollectConcat(s, LeafIfAny(CitationComma, a, c), LeafIfAny(CitationSpace, c, l), d);
        CollectQuiet(s, CitationComma, a, c, d);
        CollectQuiet(s, CitationSpace, c, l, d);
      }
      CollectConcat(s, head, CurlyLocator(s, l).events, d);
      CollectCurlyLocator(s, l, d);
    }
  }

  lemma CollectLegacySuffix(s: seq<int>, b: nat, d: ItemData)
    requires b <= |s| && CitationLegacy.Suffix(s, b).Ok? && d.suffix == None
    ensures Collect(s, CitationLegacy.Suffix(s, b).events, d) == d.(suffix := LegacySuffixText(s, b))
  {
    CollectLeafIfAny(s, CitationSuffix, b, RunEnd(s, b, 0, SuffixStops), d);
  }

  /** The item node of a registered item holds exactly its fields. */
  lemma LegacyItemFieldsCollected(s: seq<int>, i: nat)
    requires i <= |s| && CitationLegacy.Item(s, i).Ok?
    ensures Id(s, PrefixEnd(s, i, 0)).Ok?
    ensures Collect(s, Inner(CitationLegacy.Item(s, i)), NoData) == LegacyItemFields(s, i)
  {
    var prefix := EnterPrefix(s, 0, i);
    var id := Id(s, prefix.end);
    var locator := CitationLegacy.OptionalLocator(s, id.end);
    var middle := if locator.Ok? then locator.events else [];
    var suffix := CitationLegacy.Suffix(s, if locator.Ok? then locator.end else id.end);
    assert CitationLegacy.Item(s, i) == Ok(Span(CitationKind.CitationItem, i, suffix.end, prefix.events + id.events + middle + suffix.events), suffix.end);
    InnerOfSpan(i, suffix.end, prefix.events + id.events + middle + suffix.events);
    LegacyCollectParts(s, i, prefix, id, locator, suffix);
  }

  lemma LegacyCollectParts(s: seq<int>, i: nat, prefix: Outcome<CitationKind>, id: Outcome<CitationKind>, locator: Outcome<CitationKind>, suffix: Outcome<CitationKind>)
    requires i <= |s| && prefix == EnterPrefix(s, 0, i) && prefix.Ok?
    requires id == Id(s, prefix.end) && id.Ok? && locator == CitationLegacy.OptionalLocator(s, id.end)
    requires suffix == CitationLegacy.Suffix(s, if locator.Ok? then locator.end else id.end) && suffix.Ok?
    ensures prefix.end == PrefixEnd(s, i, 0)
    ensures Collect(s, prefix.events + id.events + (if locator.Ok? then locator.events else []) + suffix.events, NoData) == LegacyItemFields(s, i)
  {
    var middle := if locator.Ok? then locator.events else [];
    Collect4(s, prefix.events, id.events, middle, suffix.events, NoData);
    var j := prefix.end;
    var q := IdPrefix(s, j).end;
    var d1 := NoData.(prefix := Text(s, i, j));
    CollectLegacyPrefix(s, i, NoData);
    var d2 := d1.(idPrefix := Some(s[j..q]), id := Key(s, q));
    CollectId(s, j, d1);
    var d3 := d2.(locator := CurlyText(s, LocatorStart(s, id.end)));
    CollectOptionalLocator(s, id.end, d2);
    assert Collect(s, middle, d2) == d3;
    CollectLegacySuffix(s, if locator.Ok? then locator.end else id.end, d3);
  }

  /** The item nodes from `i` begin with the node of the item at `i`. */
  lemma ItemNodesHead(s: seq<int>, i: nat, item: nat -> Outcome<CitationKind>)
    requires i <= |s| && Advances(s, item) && item(i).Ok?
    ensures |ItemNodes(s, i, item)| >= 1
    ensures ItemNodes(s, i, item)[0] == ItemNode(Collect(s, Inner(item(i)), NoData))
  {
  }

  /** The item nodes from an item of the newer grammar begin with a node
      holding exactly that item's fields: prefix without leading spaces, key,
      locator and suffix without trailing spaces. */
  lemma FirstItemNode(s: seq<int>, i: nat)
    requires i <= |s| && CitationItem.Item(s, i).Ok?
    ensures Id(s, KeyStart(s, i)).Ok?
    ensures var nodes := ItemNodes(s, i, CitationItem.ItemAt(s));
      |nodes| >= 1 && nodes[0] == ItemNode(ItemFields(s, i))
  {
    ItemNodesHead(s, i, CitationItem.ItemAt(s));
    ItemFieldsCollected(s, i);
  }

  /** The item nodes from an item of the registered grammar begin with a node
      holding exactly that item's fields, with the spaces around the prefix
      and the suffix. */
  lemma LegacyFirstItemNode(s: seq<int>, i: nat)
    requires i <= |s| && CitationLegacy.Item(s, i).Ok?
    ensures Id(s, PrefixEnd(s, i, 0)).Ok?
    ensures var nodes := ItemNodes(s, i, CitationLegacy.ItemAt(s));
      |nodes| >= 1 && nodes[0] == ItemNode(LegacyItemFields(s, i))
  {
    ItemNodesHead(s, i, CitationLegacy.ItemAt(s));
    LegacyItemFieldsCollected(s, i);
  }

  // ----- what the two extensions make of an author-in-text citation -----

  /** With the registered extension an author-in-text citation compiles to a
      citation node with no item: its key, its id prefix and its locator are
      all lost. */
  lemma RegisteredInTextLosesItem(s: seq<int>, p: nat, cs: seq<Node>)
    requires p <= |s| && CitationLegacy.Recognise(s, p).Ok? && s[p] != LeftSquareBracket
    ensures Compile(s, CitationLegacy.Recognise(s, p).events, [Host(cs)]) == [Host(cs + [CitationNode(false, [])])]
  {
    assert CitationLegacy.Recognise(s, p) == CitationLegacy.AuthorInText(s, p);
    LegacyInTextTree(s, p, cs);
  }

  /** With the newer rules the same citation compiles to an in-text citation
      node with one item holding the id prefix, the key and the locator. */
  lemma NewerInTextKeepsItem(s: seq<int>, p: nat, cs: seq<Node>)
    requires p <= |s| && CitationLegacy.RecogniseNewer(s, p).Ok? && s[p] != LeftSquareBracket
    ensures Id(s, p).Ok?
    ensures var q := IdPrefix(s, p).end;
      Compile(s, CitationLegacy.RecogniseNewer(s, p).events, [Host(cs)])
      == [Host(cs + [CitationNode(true, [ItemNode(ItemData(None, Some(s[p..q]), Key(s, q), SquareLocatorText(s, Id(s, p).end), None))])])]
  {
    assert CitationLegacy.RecogniseNewer(s, p) == CitationItem.CitationInText(s, p);
    InTextCitationNode(s, p, cs);
  }

  /** `@id` as a concrete case: the registered extension yields an empty
      citation, the newer rules an in-text citation whose item has the id
      prefix `@` and the key `id`. */
  lemma AtIdExample()
    ensures var s := [AtSign, 'i' as int, 'd' as int];
      CitationLegacy.Recognise(s, 0).Ok? && CitationLegacy.RecogniseNewer(s, 0).Ok?
      && Compile(s, CitationLegacy.Recognise(s, 0).events, [Host([])]) == [Host([CitationNode(false, [])])]
      && Compile(s, CitationLegacy.RecogniseNewer(s, 0).events, [Host([])])
         == [Host([CitationNode(true, [ItemNode(ItemData(None, Some([AtSign]), Some(['i' as int, 'd' as int]), None, None))])])]
  {
    AtIdRegistered();
    AtIdNewer();
  }

  /** The fields of `@id`: the prefix `@`, the key `id`, no locator. */
  lemma AtIdFields()
    ensures var s := [AtSign, 'i' as int, 'd' as int];
      IdPrefix(s, 0).end == 1 && Id(s, 0).Ok? && Id(s, 0).end == 3
      && Key(s, 1) == Some(['i' as int, 'd' as int]) && SquareLocatorText(s, 3) == None
      && s[0..1] == [AtSign]
  {
    var s := [AtSign, 'i' as int, 'd' as int];
    assert IdPrefix(s, 0).end == 1;
    assert IsLongestBareKey(s, 1, 3);
    assert Id(s, 0).Ok? && Id(s, 0).end == 3;
    assert IdBody(s, 1).end == 3;
    assert CodeAt(s, 1) == Char('i' as int);
    assert s[1..3] == ['i' as int, 'd' as int];
  }

  lemma AtIdRegistered()
    ensures var s := [AtSign, 'i' as int, 'd' as int];
      CitationLegacy.Recognise(s, 0).Ok?
      && Compile(s, CitationLegacy.Recognise(s, 0).events, [Host([])]) == [Host([CitationNode(false, [])])]
  {
    var s := [AtSign, 'i' as int, 'd' as int];
    AtIdFields();
    RegisteredInTextLosesItem(s, 0, []);
    assert [] + [CitationNode(false, [])] == [CitationNode(false, [])];
  }

  lemma AtIdNewer()
    ensures var s := [AtSign, 'i' as int, 'd' as int];
      CitationLegacy.RecogniseNewer(s, 0).Ok?
      && Compile(s, CitationLegacy.RecogniseNewer(s, 0).events, [Host([])])
         == [Host([CitationNode(true, [ItemNode(ItemData(None, Some([AtSign]), Some(['i' as int, 'd' as int]), None, None))])])]
  {
    var s := [AtSign, 'i' as int, 'd' as int];
    AtIdFields();
    NewerInTextKeepsItem(s, 0, []);
    var item := ItemNode(ItemData(None, Some([AtSign]), Some(['i' as int, 'd' as int]), None, None));
    assert [] + [CitationNode(true, [item])] == [CitationNode(true, [item])];
  }
}

=== FILE: citeproc.dfy ===
/** The citation processor (remark-pandoc-citation/src/citeproc/index.ts): a
    registry of CSL items filed under `${id}`, and a style that renders a
    citation once each of its items has been given its data. */
module Citeproc {
  import opened Wrappers
  import opened Csl
  import opened CslRender
  import ExampleStyle
  import SquareStyle

  /** The style a processor was built with. */
  datatype Style = Example | Square

  /** `_map`: the items by the text of their id. */
  type Registry = map<string, DataItem>

  /** A processor: its style, the Unicode classes the style's regular
      expressions consult, and its registry. */
  datatype Processor = Processor(style: Style, letters: Letters, registry: Registry)

  /** `new Citeproc(style)`: an empty registry. */
  function NewProcessor(style: Style, letters: Letters): (p: Processor)
    ensures p.registry == map[]
  {
    Processor(style, letters, map[])
  }

  /** The registry's item under a key, if any. */
  function Lookup(reg: Registry, key: string): Option<DataItem> {
    if key in reg then Some(reg[key]) else None
  }

  /** `addItems`' fold: each item filed in turn under the text of its id,
      a later item replacing an earlier one under the same key. */
  function AddAll(reg: Registry, items: seq<DataItem>): (r: Registry)
    ensures r.Keys == reg.Keys + set i | 0 <= i < |items| :: IdKey(items[i].id)
    decreases |items|
  {
    if |items| == 0 then reg
    else
      var r := AddAll(reg[IdKey(items[0].id) := items[0]], items[1..]);
      assert forall i | 1 <= i < |items| :: items[1..][i - 1] == items[i];
      r
  }

  /** `addItems`. */
  function AddItems(p: Processor, items: seq<DataItem>): (q: Processor)
    ensures q.style == p.style && q.letters == p.letters
    ensures q.registry.Keys == p.registry.Keys + set i | 0 <= i < |items| :: IdKey(items[i].id)
  {
    p.(registry := AddAll(p.registry, items))
  }

  /** The last of `items` filed under `key`, if any. */
  function LastFiledUnder(items: seq<DataItem>, key: string): (r: Option<DataItem>)
    ensures r.Some? ==> r.value in items && IdKey(r.value.id) == key
    ensures r.None? ==> forall i | 0 <= i < |items| :: IdKey(items[i].id) != key
  {
    if |items| == 0 then None
    else if IdKey(items[|items| - 1].id) == key then Some(items[|items| - 1])
    else LastFiledUnder(items[..|items| - 1], key)
  }

  lemma {:induction false} LastFiledUnderCons(x: DataItem, items: seq<DataItem>, key: string)
    ensures LastFiledUnder([x] + items, key)
      == if LastFiledUnder(items, key).Some? then LastFiledUnder(items, key)
         else if IdKey(x.id) == key then Some(x) else None
    decreases |items|
  {
    var xs := [x] + items;
    if |items| > 0 {
      assert xs[..|xs| - 1] == [x] + items[..|items| - 1];
      assert xs[|xs| - 1] == items[|items| - 1];
      LastFiledUnderCons(x, items[..|items| - 1], key);
    } else {
      assert xs[..|xs| - 1] == [];
    }
  }

  /** After adding, a key holds the last added item filed under it, and
      otherwise what it held before: later duplicates win. */
  lemma {:induction false} AddAllLookup(reg: Registry, items: seq<DataItem>, key: string)
    ensures Lookup(AddAll(reg, items), key)
      == if LastFiledUnder(items, key).Some? then LastFiledUnder(items, key) else Lookup(reg, key)
    decreases |items|
  {
    if |items| > 0 {
      AddAllLookup(reg[IdKey(items[0].id) := items[0]], items[1..], key);
      LastFiledUnderCons(items[0], items[1..], key);
      assert [items[0]] + items[1..] == items;
    } else {
      assert LastFiledUnder(items, key) == None;
    }
  }

  /** An item keeps its own data and otherwise gets the registry's entry
      under the text of its id; nothing else changes. */
  function ResolveItem(reg: Registry, item: CiteItem): (r: CiteItem)
    ensures r.(itemData := item.itemData) == item
    ensures item.itemData.Some? ==> r == item
    ensures r.itemData.Some? <==> item.itemData.Some? || IdKey(item.id) in reg
    ensures item.itemData.None? && IdKey(item.id) in reg ==> r.itemData == Some(reg[IdKey(item.id)])
  {
    item.(itemData := if item.itemData.Some? then item.itemData else Lookup(reg, IdKey(item.id)))
  }

  /** The citation's items, each resolved; none when the citation lists
      none. */
  function Resolve(reg: Registry, c: CslCitation): (r: seq<CiteItem>)
    ensures c.citationItems.None? ==> r == []
    ensures c.citationItems.Some? ==> |r| == |c.citationItems.value|
    ensures c.citationItems.Some? ==> forall i | 0 <= i < |r| :: r[i] == ResolveItem(reg, c.citationItems.value[i])
  {
    match c.citationItems
    case None => []
    case Some(items) => seq(|items|, i requires 0 <= i < |items| => ResolveItem(reg, items[i]))
  }

  /** Resolving again against the same registry changes nothing. */
  lemma ResolveIdempotent(reg: Registry, c: CslCitation)
    ensures Resolve(reg, c.(citationItems := Some(Resolve(reg, c)))) == Resolve(reg, c)
  {
  }

  /** `getCitation`: the resolved items, rendered by the style; the square
      style with its corrected item span. */
  function GetCitation(p: Processor, c: CslCitation): (r: seq<Content>)
    ensures var items := Resolve(p.registry, c);
      match p.style
      case Example => r == [Opening] + Join(Rendered(items, ExampleStyle.CitationRender(p.letters)), [Semicolon]) + [Closing]
      case Square => r == [Opening] + Join(Rendered(items, SquareStyle.CitationRender(p.letters)), [Semicolon]) + [Closing]
  {
    match p.style
    case Example => ExampleStyle.GetCitation(p.letters, Resolve(p.registry, c))
    case Square => SquareStyle.GetCitation(p.letters, Resolve(p.registry, c))
  }

  /** `getCitation` as written: the square style renders each item with the
      span of `SquareStyle.CitationAsWritten`; the example style is as in
      `GetCitation`. */
  function GetCitationAsWritten(p: Processor, c: CslCitation): (r: seq<Content>)
    ensures p.style == Example ==> r == GetCitation(p, c)
    ensures p.style == Square ==>
      r == [Opening] + Join(Rendered(Resolve(p.registry, c), SquareStyle.CitationAsWrittenRender(p.letters)), [Semicolon]) + [Closing]
  {
    match p.style
    case Example => ExampleStyle.GetCitation(p.letters, Resolve(p.registry, c))
    case Square => SquareStyle.GetCitationAsWritten(p.letters, Resolve(p.registry, c))
  }

  /** The written and the corrected processor agree exactly when the style is
      the example style or no resolved item ends in the square style's
      trailing space. */
  lemma GetCitationAsWrittenAgrees(p: Processor, c: CslCitation)
    ensures GetCitationAsWritten(p, c) == GetCitation(p, c)
      <==> p.style == Example
           || forall i | 0 <= i < |Resolve(p.registry, c)| :: !SquareStyle.EndsInSpace(p.letters, Resolve(p.registry, c)[i])
  {
    if p.style == Square {
      SquareStyle.GetCitationAsWrittenAgrees(p.letters, Resolve(p.registry, c));
    }
  }

  /** `getCitationInText`. */
  function GetCitationInText(p: Processor, c: CslCitation): (r: seq<Content>)
    ensures var items := Resolve(p.registry, c);
      match p.style
      case Example => r == Join(Rendered(items, ExampleStyle.CitationInTextRender(p.letters)), [Semicolon])
      case Square => r == Join(Rendered(items, SquareStyle.CitationInTextRender(p.letters)), [Semicolon])
  {
    match p.style
    case Example => ExampleStyle.GetCitationInText(p.letters, Resolve(p.registry, c))
    case Square => SquareStyle.GetCitationInText(p.letters, Resolve(p.registry, c))
  }

  /** A citation without items is an empty pair of brackets in the bracketed
      form and nothing at all in text. */
  lemma EmptyCitation(p: Processor, id: Id)
    ensures GetCitation(p, CslCitation(id, None)) == [Opening, Closing]
    ensures GetCitation(p, CslCitation(id, Some([]))) == [Opening, Closing]
    ensures GetCitationInText(p, CslCitation(id, None)) == []
  {
  }

  /** An item falls back to its plain text exactly when it carries no data
      and the registry does not know its id. */
  lemma SingleItemFallsBack(p: Processor, id: Id, item: CiteItem)
    ensures var r := GetCitation(p, CslCitation(id, Some([item])));
      |r| == 3 && (r[1].Text? <==> item.itemData.None? && IdKey(item.id) !in p.registry)
    ensures var r := GetCitationInText(p, CslCitation(id, Some([item])));
      (|r| == 1 && r[0].Text?) <==> item.itemData.None? && IdKey(item.id) !in p.registry
  {
    var items := Resolve(p.registry, CslCitation(id, Some([item])));
    assert items == [ResolveItem(p.registry, item)];
  }

  /** The registered item of the processor's tests. */
  function RegisteredItem(): DataItem {
    DataItem(StrId("id"), Some([Name(Some("Family"), Some("Given"), None, None, None, None)]), None, None,
      Some(Date(Some([[PartNumber(2025)]]))))
  }

  /** A citation of that item by id alone. */
  function CitationById(): CslCitation {
    CslCitation(StrId("ID"), Some([CiteItem(StrId("id"), None, None, None, None, None, None, None, None)]))
  }

  lemma YearText()
    ensures IntText(2025) == "2025"
  {
    assert NatText(2) == "2";
    assert NatText(20) == NatText(2) + [DigitChar(0)];
    assert NatText(202) == NatText(20) + [DigitChar(2)];
    assert NatText(2025) == NatText(202) + [DigitChar(5)];
  }

  lemma RegisteredParts()
    ensures var p := AddItems(NewProcessor(Square, AsciiLetters()), [RegisteredItem()]);
      var items := Resolve(p.registry, CitationById());
      |items| == 1
      && SquareStyle.CitationPrefix(AsciiLetters(), items[0]) == [Text("Family")]
      && SquareStyle.CitationSuffix(items[0]) == [Text("2025")]
  {
    var p := AddItems(NewProcessor(Square, AsciiLetters()), [RegisteredItem()]);
    assert p.registry == map["id" := RegisteredItem()];
    var items := Resolve(p.registry, CitationById());
    assert items[0].itemData == Some(RegisteredItem());
    YearText();
    assert AuthorShort(AsciiLetters(), items[0].itemData) == "Family";
    assert DateShort(Issued(items[0]), SquareStyle.MissingYear) == "2025";
  }

  /** A registered item cited by id: `Family` and the year, in both forms. */
  lemma RegisteredExample()
    ensures var p := AddItems(NewProcessor(Square, AsciiLetters()), [RegisteredItem()]);
      GetCitation(p, CitationById()) == [Opening, ItemSpan([Text("Family"), Space, Text("2025")]), Closing]
      && GetCitationInText(p, CitationById()) == [Text("Family"), Space, Opening, ItemSpan([Text("2025")]), Closing]
  {
    var t := AsciiLetters();
    var p := AddItems(NewProcessor(Square, t), [RegisteredItem()]);
    var items := Resolve(p.registry, CitationById());
    RegisteredParts();
    assert items == [items[0]] && items[1..] == [];
    assert SquareStyle.Citation(t, items[0]) == [ItemSpan([Text("Family")] + [Space] + [Text("2025")])];
    assert [Text("Family")] + [Space] + [Text("2025")] == [Text("Family"), Space, Text("2025")];
    assert Separated(items, SquareStyle.CitationRender(t)) == SquareStyle.Citation(t, items[0]);
    assert SquareStyle.CitationInText(t, items[0])
      == [Text("Family")] + [Space] + [Opening, ItemSpan([Text("2025")]), Closing];
    assert Separated(items, SquareStyle.CitationInTextRender(t)) == SquareStyle.CitationInText(t, items[0]);
  }
}

=== FILE: csl.dfy ===
/** The CSL-JSON records the citation processor reads
    (remark-pandoc-citation/src/citeproc/schema.ts), cut down to the fields
    that the processor and its two styles look at, with JavaScript's
    truthiness and the `${id}` rendering of an id. */
module Csl {
  import opened Wrappers

  /** A value typed `string | number | boolean`. Numbers are integers here. */
  datatype Scalar = StrValue(s: string) | NumValue(n: int) | BoolValue(b: bool)

  /** JavaScript truthiness of an optional scalar: `undefined`, `""`, `0` and
      `false` are falsy. */
  predicate Truthy(v: Option<Scalar>) {
    match v
    case None => false
    case Some(StrValue(s)) => s != ""
    case Some(NumValue(n)) => n != 0
    case Some(BoolValue(b)) => b
  }

  /** Truthiness of an optional string: present and not empty. */
  predicate Filled(v: Option<string>) {
    v.Some? && v.value != ""
  }

  /** A CSL id, `string | number`. */
  datatype Id = StrId(s: string) | NumId(n: int)

  /** A date part, `string | number`. */
  datatype DatePart = PartText(s: string) | PartNumber(n: int)

  /** `CslDataName` without `static-ordering`, `literal` and `parse-names`,
      which nothing reads. */
  datatype Name = Name(
    family: Option<string>,
    given: Option<string>,
    droppingParticle: Option<string>,
    nonDroppingParticle: Option<string>,
    suffix: Option<string>,
    commaSuffix: Option<Scalar>)

  /** `CslDataDate`: only `date-parts` is read. */
  datatype Date = Date(dateParts: Option<seq<seq<DatePart>>>)

  /** `CslDataItem`: the id and the fields a citation reads. */
  datatype DataItem = DataItem(
    id: Id,
    author: Option<seq<Name>>,
    publisher: Option<string>,
    containerTitle: Option<string>,
    issued: Option<Date>)

  /** `CslCitationItem`. */
  datatype CiteItem = CiteItem(
    id: Id,
    itemData: Option<DataItem>,
    prefix: Option<string>,
    suffix: Option<string>,
    locator: Option<string>,
    locatorLabel: Option<string>,
    suppressAuthor: Option<Scalar>,
    authorOnly: Option<Scalar>,
    uris: Option<seq<string>>)

  /** `CslCitation`; `properties` is never read. */
  datatype CslCitation = CslCitation(citationId: Id, citationItems: Option<seq<CiteItem>>)

  predicate IsDigit(c: char) {
    '0' <= c <= '9'
  }

  function DigitChar(d: nat): (c: char)
    requires d < 10
    ensures IsDigit(c) && DigitValue(c) == d
  {
    (d + '0' as int) as char
  }

  function DigitValue(c: char): (d: nat)
    requires IsDigit(c)
    ensures d < 10
  {
    (c as int) - ('0' as int)
  }

  /** The decimal digits of `n`, without leading zeros. */
  function NatText(n: nat): (r: string)
    ensures |r| >= 1 && (forall c | c in r :: IsDigit(c))
    ensures |r| > 1 ==> r[0] != '0'
    decreases n
  {
    if n < 10 then [DigitChar(n)] else NatText(n / 10) + [DigitChar(n % 10)]
  }

  /** The number a string of decimal digits denotes. */
  function DigitsValue(s: string): nat
    requires forall c | c in s :: IsDigit(c)
  {
    if s == [] then 0
    else assert s[|s| - 1] in s; DigitsValue(s[..|s| - 1]) * 10 + DigitValue(s[|s| - 1])
  }

  /** `${n}` for an integer. */
  function IntText(n: int): (r: string)
    ensures n >= 0 ==> r == NatText(n)
    ensures n < 0 ==> r == "-" + NatText(-n)
  {
    if n < 0 then "-" + NatText(-n) else NatText(n)
  }

  /** The number an `IntText` string denotes. */
  function TextValue(s: string): int
    requires forall c | c in s :: IsDigit(c) || c == '-'
  {
    if s != [] && s[0] == '-' && (forall c | c in s[1..] :: IsDigit(c)) then -(DigitsValue(s[1..]) as int)
    else if forall c | c in s :: IsDigit(c) then DigitsValue(s)
    else 0
  }

  /** `${id}`: the key the processor files an item under. */
  function IdKey(id: Id): string {
    match id
    case StrId(s) => s
    case NumId(n) => IntText(n)
  }

  /** `${part}` for a date part. */
  function DatePartText(p: DatePart): string {
    match p
    case PartText(s) => s
    case PartNumber(n) => IntText(n)
  }

  lemma {:induction false} NatTextValue(n: nat)
    ensures DigitsValue(NatText(n)) == n
    decreases n
  {
    if n >= 10 {
      NatTextValue(n / 10);
      var r := NatText(n);
      assert r[..|r| - 1] == NatText(n / 10);
    }
  }

  /** Reading back the decimal rendering of an integer gives the integer. */
  lemma IntTextValue(n: int)
    ensures forall c | c in IntText(n) :: IsDigit(c) || c == '-'
    ensures TextValue(IntText(n)) == n
  {
    NatTextValue(if n < 0 then -n else n);
    var t := NatText(if n < 0 then -n else n);
    if n < 0 {
      assert IntText(n)[1..] == t;
      assert IntText(n)[0] == '-' && !IsDigit('-');
    } else {
      assert t[0] in t;
    }
  }

  /** Distinct numeric ids get distinct keys. */
  lemma NumIdKeyInjective(a: int, b: int)
    ensures IdKey(NumId(a)) == IdKey(NumId(b)) ==> a == b
  {
    IntTextValue(a);
    IntTextValue(b);
  }

  /** A numeric id and the string of its digits share one key: `5` and `"5"`
      name the same registry entry. */
  lemma NumIdMeetsStrId()
    ensures IdKey(NumId(5)) == IdKey(StrId("5"))
    ensures IdKey(NumId(-12)) == "-12"
  {
    assert NatText(12) == NatText(1) + [DigitChar(2)];
  }
}

=== FILE: csl_render.dfy ===
/** The rendering pieces that the two citation styles
    (remark-pandoc-citation/src/citeproc/styles/example.ts and
    remark-pandoc-citation/src/citeproc/style/square.ts) share: names, the
    year, the plain fallback text, the node lists they push into, and the
    `"; "`-separated sequence of items. The two files define these helpers
    separately with the same code; here each is defined once. */
module CslRender {
  import opened Wrappers
  import opened Csl

  /** The HAST nodes a style produces: text, the `citation-item` span, and
      the hidden bibliography span of the example style, whose contents are
      not modelled. */
  datatype Content = Text(value: string) | ItemSpan(children: seq<Content>) | Bibliography(item: DataItem)

  const Opening: Content := Text("[")
  const Closing: Content := Text("]")
  const Space: Content := Text(" ")
  const CommaSpace: Content := Text(", ")
  const Semicolon: Content := Text("; ")

  /** The Unicode classes the styles' regular expressions use: `\p{L}`,
      `\p{Lu}` and `\p{Ll}`. */
  datatype Letters = Letters(isLetter: char -> bool, isUpper: char -> bool, isLower: char -> bool)

  // ----- names ---------------------------------------------------------------

  /** `LAST_LETTER_REGEXP.test(p)`: `p` ends in a letter. */
  predicate EndsInLetter(t: Letters, p: string) {
    |p| > 0 && t.isLetter(p[|p| - 1])
  }

  /** A family name behind its particle: a space between the two only when
      the particle ends in a letter (`de Family`, but `d'Family`). */
  function Particled(t: Letters, particle: Option<string>, family: string): (r: string)
    ensures particle.None? ==> r == family
    ensures particle.Some? ==> r == particle.value + (if EndsInLetter(t, particle.value) then " " else "") + family
  {
    match particle
    case None => family
    case Some(p) => p + (if EndsInLetter(t, p) then " " else "") + family
  }

  /** A name suffix, after a comma only when `comma-suffix` is truthy. */
  function Suffixed(name: Name, base: string): (r: string)
    ensures !Filled(name.suffix) ==> r == base
    ensures Filled(name.suffix) ==>
      base <= r && r[|base|..] == (if Truthy(name.commaSuffix) then ", " else " ") + name.suffix.value
  {
    if Filled(name.suffix) then base + (if Truthy(name.commaSuffix) then "," else "") + " " + name.suffix.value
    else base
  }

  /** `makeNameShort`: the family name with its non-dropping particle and
      suffix; without a family name, the given name. */
  function NameShort(t: Letters, name: Name): (r: string)
    ensures name.family.None? ==> r == name.given.GetOr("")
    ensures name.family.Some? ==> Particled(t, name.nonDroppingParticle, name.family.value) <= r
    ensures name.family.Some? && !Filled(name.suffix) ==> r == Particled(t, name.nonDroppingParticle, name.family.value)
    ensures name.family.Some? && Filled(name.suffix) ==>
      r[|Particled(t, name.nonDroppingParticle, name.family.value)|..]
        == (if Truthy(name.commaSuffix) then ", " else " ") + name.suffix.value
  {
    if name.family.None? then name.given.GetOr("")
    else Suffixed(name, Particled(t, name.nonDroppingParticle, name.family.value))
  }

  /** The end of the run of lower-case letters from `k`. */
  function LowerRunEnd(t: Letters, s: string, k: nat): (e: nat)
    requires k <= |s|
    ensures k <= e <= |s|
    ensures forall m | k <= m < e :: t.isLower(s[m])
    ensures e < |s| ==> !t.isLower(s[e])
    decreases |s| - k
  {
    if k < |s| && t.isLower(s[k]) then LowerRunEnd(t, s, k + 1) else k
  }

  /** An upper-case letter followed by a lower-case one starts at `i`. */
  predicate StartsWord(t: Letters, s: string, i: nat) {
    i + 1 < |s| && t.isUpper(s[i]) && t.isLower(s[i + 1])
  }

  /** `given.replaceAll(/(\p{Lu})\p{Ll}+/gu, "$1.")`: every upper-case letter
      followed by lower-case ones becomes the letter and a dot; matches are
      found left to right and do not overlap. */
  function Initials(t: Letters, s: string): (r: string)
    ensures |r| <= |s|
    decreases |s|
  {
    if |s| == 0 then ""
    else if StartsWord(t, s, 0) then [s[0], '.'] + Initials(t, s[LowerRunEnd(t, s, 1)..])
    else [s[0]] + Initials(t, s[1..])
  }

  /** `makeNameLong` of the example style: the dropping particle stands in
      when there is no non-dropping one, and a given name follows as
      initials after a comma. */
  function NameLong(t: Letters, name: Name): (r: string)
    ensures name.family.None? ==> r == name.given.GetOr("")
    ensures name.family.Some? ==>
      Particled(t, if name.nonDroppingParticle.Some? then name.nonDroppingParticle else name.droppingParticle, name.family.value) <= r
    ensures name.family.Some? && Filled(name.given) ==>
      var initials := ", " + Initials(t, name.given.value);
      |initials| <= |r| && r[|r| - |initials|..] == initials
    ensures name.family.Some? && !Filled(name.given) && !Filled(name.suffix) ==>
      r == Particled(t, if name.nonDroppingParticle.Some? then name.nonDroppingParticle else name.droppingParticle, name.family.value)
  {
    if name.family.None? then name.given.GetOr("")
    else
      var particle := if name.nonDroppingParticle.Some? then name.nonDroppingParticle else name.droppingParticle;
      Suffixed(name, Particled(t, particle, name.family.value))
      + (if Filled(name.given) then ", " + Initials(t, name.given.value) else "")
  }

  /** `makeNamesShort`: one name, two joined by `and`, or the first and
      `et al.`. */
  function NamesShort(t: Letters, names: seq<Name>): (r: string)
    ensures |names| == 0 ==> r == ""
    ensures |names| == 1 ==> r == NameShort(t, names[0])
    ensures |names| == 2 ==> r == NameShort(t, names[0]) + " and " + NameShort(t, names[1])
    ensures |names| >= 3 ==> r == NameShort(t, names[0]) + " et al."
  {
    if |names| == 0 then ""
    else if |names| == 1 then NameShort(t, names[0])
    else if |names| == 2 then NameShort(t, names[0]) + " and " + NameShort(t, names[1])
    else NameShort(t, names[0]) + " et al."
  }

  /** The strings of `xs` separated by `, `. */
  function CommaList(xs: seq<string>): string {
    if |xs| == 0 then ""
    else if |xs| == 1 then xs[0]
    else CommaList(xs[..|xs| - 1]) + ", " + xs[|xs| - 1]
  }

  /** The long form of every name. */
  function LongNames(t: Letters, names: seq<Name>): (r: seq<string>)
    ensures |r| == |names| && forall i | 0 <= i < |names| :: r[i] == NameLong(t, names[i])
  {
    seq(|names|, i requires 0 <= i < |names| => NameLong(t, names[i]))
  }

  /** What `makeNamesLong` produces: the names separated by commas, the last
      one after `and`. */
  function NamesLongSpec(t: Letters, names: seq<Name>): string {
    if |names| == 0 then ""
    else if |names| == 1 then NameLong(t, names[0])
    else CommaList(LongNames(t, names)[..|names| - 1]) + " and " + NameLong(t, names[|names| - 1])
  }

  /** One more string at the end of a comma list. */
  lemma CommaListStep(xs: seq<string>, k: nat)
    requires 1 <= k < |xs|
    ensures CommaList(xs[..k + 1]) == CommaList(xs[..k]) + ", " + xs[k]
  {
    assert xs[..k + 1][..k] == xs[..k];
  }

  /** `makeNamesLong`: the first name, then `, ` and each name of
      `names.slice(1, -1)`, then ` and ` and the last name. */
  method NamesLong(t: Letters, names: seq<Name>) returns (r: string)
    ensures r == NamesLongSpec(t, names)
  {
    if |names| == 0 {
      return "";
    }
    ghost var long := LongNames(t, names);
    r := NameLong(t, names[0]);
    var k := 1;
    while k < |names| - 1
      invariant 1 <= k <= if |names| > 1 then |names| - 1 else 1
      invariant r == CommaList(long[..k])
    {
      CommaListStep(long, k);
      r := r + ", " + NameLong(t, names[k]);
      k := k + 1;
    }
    if |names| >= 2 {
      r := r + " and " + NameLong(t, names[|names| - 1]);
    }
  }

  /** The ASCII letters, for worked examples. */
  function AsciiLetters(): Letters {
    Letters(
      c => 'A' <= c <= 'Z' || 'a' <= c <= 'z',
      c => 'A' <= c <= 'Z',
      c => 'a' <= c <= 'z')
  }

  /** The short form never shows a dropping particle. */
  lemma NameShortIgnoresDroppingParticle(t: Letters, name: Name, particle: Option<string>)
    ensures NameShort(t, name.(droppingParticle := particle)) == NameShort(t, name)
  {
  }

  /** The long form extends the short one by the initials, unless it brings
      in a dropping particle that the short form leaves out. */
  lemma NameLongExtendsShort(t: Letters, name: Name)
    requires name.family.None? || name.nonDroppingParticle.Some? || name.droppingParticle.None?
    ensures NameShort(t, name) <= NameLong(t, name)
    ensures !Filled(name.given) ==> NameLong(t, name) == NameShort(t, name)
    ensures name.family.Some? && Filled(name.given) ==>
      NameLong(t, name) == NameShort(t, name) + ", " + Initials(t, name.given.value)
  {
  }

  /** Within a run of lower-case letters that `b` does not continue, the run
      ends at the same place in `a` and in `a + b`. */
  lemma {:induction false} LowerRunEndConcat(t: Letters, a: string, b: string, k: nat)
    requires k <= |a|
    requires b == [] || !t.isLower(b[0])
    ensures LowerRunEnd(t, a + b, k) == LowerRunEnd(t, a, k)
    decreases |a| - k
  {
    if k < |a| && t.isLower(a[k]) {
      LowerRunEndConcat(t, a, b, k + 1);
    } else if k == |a| {
      assert b == [] || (a + b)[k] == b[0];
    }
  }

  /** The initials of a text split before a character that is not
      lower-case are the initials of its two halves: a match never crosses
      such a point, so given names are abbreviated word by word. */
  lemma {:induction false} InitialsConcat(t: Letters, a: string, b: string)
    requires b == [] || !t.isLower(b[0])
    ensures Initials(t, a + b) == Initials(t, a) + Initials(t, b)
    decreases |a|
  {
    if |a| == 0 {
      assert a + b == b;
    } else if StartsWord(t, a, 0) {
      var e := LowerRunEnd(t, a, 1);
      InitialsConcat(t, a[e..], b);
      InitialsWordStep(t, a, b);
    } else {
      assert !StartsWord(t, a + b, 0) by {
        if |a| == 1 && |b| > 0 {
          assert (a + b)[1] == b[0];
        }
      }
      assert (a + b)[1..] == a[1..] + b;
      InitialsConcat(t, a[1..], b);
    }
  }

  /** The first word of `a` is abbreviated the same way in `a + b`. */
  lemma InitialsWordStep(t: Letters, a: string, b: string)
    requires b == [] || !t.isLower(b[0])
    requires StartsWord(t, a, 0)
    ensures var e := LowerRunEnd(t, a, 1);
      Initials(t, a + b) == [a[0], '.'] + Initials(t, a[e..] + b)
  {
    var s := a + b;
    var e := LowerRunEnd(t, a, 1);
    assert StartsWord(t, s, 0) by {
      assert s[0] == a[0] && s[1] == a[1];
    }
    assert LowerRunEnd(t, s, 1) == e by {
      LowerRunEndConcat(t, a, b, 1);
    }
    assert s[e..] == a[e..] + b;
  }

  /** A text with no upper-case letter followed by a lower-case one comes
      back unchanged. */
  lemma {:induction false} InitialsKeepsText(t: Letters, s: string)
    requires forall i | 0 <= i < |s| :: !StartsWord(t, s, i)
    ensures Initials(t, s) == s
    decreases |s|
  {
    if |s| > 0 {
      assert !StartsWord(t, s, 0);
      assert forall i | 0 <= i < |s| - 1 :: StartsWord(t, s[1..], i) == StartsWord(t, s, i + 1);
      InitialsKeepsText(t, s[1..]);
    }
  }

  lemma InitialsOfWord(w: string)
    requires |w| >= 2 && 'A' <= w[0] <= 'Z' && forall k | 1 <= k < |w| :: 'a' <= w[k] <= 'z'
    ensures Initials(AsciiLetters(), w) == [w[0], '.']
  {
    var t := AsciiLetters();
    assert StartsWord(t, w, 0);
    assert LowerRunEnd(t, w, 1) == |w|;
    assert w[|w|..] == [];
  }

  lemma InitialsOfGiven()
    ensures Initials(AsciiLetters(), "Given") == "G."
  {
    InitialsOfWord("Given");
  }

  lemma InitialsOfSpacedName()
    ensures Initials(AsciiLetters(), " Name") == " N."
  {
    assert " Name"[1..] == "Name";
    InitialsOfWord("Name");
  }

  /** `Given 1` becomes `G. 1`. */
  lemma InitialsExample()
    ensures Initials(AsciiLetters(), "Given 1") == "G. 1"
  {
    var t := AsciiLetters();
    InitialsOfGiven();
    assert Initials(t, " 1") == " 1" by {
      assert Initials(t, "1") == "1";
    }
    InitialsConcat(t, "Given", " 1");
    assert "Given" + " 1" == "Given 1";
  }

  /** `Given Name` becomes `G. N.`. */
  lemma InitialsTwoWordsExample()
    ensures Initials(AsciiLetters(), "Given Name") == "G. N."
  {
    var t := AsciiLetters();
    InitialsOfGiven();
    InitialsOfSpacedName();
    InitialsConcat(t, "Given", " Name");
    assert "Given" + " Name" == "Given Name";
  }

  /** The name forms of a worked example: a non-dropping particle with a
      suffix, and the same without its comma. */
  lemma NameExamples()
    ensures var n := Name(Some("Family"), Some("Given"), None, Some("de"), Some("Jr."), Some(BoolValue(true)));
      NameShort(AsciiLetters(), n) == "de Family, Jr."
      && NameLong(AsciiLetters(), n) == "de Family, Jr., G."
      && NameShort(AsciiLetters(), n.(commaSuffix := Some(BoolValue(false)))) == "de Family Jr."
  {
    var n := Name(Some("Family"), Some("Given"), None, Some("de"), Some("Jr."), Some(BoolValue(true)));
    InitialsOfGiven();
    assert Particled(AsciiLetters(), Some("de"), "Family") == "de Family" by {
      assert EndsInLetter(AsciiLetters(), "de");
    }
    assert Suffixed(n, "de Family") == "de Family, Jr.";
    assert Suffixed(n.(commaSuffix := Some(BoolValue(false))), "de Family") == "de Family Jr.";
  }

  /** A dropping particle shows only in the long form. */
  lemma DroppingParticleExample()
    ensures var n := Name(Some("Family"), Some("Given"), Some("de"), None, None, None);
      NameShort(AsciiLetters(), n) == "Family" && NameLong(AsciiLetters(), n) == "de Family, G."
  {
    var n := Name(Some("Family"), Some("Given"), Some("de"), None, None, None);
    InitialsOfGiven();
    assert Particled(AsciiLetters(), Some("de"), "Family") == "de Family" by {
      assert EndsInLetter(AsciiLetters(), "de");
    }
    assert Suffixed(n, "de Family") == "de Family";
    assert Suffixed(n, "Family") == "Family";
  }

  // ----- items -----------------------------------------------------------------

  /** The first part of the first row of `date-parts`, if any. */
  function FirstYear(d: Date): Option<DatePart> {
    match d.dateParts
    case None => None
    case Some(rows) => if |rows| > 0 && |rows[0]| > 0 then Some(rows[0][0]) else None
  }

  /** `makeDateShort`, with the text the style uses for a date that has no
      year as `missing` (`"0000"` in the example style, `""` in the square
      style). */
  function DateShort(date: Option<Date>, missing: string): (r: string)
    ensures date.None? ==> r == ""
    ensures date.Some? && FirstYear(date.value).Some? ==> r == DatePartText(FirstYear(date.value).value)
    ensures date.Some? && FirstYear(date.value).None? ==> r == missing
  {
    match date
    case None => ""
    case Some(d) =>
      if d.dateParts.Some? then
        (if |d.dateParts.value| > 0 && |d.dateParts.value[0]| > 0 then DatePartText(d.dateParts.value[0][0]) else missing)
      else missing
  }

  /** Two styles that differ only in the text for a missing year agree on
      every date except one that is present without a year. */
  lemma DateShortMissing(date: Option<Date>, m1: string, m2: string)
    ensures DateShort(date, m1) == DateShort(date, m2) <==> m1 == m2 || date.None? || FirstYear(date.value).Some?
  {
  }

  /** `makePlain`: the item written back in Pandoc's citation syntax,
      `prefix @id, locator suffix`, used when the item is unknown: the lead
      of `PlainLead`, the key, and the tail of `PlainTail`. */
  function Plain(item: CiteItem): (r: string)
    ensures r == PlainLead(item) + IdKey(item.id) + PlainTail(FieldText(item.locator), FieldText(item.suffix))
  {
    PlainLead(item) + IdKey(item.id) + PlainTail(FieldText(item.locator), FieldText(item.suffix))
  }

  /** The text of a field that is present and not empty, otherwise `""`. */
  function FieldText(v: Option<string>): (r: string)
    ensures Filled(v) <==> r != ""
    ensures Filled(v) ==> r == v.value
  {
    if Filled(v) then v.value else ""
  }

  /** The parts of the plain text of every item: the lead, the key right
      after it, a comma after the key exactly when a locator or a suffix is
      filled, the locator after a space right behind the comma, and the
      suffix, or else the locator, at the end after a space. */
  lemma PlainParts(item: CiteItem)
    ensures var r, lead := Plain(item), PlainLead(item);
      |lead| <= |r| && r[..|lead|] == lead
    ensures var r, k := Plain(item), |PlainLead(item)| + |IdKey(item.id)|;
      k <= |r| && r[|PlainLead(item)|..k] == IdKey(item.id)
    ensures var r, k := Plain(item), |PlainLead(item)| + |IdKey(item.id)|;
      k < |r| <==> Filled(item.locator) || Filled(item.suffix)
    ensures var r, k := Plain(item), |PlainLead(item)| + |IdKey(item.id)|;
      k < |r| ==> r[k] == ','
    ensures Filled(item.locator) ==>
      var r, k := Plain(item), |PlainLead(item)| + |IdKey(item.id)|;
      k + 2 + |item.locator.value| <= |r| && r[k + 1..k + 2 + |item.locator.value|] == " " + item.locator.value
    ensures Filled(item.suffix) ==>
      var r := Plain(item);
      |item.suffix.value| + 1 <= |r| && r[|r| - |item.suffix.value| - 1..] == " " + item.suffix.value
    ensures Filled(item.locator) && !Filled(item.suffix) ==>
      var r := Plain(item);
      |item.locator.value| + 1 <= |r| && r[|r| - |item.locator.value| - 1..] == " " + item.locator.value
  {
    var lead, key, locator, suffix := PlainLead(item), IdKey(item.id), FieldText(item.locator), FieldText(item.suffix);
    assert Plain(item) == lead + key + PlainTail(locator, suffix);
    PlainTextParts(lead, key, locator, suffix);
  }

  /** `PlainParts` over the texts of the parts. */
  lemma PlainTextParts(lead: string, key: string, locator: string, suffix: string)
    ensures var r := lead + key + PlainTail(locator, suffix);
      |lead| + |key| <= |r| && r[..|lead|] == lead && r[|lead|..|lead| + |key|] == key
      && (|lead| + |key| < |r| <==> locator != "" || suffix != "")
      && (|lead| + |key| < |r| ==> r[|lead| + |key|] == ',')
    ensures locator != "" ==>
      var r, k := lead + key + PlainTail(locator, suffix), |lead| + |key|;
      k + 2 + |locator| <= |r| && r[k + 1..k + 2 + |locator|] == " " + locator
    ensures suffix != "" ==>
      var r := lead + key + PlainTail(locator, suffix);
      |suffix| + 1 <= |r| && r[|r| - |suffix| - 1..] == " " + suffix
    ensures locator != "" && suffix == "" ==>
      var r := lead + key + PlainTail(locator, suffix);
      |locator| + 1 <= |r| && r[|r| - |locator| - 1..] == " " + locator
  {
    var tail := PlainTail(locator, suffix);
    HeadAndTail(lead, key, tail);
    if locator != "" {
      TailStart(lead + key, tail, 1 + |locator|);
    }
    EndOfConcat(lead + key, tail, |suffix| + 1);
    EndOfConcat(lead + key, tail, |locator| + 1);
  }

  /** Where the two leading parts of a concatenation of three lie. */
  lemma HeadAndTail(a: string, b: string, c: string)
    ensures |a| + |b| <= |a + b + c| && (a + b + c)[..|a|] == a && (a + b + c)[|a|..|a| + |b|] == b
    ensures |a| + |b| < |a + b + c| <==> c != ""
    ensures c != "" ==> (a + b + c)[|a| + |b|] == c[0]
  {
  }

  /** A concatenation continues with the start of its second part. */
  lemma TailStart(a: string, b: string, n: nat)
    requires 1 <= n <= |b|
    ensures (a + b)[|a| + 1..|a| + n] == b[1..n]
  {
  }

  /** The end of a concatenation that lies within its second part. */
  lemma EndOfConcat(a: string, b: string, n: nat)
    ensures n <= |b| ==> (a + b)[|a + b| - n..] == b[|b| - n..]
  {
  }

  /** What follows the key: a comma exactly when there is a locator or a
      suffix, then each of them after a space. */
  function PlainTail(locator: string, suffix: string): (r: string)
    ensures |r| > 0 <==> locator != "" || suffix != ""
    ensures |r| > 0 ==> r[0] == ','
    ensures locator != "" ==> 2 + |locator| <= |r| && r[1..2 + |locator|] == " " + locator
    ensures suffix != "" ==> |suffix| + 1 <= |r| && r[|r| - |suffix| - 1..] == " " + suffix
    ensures locator != "" && suffix == "" ==> |locator| + 1 <= |r| && r[|r| - |locator| - 1..] == " " + locator
  {
    var loc := if locator != "" then " " + locator else "";
    var suf := if suffix != "" then " " + suffix else "";
    if loc == "" && suf == "" then "" else
      assert ("," + loc + suf)[1..1 + |loc|] == loc;
      "," + loc + suf
  }

  /** What `makePlain` writes before the key: the prefix and a space when
      there is a prefix, then `-@` when the author is suppressed and `@`
      otherwise. */
  function PlainLead(item: CiteItem): (r: string)
    ensures Filled(item.prefix) ==> |item.prefix.value| + 1 < |r| && r[..|item.prefix.value| + 1] == item.prefix.value + " "
    ensures !Filled(item.prefix) ==> r == if Truthy(item.suppressAuthor) then "-@" else "@"
    ensures var m := if Truthy(item.suppressAuthor) then "-@" else "@";
      |m| <= |r| && r[|r| - |m|..] == m
  {
    var lead := if Filled(item.prefix) then item.prefix.value + " " else "";
    var mark := if Truthy(item.suppressAuthor) then "-@" else "@";
    assert (lead + mark)[|lead + mark| - |mark|..] == mark;
    lead + mark
  }

  /** `see -@id, p. 1 more`: every part present. */
  lemma PlainExample()
    ensures Plain(CiteItem(StrId("id"), None, Some("see"), Some("more"), Some("p. 1"), None, Some(BoolValue(true)), None, None))
      == "see -@id, p. 1 more"
  {
    var item := CiteItem(StrId("id"), None, Some("see"), Some("more"), Some("p. 1"), None, Some(BoolValue(true)), None, None);
    assert PlainLead(item) == "see -@";
    assert FieldText(item.locator) == "p. 1" && FieldText(item.suffix) == "more";
    assert PlainTail("p. 1", "more") == ", p. 1 more";
    assert IdKey(item.id) == "id";
    assert Plain(item) == "see -@" + "id" + ", p. 1 more";
  }

  /** `makeAuthorShort`: the short names of the authors; with no `author`
      field at all, the publisher, then the container title. An empty
      author list is still an author list. */
  function AuthorShort(t: Letters, data: Option<DataItem>): (r: string) {
    match data
    case None => ""
    case Some(d) =>
      if d.author.Some? then NamesShort(t, d.author.value)
      else d.publisher.GetOr(d.containerTitle.GetOr(""))
  }

  /** The fallback order of the short author: the author list whenever
      there is one, even an empty one, then the publisher, then the
      container title, then nothing. */
  lemma AuthorShortOrder(t: Letters, data: Option<DataItem>)
    ensures data.None? ==> AuthorShort(t, data) == ""
    ensures data.Some? && data.value.author.Some? ==> AuthorShort(t, data) == NamesShort(t, data.value.author.value)
    ensures data.Some? && data.value.author == Some([]) ==> AuthorShort(t, data) == ""
    ensures data.Some? && data.value.author.None? && data.value.publisher.Some? ==>
      AuthorShort(t, data) == data.value.publisher.value
    ensures data.Some? && data.value.author.None? && data.value.publisher.None? && data.value.containerTitle.Some? ==>
      AuthorShort(t, data) == data.value.containerTitle.value
    ensures data.Some? && data.value.author.None? && data.value.publisher.None? && data.value.containerTitle.None? ==>
      AuthorShort(t, data) == ""
  {
  }

  /** `makeAuthorLong` of the example style: the long names of the authors,
      otherwise the publisher. */
  method AuthorLong(t: Letters, data: Option<DataItem>) returns (r: string)
    ensures data.None? ==> r == ""
    ensures data.Some? && data.value.author.Some? ==> r == NamesLongSpec(t, data.value.author.value)
    ensures data.Some? && data.value.author.None? ==> r == data.value.publisher.GetOr("")
  {
    match data
    case None => r := "";
    case Some(d) =>
      if d.author.Some? {
        r := NamesLong(t, d.author.value);
      } else {
        r := d.publisher.GetOr("");
      }
  }

  // ----- node lists --------------------------------------------------------------

  predicate IsDelimiter(n: Content) {
    n == Space || n == CommaSpace
  }

  /** Appends a text node, after the delimiter unless the list is empty. */
  function Push(nodes: seq<Content>, delim: Content, text: string): seq<Content> {
    nodes + (if |nodes| > 0 then [delim] else []) + [Text(text)]
  }

  /** A node list as the styles build it: non-empty texts at even positions,
      delimiters between them, none at either end. */
  predicate WellDelimited(nodes: seq<Content>) {
    (|nodes| % 2 == 1 || |nodes| == 0)
    && (forall i | 0 <= i < |nodes| && i % 2 == 0 :: nodes[i].Text? && nodes[i].value != "")
    && (forall i | 0 <= i < |nodes| && i % 2 == 1 :: IsDelimiter(nodes[i]))
  }

  /** The texts of a well-delimited list, without its delimiters. */
  function Words(nodes: seq<Content>): (r: seq<string>)
    requires WellDelimited(nodes)
    ensures |r| == (|nodes| + 1) / 2
  {
    seq((|nodes| + 1) / 2, i requires 0 <= i < (|nodes| + 1) / 2 => nodes[2 * i].value)
  }

  /** The strings of `xs` that are not empty, in order. */
  function NonEmpty(xs: seq<string>): (r: seq<string>)
    ensures |r| <= |xs|
  {
    if |xs| == 0 then []
    else (if xs[0] == "" then [] else [xs[0]]) + NonEmpty(xs[1..])
  }

  /** Pushing a non-empty text keeps a list well delimited and adds exactly
      that text to its words. */
  lemma PushWords(nodes: seq<Content>, delim: Content, text: string)
    requires WellDelimited(nodes) && IsDelimiter(delim) && text != ""
    ensures WellDelimited(Push(nodes, delim, text))
    ensures Words(Push(nodes, delim, text)) == Words(nodes) + [text]
  {
    var r := Push(nodes, delim, text);
    assert |r| == if |nodes| == 0 then 1 else |nodes| + 2;
    assert forall i | 0 <= i < |nodes| :: r[i] == nodes[i];
    assert r[|r| - 1] == Text(text);
    assert |nodes| > 0 ==> r[|nodes|] == delim;
  }

  /** `Push` guarded by `if (text)`, as every push of the styles is. */
  function PushIfAny(nodes: seq<Content>, delim: Content, text: string): seq<Content> {
    if text != "" then Push(nodes, delim, text) else nodes
  }

  /** A guarded push adds the text to the words when there is one. */
  lemma PushIfAnyWords(nodes: seq<Content>, delim: Content, text: string)
    requires WellDelimited(nodes) && IsDelimiter(delim)
    ensures WellDelimited(PushIfAny(nodes, delim, text))
    ensures Words(PushIfAny(nodes, delim, text)) == Words(nodes) + Keep(text)
  {
    if text != "" {
      PushWords(nodes, delim, text);
    }
  }

  /** The nodes in front of an in-text bracket: none when there is no lead
      text, otherwise the lead texts, delimited, and a space. */
  predicate LeadsInto(outside: seq<Content>, lead: seq<string>) {
    (outside == [] <==> lead == [])
    && (outside != [] ==>
          outside[|outside| - 1] == Space && WellDelimited(outside[..|outside| - 1])
          && Words(outside[..|outside| - 1]) == lead)
  }

  /** The prefix nodes and the space the in-text renderings put after them. */
  lemma LeadsIntoPrefix(prefix: seq<Content>, lead: seq<string>)
    requires WellDelimited(prefix) && Words(prefix) == lead
    ensures LeadsInto(prefix + (if |prefix| > 0 then [Space] else []), lead)
  {
    var outside := prefix + (if |prefix| > 0 then [Space] else []);
    if prefix != [] {
      assert outside[..|outside| - 1] == prefix;
    }
  }

  /** Three guarded pushes add the non-empty texts among the three, in order. */
  lemma PushThreeWords(nodes: seq<Content>, d1: Content, d2: Content, d3: Content, a: string, b: string, c: string)
    requires WellDelimited(nodes) && IsDelimiter(d1) && IsDelimiter(d2) && IsDelimiter(d3)
    ensures var r := PushIfAny(PushIfAny(PushIfAny(nodes, d1, a), d2, b), d3, c);
      WellDelimited(r) && Words(r) == Words(nodes) + NonEmpty([a, b, c])
  {
    var x := PushIfAny(nodes, d1, a);
    var y := PushIfAny(x, d2, b);
    PushIfAnyWords(nodes, d1, a);
    PushIfAnyWords(x, d2, b);
    PushIfAnyWords(y, d3, c);
    NonEmptyThree(a, b, c);
    SeqAssoc4(Words(nodes), Keep(a), Keep(b), Keep(c));
  }

  /** Two guarded pushes add the non-empty texts among the two, in order. */
  lemma PushTwoWords(nodes: seq<Content>, d1: Content, d2: Content, a: string, b: string)
    requires WellDelimited(nodes) && IsDelimiter(d1) && IsDelimiter(d2)
    ensures var r := PushIfAny(PushIfAny(nodes, d1, a), d2, b);
      WellDelimited(r) && Words(r) == Words(nodes) + NonEmpty([a, b])
  {
    var x := PushIfAny(nodes, d1, a);
    PushIfAnyWords(nodes, d1, a);
    PushIfAnyWords(x, d2, b);
    NonEmptyTwo(a, b);
  }

  lemma SeqAssoc4(w: seq<string>, a: seq<string>, b: seq<string>, c: seq<string>)
    ensures w + a + b + c == w + (a + b + c)
  {
  }

  /** Appending two well-delimited lists with a delimiter between them
      keeps the texts of both, in order. */
  lemma JoinWords(a: seq<Content>, delim: Content, b: seq<Content>)
    requires WellDelimited(a) && WellDelimited(b) && |a| > 0 && |b| > 0 && IsDelimiter(delim)
    ensures WellDelimited(a + [delim] + b)
    ensures Words(a + [delim] + b) == Words(a) + Words(b)
  {
    var r := a + [delim] + b;
    forall i | 0 <= i < |r|
      ensures i % 2 == 0 ==> r[i].Text? && r[i].value != ""
      ensures i % 2 == 1 ==> IsDelimiter(r[i])
    {
      if i < |a| {
        assert r[i] == a[i];
      } else if i > |a| {
        assert r[i] == b[i - |a| - 1];
      }
    }
    var wa, wb, w := Words(a), Words(b), Words(r);
    assert |a| == 2 * |wa| - 1;
    forall i | 0 <= i < |w|
      ensures w[i] == (wa + wb)[i]
    {
      if i < |wa| {
        assert r[2 * i] == a[2 * i];
      } else {
        assert r[2 * i] == b[2 * (i - |wa|)];
      }
    }
  }

  /** The one-element list of `x`, or none when `x` is empty. */
  function Keep(x: string): seq<string> {
    if x == "" then [] else [x]
  }

  lemma NonEmptyTwo(a: string, b: string)
    ensures NonEmpty([a, b]) == Keep(a) + Keep(b)
  {
    assert [a, b][1..] == [b];
    assert [b][1..] == [];
  }

  lemma NonEmptyThree(a: string, b: string, c: string)
    ensures NonEmpty([a, b, c]) == Keep(a) + Keep(b) + Keep(c)
  {
    assert [a, b, c][1..] == [b, c];
    NonEmptyTwo(b, c);
  }

  lemma {:induction false} NonEmptyConcat(a: seq<string>, b: seq<string>)
    ensures NonEmpty(a + b) == NonEmpty(a) + NonEmpty(b)
    decreases |a|
  {
    if |a| > 0 {
      assert (a + b)[1..] == a[1..] + b;
      NonEmptyConcat(a[1..], b);
    } else {
      assert a + b == b;
    }
  }

  /** `item.itemData?.issued`. */
  function Issued(item: CiteItem): Option<Date> {
    if item.itemData.Some? then item.itemData.value.issued else None
  }

  /** The texts a citation shows ahead of the year: the prefix and, unless
      suppressed, the short author; empty strings stand for absent parts. */
  function LeadWords(t: Letters, item: CiteItem): seq<string> {
    [item.prefix.GetOr(""), if Truthy(item.suppressAuthor) then "" else AuthorShort(t, item.itemData)]
  }

  /** The texts a citation shows from the year on: the year, the locator and
      the suffix. */
  function TailWords(item: CiteItem, missing: string): seq<string> {
    [DateShort(Issued(item), missing), item.locator.GetOr(""), item.suffix.GetOr("")]
  }

  // ----- citations -----------------------------------------------------------------

  /** The parts separated by `sep`. */
  function Join(parts: seq<seq<Content>>, sep: seq<Content>): seq<Content> {
    if |parts| == 0 then []
    else if |parts| == 1 then parts[0]
    else parts[0] + sep + Join(parts[1..], sep)
  }

  /** Each further item, rendered after a `; `. */
  function SeparatedRest(items: seq<CiteItem>, render: CiteItem -> seq<Content>): seq<Content> {
    if |items| == 0 then []
    else [Semicolon] + render(items[0]) + SeparatedRest(items[1..], render)
  }

  /** The body both styles give `getCitation` and `getCitationInText`: the
      first item rendered, then `; ` before each further one. */
  function Separated(items: seq<CiteItem>, render: CiteItem -> seq<Content>): (r: seq<Content>) {
    if |items| == 0 then [] else render(items[0]) + SeparatedRest(items[1..], render)
  }

  function Rendered(items: seq<CiteItem>, render: CiteItem -> seq<Content>): (r: seq<seq<Content>>)
    ensures |r| == |items| && forall i | 0 <= i < |items| :: r[i] == render(items[i])
  {
    seq(|items|, i requires 0 <= i < |items| => render(items[i]))
  }

  /** When every item renders as one node, the joined list holds the node of
      item `i` at position `2 * i`, with a `; ` between each two. */
  lemma {:induction false} JoinOfSingles(items: seq<CiteItem>, render: CiteItem -> seq<Content>, i: nat)
    requires forall k | 0 <= k < |items| :: |render(items[k])| == 1
    requires i < |items|
    ensures var r := Join(Rendered(items, render), [Semicolon]);
      2 * i < |r| && r[2 * i] == render(items[i])[0]
    decreases |items|
  {
    var parts := Rendered(items, render);
    if |items| > 1 {
      assert parts[1..] == Rendered(items[1..], render);
      assert Join(parts, [Semicolon]) == parts[0] + [Semicolon] + Join(parts[1..], [Semicolon]);
      if i > 0 {
        JoinOfSingles(items[1..], render, i - 1);
        assert items[1..][i - 1] == items[i];
      }
    }
  }

  /** Two renderers of one node per item that differ on one item give
      different bracketed joins. */
  lemma BracketedJoinsDiffer(items: seq<CiteItem>, a: CiteItem -> seq<Content>, b: CiteItem -> seq<Content>, i: nat)
    requires forall k | 0 <= k < |items| :: |a(items[k])| == 1 && |b(items[k])| == 1
    requires i < |items| && a(items[i])[0] != b(items[i])[0]
    ensures [Opening] + Join(Rendered(items, a), [Semicolon]) + [Closing]
      != [Opening] + Join(Rendered(items, b), [Semicolon]) + [Closing]
  {
    JoinOfSingles(items, a, i);
    JoinOfSingles(items, b, i);
    var x := [Opening] + Join(Rendered(items, a), [Semicolon]) + [Closing];
    var y := [Opening] + Join(Rendered(items, b), [Semicolon]) + [Closing];
    assert x[2 * i + 1] == a(items[i])[0];
    assert y[2 * i + 1] == b(items[i])[0];
  }

  /** Rendering the first item and then `; ` and each further one is joining
      the rendered items with `; `. */
  lemma {:induction false} SeparatedIsJoin(items: seq<CiteItem>, render: CiteItem -> seq<Content>)
    ensures Separated(items, render) == Join(Rendered(items, render), [Semicolon])
    decreases |items|
  {
    if |items| > 1 {
      SeparatedIsJoin(items[1..], render);
      assert Rendered(items, render)[1..] == Rendered(items[1..], render);
      assert SeparatedRest(items[1..], render)
        == [Semicolon] + render(items[1]) + SeparatedRest(items[2..], render);
      assert items[1..][1..] == items[2..];
    }
  }
}

=== FILE: micromark.dfy ===
/** The part of micromark's tokenizer machinery that every syntax extension of
    the blog theme relies on: character codes, tokens, enter/exit events and the
    outcome of running a construct.

    A construct is modelled as a function from the code sequence and a start
    position to an `Outcome`: `Fail` is micromark's `nok` (under `attempt` the
    host then keeps no event and stays where it was, which is why `Fail` carries
    nothing), and `Ok(events, end)` is `ok` with the events the construct emitted
    and the position after the last consumed code. */
module Micromark {
  import opened Wrappers

  // micromark's control codes (micromark-util-symbol `codes`)
  const CarriageReturn: int := -5
  const LineFeed: int := -4
  const CarriageReturnLineFeed: int := -3
  const HorizontalTab: int := -2
  const VirtualSpace: int := -1

  // ASCII codes used by the constructs
  const Space: int := 0x20
  const ExclamationMark: int := 0x21
  const NumberSign: int := 0x23
  const Comma: int := 0x2C
  const Dash: int := 0x2D
  const Semicolon: int := 0x3B
  const AtSign: int := 0x40
  const LeftSquareBracket: int := 0x5B
  const RightSquareBracket: int := 0x5D
  const LeftCurlyBrace: int := 0x7B
  const VerticalBar: int := 0x7C
  const RightCurlyBrace: int := 0x7D

  /** A micromark `Code`: `null` at the end of the input, otherwise a UTF-16 code
      unit or one of the negative control codes. */
  datatype Code = Eof | Char(value: int)

  /** The code a state function receives at position `i`. */
  function CodeAt(s: seq<int>, i: nat): (c: Code)
    ensures c == Eof <==> i >= |s|
    ensures i < |s| ==> c == Char(s[i])
  {
    if i < |s| then Char(s[i]) else Eof
  }

  /** A token: its type and the half-open range of positions it covers. */
  datatype Token<K> = Token(kind: K, start: nat, end: nat)

  /** `effects.enter` and `effects.exit`; both events of one token carry it. */
  datatype Event<K> = Enter(token: Token<K>) | Exit(token: Token<K>)

  datatype Outcome<K> = Fail | Ok(events: seq<Event<K>>, end: nat)

  /** The events of a token of `kind` over [start, end) wrapping `inner`. */
  function Span<K>(kind: K, start: nat, end: nat, inner: seq<Event<K>>): seq<Event<K>> {
    [Enter(Token(kind, start, end))] + inner + [Exit(Token(kind, start, end))]
  }

  /** A token with nothing inside it. */
  function Leaf<K>(kind: K, start: nat, end: nat): seq<Event<K>> {
    Span(kind, start, end, [])
  }

  /** A token that is only entered when it would cover at least one code. */
  function LeafIfAny<K>(kind: K, start: nat, end: nat): seq<Event<K>> {
    if start < end then Leaf(kind, start, end) else []
  }

  /** Events already emitted, followed by whatever the next state does. */
  function Prepend<K>(evs: seq<Event<K>>, r: Outcome<K>): (o: Outcome<K>)
    ensures o.Ok? <==> r.Ok?
    ensures o.Ok? ==> o.events == evs + r.events && o.end == r.end
  {
    match r
    case Fail => Fail
    case Ok(e, end) => Ok(evs + e, end)
  }

  /** `effects.attempt([a, b], ok, nok)`: the first construct that succeeds;
      a failed attempt leaves no trace, so the second starts where the first did. */
  function FirstOk<K>(a: Outcome<K>, b: Outcome<K>): (r: Outcome<K>)
    ensures r.Ok? <==> a.Ok? || b.Ok?
    ensures a.Ok? ==> r == a
    ensures a.Fail? ==> r == b
  {
    if a.Ok? then a else b
  }

  /** End of input or a line ending: the `isBreak` of the ruby, wikilink and
      newer citation constructs. */
  predicate IsLineBreak(c: Code) {
    c == Eof || c.value <= CarriageReturnLineFeed
  }

  /** The first position from `i` on whose code is at most `floor` or one of
      `stops`, or the end of the input: where a run of content ends. */
  function RunEnd(s: seq<int>, i: nat, floor: int, stops: set<int>): (j: nat)
    requires i <= |s|
    ensures i <= j <= |s|
    ensures forall k :: i <= k < j ==> s[k] > floor && s[k] !in stops
    ensures j < |s| ==> s[j] <= floor || s[j] in stops
    decreases |s| - i
  {
    if i == |s| || s[i] <= floor || s[i] in stops then i else RunEnd(s, i + 1, floor, stops)
  }

  /** A run that has already been walked over ends where it would have ended
      from its start. */
  lemma {:induction false} RunEndSkip(s: seq<int>, i: nat, k: nat, floor: int, stops: set<int>)
    requires i <= k <= |s|
    requires forall m :: i <= m < k ==> s[m] > floor && s[m] !in stops
    ensures RunEnd(s, i, floor, stops) == RunEnd(s, k, floor, stops)
    decreases k - i
  {
    if i < k {
      RunEndSkip(s, i + 1, k, floor, stops);
    }
  }

  /** A run ends at the first stop after content. */
  lemma RunEndAt(s: seq<int>, i: nat, j: nat, floor: int, stops: set<int>)
    requires i <= j <= |s|
    requires forall m :: i <= m < j ==> s[m] > floor && s[m] !in stops
    requires j < |s| ==> s[j] <= floor || s[j] in stops
    ensures RunEnd(s, i, floor, stops) == j
  {
    RunEndSkip(s, i, j, floor, stops);
  }

  /** The codes a token covers (`sliceSerialize`, before codes become text);
      empty for a token that does not lie inside the input. */
  function Slice<K>(s: seq<int>, t: Token<K>): (r: seq<int>)
    ensures t.start <= t.end <= |s| ==> r == s[t.start..t.end]
  {
    if t.start <= t.end <= |s| then s[t.start..t.end] else []
  }

  /** The codes of a string without line endings or tabs: its UTF-16 code units. */
  function Codes(text: string): (s: seq<int>)
    ensures |s| == |text|
    ensures forall i :: 0 <= i < |text| ==> s[i] == text[i] as int
  {
    seq(|text|, i requires 0 <= i < |text| => text[i] as int)
  }

  /** The position at which an event happens. */
  function Pos<K>(e: Event<K>): nat {
    if e.Enter? then e.token.start else e.token.end
  }

  /** Replays events against a stack of open tokens, as micromark's
      `effects.enter` pushes and `effects.exit` pops; `None` when an exit does
      not close the innermost open token. */
  function Replay<K(==)>(evs: seq<Event<K>>, stack: seq<Token<K>>): Option<seq<Token<K>>>
    decreases |evs|
  {
    if |evs| == 0 then Some(stack)
    else match evs[0]
      case Enter(t) => Replay(evs[1..], stack + [t])
      case Exit(t) =>
        if |stack| > 0 && stack[|stack| - 1] == t then Replay(evs[1..], stack[..|stack| - 1])
        else None
  }

  /** Every token entered is exited, innermost first. */
  predicate Balanced<K(==)>(evs: seq<Event<K>>) {
    Replay(evs, []) == Some([])
  }

  /** Events happen in non-decreasing position order: each one no earlier
      than the one before it. */
  predicate Monotone<K>(evs: seq<Event<K>>)
    decreases |evs|
  {
    |evs| <= 1 || (Pos(evs[0]) <= Pos(evs[1]) && Monotone(evs[1..]))
  }

  /** Every token lies within [lo, hi] and does not run backwards. */
  predicate Inside<K>(evs: seq<Event<K>>, lo: nat, hi: nat)
    decreases |evs|
  {
    |evs| == 0 || (lo <= evs[0].token.start <= evs[0].token.end <= hi && Inside(evs[1..], lo, hi))
  }

  /** What micromark requires of the events a construct emits between `lo` and `hi`. */
  predicate WellFormed<K(==)>(evs: seq<Event<K>>, lo: nat, hi: nat) {
    Balanced(evs) && Monotone(evs) && Inside(evs, lo, hi)
  }

  /** An outcome fits its start position: on success its events are well formed
      between the start and the end, and it never moves backwards. */
  predicate Fits<K(==)>(r: Outcome<K>, pos: nat, len: nat) {
    r.Ok? ==> pos <= r.end <= len && WellFormed(r.events, pos, r.end)
  }

  lemma EventsAssoc<K>(a: seq<Event<K>>, b: seq<Event<K>>, c: seq<Event<K>>, d: seq<Event<K>>)
    ensures a + (b + (c + d)) == a + b + c + d
  {
  }

  /** A success whose events are well formed up to its end fits. */
  lemma FitsOk<K>(r: Outcome<K>, pos: nat, len: nat, evs: seq<Event<K>>, end: nat)
    requires r == Ok(evs, end) && pos <= end <= len && WellFormed(evs, pos, end)
    ensures Fits(r, pos, len)
  {
  }

  // ----- stack replay -----

  lemma {:induction false} ReplayConcat<K>(a: seq<Event<K>>, b: seq<Event<K>>, stack: seq<Token<K>>)
    ensures Replay(a + b, stack) == (match Replay(a, stack) case None => None case Some(m) => Replay(b, m))
    decreases |a|
  {
    if |a| == 0 {
      assert a + b == b;
    } else {
      assert (a + b)[1..] == a[1..] + b;
      match a[0]
      case Enter(t) =>
        ReplayConcat(a[1..], b, stack + [t]);
      case Exit(t) =>
        if |stack| > 0 && stack[|stack| - 1] == t {
          ReplayConcat(a[1..], b, stack[..|stack| - 1]);
        }
    }
  }

  /** A replay that succeeds on a stack also succeeds on any stack below it. */
  lemma {:induction false} ReplayLift<K>(evs: seq<Event<K>>, base: seq<Token<K>>, stack: seq<Token<K>>, result: seq<Token<K>>)
    requires Replay(evs, stack) == Some(result)
    ensures Replay(evs, base + stack) == Some(base + result)
    decreases |evs|
  {
    if |evs| > 0 {
      match evs[0]
      case Enter(t) =>
        assert (base + stack) + [t] == base + (stack + [t]);
        ReplayLift(evs[1..], base, stack + [t], result);
      case Exit(t) =>
        assert (base + stack)[..|base + stack| - 1] == base + stack[..|stack| - 1];
        ReplayLift(evs[1..], base, stack[..|stack| - 1], result);
    }
  }

  lemma BalancedConcat<K>(a: seq<Event<K>>, b: seq<Event<K>>)
    requires Balanced(a) && Balanced(b)
    ensures Balanced(a + b)
  {
    ReplayConcat(a, b, []);
  }

  lemma BalancedSpan<K>(kind: K, start: nat, end: nat, inner: seq<Event<K>>)
    requires Balanced(inner)
    ensures Balanced(Span(kind, start, end, inner))
  {
    var t := Token(kind, start, end);
    var enter, exit := [Enter(t)], [Exit(t)];
    assert Replay(enter, []) == Some([t]) by { assert enter[1..] == [] && [] + [t] == [t]; }
    ReplayConcat(enter, inner, []);
    ReplayLift(inner, [t], [], []);
    assert [t] + [] == [t];
    ReplayConcat(enter + inner, exit, []);
    assert Replay(exit, [t]) == Some([]) by { assert exit[1..] == [] && [t][..0] == []; }
  }

  // ----- well formedness -----

  lemma {:induction false} InsideAt<K>(evs: seq<Event<K>>, lo: nat, hi: nat, i: nat)
    requires Inside(evs, lo, hi) && i < |evs|
    ensures lo <= evs[i].token.start <= evs[i].token.end <= hi
    ensures lo <= Pos(evs[i]) <= hi
    decreases i
  {
    if i > 0 {
      InsideAt(evs[1..], lo, hi, i - 1);
      assert evs[1..][i - 1] == evs[i];
    }
  }

  lemma {:induction false} InsideWiden<K>(evs: seq<Event<K>>, lo: nat, hi: nat, lo': nat, hi': nat)
    requires Inside(evs, lo, hi) && lo' <= lo && hi <= hi'
    ensures Inside(evs, lo', hi')
    decreases |evs|
  {
    if |evs| > 0 {
      InsideWiden(evs[1..], lo, hi, lo', hi');
    }
  }

  lemma {:induction false} InsideConcat<K>(a: seq<Event<K>>, b: seq<Event<K>>, lo: nat, hi: nat)
    requires Inside(a, lo, hi) && Inside(b, lo, hi)
    ensures Inside(a + b, lo, hi)
    decreases |a|
  {
    if |a| == 0 {
      assert a + b == b;
    } else {
      InsideConcat(a[1..], b, lo, hi);
      assert (a + b)[0] == a[0];
      assert (a + b)[1..] == a[1..] + b;
    }
  }

  lemma {:induction false} MonotoneConcat<K>(a: seq<Event<K>>, b: seq<Event<K>>)
    requires Monotone(a) && Monotone(b)
    requires |a| > 0 && |b| > 0 ==> Pos(a[|a| - 1]) <= Pos(b[0])
    ensures Monotone(a + b)
    decreases |a|
  {
    if |a| == 0 {
      assert a + b == b;
    } else if |a| == 1 {
      assert (a + b)[1..] == b;
      if |b| > 0 {
        assert (a + b)[1] == b[0];
      }
    } else {
      MonotoneConcat(a[1..], b);
      assert (a + b)[1..] == a[1..] + b;
      assert (a + b)[0] == a[0] && (a + b)[1] == a[1];
    }
  }

  lemma WellFormedWiden<K>(evs: seq<Event<K>>, lo: nat, hi: nat, lo': nat, hi': nat)
    requires WellFormed(evs, lo, hi) && lo' <= lo && hi <= hi'
    ensures WellFormed(evs, lo', hi')
  {
    InsideWiden(evs, lo, hi, lo', hi');
  }

  lemma WellFormedConcat<K>(a: seq<Event<K>>, b: seq<Event<K>>, lo: nat, mid: nat, hi: nat)
    requires lo <= mid <= hi
    requires WellFormed(a, lo, mid) && WellFormed(b, mid, hi)
    ensures WellFormed(a + b, lo, hi)
  {
    BalancedConcat(a, b);
    if |a| > 0 && |b| > 0 {
      InsideAt(a, lo, mid, |a| - 1);
      InsideAt(b, mid, hi, 0);
    }
    MonotoneConcat(a, b);
    InsideWiden(a, lo, mid, lo, hi);
    InsideWiden(b, mid, hi, lo, hi);
    InsideConcat(a, b, lo, hi);
  }

  /** Four well-formed lists, each ending where the next begins. */
  lemma WellFormedChain<K>(a: seq<Event<K>>, b: seq<Event<K>>, c: seq<Event<K>>, d: seq<Event<K>>,
                           p0: nat, p1: nat, p2: nat, p3: nat, p4: nat)
    requires p0 <= p1 <= p2 <= p3 <= p4
    requires WellFormed(a, p0, p1) && WellFormed(b, p1, p2) && WellFormed(c, p2, p3) && WellFormed(d, p3, p4)
    ensures WellFormed(a + b + c + d, p0, p4)
  {
    WellFormedConcat(a, b, p0, p1, p2);
    WellFormedConcat(a + b, c, p0, p2, p3);
    WellFormedConcat(a + b + c, d, p0, p3, p4);
  }

  lemma WellFormedSpan<K>(kind: K, start: nat, end: nat, inner: seq<Event<K>>)
    requires start <= end && WellFormed(inner, start, end)
    ensures WellFormed(Span(kind, start, end, inner), start, end)
  {
    BalancedSpan(kind, start, end, inner);
    var t := Token(kind, start, end);
    var enter, exit := [Enter(t)], [Exit(t)];
    assert Monotone(enter) && Monotone(exit);
    assert Inside(enter, start, end) by { assert enter[1..] == []; }
    assert Inside(exit, start, end) by { assert exit[1..] == []; }
    if |inner| > 0 {
      InsideAt(inner, start, end, 0);
      InsideAt(inner, start, end, |inner| - 1);
      assert (enter + inner)[|enter + inner| - 1] == inner[|inner| - 1];
    }
    MonotoneConcat(enter, inner);
    MonotoneConcat(enter + inner, exit);
    InsideConcat(enter, inner, start, end);
    InsideConcat(enter + inner, exit, start, end);
  }

  lemma WellFormedLeaf<K>(kind: K, start: nat, end: nat)
    requires start <= end
    ensures WellFormed(Leaf(kind, start, end), start, end)
    ensures WellFormed(LeafIfAny(kind, start, end), start, end)
  {
    WellFormedSpan(kind, start, end, []);
  }
}

=== FILE: ruby_from_markdown.dfy ===
/** Recovery of the ruby base text for an annotation written without the `｜`
    prefix (remark-aozora-ruby/src/fromMarkdown.ts). When the `aozoraRuby`
    token is entered, the phrasing nodes already compiled in front of it are
    walked from the end backwards with one shared text scanner: nodes whose
    whole text is one script run are taken over, a text node that ends in such
    a run is split, and the walk stops at the first script boundary.

    Nodes other than text are reduced to their flattened text
    (`mdast-util-to-string`), which is given with the node. */
module RubyFromMarkdown {
  import opened ScanText

  /** A phrasing node: a text node, or any other node with its flattened text. */
  datatype Phrasing = Text(value: string) | Other(flat: string)

  /** The text the scanner sees for a node. */
  function Flat(n: Phrasing): string {
    match n
    case Text(v) => v
    case Other(f) => f
  }

  /** The text of a run of nodes, in order. */
  function FlatAll(ns: seq<Phrasing>): string
    decreases |ns|
  {
    if |ns| == 0 then "" else FlatAll(ns[..|ns| - 1]) + Flat(ns[|ns| - 1])
  }

  function Reverse<T>(s: seq<T>): (r: seq<T>)
    ensures |r| == |s|
    ensures forall i :: 0 <= i < |s| ==> r[i] == s[|s| - 1 - i]
    decreases |s|
  {
    if |s| == 0 then [] else [s[|s| - 1]] + Reverse(s[..|s| - 1])
  }

  /** The state of the walk when it ends: the surviving siblings, the base
      nodes in the order the source pushes them, and the shared scanner. */
  datatype Walk = Walk(siblings: seq<Phrasing>, base: seq<Phrasing>, scanner: State)

  /** One scanner narrows to another in the course of a walk. */
  predicate Settles(from: State, to: State) {
    from == to || from == ScanAny || (from == ScanKana && to in {ScanHiragana, ScanKatakana})
  }

  lemma SettlingWidensClass(t: Scripts, from: State, to: State, s: string)
    requires Settles(from, to) && from != ScanAny && Covers(t, ClassOf(from), s)
    ensures Covers(t, ClassOf(to), s)
  {
  }

  /** What the walk did to the sibling list: it removed the nodes behind
      position `m` (now in `base`, nearest first) and possibly split the text
      node at `m - 1`, whose tail then ends `base`. */
  predicate TookFromEnd(siblings: seq<Phrasing>, w: Walk) {
    var m := |w.siblings|;
    m <= |siblings| &&
    ( (w.siblings == siblings[..m] && w.base == Reverse(siblings[m..]))
      || (0 < m && w.siblings[..m - 1] == siblings[..m - 1]
          && siblings[m - 1].Text? && w.siblings[m - 1].Text?
          && |w.base| == |siblings| - m + 1
          && w.base[..|siblings| - m] == Reverse(siblings[m..])
          && w.base[|siblings| - m].Text?
          && w.siblings[m - 1].value != "" && w.base[|siblings| - m].value != ""
          && w.siblings[m - 1].value + w.base[|siblings| - m].value == siblings[m - 1].value))
  }

  /** The source's `while (true)` loop, from the scanner state `st` on; the
      base list is built in push order. */
  function WalkBack(t: Scripts, st: State, siblings: seq<Phrasing>): (w: Walk)
    ensures TookFromEnd(siblings, w)
    ensures FlatAll(w.siblings) + FlatAll(Reverse(w.base)) == FlatAll(siblings)
    ensures Settles(st, w.scanner)
    ensures w.scanner == ScanAny ==> w.base == []
    ensures w.scanner != ScanAny ==> Covers(t, ClassOf(w.scanner), FlatAll(Reverse(w.base)))
    decreases |siblings|
  {
    if |siblings| == 0 then Walk(siblings, [], st)
    else
      var node := siblings[|siblings| - 1];
      var init := siblings[..|siblings| - 1];
      var r := Scan(t, st, Flat(node));
      if |r.rest| > 0 then
        if node.Text? && |r.run| > 0 then
          var w := Walk(init + [Text(r.rest)], [Text(r.run)], r.next);
          WalkSplitFacts(t, siblings, r, w);
          w
        else Walk(siblings, [], st)
      else
        var w := WalkBack(t, r.next, init);
        var res := Walk(w.siblings, [node] + w.base, w.scanner);
        WalkTakeFacts(t, st, siblings, r, w, res);
        res
  }

  lemma WalkSplitFacts(t: Scripts, siblings: seq<Phrasing>, r: Scanned, w: Walk)
    requires |siblings| > 0 && siblings[|siblings| - 1].Text?
    requires r.rest + r.run == siblings[|siblings| - 1].value && |r.rest| > 0 && |r.run| > 0
    requires w == Walk(siblings[..|siblings| - 1] + [Text(r.rest)], [Text(r.run)], r.next)
    ensures TookFromEnd(siblings, w)
    ensures FlatAll(w.siblings) + FlatAll(Reverse(w.base)) == FlatAll(siblings)
  {
    var m := |siblings|;
    assert w.siblings[..m - 1] == siblings[..m - 1];
    assert siblings[m..] == [];
    assert Reverse(w.base) == w.base;
    assert FlatAll(w.base) == r.run by {
      assert w.base[..0] == [];
    }
    assert w.siblings[..|w.siblings| - 1] == siblings[..m - 1];
  }

  lemma FlatAllAppend(a: seq<Phrasing>, b: seq<Phrasing>)
    ensures FlatAll(a + b) == FlatAll(a) + FlatAll(b)
    decreases |b|
  {
    if |b| > 0 {
      assert (a + b)[..|a + b| - 1] == a + b[..|b| - 1];
      FlatAllAppend(a, b[..|b| - 1]);
    } else {
      assert a + b == a;
    }
  }

  lemma WalkTakeFacts(t: Scripts, st: State, siblings: seq<Phrasing>, r: Scanned, w: Walk, res: Walk)
    requires |siblings| > 0
    requires r == Scan(t, st, Flat(siblings[|siblings| - 1])) && |r.rest| == 0
    requires TookFromEnd(siblings[..|siblings| - 1], w)
    requires FlatAll(w.siblings) + FlatAll(Reverse(w.base)) == FlatAll(siblings[..|siblings| - 1])
    requires Settles(r.next, w.scanner)
    requires w.scanner != ScanAny ==> Covers(t, ClassOf(w.scanner), FlatAll(Reverse(w.base)))
    requires res == Walk(w.siblings, [siblings[|siblings| - 1]] + w.base, w.scanner)
    ensures TookFromEnd(siblings, res)
    ensures FlatAll(res.siblings) + FlatAll(Reverse(res.base)) == FlatAll(siblings)
    ensures Settles(st, res.scanner) && res.scanner != ScanAny
    ensures Covers(t, ClassOf(res.scanner), FlatAll(Reverse(res.base)))
  {
    var n := |siblings|;
    var node := siblings[n - 1];
    ReversePrepend(node, w.base);
    assert Flat(node) == r.run;
    TakeKeepsText(w, node, siblings);
    TakeKeepsScript(t, st, r, w);
    FlatAllLast(Reverse(w.base), node);
    TakeKeepsShape(siblings, w, res);
  }

  /** The scanner that took a whole node settles into the one the rest of
      the walk ends with, so the node's text is of that script too. */
  lemma TakeKeepsScript(t: Scripts, st: State, r: Scanned, w: Walk)
    requires r == Scan(t, st, r.rest + r.run) && |r.rest| == 0
    requires Settles(r.next, w.scanner)
    requires w.scanner != ScanAny ==> Covers(t, ClassOf(w.scanner), FlatAll(Reverse(w.base)))
    ensures Settles(st, w.scanner) && w.scanner != ScanAny
    ensures Covers(t, ClassOf(w.scanner), FlatAll(Reverse(w.base)) + r.run)
  {
    SettlingWidensClass(t, r.next, w.scanner, r.run);
    assert Settles(st, w.scanner) by {
      if st == ScanKana { assert r.next in {ScanKana, ScanHiragana, ScanKatakana}; }
    }
    CoversAppend(t, ClassOf(w.scanner), FlatAll(Reverse(w.base)), r.run);
  }

  lemma FlatAllLast(ns: seq<Phrasing>, n: Phrasing)
    ensures FlatAll(ns + [n]) == FlatAll(ns) + Flat(n)
  {
    assert (ns + [n])[..|ns|] == ns;
  }

  lemma TakeKeepsText(w: Walk, node: Phrasing, siblings: seq<Phrasing>)
    requires |siblings| > 0 && node == siblings[|siblings| - 1]
    requires FlatAll(w.siblings) + FlatAll(Reverse(w.base)) == FlatAll(siblings[..|siblings| - 1])
    ensures FlatAll(w.siblings) + FlatAll(Reverse(w.base) + [node]) == FlatAll(siblings)
  {
    FlatAllLast(Reverse(w.base), node);
  }

  lemma TakeKeepsShape(siblings: seq<Phrasing>, w: Walk, res: Walk)
    requires |siblings| > 0
    requires TookFromEnd(siblings[..|siblings| - 1], w)
    requires res == Walk(w.siblings, [siblings[|siblings| - 1]] + w.base, w.scanner)
    ensures TookFromEnd(siblings, res)
  {
    var n := |siblings|;
    var node := siblings[n - 1];
    var init := siblings[..n - 1];
    var m := |w.siblings|;
    assert siblings[m..] == init[m..] + [node];
    ReverseAppend(init[m..], node);
    if w.siblings == init[..m] && w.base == Reverse(init[m..]) {
      assert w.siblings == siblings[..m];
    } else {
      assert siblings[..m - 1] == init[..m - 1];
      assert res.base[..n - m] == [node] + w.base[..n - 1 - m];
    }
  }

  lemma ReversePrepend<T>(x: T, s: seq<T>)
    ensures Reverse([x] + s) == Reverse(s) + [x]
  {
    var a, b := Reverse([x] + s), Reverse(s) + [x];
    forall i | 0 <= i < |a|
      ensures a[i] == b[i]
    {
      if i < |s| { assert a[i] == ([x] + s)[|s| - i]; }
    }
  }

  lemma ReverseAppend<T>(s: seq<T>, x: T)
    ensures Reverse(s + [x]) == [x] + Reverse(s)
  {
    assert (s + [x])[..|s|] == s;
  }

  lemma CoversAppend(t: Scripts, c: Class, a: string, b: string)
    requires Covers(t, c, a) && Covers(t, c, b)
    ensures Covers(t, c, a + b)
  {
    assert forall i :: |a| <= i < |a + b| ==> (a + b)[i] == b[i - |a|];
  }

  // ----- an independent description of the walk, by position -----

  /** A text scanner step, as a value: the script scanner over `t` or any
      other. */
  type Scanner = (State, string) -> Scanned

  function ScannerOf(t: Scripts): (sc: Scanner)
    ensures forall st, x :: sc(st, x) == Scan(t, st, x)
  {
    (st: State, x: string) => Scan(t, st, x)
  }

  /** The scanner in force when the walk reaches node `j - 1`, had every node
      from `j` to the end been taken whole, starting from `st`. */
  function StateFrom(sc: Scanner, st: State, s: seq<Phrasing>, j: nat): State
    requires j <= |s|
    decreases |s| - j
  {
    if j == |s| then st else sc(StateFrom(sc, st, s, j + 1), Flat(s[j])).next
  }

  /** The scan of node `k` in the course of the walk. */
  function ScanOfNode(sc: Scanner, st: State, s: seq<Phrasing>, k: nat): Scanned
    requires k < |s|
  {
    sc(StateFrom(sc, st, s, k + 1), Flat(s[k]))
  }

  /** Every node from `m` to the end is one script run for its scanner. */
  predicate TakenFrom(sc: Scanner, st: State, s: seq<Phrasing>, m: nat)
    requires m <= |s|
  {
    forall k :: m <= k < |s| ==> ScanOfNode(sc, st, s, k).rest == ""
  }

  /** `kept` and `base` (in document order) are what the walk leaves: the
      nodes from `|kept|` on are taken whole; the walk stopped at the node
      before them, whose text has a script boundary, and split it when it is
      a text node ending in a non-empty run; it took everything when
      `kept` is empty. */
  predicate BaseOf(sc: Scanner, st: State, s: seq<Phrasing>, kept: seq<Phrasing>, base: seq<Phrasing>) {
    var m := |kept|;
    && m <= |s|
    && TakenFrom(sc, st, s, m)
    && (m == 0 ==> base == s)
    && (m > 0 ==>
          var r := ScanOfNode(sc, st, s, m - 1);
          && r.rest != ""
          && (if s[m - 1].Text? && r.run != ""
              then kept == s[..m - 1] + [Text(r.rest)] && base == [Text(r.run)] + s[m..]
              else kept == s[..m] && base == s[m..]))
  }

  /** Taking the last node whole leaves the scanner positions of the others
      as they were, seen from the scanner it settled into. */
  lemma {:induction false} StateFromInit(sc: Scanner, st: State, s: seq<Phrasing>, j: nat)
    requires j < |s|
    ensures StateFrom(sc, st, s, j) == StateFrom(sc, sc(st, Flat(s[|s| - 1])).next, s[..|s| - 1], j)
    decreases |s| - j
  {
    if j < |s| - 1 {
      StateFromInit(sc, st, s, j + 1);
    }
  }

  /** The walk leaves exactly what `BaseOf` describes. */
  lemma {:induction false} WalkBackFindsBase(t: Scripts, st: State, s: seq<Phrasing>)
    ensures BaseOf(ScannerOf(t), st, s, WalkBack(t, st, s).siblings, Reverse(WalkBack(t, st, s).base))
    decreases |s|, 1
  {
    if |s| > 0 {
      if Scan(t, st, Flat(s[|s| - 1])).rest != "" {
        WalkStopFindsBase(t, st, s);
      } else {
        WalkTakeFindsBase(t, st, s);
      }
    }
  }

  lemma WalkStopFindsBase(t: Scripts, st: State, s: seq<Phrasing>)
    requires |s| > 0 && Scan(t, st, Flat(s[|s| - 1])).rest != ""
    ensures BaseOf(ScannerOf(t), st, s, WalkBack(t, st, s).siblings, Reverse(WalkBack(t, st, s).base))
  {
    var sc := ScannerOf(t);
    assert sc(st, Flat(s[|s| - 1])) == Scan(t, st, Flat(s[|s| - 1]));
    var w := WalkBack(t, st, s);
    assert Reverse(w.base) == w.base;
    StopGivesBase(sc, st, s, w.siblings, w.base);
  }

  lemma {:induction false} WalkTakeFindsBase(t: Scripts, st: State, s: seq<Phrasing>)
    requires |s| > 0 && Scan(t, st, Flat(s[|s| - 1])).rest == ""
    ensures BaseOf(ScannerOf(t), st, s, WalkBack(t, st, s).siblings, Reverse(WalkBack(t, st, s).base))
    decreases |s|, 0
  {
    var sc := ScannerOf(t);
    var n := |s|;
    var r := Scan(t, st, Flat(s[n - 1]));
    assert sc(st, Flat(s[n - 1])) == r;
    WalkBackFindsBase(t, r.next, s[..n - 1]);
    var w' := WalkBack(t, r.next, s[..n - 1]);
    assert WalkBack(t, st, s).base == [s[n - 1]] + w'.base;
    ReversePrepend(s[n - 1], w'.base);
    TakeExtendsBase(sc, st, s, w'.siblings, Reverse(w'.base));
  }

  /** A walk that stops at the last node leaves the siblings whole, or splits
      the last one when it is a text node ending in a run. */
  lemma StopGivesBase(sc: Scanner, st: State, s: seq<Phrasing>, kept: seq<Phrasing>, base: seq<Phrasing>)
    requires |s| > 0 && sc(st, Flat(s[|s| - 1])).rest != ""
    requires var r := sc(st, Flat(s[|s| - 1]));
      if s[|s| - 1].Text? && r.run != ""
      then kept == s[..|s| - 1] + [Text(r.rest)] && base == [Text(r.run)]
      else kept == s && base == []
    ensures BaseOf(sc, st, s, kept, base)
  {
    var n := |s|;
    assert ScanOfNode(sc, st, s, n - 1) == sc(st, Flat(s[n - 1]));
    assert s[n..] == [];
    assert s[..n] == s;
  }

  /** Taking the last node whole adds it to the end of whatever the rest of
      the walk finds, with the scanner it settled into. */
  lemma TakeExtendsBase(sc: Scanner, st: State, s: seq<Phrasing>, kept: seq<Phrasing>, base: seq<Phrasing>)
    requires |s| > 0
    requires sc(st, Flat(s[|s| - 1])).rest == ""
    requires BaseOf(sc, sc(st, Flat(s[|s| - 1])).next, s[..|s| - 1], kept, base)
    ensures BaseOf(sc, st, s, kept, base + [s[|s| - 1]])
  {
    var n := |s|;
    var node := s[n - 1];
    var init := s[..n - 1];
    var next := sc(st, Flat(node)).next;
    var m := |kept|;
    TakeKeepsTaken(sc, st, s, m);
    assert s[m..] == init[m..] + [node];
    if m > 0 {
      StateFromInit(sc, st, s, m);
      assert ScanOfNode(sc, st, s, m - 1) == ScanOfNode(sc, next, init, m - 1);
      assert s[..m - 1] == init[..m - 1] && s[..m] == init[..m];
    } else {
      assert init + [node] == s;
    }
  }

  lemma TakeKeepsTaken(sc: Scanner, st: State, s: seq<Phrasing>, m: nat)
    requires m < |s|
    requires sc(st, Flat(s[|s| - 1])).rest == ""
    requires TakenFrom(sc, sc(st, Flat(s[|s| - 1])).next, s[..|s| - 1], m)
    ensures TakenFrom(sc, st, s, m)
  {
    var n := |s|;
    var next := sc(st, Flat(s[n - 1])).next;
    forall k | m <= k < n
      ensures ScanOfNode(sc, st, s, k).rest == ""
    {
      if k < n - 1 {
        StateFromInit(sc, st, s, k + 1);
        assert ScanOfNode(sc, st, s, k) == ScanOfNode(sc, next, s[..n - 1], k);
      }
    }
  }

  /** At most one split fits the description, so it determines the walk. */
  lemma BaseOfUnique(sc: Scanner, st: State, s: seq<Phrasing>, kept1: seq<Phrasing>, base1: seq<Phrasing>, kept2: seq<Phrasing>, base2: seq<Phrasing>)
    requires BaseOf(sc, st, s, kept1, base1) && BaseOf(sc, st, s, kept2, base2)
    ensures kept1 == kept2 && base1 == base2
  {
    var m1, m2 := |kept1|, |kept2|;
    if m1 > 0 {
      assert ScanOfNode(sc, st, s, m1 - 1).rest != "";
    }
    if m2 > 0 {
      assert ScanOfNode(sc, st, s, m2 - 1).rest != "";
    }
    assert m1 == m2;
  }

  // ----- buildBaseTextFromSiblings, as written and as intended -----

  /** `buildBaseTextFromSiblings(siblings, [])` as written: the surviving
      siblings and the base nodes in the order the source pushes them,
      nearest first. */
  function BuildBaseTextAsWritten(t: Scripts, siblings: seq<Phrasing>): (r: (seq<Phrasing>, seq<Phrasing>))
    ensures FlatAll(r.0) + FlatAll(Reverse(r.1)) == FlatAll(siblings)
    ensures TookFromEnd(siblings, Walk(r.0, r.1, ScanAny))
    ensures BaseOf(ScannerOf(t), ScanAny, siblings, r.0, Reverse(r.1))
  {
    var w := WalkBack(t, ScanAny, siblings);
    WalkBackFindsBase(t, ScanAny, siblings);
    (w.siblings, w.base)
  }

  lemma KeptSiblingsArePrefix(siblings: seq<Phrasing>, w: Walk)
    requires TookFromEnd(siblings, w)
    ensures forall i :: 0 <= i < |w.siblings| - 1 ==> w.siblings[i] == siblings[i]
  {
    var m := |w.siblings|;
    if m > 0 {
      assert w.siblings[..m - 1] == siblings[..m - 1];
      forall i | 0 <= i < m - 1
        ensures w.siblings[i] == siblings[i]
      {
        assert w.siblings[..m - 1][i] == siblings[..m - 1][i];
      }
    }
  }

  /** The base text in document order, which is what the ruby element needs:
      the surviving siblings followed by the base read as the original. */
  function BuildBaseText(t: Scripts, siblings: seq<Phrasing>): (r: (seq<Phrasing>, seq<Phrasing>))
    ensures FlatAll(r.0) + FlatAll(r.1) == FlatAll(siblings)
    ensures exists c :: Covers(t, c, FlatAll(r.1))
    ensures |r.0| <= |siblings|
    ensures forall i :: 0 <= i < |r.0| - 1 ==> r.0[i] == siblings[i]
    ensures BaseOf(ScannerOf(t), ScanAny, siblings, r.0, r.1)
  {
    var w := WalkBack(t, ScanAny, siblings);
    WalkBackFindsBase(t, ScanAny, siblings);
    var c := if w.scanner == ScanAny then HanClass else ClassOf(w.scanner);
    assert Covers(t, c, FlatAll(Reverse(w.base))) by {
      if w.scanner == ScanAny {
        assert Reverse(w.base) == [];
      }
    }
    KeptSiblingsArePrefix(siblings, w);
    (w.siblings, Reverse(w.base))
  }

  /** The source pushes base nodes nearest first, so a base made of more than
      one node reads backwards: "ひらがな**ー**《…》" yields the base
      `[strong(ー), text(ひらがな)]`, which renders as "ーひらがな". */
  lemma BaseTextReadsBackwards(t: Scripts)
    requires t.hiragana('\U{3072}') && t.hiragana('\U{3089}') && t.hiragana('\U{304C}') && t.hiragana('\U{306A}')
    requires !t.han('\U{30FC}')
    ensures BuildBaseTextAsWritten(t, [Text("\U{3072}\U{3089}\U{304C}\U{306A}"), Other("\U{30FC}")]).1
         == [Other("\U{30FC}"), Text("\U{3072}\U{3089}\U{304C}\U{306A}")]
    ensures FlatAll([Other("\U{30FC}"), Text("\U{3072}\U{3089}\U{304C}\U{306A}")])
         != FlatAll([Text("\U{3072}\U{3089}\U{304C}\U{306A}"), Other("\U{30FC}")])
  {
    var hira := "\U{3072}\U{3089}\U{304C}\U{306A}";
    var bar := "\U{30FC}";
    BaseWalkOfMixedRun(t);
    BackwardsReadingDiffers(hira, bar);
  }

  /** Walking back over "ひらがな" and a prolonged mark takes both nodes,
      nearest first. */
  lemma BaseWalkOfMixedRun(t: Scripts)
    requires t.hiragana('\U{3072}') && t.hiragana('\U{3089}') && t.hiragana('\U{304C}') && t.hiragana('\U{306A}')
    requires !t.han('\U{30FC}')
    ensures WalkBack(t, ScanAny, [Text("\U{3072}\U{3089}\U{304C}\U{306A}"), Other("\U{30FC}")]).base
         == [Other("\U{30FC}"), Text("\U{3072}\U{3089}\U{304C}\U{306A}")]
  {
    var hira := "\U{3072}\U{3089}\U{304C}\U{306A}";
    var bar := "\U{30FC}";
    ProlongedMarkSettlesOnKana(t);
    HiraganaNarrowsKana(t);
    WalkTwoWhole(t, Text(hira), Other(bar));
  }

  /** Two nodes the scanners take whole, the nearer one first, both join the
      base, nearest first. */
  lemma WalkTwoWhole(t: Scripts, a: Phrasing, b: Phrasing)
    requires Scan(t, ScanAny, Flat(b)).rest == ""
    requires Scan(t, Scan(t, ScanAny, Flat(b)).next, Flat(a)).rest == ""
    ensures WalkBack(t, ScanAny, [a, b]).base == [b, a]
  {
    var sibs := [a, b];
    assert sibs[..1] == [a];
    WalkTakesLast(t, ScanAny, sibs);
    WalkOfOne(t, Scan(t, ScanAny, Flat(b)).next, a);
  }

  /** A single node the scanner takes whole is the whole base. */
  lemma WalkOfOne(t: Scripts, st: State, node: Phrasing)
    requires Scan(t, st, Flat(node)).rest == ""
    ensures WalkBack(t, st, [node]).base == [node]
  {
    assert [node][..0] == [];
  }

  /** A last node the scanner takes whole joins the base ahead of what the
      rest of the walk collects. */
  lemma WalkTakesLast(t: Scripts, st: State, sibs: seq<Phrasing>)
    requires |sibs| > 0 && Scan(t, st, Flat(sibs[|sibs| - 1])).rest == ""
    ensures WalkBack(t, st, sibs).base
      == [sibs[|sibs| - 1]] + WalkBack(t, Scan(t, st, Flat(sibs[|sibs| - 1])).next, sibs[..|sibs| - 1]).base
  {
  }

  lemma BackwardsReadingDiffers(hira: string, bar: string)
    requires |hira| > 0 && |bar| > 0 && hira[0] != bar[0]
    ensures FlatAll([Other(bar), Text(hira)]) != FlatAll([Text(hira), Other(bar)])
  {
    var back := [Other(bar), Text(hira)];
    var sibs := [Text(hira), Other(bar)];
    assert back[..1] == [Other(bar)] && back[..1][..0] == [];
    assert sibs[..1] == [Text(hira)] && sibs[..1][..0] == [];
    assert FlatAll(back[..1]) == "" + bar;
    assert FlatAll(sibs[..1]) == "" + hira;
    assert FlatAll(back) == "" + bar + hira;
    assert FlatAll(sibs) == "" + hira + bar;
    assert FlatAll(back)[0] == bar[0];
    assert FlatAll(sibs)[0] == hira[0];
  }

  lemma ProlongedMarkSettlesOnKana(t: Scripts)
    requires !t.han('\U{30FC}')
    ensures Scan(t, ScanAny, "\U{30FC}") == Scanned("", "\U{30FC}", ScanKana)
  {
    var bar := "\U{30FC}";
    assert bar[0..] == bar;
    assert !InClass(t, HanClass, bar[0]);
    assert Covers(t, ProlongedClass, bar);
    assert FirstCovering(t, Alternatives(ScanAny), bar, 1) == 1;
    assert FirstCovering(t, Alternatives(ScanAny), bar, 0) == 1;
    assert LazyMatch(t, Alternatives(ScanAny), bar, 0) == Match(0, 1);
  }

  lemma HiraganaNarrowsKana(t: Scripts)
    requires t.hiragana('\U{3072}') && t.hiragana('\U{3089}') && t.hiragana('\U{304C}') && t.hiragana('\U{306A}')
    ensures Scan(t, ScanKana, "\U{3072}\U{3089}\U{304C}\U{306A}")
         == Scanned("", "\U{3072}\U{3089}\U{304C}\U{306A}", ScanHiragana)
  {
    var hira := "\U{3072}\U{3089}\U{304C}\U{306A}";
    assert hira[0..] == hira;
    assert !InClass(t, ProlongedClass, hira[0]);
    forall i | 0 <= i < |hira|
      ensures InClass(t, HiraganaClass, hira[i])
    {
      if i == 0 {} else if i == 1 {} else if i == 2 {} else {}
    }
    assert FirstCovering(t, Alternatives(ScanKana), hira, 1) == 1;
    assert FirstCovering(t, Alternatives(ScanKana), hira, 0) == 1;
    assert LazyMatch(t, Alternatives(ScanKana), hira, 0) == Match(0, 1);
  }

  // ----- the `aozoraRuby` enter handler -----

  /** The `aozoraRuby` node as entered; the parens and the ruby text are
      appended to its children afterwards by the host. */
  datatype Ruby = Ruby(children: seq<Phrasing>)

  /** `enter.aozoraRuby` as written: for a token without prefix the base
      nodes go into the ruby in the order the walk pushes them, nearest
      first; otherwise the ruby starts empty and the parent is left alone. */
  function EnterRubyAsWritten(t: Scripts, noPrefix: bool, parentChildren: seq<Phrasing>): (r: (seq<Phrasing>, Ruby))
    ensures !noPrefix ==> r.0 == parentChildren && r.1.children == []
    ensures noPrefix ==> BaseOf(ScannerOf(t), ScanAny, parentChildren, r.0, Reverse(r.1.children))
  {
    if noPrefix then
      var b := BuildBaseTextAsWritten(t, parentChildren);
      (b.0, Ruby(b.1))
    else (parentChildren, Ruby([]))
  }

  /** `enter.aozoraRuby` with the base in document order: for a token
      without prefix the base text is taken from the parent's children;
      otherwise the ruby starts empty and the parent is left alone. */
  function EnterRuby(t: Scripts, noPrefix: bool, parentChildren: seq<Phrasing>): (r: (seq<Phrasing>, Ruby))
    ensures !noPrefix ==> r.0 == parentChildren && r.1.children == []
    ensures noPrefix ==> FlatAll(r.0) + FlatAll(r.1.children) == FlatAll(parentChildren)
    ensures noPrefix ==> BaseOf(ScannerOf(t), ScanAny, parentChildren, r.0, r.1.children)
    ensures |r.0| <= |parentChildren|
  {
    if noPrefix then
      var b := BuildBaseText(t, parentChildren);
      (b.0, Ruby(b.1))
    else (parentChildren, Ruby([]))
  }
}

=== FILE: ruby_syntax.dfy ===
/** The micromark extension for Aozora Bunko ruby (remark-aozora-ruby/src/syntax.ts):
    `｜base《ruby》` with an explicit prefix, and `base《ruby》` without one, in
    which case only the `《ruby》` part is tokenized and the base text is
    recovered later from the text in front of it. */
module RubySyntax {
  import opened Wrappers
  import opened Micromark

  /** Token types; `AozoraRuby(true)` is an `aozoraRuby` token carrying
      `_aozoraRubySyntaxType: "noPrefix"`. */
  datatype RubyKind = AozoraRuby(noPrefix: bool) | RubyPrefix | RubyOpen | RubyText | ChunkText | RubyClose

  /** A marker is the first UTF-16 code unit of its string; `None` stands for
      the NaN that `charCodeAt(0)` gives for an empty string, which equals no code. */
  datatype Config = Config(prefix: Option<int>, opening: Option<int>, closing: Option<int>)

  /** ｜ 《 》 */
  const DefaultConfig := Config(Some(0xFF5C), Some(0x300A), Some(0x300B))

  /** The markers as strings of UTF-16 code units. */
  datatype Options = Options(prefix: seq<int>, opening: seq<int>, closing: seq<int>)

  function CharCodeAt0(s: seq<int>): (m: Option<int>)
    ensures m.Some? <==> |s| > 0
    ensures m.Some? ==> m.value == s[0]
  {
    if |s| > 0 then Some(s[0]) else None
  }

  /** The configuration `aozoraRubySyntax(opts)` closes over. */
  function ConfigOf(opts: Option<Options>): (c: Config)
    ensures opts.None? ==> c == DefaultConfig
    ensures opts.Some? && |opts.value.prefix| > 0 ==> c.prefix == Some(opts.value.prefix[0])
    ensures opts.Some? && |opts.value.opening| > 0 ==> c.opening == Some(opts.value.opening[0])
    ensures opts.Some? && |opts.value.closing| > 0 ==> c.closing == Some(opts.value.closing[0])
    ensures opts.Some? && |opts.value.prefix| == 0 ==> c.prefix == None
    ensures opts.Some? && |opts.value.opening| == 0 ==> c.opening == None
    ensures opts.Some? && |opts.value.closing| == 0 ==> c.closing == None
  {
    match opts
    case None => DefaultConfig
    case Some(o) => Config(CharCodeAt0(o.prefix), CharCodeAt0(o.opening), CharCodeAt0(o.closing))
  }

  predicate IsMarker(c: Code, m: Option<int>) {
    m.Some? && c == Char(m.value)
  }

  /** The codes a marker can stop a run at. */
  function Stops(m: Option<int>): set<int> {
    if m.Some? then {m.value} else {}
  }

  // ----- tokenizeRubyText -----

  function Close(cfg: Config, s: seq<int>, i: nat): (r: Outcome<RubyKind>)
    ensures r.Ok? <==> IsMarker(CodeAt(s, i), cfg.closing)
    ensures r.Ok? ==> r == Ok(Leaf(RubyClose, i, i + 1), i + 1)
  {
    if !IsMarker(CodeAt(s, i), cfg.closing) then Fail
    else Ok(Leaf(RubyClose, i, i + 1), i + 1)
  }

  /** `finishRubyText`: inside a ruby text that began at `start`. */
  function FinishRubyText(cfg: Config, s: seq<int>, start: nat, i: nat): (r: Outcome<RubyKind>)
    requires start < i <= |s|
    ensures var j := RunEnd(s, i, CarriageReturnLineFeed, Stops(cfg.closing));
      (r.Ok? <==> j < |s| && s[j] > CarriageReturnLineFeed)
      && (r.Ok? ==> r == Ok(Span(RubyText, start, j, Leaf(ChunkText, start, j)) + Leaf(RubyClose, j, j + 1), j + 1))
    decreases |s| - i
  {
    var c := CodeAt(s, i);
    if IsLineBreak(c) then Fail
    else if IsMarker(c, cfg.closing) then
      Prepend(Span(RubyText, start, i, Leaf(ChunkText, start, i)), Close(cfg, s, i))
    else FinishRubyText(cfg, s, start, i + 1)
  }

  /** `startRubyText`: just after the opening marker; `《》` is allowed. */
  function StartRubyText(cfg: Config, s: seq<int>, i: nat): (r: Outcome<RubyKind>)
    requires i <= |s|
    ensures var j := RunEnd(s, i, CarriageReturnLineFeed, Stops(cfg.closing));
      (r.Ok? <==> j < |s| && s[j] > CarriageReturnLineFeed)
      && (r.Ok? ==> r == Ok(RubyTextEvents(i, j), j + 1))
  {
    var c := CodeAt(s, i);
    if IsLineBreak(c) then Fail
    else if IsMarker(c, cfg.closing) then Close(cfg, s, i)
    else FinishRubyText(cfg, s, i, i + 1)
  }

  /** The events of a ruby text whose content is [i, j) and whose closing
      marker is at j; an empty content gets no `aozoraRubyText` token. */
  function RubyTextEvents(i: nat, j: nat): seq<Event<RubyKind>> {
    (if i < j then Span(RubyText, i, j, Leaf(ChunkText, i, j)) else []) + Leaf(RubyClose, j, j + 1)
  }

  /** `tokenizeRubyText`, from its `open` state at `p`. */
  function TokenizeRubyText(cfg: Config, s: seq<int>, p: nat): (r: Outcome<RubyKind>)
    requires p <= |s|
    ensures p == |s| ==> r.Fail?
    ensures p < |s| ==> var j := RunEnd(s, p + 1, CarriageReturnLineFeed, Stops(cfg.closing));
      (r.Ok? <==> IsMarker(Char(s[p]), cfg.opening) && j < |s| && s[j] > CarriageReturnLineFeed)
      && (r.Ok? ==> r.end == j + 1 && r.events == Leaf(RubyOpen, p, p + 1) + RubyTextEvents(p + 1, j))
  {
    if !IsMarker(CodeAt(s, p), cfg.opening) then Fail
    else Prepend(Leaf(RubyOpen, p, p + 1), StartRubyText(cfg, s, p + 1))
  }

  // ----- tokenizeWithPrefix -----

  /** `finishBaseText`: inside a base text that began at `start`. */
  function FinishBaseText(cfg: Config, s: seq<int>, start: nat, i: nat): (r: Outcome<RubyKind>)
    requires start < i <= |s|
    ensures var q := RunEnd(s, i, CarriageReturnLineFeed, Stops(cfg.opening));
      (r.Ok? <==> q < |s| && s[q] > CarriageReturnLineFeed && TokenizeRubyText(cfg, s, q).Ok?)
      && (r.Ok? ==> r == Prepend(Leaf(ChunkText, start, q), TokenizeRubyText(cfg, s, q)))
    decreases |s| - i
  {
    var c := CodeAt(s, i);
    if IsLineBreak(c) then Fail
    else if IsMarker(c, cfg.opening) then Prepend(Leaf(ChunkText, start, i), TokenizeRubyText(cfg, s, i))
    else FinishBaseText(cfg, s, start, i + 1)
  }

  /** `startBaseText`: just after the prefix; an empty base text is allowed. */
  function StartBaseText(cfg: Config, s: seq<int>, i: nat): (r: Outcome<RubyKind>)
    requires i <= |s|
    ensures var q := RunEnd(s, i, CarriageReturnLineFeed, Stops(cfg.opening));
      (r.Ok? <==> q < |s| && s[q] > CarriageReturnLineFeed && TokenizeRubyText(cfg, s, q).Ok?)
      && (r.Ok? ==> r == Prepend(LeafIfAny(ChunkText, i, q), TokenizeRubyText(cfg, s, q)))
  {
    var c := CodeAt(s, i);
    if IsLineBreak(c) then Fail
    else if IsMarker(c, cfg.opening) then
      assert LeafIfAny(ChunkText, i, i) == [];
      assert Prepend([], TokenizeRubyText(cfg, s, i)) == TokenizeRubyText(cfg, s, i);
      TokenizeRubyText(cfg, s, i)
    else FinishBaseText(cfg, s, i, i + 1)
  }

  /** `finish`, run with the code the ruby text consumed last. */
  function Finish(cfg: Config, s: seq<int>, start: nat, noPrefix: bool, inner: seq<Event<RubyKind>>, r: Outcome<RubyKind>): Outcome<RubyKind>
    requires r.Ok? ==> r.end > 0
  {
    match r
    case Fail => Fail
    case Ok(evs, end) =>
      if !IsMarker(CodeAt(s, end - 1), cfg.closing) then Fail
      else Ok(Span(AozoraRuby(noPrefix), start, end, inner + evs), end)
  }

  // ----- an independent description of a prefixed ruby -----

  /** What a ruby starting with the prefix marker at `p` amounts to: a base
      text up to the opening marker and a ruby text up to the closing one,
      neither crossing a line ending. */
  function PrefixedRuby(cfg: Config, s: seq<int>, p: nat): Outcome<RubyKind>
    requires p <= |s|
  {
    if p == |s| || !IsMarker(Char(s[p]), cfg.prefix) then Fail
    else
      var q := RunEnd(s, p + 1, CarriageReturnLineFeed, Stops(cfg.opening));
      if q == |s| || s[q] <= CarriageReturnLineFeed then Fail
      else
        var j := RunEnd(s, q + 1, CarriageReturnLineFeed, Stops(cfg.closing));
        if j == |s| || s[j] <= CarriageReturnLineFeed then Fail
        else Ok(PrefixedEvents(p, q, j), j + 1)
  }

  /** The events of a prefixed ruby whose opening marker is at `q` and whose
      closing marker is at `j`; an empty base text gets no token. */
  function PrefixedEvents(p: nat, q: nat, j: nat): seq<Event<RubyKind>> {
    Span(AozoraRuby(false), p, j + 1,
         Leaf(RubyPrefix, p, p + 1) + LeafIfAny(ChunkText, p + 1, q)
         + Leaf(RubyOpen, q, q + 1) + RubyTextEvents(q + 1, j))
  }

  /** `tokenizeWithPrefix` from `start` at `p`. */
  function TokenizeWithPrefix(cfg: Config, s: seq<int>, p: nat): (r: Outcome<RubyKind>)
    requires p <= |s|
    ensures r == PrefixedRuby(cfg, s, p)
  {
    if !IsMarker(CodeAt(s, p), cfg.prefix) then Fail
    else
      var body := StartBaseText(cfg, s, p + 1);
      WithPrefixBody(cfg, s, p);
      Finish(cfg, s, p, false, Leaf(RubyPrefix, p, p + 1), body)
  }

  /** What `finish` makes of the body after a prefix at `p`. */
  lemma WithPrefixBody(cfg: Config, s: seq<int>, p: nat)
    requires p < |s| && IsMarker(Char(s[p]), cfg.prefix)
    ensures var body := StartBaseText(cfg, s, p + 1);
      (body.Ok? ==> body.end > 0)
      && Finish(cfg, s, p, false, Leaf(RubyPrefix, p, p + 1), body) == PrefixedRuby(cfg, s, p)
  {
    var q := RunEnd(s, p + 1, CarriageReturnLineFeed, Stops(cfg.opening));
    var body := StartBaseText(cfg, s, p + 1);
    if q < |s| && s[q] > CarriageReturnLineFeed {
      var t := TokenizeRubyText(cfg, s, q);
      assert body == Prepend(LeafIfAny(ChunkText, p + 1, q), t);
      var j := RunEnd(s, q + 1, CarriageReturnLineFeed, Stops(cfg.closing));
      assert IsMarker(Char(s[q]), cfg.opening);
      if j < |s| && s[j] > CarriageReturnLineFeed {
        assert IsMarker(CodeAt(s, j), cfg.closing);
        FinishPrefixed(cfg, s, p, q, j, t, body);
      } else {
        assert t.Fail? && body.Fail?;
        assert PrefixedRuby(cfg, s, p) == Fail;
      }
    } else {
      assert body.Fail?;
      assert PrefixedRuby(cfg, s, p) == Fail;
    }
  }

  lemma FinishPrefixed(cfg: Config, s: seq<int>, p: nat, q: nat, j: nat, t: Outcome<RubyKind>, body: Outcome<RubyKind>)
    requires q < j < |s| && IsMarker(CodeAt(s, j), cfg.closing)
    requires t.Ok? && t.end == j + 1 && t.events == Leaf(RubyOpen, q, q + 1) + RubyTextEvents(q + 1, j)
    requires body == Prepend(LeafIfAny(ChunkText, p + 1, q), t)
    ensures body.end > 0
    ensures Finish(cfg, s, p, false, Leaf(RubyPrefix, p, p + 1), body) == Ok(PrefixedEvents(p, q, j), j + 1)
  {
    var a, b, c, d := Leaf(RubyPrefix, p, p + 1), LeafIfAny(ChunkText, p + 1, q), Leaf(RubyOpen, q, q + 1), RubyTextEvents(q + 1, j);
    assert a + body.events == a + b + c + d by {
      assert body.events == b + (c + d);
      EventsAssoc(a, b, c, d);
    }
    assert Finish(cfg, s, p, false, a, body) == Ok(Span(AozoraRuby(false), p, j + 1, a + body.events), j + 1);
  }

  /** What a ruby without a prefix, triggered at the opening marker at `p`,
      amounts to: a ruby text up to the closing marker on the same line. */
  function UnprefixedRuby(cfg: Config, s: seq<int>, p: nat): Outcome<RubyKind>
    requires p <= |s|
  {
    if p == |s| || !IsMarker(Char(s[p]), cfg.opening) then Fail
    else
      var j := RunEnd(s, p + 1, CarriageReturnLineFeed, Stops(cfg.closing));
      if j == |s| || s[j] <= CarriageReturnLineFeed then Fail
      else Ok(UnprefixedEvents(p, j), j + 1)
  }

  /** The events of a ruby without a prefix whose closing marker is at `j`. */
  function UnprefixedEvents(p: nat, j: nat): seq<Event<RubyKind>> {
    Span(AozoraRuby(true), p, j + 1, Leaf(RubyOpen, p, p + 1) + RubyTextEvents(p + 1, j))
  }

  /** `tokenizeWithoutPrefix` from `start` at `p`. */
  function TokenizeWithoutPrefix(cfg: Config, s: seq<int>, p: nat): (r: Outcome<RubyKind>)
    requires p <= |s|
    ensures r == UnprefixedRuby(cfg, s, p)
  {
    if !IsMarker(CodeAt(s, p), cfg.opening) then Fail
    else
      var body := TokenizeRubyText(cfg, s, p);
      WithoutPrefixBody(cfg, s, p, body);
      Finish(cfg, s, p, true, [], body)
  }

  /** What `finish` makes of the ruby text opened at `p`. */
  lemma WithoutPrefixBody(cfg: Config, s: seq<int>, p: nat, body: Outcome<RubyKind>)
    requires p < |s| && IsMarker(Char(s[p]), cfg.opening) && body == TokenizeRubyText(cfg, s, p)
    ensures body.Ok? ==> body.end > 0
    ensures Finish(cfg, s, p, true, [], body) == UnprefixedRuby(cfg, s, p)
  {
    var j := RunEnd(s, p + 1, CarriageReturnLineFeed, Stops(cfg.closing));
    if j < |s| && s[j] > CarriageReturnLineFeed {
      assert body.Ok? && body.end == j + 1 && body.events == Leaf(RubyOpen, p, p + 1) + RubyTextEvents(p + 1, j);
      assert Finish(cfg, s, p, true, [], body) == Ok(Span(AozoraRuby(true), p, j + 1, [] + body.events), j + 1) by {
        assert IsMarker(CodeAt(s, j), cfg.closing);
      }
      assert [] + body.events == body.events;
    } else {
      assert body.Fail?;
    }
  }

  /** The constructs the extension registers under the code at `p`: the
      opening marker's entry, else the prefix marker's. (When both markers are
      the same code the later key of the object literal, the opening one, is
      the only one registered.) Both run inside `effects.attempt`, so a
      failure emits nothing and consumes nothing. */
  function RubyAt(cfg: Config, s: seq<int>, p: nat): (r: Outcome<RubyKind>)
    requires p <= |s|
    ensures r.Ok? ==> p < |s| && (IsMarker(CodeAt(s, p), cfg.opening) || IsMarker(CodeAt(s, p), cfg.prefix))
    ensures r.Ok? ==> |r.events| > 0 && r.events[0] == Enter(Token(AozoraRuby(IsMarker(CodeAt(s, p), cfg.opening)), p, r.end))
    ensures IsMarker(CodeAt(s, p), cfg.opening) ==> r == TokenizeWithoutPrefix(cfg, s, p)
    ensures !IsMarker(CodeAt(s, p), cfg.opening) && IsMarker(CodeAt(s, p), cfg.prefix) ==> r == TokenizeWithPrefix(cfg, s, p)
  {
    var c := CodeAt(s, p);
    if IsMarker(c, cfg.opening) then TokenizeWithoutPrefix(cfg, s, p)
    else if IsMarker(c, cfg.prefix) then TokenizeWithPrefix(cfg, s, p)
    else Fail
  }

  // ----- well formed events -----

  lemma RubyTextEventsFit(i: nat, j: nat)
    requires i <= j
    ensures WellFormed(RubyTextEvents(i, j), i, j + 1)
  {
    WellFormedLeaf(RubyClose, j, j + 1);
    if i < j {
      WellFormedLeaf(ChunkText, i, j);
      WellFormedSpan(RubyText, i, j, Leaf(ChunkText, i, j));
      WellFormedConcat(Span(RubyText, i, j, Leaf(ChunkText, i, j)), Leaf(RubyClose, j, j + 1), i, j, j + 1);
    } else {
      assert RubyTextEvents(i, j) == Leaf(RubyClose, j, j + 1);
    }
  }

  lemma WithoutPrefixFits(cfg: Config, s: seq<int>, p: nat)
    requires p <= |s|
    ensures Fits(TokenizeWithoutPrefix(cfg, s, p), p, |s|)
  {
    var r := UnprefixedRuby(cfg, s, p);
    if r.Ok? {
      var j := RunEnd(s, p + 1, CarriageReturnLineFeed, Stops(cfg.closing));
      assert r == Ok(UnprefixedEvents(p, j), j + 1);
      OpenPartsFit(p, j);
      FitsOk(r, p, |s|, UnprefixedEvents(p, j), j + 1);
    }
  }

  lemma OpenPartsFit(p: nat, j: nat)
    requires p < j
    ensures WellFormed(UnprefixedEvents(p, j), p, j + 1)
  {
    WellFormedLeaf(RubyOpen, p, p + 1);
    RubyTextEventsFit(p + 1, j);
    WellFormedConcat(Leaf(RubyOpen, p, p + 1), RubyTextEvents(p + 1, j), p, p + 1, j + 1);
    WellFormedSpan(AozoraRuby(true), p, j + 1, Leaf(RubyOpen, p, p + 1) + RubyTextEvents(p + 1, j));
  }

  lemma WithPrefixFits(cfg: Config, s: seq<int>, p: nat)
    requires p <= |s|
    ensures Fits(TokenizeWithPrefix(cfg, s, p), p, |s|)
  {
    var r := PrefixedRuby(cfg, s, p);
    if r.Ok? {
      var q := RunEnd(s, p + 1, CarriageReturnLineFeed, Stops(cfg.opening));
      var j := RunEnd(s, q + 1, CarriageReturnLineFeed, Stops(cfg.closing));
      assert r == Ok(PrefixedEvents(p, q, j), j + 1);
      PrefixPartsFit(p, q, j);
      FitsOk(r, p, |s|, PrefixedEvents(p, q, j), j + 1);
    }
  }

  lemma PrefixPartsFit(p: nat, q: nat, j: nat)
    requires p < q < j
    ensures WellFormed(PrefixedEvents(p, q, j), p, j + 1)
  {
    PrefixInnerFit(p, q, j);
    WellFormedSpan(AozoraRuby(false), p, j + 1,
                   Leaf(RubyPrefix, p, p + 1) + LeafIfAny(ChunkText, p + 1, q)
                   + Leaf(RubyOpen, q, q + 1) + RubyTextEvents(q + 1, j));
  }

  lemma PrefixInnerFit(p: nat, q: nat, j: nat)
    requires p < q < j
    ensures WellFormed(Leaf(RubyPrefix, p, p + 1) + LeafIfAny(ChunkText, p + 1, q)
                       + Leaf(RubyOpen, q, q + 1) + RubyTextEvents(q + 1, j), p, j + 1)
  {
    RubyTextEventsFit(q + 1, j);
    MarkedPartsFit(RubyPrefix, ChunkText, RubyOpen, RubyTextEvents(q + 1, j), p, q, j + 1);
  }

  /** A one-code marker, a run that may be empty, another one-code marker
      and well-formed events after it. */
  lemma MarkedPartsFit<K>(k1: K, k2: K, k3: K, d: seq<Event<K>>, p: nat, q: nat, e: nat)
    requires p < q < e && WellFormed(d, q + 1, e)
    ensures WellFormed(Leaf(k1, p, p + 1) + LeafIfAny(k2, p + 1, q) + Leaf(k3, q, q + 1) + d, p, e)
  {
    var a := Leaf(k1, p, p + 1) + LeafIfAny(k2, p + 1, q);
    assert WellFormed(a, p, q) by {
      MarkerRunFit(k1, k2, p, q);
    }
    assert WellFormed(a + Leaf(k3, q, q + 1), p, q + 1) by {
      WellFormedLeaf(k3, q, q + 1);
      WellFormedConcat(a, Leaf(k3, q, q + 1), p, q, q + 1);
    }
    WellFormedConcat(a + Leaf(k3, q, q + 1), d, p, q + 1, e);
  }

  lemma MarkerRunFit<K>(k1: K, k2: K, p: nat, q: nat)
    requires p < q
    ensures WellFormed(Leaf(k1, p, p + 1) + LeafIfAny(k2, p + 1, q), p, q)
  {
    WellFormedLeaf(k1, p, p + 1);
    WellFormedLeaf(k2, p + 1, q);
    WellFormedConcat(Leaf(k1, p, p + 1), LeafIfAny(k2, p + 1, q), p, p + 1, q);
  }

  /** Whatever the ruby constructs accept, their events nest properly, never
      run backwards, and stay between the trigger and the end of the closing marker. */
  lemma RubyAtFits(cfg: Config, s: seq<int>, p: nat)
    requires p <= |s|
    ensures Fits(RubyAt(cfg, s, p), p, |s|)
  {
    WithoutPrefixFits(cfg, s, p);
    WithPrefixFits(cfg, s, p);
  }

  // ----- documented behaviour on concrete input -----

  /** "｜本文《ルビ》": prefix, base text, opening marker, ruby text, closing marker. */
  lemma PrefixedRubyExample()
    ensures RubyAt(DefaultConfig, [0xFF5C, 0x672C, 0x6587, 0x300A, 0x30EB, 0x30D3, 0x300B], 0)
         == Ok(Span(AozoraRuby(false), 0, 7,
                    Leaf(RubyPrefix, 0, 1) + Leaf(ChunkText, 1, 3) + Leaf(RubyOpen, 3, 4)
                    + Span(RubyText, 4, 6, Leaf(ChunkText, 4, 6)) + Leaf(RubyClose, 6, 7)), 7)
  {
    var s := [0xFF5C, 0x672C, 0x6587, 0x300A, 0x30EB, 0x30D3, 0x300B];
    assert RubyAt(DefaultConfig, s, 0) == Ok(PrefixedEvents(0, 3, 6), 7) by {
      assert RunEnd(s, 1, CarriageReturnLineFeed, {0x300A}) == 3;
      assert RunEnd(s, 4, CarriageReturnLineFeed, {0x300B}) == 6;
    }
    PrefixedExampleEvents();
  }

  lemma PrefixedExampleEvents()
    ensures PrefixedEvents(0, 3, 6)
         == Span(AozoraRuby(false), 0, 7,
                 Leaf(RubyPrefix, 0, 1) + Leaf(ChunkText, 1, 3) + Leaf(RubyOpen, 3, 4)
                 + Span(RubyText, 4, 6, Leaf(ChunkText, 4, 6)) + Leaf(RubyClose, 6, 7))
  {
    var a, b, c := Leaf(RubyPrefix, 0, 1) + Leaf(ChunkText, 1, 3), Leaf(RubyOpen, 3, 4), Span(RubyText, 4, 6, Leaf(ChunkText, 4, 6));
    EventsAssoc(a, b, c, Leaf(RubyClose, 6, 7));
  }

  /** "本文《ルビ》" at the opening marker: a `noPrefix` ruby with no base text token. */
  lemma UnprefixedRubyExample()
    ensures RubyAt(DefaultConfig, [0x672C, 0x6587, 0x300A, 0x30EB, 0x30D3, 0x300B], 2)
         == Ok(Span(AozoraRuby(true), 2, 6,
                    Leaf(RubyOpen, 2, 3) + Span(RubyText, 3, 5, Leaf(ChunkText, 3, 5)) + Leaf(RubyClose, 5, 6)), 6)
  {
    var s := [0x672C, 0x6587, 0x300A, 0x30EB, 0x30D3, 0x300B];
    assert RunEnd(s, 3, CarriageReturnLineFeed, {0x300B}) == 5;
  }

  /** "｜本文《ルビ" and "本文《ルビ": without the closing marker nothing is recognised. */
  lemma UnclosedRubyFails()
    ensures RubyAt(DefaultConfig, [0xFF5C, 0x672C, 0x6587, 0x300A, 0x30EB, 0x30D3], 0).Fail?
    ensures RubyAt(DefaultConfig, [0x672C, 0x6587, 0x300A, 0x30EB, 0x30D3], 2).Fail?
  {
    var s := [0xFF5C, 0x672C, 0x6587, 0x300A, 0x30EB, 0x30D3];
    assert RunEnd(s, 1, CarriageReturnLineFeed, {0x300A}) == 3;
    assert RunEnd(s, 4, CarriageReturnLineFeed, {0x300B}) == 6;
    var u := [0x672C, 0x6587, 0x300A, 0x30EB, 0x30D3];
    assert RunEnd(u, 3, CarriageReturnLineFeed, {0x300B}) == 5;
  }
}

=== FILE: scan_text.dfy ===
/** The text scanner of the aozora ruby plugin (utils/scanText.ts): it finds,
    at the END of a string, the longest run of characters of one writing script,
    so that a ruby annotation `《…》` without a `｜` prefix can take the run of
    kanji (or kana, or Latin letters) in front of it as its base text.

    Each scanner is a regular expression `^([\s\S]*?)(alt1|alt2|…)$`: the lazy
    first group stops at the FIRST position from which some alternative covers
    the whole rest of the string, and among those the FIRST alternative in
    order wins. A scanner that recognises several scripts narrows the scanner
    used for the next string to the script that won.

    Unicode script membership (`\p{sc=Han}` and friends) is not modelled; it
    is a parameter of every operation. */
module ScanText {

  /** The Unicode script properties the regular expressions use. */
  datatype Scripts = Scripts(
    han: char -> bool,
    hiragana: char -> bool,
    katakana: char -> bool,
    latin: char -> bool)

  /** One character class of the regular expressions. */
  datatype Class = HanClass | ProlongedClass | HiraganaClass | KatakanaClass | LatinClass

  /** The scanner a `TextScannerContext` will run next (`ctx.next`). */
  datatype State = ScanAny | ScanHan | ScanKana | ScanHiragana | ScanKatakana | ScanLatin

  const ProlongedSoundMark: char := '\U{30FC}'  // ー

  /** The characters the source lists next to `\p{sc=Han}`: 仝々〆〇ヶ. */
  predicate IsHanExtra(ch: char) {
    ch == '\U{4EDD}' || ch == '\U{3005}' || ch == '\U{3006}' || ch == '\U{3007}' || ch == '\U{30F6}'
  }

  predicate InClass(t: Scripts, c: Class, ch: char) {
    match c
    case HanClass => t.han(ch) || IsHanExtra(ch)
    case ProlongedClass => ch == ProlongedSoundMark
    case HiraganaClass => t.hiragana(ch) || ch == ProlongedSoundMark
    case KatakanaClass => t.katakana(ch) || ch == ProlongedSoundMark
    case LatinClass => t.latin(ch) || ch == '\''
  }

  /** `[class]*$` matches the whole of `s`. */
  predicate Covers(t: Scripts, c: Class, s: string) {
    forall i :: 0 <= i < |s| ==> InClass(t, c, s[i])
  }

  /** The alternatives of each scanner's regular expression, in source order. */
  function Alternatives(st: State): (alts: seq<Class>)
    ensures |alts| > 0
  {
    match st
    case ScanAny => [HanClass, ProlongedClass, HiraganaClass, KatakanaClass, LatinClass]
    case ScanHan => [HanClass]
    case ScanKana => [ProlongedClass, HiraganaClass, KatakanaClass]
    case ScanHiragana => [HiraganaClass]
    case ScanKatakana => [KatakanaClass]
    case ScanLatin => [LatinClass]
  }

  /** The scanner that takes over once alternative `c` has matched in state `st`. */
  function Narrow(st: State, c: Class): State {
    match st
    case ScanAny =>
      (match c
       case HanClass => ScanHan
       case ProlongedClass => ScanKana
       case HiraganaClass => ScanHiragana
       case KatakanaClass => ScanKatakana
       case LatinClass => ScanLatin)
    case ScanKana =>
      if c == HiraganaClass then ScanHiragana
      else if c == KatakanaClass then ScanKatakana
      else ScanKana
    case _ => st
  }

  /** The class a settled scanner (any but `ScanAny`) collects; for `ScanKana`
      that is the prolonged sound mark alone. */
  function ClassOf(st: State): Class
    requires st != ScanAny
  {
    match st
    case ScanHan => HanClass
    case ScanKana => ProlongedClass
    case ScanHiragana => HiraganaClass
    case ScanKatakana => KatakanaClass
    case ScanLatin => LatinClass
  }

  /** The first alternative, from index `a` on, that covers `s`; `|alts|` if none does. */
  function FirstCovering(t: Scripts, alts: seq<Class>, s: string, a: nat): (w: nat)
    requires a <= |alts|
    ensures a <= w <= |alts|
    ensures w < |alts| ==> Covers(t, alts[w], s)
    ensures forall b :: a <= b < w ==> !Covers(t, alts[b], s)
    decreases |alts| - a
  {
    if a == |alts| || Covers(t, alts[a], s) then a else FirstCovering(t, alts, s, a + 1)
  }

  /** Where the regular expression splits `s`, and which alternative took the rest. */
  datatype Match = Match(split: nat, alt: nat)

  /** The regular expression engine's search: try split positions from `k`
      upwards and, at each, the alternatives in order. */
  function LazyMatch(t: Scripts, alts: seq<Class>, s: string, k: nat): (m: Match)
    requires |alts| > 0 && k <= |s|
    ensures k <= m.split <= |s| && m.alt < |alts|
    ensures Covers(t, alts[m.alt], s[m.split..])
    ensures forall b :: 0 <= b < m.alt ==> !Covers(t, alts[b], s[m.split..])
    ensures forall j, b :: k <= j < m.split && 0 <= b < |alts| ==> !Covers(t, alts[b], s[j..])
    decreases |s| - k
  {
    var w := FirstCovering(t, alts, s[k..], 0);
    if w < |alts| then Match(k, w)
    else
      assert !Covers(t, alts[0], s[k..]);
      LazyMatch(t, alts, s, k + 1)
  }

  /** Alternative `a` of scanner `st` covers `run` and none before it does. */
  predicate FirstToCover(t: Scripts, st: State, a: nat, run: string) {
    && a < |Alternatives(st)|
    && Covers(t, Alternatives(st)[a], run)
    && forall b :: 0 <= b < a ==> !Covers(t, Alternatives(st)[b], run)
  }

  /** `[m[1], m[2]]` and the new `ctx.next`. */
  datatype Scanned = Scanned(rest: string, run: string, next: State)

  /** `ctx.next(ctx, input)`: one scanner step. The `m === null` branches of
      the source are unreachable (the expressions match every string) and are
      not modelled. */
  function Scan(t: Scripts, st: State, s: string): (r: Scanned)
    ensures r.rest + r.run == s
    ensures r.next != ScanAny && Covers(t, ClassOf(r.next), r.run)
    ensures forall j :: 0 <= j < |r.rest| ==> !Covers(t, ClassOf(r.next), s[j..])
    ensures st != ScanAny && st != ScanKana ==> r.next == st
    ensures st == ScanKana ==> r.next in {ScanKana, ScanHiragana, ScanKatakana}
  {
    var alts := Alternatives(st);
    var m := LazyMatch(t, alts, s, 0);
    var next := Narrow(st, alts[m.alt]);
    NarrowSettles(st, m.alt);
    assert forall j :: 0 <= j < m.split ==> !Covers(t, alts[m.alt], s[j..]);
    assert s[..m.split] + s[m.split..] == s;
    Scanned(s[..m.split], s[m.split..], next)
  }

  /** The regular expression's priorities: no alternative at all covers the
      string from any earlier split, and the scanner narrows by the first
      alternative that covers the run. */
  lemma ScanPicksFirstAlternative(t: Scripts, st: State, s: string)
    ensures var r := Scan(t, st, s);
      forall j, b :: 0 <= j < |r.rest| && 0 <= b < |Alternatives(st)| ==> !Covers(t, Alternatives(st)[b], s[j..])
    ensures var r := Scan(t, st, s);
      exists a: nat :: FirstToCover(t, st, a, r.run) && r.next == Narrow(st, Alternatives(st)[a])
  {
    var alts := Alternatives(st);
    var m := LazyMatch(t, alts, s, 0);
    assert FirstToCover(t, st, m.alt, s[m.split..]);
  }

  /** The scanner that takes over after alternative `a` collects that
      alternative's class; a settled scanner stays as it is and `ScanKana`
      stays among the kana scanners. */
  lemma NarrowSettles(st: State, a: nat)
    requires a < |Alternatives(st)|
    ensures var next := Narrow(st, Alternatives(st)[a]);
      next != ScanAny && ClassOf(next) == Alternatives(st)[a]
      && (st != ScanAny && st != ScanKana ==> next == st)
      && (st == ScanKana ==> next in {ScanKana, ScanHiragana, ScanKatakana})
  {
  }

  // ----- an independent definition: the longest covered suffix, found backwards -----

  /** Where the trailing run of class `c` begins, found by stepping back from the end. */
  function RunStart(t: Scripts, c: Class, s: string): (k: nat)
    ensures k <= |s|
    decreases |s|
  {
    if |s| > 0 && InClass(t, c, s[|s| - 1]) then RunStart(t, c, s[..|s| - 1]) else |s|
  }

  /** A suffix of `s` is covered exactly when it starts inside the trailing run. */
  lemma {:induction false} CoversIffAfterRunStart(t: Scripts, c: Class, s: string, j: nat)
    requires j <= |s|
    ensures Covers(t, c, s[j..]) <==> j >= RunStart(t, c, s)
    decreases |s|
  {
    if |s| > 0 && InClass(t, c, s[|s| - 1]) {
      var p := s[..|s| - 1];
      if j < |s| {
        CoversIffAfterRunStart(t, c, p, j);
        assert s[j..] == p[j..] + [s[|s| - 1]];
        if Covers(t, c, s[j..]) {
          assert forall i :: 0 <= i < |p[j..]| ==> p[j..][i] == s[j..][i];
        }
      } else {
        assert RunStart(t, c, p) <= |p|;
      }
    } else if j < |s| {
      assert s[j..][|s| - 1 - j] == s[|s| - 1];
    }
  }

  /** A settled scanner splits `s` where the trailing run of its class begins. */
  lemma SettledScanSplitsAtRunStart(t: Scripts, st: State, s: string)
    requires st != ScanAny && st != ScanKana
    ensures Scan(t, st, s).rest == s[..RunStart(t, ClassOf(st), s)]
    ensures Scan(t, st, s).run == s[RunStart(t, ClassOf(st), s)..]
  {
    var r := Scan(t, st, s);
    var k := RunStart(t, ClassOf(st), s);
    CoversIffAfterRunStart(t, ClassOf(st), s, |r.rest|);
    CoversIffAfterRunStart(t, ClassOf(st), s, k);
    assert r.rest == s[..|r.rest|] && r.run == s[|r.rest|..];
  }

  /** The trailing run of the script scanner: no class has a longer trailing
      run than the one taken, and the winner's is exactly the one taken. */
  lemma AnyScanTakesLongestRun(t: Scripts, s: string, c: Class)
    ensures |Scan(t, ScanAny, s).rest| <= RunStart(t, c, s)
    ensures ClassOf(Scan(t, ScanAny, s).next) == c ==> |Scan(t, ScanAny, s).rest| == RunStart(t, c, s)
  {
    var r := Scan(t, ScanAny, s);
    var alts := Alternatives(ScanAny);
    var k := RunStart(t, c, s);
    CoversIffAfterRunStart(t, c, s, k);
    var b :| 0 <= b < |alts| && alts[b] == c;
    CoversIffAfterRunStart(t, ClassOf(r.next), s, |r.rest|);
    assert s[|r.rest|..] == r.run;
  }

  /** Among the classes whose trailing run is longest, the first listed wins:
      every class listed before the winner has a strictly shorter run. */
  lemma AnyScanPrefersEarlier(t: Scripts, s: string, a: nat, b: nat)
    requires b < a < |Alternatives(ScanAny)|
    requires Alternatives(ScanAny)[a] == ClassOf(Scan(t, ScanAny, s).next)
    ensures |Scan(t, ScanAny, s).rest| < RunStart(t, Alternatives(ScanAny)[b], s)
  {
    var r := Scan(t, ScanAny, s);
    var alts := Alternatives(ScanAny);
    ScanPicksFirstAlternative(t, ScanAny, s);
    var w: nat :| FirstToCover(t, ScanAny, w, r.run) && r.next == Narrow(ScanAny, alts[w]);
    assert ClassOf(r.next) == alts[w];
    assert a == w;
    assert s[|r.rest|..] == r.run;
    CoversIffAfterRunStart(t, alts[b], s, |r.rest|);
  }

  /** The kana scanner narrows to the first of its alternatives that covers
      the run: it stays on the prolonged sound mark while only that covers
      it, and otherwise settles on hiragana before katakana. */
  lemma KanaScanNarrows(t: Scripts, s: string)
    ensures var r := Scan(t, ScanKana, s);
      && (r.next == ScanKana <==> Covers(t, ProlongedClass, r.run))
      && (r.next == ScanHiragana <==> !Covers(t, ProlongedClass, r.run) && Covers(t, HiraganaClass, r.run))
      && (r.next == ScanKatakana <==> !Covers(t, ProlongedClass, r.run) && !Covers(t, HiraganaClass, r.run))
  {
    var r := Scan(t, ScanKana, s);
    ScanPicksFirstAlternative(t, ScanKana, s);
    var w: nat :| FirstToCover(t, ScanKana, w, r.run) && r.next == Narrow(ScanKana, Alternatives(ScanKana)[w]);
  }

  // ----- the scanner's documented behaviour on concrete strings -----

  /** With no script accepting the digits, the script scanner keeps "123"
      whole and, because the empty kanji run is the first alternative to match
      at the end, settles on the kanji scanner. */
  lemma DigitsSettleOnHan(t: Scripts)
    requires !t.han('1') && !t.hiragana('1') && !t.katakana('1') && !t.latin('1')
    requires !t.han('2') && !t.hiragana('2') && !t.katakana('2') && !t.latin('2')
    requires !t.han('3') && !t.hiragana('3') && !t.katakana('3') && !t.latin('3')
    ensures Scan(t, ScanAny, "123") == Scanned("123", "", ScanHan)
  {
    var r := Scan(t, ScanAny, "123");
    assert !InClass(t, ClassOf(r.next), "123"[2]);
    assert |r.rest| == 3;
    assert r.run == "";
    var m := LazyMatch(t, Alternatives(ScanAny), "123", 0);
    assert m.split == 3;
    assert Covers(t, HanClass, "123"[3..]);
    assert m.alt == 0;
  }

  /** A scanner's life: kanji, more kanji, then a hiragana string that the
      settled kanji scanner leaves untouched. */
  lemma ScannerSettlesOnFirstScript(t: Scripts)
    requires t.han('\U{6F22}') && t.han('\U{5B57}')  // 漢 字
    requires !t.han('\U{306A}')  // な, the last character of ひらがな
    ensures Scan(t, ScanAny, "\U{6F22}") == Scanned("", "\U{6F22}", ScanHan)
    ensures Scan(t, ScanHan, "\U{5B57}") == Scanned("", "\U{5B57}", ScanHan)
    ensures Scan(t, ScanHan, "\U{3072}\U{3089}\U{304C}\U{306A}") == Scanned("\U{3072}\U{3089}\U{304C}\U{306A}", "", ScanHan)
  {
    var kan := "\U{6F22}";
    assert Covers(t, HanClass, kan[0..]);
    var r1 := Scan(t, ScanAny, kan);
    assert LazyMatch(t, Alternatives(ScanAny), kan, 0) == Match(0, 0);
    var ji := "\U{5B57}";
    assert Covers(t, HanClass, ji[0..]);
    assert LazyMatch(t, Alternatives(ScanHan), ji, 0) == Match(0, 0);
    var hira := "\U{3072}\U{3089}\U{304C}\U{306A}";
    SettledScanSplitsAtRunStart(t, ScanHan, hira);
    assert hira[..4] == hira;
  }
}

=== FILE: style_example.dfy ===
/** The example citation style (remark-pandoc-citation/src/citeproc/styles/example.ts):
    a bracketed citation shows each item as a `citation-item` span of
    `prefix author year, locator suffix` followed by its hidden bibliography;
    an in-text citation puts `prefix author` in front of the brackets. An
    item without data falls back to its plain Pandoc text. */
module ExampleStyle {
  import opened Wrappers
  import opened Csl
  import opened CslRender

  /** What `makeDateShort` shows for a date without a year. */
  const MissingYear := "0000"

  /** `makeCitationPrefix`: pushes the prefix, then the short author unless
      it is suppressed, each after a space. */
  function CitationPrefix(t: Letters, nodes: seq<Content>, item: CiteItem): (r: seq<Content>)
    ensures |nodes| <= |r| && r[..|nodes|] == nodes
  {
    var withPrefix := if Filled(item.prefix) then Push(nodes, Space, item.prefix.value) else nodes;
    var author := if Truthy(item.suppressAuthor) then "" else AuthorShort(t, item.itemData);
    if author != "" then Push(withPrefix, Space, author) else withPrefix
  }

  /** `makeCitationSuffix`: pushes the year after a space, the locator after
      `, `, and the suffix after a space when a locator precedes it and
      after `, ` otherwise. */
  function CitationSuffix(nodes: seq<Content>, item: CiteItem): (r: seq<Content>)
    ensures |nodes| <= |r| && r[..|nodes|] == nodes
  {
    var date := DateShort(Issued(item), MissingYear);
    var withDate := if date != "" then Push(nodes, Space, date) else nodes;
    var withLocator := if Filled(item.locator) then Push(withDate, CommaSpace, item.locator.value) else withDate;
    if Filled(item.suffix) then Push(withLocator, if Filled(item.locator) then Space else CommaSpace, item.suffix.value)
    else withLocator
  }

  lemma CitationPrefixWords(t: Letters, nodes: seq<Content>, item: CiteItem)
    requires WellDelimited(nodes)
    ensures WellDelimited(CitationPrefix(t, nodes, item))
    ensures Words(CitationPrefix(t, nodes, item)) == Words(nodes) + NonEmpty(LeadWords(t, item))
  {
    var w := LeadWords(t, item);
    assert CitationPrefix(t, nodes, item) == PushIfAny(PushIfAny(nodes, Space, w[0]), Space, w[1]);
    PushTwoWords(nodes, Space, Space, w[0], w[1]);
  }

  lemma CitationSuffixWords(nodes: seq<Content>, item: CiteItem)
    requires WellDelimited(nodes)
    ensures WellDelimited(CitationSuffix(nodes, item))
    ensures Words(CitationSuffix(nodes, item)) == Words(nodes) + NonEmpty(TailWords(item, MissingYear))
  {
    var w := TailWords(item, MissingYear);
    var delim := if Filled(item.locator) then Space else CommaSpace;
    assert CitationSuffix(nodes, item) == PushIfAny(PushIfAny(PushIfAny(nodes, Space, w[0]), CommaSpace, w[1]), delim, w[2]);
    PushThreeWords(nodes, Space, CommaSpace, delim, w[0], w[1], w[2]);
  }

  /** `makeCitation`: the plain text of an item without data, otherwise one
      span holding the prefix and suffix nodes and the bibliography. */
  function Citation(t: Letters, item: CiteItem): (r: seq<Content>)
    ensures |r| == 1
    ensures item.itemData.None? <==> r[0].Text?
  {
    if item.itemData.None? then [Text(Plain(item))]
    else [ItemSpan(CitationSuffix(CitationPrefix(t, [], item), item) + [Bibliography(item.itemData.value)])]
  }

  /** `makeCitationInText`: the plain text of an item without data, otherwise
      the prefix nodes, a space when there are any, and the suffix nodes and
      bibliography in a span between brackets. */
  function CitationInText(t: Letters, item: CiteItem): (r: seq<Content>)
    ensures item.itemData.None? ==> |r| == 1 && r[0].Text?
    ensures item.itemData.Some? ==> |r| >= 3 && r[|r| - 3] == Opening && r[|r| - 1] == Closing
  {
    if item.itemData.None? then [Text(Plain(item))]
    else
      var prefix := CitationPrefix(t, [], item);
      var suffix := CitationSuffix([], item);
      prefix + (if |prefix| > 0 then [Space] else [])
      + [Opening, ItemSpan(suffix + [Bibliography(item.itemData.value)]), Closing]
  }

  /** The prefix and suffix nodes of a span show the non-empty lead and
      tail texts, in order, with a delimiter between each two. */
  lemma SpanWords(t: Letters, item: CiteItem)
    ensures WellDelimited(CitationSuffix(CitationPrefix(t, [], item), item))
    ensures Words(CitationSuffix(CitationPrefix(t, [], item), item))
      == NonEmpty(LeadWords(t, item) + TailWords(item, MissingYear))
  {
    var prefix := CitationPrefix(t, [], item);
    var lead, tail := LeadWords(t, item), TailWords(item, MissingYear);
    CitationPrefixWords(t, [], item);
    assert Words(prefix) == NonEmpty(lead);
    CitationSuffixWords(prefix, item);
    NonEmptyConcat(lead, tail);
  }

  /** The span of a known item shows its non-empty lead and tail texts, in
      order, with a delimiter between each two and the bibliography last. */
  lemma CitationWords(t: Letters, item: CiteItem)
    requires item.itemData.Some?
    ensures var children := Citation(t, item)[0].children;
      |children| >= 1 && children[|children| - 1] == Bibliography(item.itemData.value)
      && WellDelimited(children[..|children| - 1])
      && Words(children[..|children| - 1]) == NonEmpty(LeadWords(t, item) + TailWords(item, MissingYear))
  {
    var body := CitationSuffix(CitationPrefix(t, [], item), item);
    var children := body + [Bibliography(item.itemData.value)];
    assert Citation(t, item) == [ItemSpan(children)];
    assert children[..|children| - 1] == body;
    SpanWords(t, item);
  }

  /** In text, the same texts are split at the bracket: the lead ones before
      it, the tail ones inside the span. */
  lemma CitationInTextWords(t: Letters, item: CiteItem)
    requires item.itemData.Some?
    ensures var r := CitationInText(t, item);
      r[|r| - 2].ItemSpan? && LeadsInto(r[..|r| - 3], NonEmpty(LeadWords(t, item)))
      && (var inside := r[|r| - 2].children;
          |inside| >= 1 && inside[|inside| - 1] == Bibliography(item.itemData.value)
          && WellDelimited(inside[..|inside| - 1])
          && Words(inside[..|inside| - 1]) == NonEmpty(TailWords(item, MissingYear)))
  {
    var prefix := CitationPrefix(t, [], item);
    var suffix := CitationSuffix([], item);
    CitationPrefixWords(t, [], item);
    CitationSuffixWords([], item);
    var r := CitationInText(t, item);
    assert r == prefix + (if |prefix| > 0 then [Space] else [])
      + [Opening, ItemSpan(suffix + [Bibliography(item.itemData.value)]), Closing];
    InTextSplit(r, prefix, suffix, item.itemData.value, NonEmpty(LeadWords(t, item)), NonEmpty(TailWords(item, MissingYear)));
  }

  /** The in-text shape, for any prefix and suffix nodes with the given words. */
  lemma InTextSplit(r: seq<Content>, prefix: seq<Content>, suffix: seq<Content>, data: DataItem, lead: seq<string>, tail: seq<string>)
    requires WellDelimited(prefix) && WellDelimited(suffix) && Words(prefix) == lead && Words(suffix) == tail
    requires r == prefix + (if |prefix| > 0 then [Space] else []) + [Opening, ItemSpan(suffix + [Bibliography(data)]), Closing]
    ensures r[|r| - 2].ItemSpan? && LeadsInto(r[..|r| - 3], lead)
      && (var inside := r[|r| - 2].children;
          |inside| >= 1 && inside[|inside| - 1] == Bibliography(data)
          && WellDelimited(inside[..|inside| - 1])
          && Words(inside[..|inside| - 1]) == tail)
  {
    InTextParts(r, prefix, suffix, data);
  }

  lemma InTextParts(r: seq<Content>, prefix: seq<Content>, suffix: seq<Content>, data: DataItem)
    requires WellDelimited(prefix) && WellDelimited(suffix)
    requires r == prefix + (if |prefix| > 0 then [Space] else []) + [Opening, ItemSpan(suffix + [Bibliography(data)]), Closing]
    ensures |r| >= 3 && r[|r| - 2] == ItemSpan(suffix + [Bibliography(data)])
    ensures LeadsInto(r[..|r| - 3], Words(prefix))
    ensures (suffix + [Bibliography(data)])[..|suffix|] == suffix
  {
    assert r[..|r| - 3] == prefix + (if |prefix| > 0 then [Space] else []);
    LeadsIntoPrefix(prefix, Words(prefix));
  }

  /** `makeCitation`, as a renderer of one item. */
  function CitationRender(t: Letters): CiteItem -> seq<Content> {
    item => Citation(t, item)
  }

  /** `makeCitationInText`, as a renderer of one item. */
  function CitationInTextRender(t: Letters): CiteItem -> seq<Content> {
    item => CitationInText(t, item)
  }

  /** `getCitation`: the items between brackets, separated by `; `. */
  function GetCitation(t: Letters, items: seq<CiteItem>): (r: seq<Content>)
    ensures r == [Opening] + Join(Rendered(items, CitationRender(t)), [Semicolon]) + [Closing]
  {
    SeparatedIsJoin(items, CitationRender(t));
    [Opening] + Separated(items, CitationRender(t)) + [Closing]
  }

  /** `getCitationInText`: the items separated by `; `, without brackets. */
  function GetCitationInText(t: Letters, items: seq<CiteItem>): (r: seq<Content>)
    ensures r == Join(Rendered(items, CitationInTextRender(t)), [Semicolon])
  {
    SeparatedIsJoin(items, CitationInTextRender(t));
    Separated(items, CitationInTextRender(t))
  }

  /** An unknown item is written back as typed. */
  lemma NotFoundExample()
    ensures var item := CiteItem(StrId("id"), None, None, None, None, None, None, None, None);
      GetCitationInText(AsciiLetters(), [item]) == [Text("@id")]
      && GetCitation(AsciiLetters(), [item]) == [Opening, Text("@id"), Closing]
  {
    var t := AsciiLetters();
    var item := CiteItem(StrId("id"), None, None, None, None, None, None, None, None);
    assert Plain(item) == "@id";
    assert [item][1..] == [];
    assert Separated([item], CitationInTextRender(t)) == CitationInText(t, item);
    assert Separated([item], CitationRender(t)) == Citation(t, item);
  }

  /** An item with a prefix, a locator and a suffix but no date. */
  function OptionsItem(): CiteItem {
    var data := DataItem(StrId("id"), Some([Name(Some("Family"), Some("Given"), None, None, None, None)]), None, None, None);
    CiteItem(StrId("id"), Some(data), Some("prefix"), Some("suffix"), Some("locator"), None, None, None, None)
  }

  lemma OptionsParts()
    ensures CitationPrefix(AsciiLetters(), [], OptionsItem()) == [Text("prefix"), Space, Text("Family")]
    ensures CitationSuffix([Text("prefix"), Space, Text("Family")], OptionsItem())
      == [Text("prefix"), Space, Text("Family"), CommaSpace, Text("locator"), Space, Text("suffix")]
    ensures CitationSuffix([], OptionsItem()) == [Text("locator"), Space, Text("suffix")]
  {
    var item := OptionsItem();
    assert AuthorShort(AsciiLetters(), item.itemData) == "Family";
    assert DateShort(Issued(item), MissingYear) == "";
  }

  lemma OptionsExample()
    ensures GetCitation(AsciiLetters(), [OptionsItem()])
      == [Opening, ItemSpan([Text("prefix"), Space, Text("Family"), CommaSpace, Text("locator"), Space, Text("suffix"),
            Bibliography(OptionsItem().itemData.value)]), Closing]
  {
    var t, item := AsciiLetters(), OptionsItem();
    OptionsParts();
    assert [item][1..] == [];
    var b := Bibliography(item.itemData.value);
    assert [Text("prefix"), Space, Text("Family"), CommaSpace, Text("locator"), Space, Text("suffix")] + [b]
      == [Text("prefix"), Space, Text("Family"), CommaSpace, Text("locator"), Space, Text("suffix"), b];
    assert Separated([item], CitationRender(t)) == Citation(t, item);
  }

  lemma OptionsInTextExample()
    ensures GetCitationInText(AsciiLetters(), [OptionsItem()])
      == [Text("prefix"), Space, Text("Family"), Space, Opening,
          ItemSpan([Text("locator"), Space, Text("suffix"), Bibliography(OptionsItem().itemData.value)]), Closing]
  {
    var t, item := AsciiLetters(), OptionsItem();
    OptionsParts();
    assert [item][1..] == [];
    var b := Bibliography(item.itemData.value);
    assert [Text("locator"), Space, Text("suffix")] + [b] == [Text("locator"), Space, Text("suffix"), b];
    assert CitationInText(t, item) == [Text("prefix"), Space, Text("Family")] + [Space]
      + [Opening, ItemSpan([Text("locator"), Space, Text("suffix"), b]), Closing];
    assert Separated([item], CitationInTextRender(t)) == CitationInText(t, item);
  }
}

=== FILE: style_square.dfy ===
/** The square citation style (remark-pandoc-citation/src/citeproc/style/square.ts),
    the one the processor's own tests use: like the example style, but
    without a bibliography, with an empty year for a date that has none, and
    with a plain space between the author part and the year part of a span. */
module SquareStyle {
  import opened Wrappers
  import opened Csl
  import opened CslRender
  import ExampleStyle

  /** What `makeDateShort` shows for a date without a year. */
  const MissingYear := ""

  /** `makeCitationPrefix`: the prefix, then the short author unless it is
      suppressed, after a space. */
  function CitationPrefix(t: Letters, item: CiteItem): (r: seq<Content>)
    ensures |r| <= 3
    ensures r == ExampleStyle.CitationPrefix(t, [], item)
  {
    var withPrefix := if Filled(item.prefix) then [Text(item.prefix.value)] else [];
    var author := if Truthy(item.suppressAuthor) then "" else AuthorShort(t, item.itemData);
    if author != "" then Push(withPrefix, Space, author) else withPrefix
  }

  /** `makeCitationSuffix`: the year, the locator after `, `, and the suffix
      after a space when a locator precedes it and after `, ` otherwise. */
  function CitationSuffix(item: CiteItem): (r: seq<Content>)
    ensures |r| <= 5
    ensures Issued(item).None? || FirstYear(Issued(item).value).Some? ==> r == ExampleStyle.CitationSuffix([], item)
  {
    DateShortMissing(Issued(item), MissingYear, ExampleStyle.MissingYear);
    ExampleSuffixFromYear(item);
    SuffixFrom(DateShort(Issued(item), MissingYear), item)
  }

  /** The suffix nodes after a given year text. */
  function SuffixFrom(date: string, item: CiteItem): (r: seq<Content>)
    ensures |r| <= 5
  {
    var withDate := if date != "" then [Text(date)] else [];
    var withLocator := if Filled(item.locator) then Push(withDate, CommaSpace, item.locator.value) else withDate;
    if Filled(item.suffix) then Push(withLocator, if Filled(item.locator) then Space else CommaSpace, item.suffix.value)
    else withLocator
  }

  /** The example style's suffix from no nodes is the same construction
      after its own year text. */
  lemma ExampleSuffixFromYear(item: CiteItem)
    ensures ExampleStyle.CitationSuffix([], item) == SuffixFrom(DateShort(Issued(item), ExampleStyle.MissingYear), item)
  {
  }

  /** The square prefix is the example style's prefix started from nothing. */
  lemma PrefixAgrees(t: Letters, item: CiteItem)
    ensures CitationPrefix(t, item) == ExampleStyle.CitationPrefix(t, [], item)
  {
  }

  /** The square suffix is the example style's suffix started from nothing,
      except for a date without a year, which the example style shows as
      `0000` and the square style leaves out. */
  lemma SuffixAgrees(item: CiteItem)
    ensures Issued(item).None? || FirstYear(Issued(item).value).Some? ==>
      CitationSuffix(item) == ExampleStyle.CitationSuffix([], item)
    ensures Issued(item).Some? && FirstYear(Issued(item).value).None? ==>
      ExampleStyle.CitationSuffix([], item)
        == [Text(ExampleStyle.MissingYear)] + (if CitationSuffix(item) == [] then [] else [CommaSpace] + CitationSuffix(item))
  {
    DateShortMissing(Issued(item), MissingYear, ExampleStyle.MissingYear);
    if Issued(item).Some? && FirstYear(Issued(item).value).None? {
      SuffixWithoutYear(item);
    }
  }

  lemma SuffixWithoutYear(item: CiteItem)
    requires DateShort(Issued(item), MissingYear) == ""
    requires DateShort(Issued(item), ExampleStyle.MissingYear) == ExampleStyle.MissingYear
    ensures ExampleStyle.CitationSuffix([], item)
        == [Text(ExampleStyle.MissingYear)] + (if CitationSuffix(item) == [] then [] else [CommaSpace] + CitationSuffix(item))
  {
    var year := [Text(ExampleStyle.MissingYear)];
    var loc := if Filled(item.locator) then [Text(item.locator.value)] else [];
    var delim := if Filled(item.locator) then Space else CommaSpace;
    assert ExampleStyle.CitationSuffix([], item)
      == year + (if Filled(item.locator) then [CommaSpace] + loc else [])
         + (if Filled(item.suffix) then [delim, Text(item.suffix.value)] else []);
    if Filled(item.locator) {
      assert CitationSuffix(item) == loc + (if Filled(item.suffix) then [delim, Text(item.suffix.value)] else []);
    } else if Filled(item.suffix) {
      assert CitationSuffix(item) == [Text(item.suffix.value)];
    }
  }

  lemma CitationPrefixWords(t: Letters, item: CiteItem)
    ensures WellDelimited(CitationPrefix(t, item))
    ensures Words(CitationPrefix(t, item)) == NonEmpty(LeadWords(t, item))
  {
    PrefixAgrees(t, item);
    ExampleStyle.CitationPrefixWords(t, [], item);
  }

  lemma CitationSuffixWords(item: CiteItem)
    ensures WellDelimited(CitationSuffix(item))
    ensures Words(CitationSuffix(item)) == NonEmpty(TailWords(item, MissingYear))
  {
    var w := TailWords(item, MissingYear);
    var delim := if Filled(item.locator) then Space else CommaSpace;
    assert CitationSuffix(item) == PushIfAny(PushIfAny(PushIfAny([], Space, w[0]), CommaSpace, w[1]), delim, w[2]);
    PushThreeWords([], Space, CommaSpace, delim, w[0], w[1], w[2]);
  }

  /** `makeCitation` as written: the span holds the prefix nodes, a space and
      the suffix nodes, or only the suffix nodes when there is no prefix. */
  function CitationAsWritten(t: Letters, item: CiteItem): (r: seq<Content>)
    ensures |r| == 1
    ensures item.itemData.None? <==> r[0].Text?
  {
    if item.itemData.None? then [Text(Plain(item))]
    else
      var prefix, suffix := CitationPrefix(t, item), CitationSuffix(item);
      [ItemSpan(if |prefix| == 0 then suffix else prefix + [Space] + suffix)]
  }

  /** An item with an author or prefix but no year, locator or suffix gets
      a span that ends in the space meant to separate the two parts. */
  lemma TrailingSpace(t: Letters, item: CiteItem)
    requires item.itemData.Some?
    requires NonEmpty(LeadWords(t, item)) != [] && NonEmpty(TailWords(item, MissingYear)) == []
    ensures var children := CitationAsWritten(t, item)[0].children;
      |children| > 0 && children[|children| - 1] == Space && !WellDelimited(children)
  {
    CitationPrefixWords(t, item);
    CitationSuffixWords(item);
    var prefix := CitationPrefix(t, item);
    assert CitationSuffix(item) == [];
    var children := prefix + [Space];
    assert CitationAsWritten(t, item)[0].children == children;
    assert |children| % 2 == 0;
  }

  /** The item `{id: "id", author: [{family: "Family"}]}` without a date. */
  function AuthorOnlyItem(): CiteItem {
    var data := DataItem(StrId("id"), Some([Name(Some("Family"), None, None, None, None, None)]), None, None, None);
    CiteItem(StrId("id"), Some(data), None, None, None, None, None, None, None)
  }

  /** It renders as `[Family ]`. */
  lemma TrailingSpaceExample()
    ensures CitationAsWritten(AsciiLetters(), AuthorOnlyItem()) == [ItemSpan([Text("Family"), Space])]
  {
    var item := AuthorOnlyItem();
    assert AuthorShort(AsciiLetters(), item.itemData) == "Family";
    assert CitationPrefix(AsciiLetters(), item) == [Text("Family")];
    assert CitationSuffix(item) == [];
    assert [Text("Family")] + [Space] + [] == [Text("Family"), Space];
  }

  /** `makeCitation` with the space only between two non-empty parts. */
  function Citation(t: Letters, item: CiteItem): (r: seq<Content>)
    ensures |r| == 1
    ensures item.itemData.None? <==> r[0].Text?
  {
    if item.itemData.None? then [Text(Plain(item))]
    else
      var prefix, suffix := CitationPrefix(t, item), CitationSuffix(item);
      [ItemSpan(if |prefix| == 0 then suffix else if |suffix| == 0 then prefix else prefix + [Space] + suffix)]
  }

  /** A known item with a prefix part and no suffix part: the one whose
      written span ends in a space. */
  predicate EndsInSpace(t: Letters, item: CiteItem) {
    item.itemData.Some? && CitationPrefix(t, item) != [] && CitationSuffix(item) == []
  }

  /** Where the corrected span differs from the written one: only in the
      trailing space. */
  lemma CitationDropsTrailingSpace(t: Letters, item: CiteItem)
    ensures EndsInSpace(t, item) ==>
      CitationAsWritten(t, item)[0].children == Citation(t, item)[0].children + [Space]
    ensures !EndsInSpace(t, item) ==> CitationAsWritten(t, item) == Citation(t, item)
  {
  }

  /** The span of a known item shows its non-empty lead and tail texts, in
      order, with a delimiter between each two and at neither end. */
  lemma CitationWords(t: Letters, item: CiteItem)
    requires item.itemData.Some?
    ensures WellDelimited(Citation(t, item)[0].children)
    ensures Words(Citation(t, item)[0].children) == NonEmpty(LeadWords(t, item) + TailWords(item, MissingYear))
  {
    var prefix, suffix := CitationPrefix(t, item), CitationSuffix(item);
    CitationPrefixWords(t, item);
    CitationSuffixWords(item);
    NonEmptyConcat(LeadWords(t, item), TailWords(item, MissingYear));
    if |prefix| > 0 && |suffix| > 0 {
      JoinWords(prefix, Space, suffix);
    } else if |prefix| == 0 {
      assert NonEmpty(LeadWords(t, item)) == [];
    } else {
      assert NonEmpty(TailWords(item, MissingYear)) == [];
    }
  }

  /** `makeCitationInText`: the prefix nodes, a space when there are any,
      and the suffix nodes in a span between brackets. */
  function CitationInText(t: Letters, item: CiteItem): (r: seq<Content>)
    ensures item.itemData.None? ==> |r| == 1 && r[0].Text?
    ensures item.itemData.Some? ==> |r| >= 3 && r[|r| - 3] == Opening && r[|r| - 1] == Closing
  {
    if item.itemData.None? then [Text(Plain(item))]
    else
      var prefix, suffix := CitationPrefix(t, item), CitationSuffix(item);
      prefix + (if |prefix| == 0 then [] else [Space]) + [Opening, ItemSpan(suffix), Closing]
  }

  /** In text, the lead texts come before the bracket and the tail texts
      inside the span. */
  lemma CitationInTextWords(t: Letters, item: CiteItem)
    requires item.itemData.Some?
    ensures var r := CitationInText(t, item);
      r[|r| - 2].ItemSpan? && LeadsInto(r[..|r| - 3], NonEmpty(LeadWords(t, item)))
      && WellDelimited(r[|r| - 2].children)
      && Words(r[|r| - 2].children) == NonEmpty(TailWords(item, MissingYear))
  {
    var prefix, suffix := CitationPrefix(t, item), CitationSuffix(item);
    var r := CitationInText(t, item);
    assert r == prefix + (if |prefix| > 0 then [Space] else []) + [Opening, ItemSpan(suffix), Closing];
    assert r[..|r| - 3] == prefix + (if |prefix| > 0 then [Space] else []);
    CitationPrefixWords(t, item);
    CitationSuffixWords(item);
    LeadsIntoPrefix(prefix, Words(prefix));
  }

  /** `makeCitation`, as a renderer of one item. */
  function CitationRender(t: Letters): CiteItem -> seq<Content> {
    item => Citation(t, item)
  }

  /** `makeCitationInText`, as a renderer of one item. */
  function CitationInTextRender(t: Letters): CiteItem -> seq<Content> {
    item => CitationInText(t, item)
  }

  /** `getCitation` with the corrected item span of `Citation`: the items
      between brackets, separated by `; `. The example style's `getCitation`
      has the same shape over its own item renderer
      (`ExampleStyle.GetCitation`); the two styles repeat it. */
  function GetCitation(t: Letters, items: seq<CiteItem>): (r: seq<Content>)
    ensures r == [Opening] + Join(Rendered(items, CitationRender(t)), [Semicolon]) + [Closing]
  {
    SeparatedIsJoin(items, CitationRender(t));
    [Opening] + Separated(items, CitationRender(t)) + [Closing]
  }

  /** `makeCitation` as written, as a renderer. */
  function CitationAsWrittenRender(t: Letters): CiteItem -> seq<Content> {
    item => CitationAsWritten(t, item)
  }

  /** `getCitation` as written: the items between brackets, separated by
      `; `, each with the span of `CitationAsWritten`. */
  function GetCitationAsWritten(t: Letters, items: seq<CiteItem>): (r: seq<Content>)
    ensures r == [Opening] + Join(Rendered(items, CitationAsWrittenRender(t)), [Semicolon]) + [Closing]
  {
    SeparatedIsJoin(items, CitationAsWrittenRender(t));
    [Opening] + Separated(items, CitationAsWrittenRender(t)) + [Closing]
  }

  /** The written and the corrected `getCitation` agree exactly when no item
      ends in the trailing space. */
  lemma GetCitationAsWrittenAgrees(t: Letters, items: seq<CiteItem>)
    ensures GetCitationAsWritten(t, items) == GetCitation(t, items)
      <==> forall i | 0 <= i < |items| :: !EndsInSpace(t, items[i])
  {
    if forall i | 0 <= i < |items| :: !EndsInSpace(t, items[i]) {
      RenderingsAgree(t, items);
    } else {
      var i :| 0 <= i < |items| && EndsInSpace(t, items[i]);
      RenderingsDiffer(t, items, i);
    }
  }

  lemma RenderingsAgree(t: Letters, items: seq<CiteItem>)
    requires forall i | 0 <= i < |items| :: !EndsInSpace(t, items[i])
    ensures GetCitationAsWritten(t, items) == GetCitation(t, items)
  {
    var written, corrected := Rendered(items, CitationAsWrittenRender(t)), Rendered(items, CitationRender(t));
    forall i | 0 <= i < |items|
      ensures written[i] == corrected[i]
    {
      CitationDropsTrailingSpace(t, items[i]);
    }
    assert written == corrected;
  }

  lemma RenderingsDiffer(t: Letters, items: seq<CiteItem>, i: nat)
    requires i < |items| && EndsInSpace(t, items[i])
    ensures GetCitationAsWritten(t, items) != GetCitation(t, items)
  {
    CitationDropsTrailingSpace(t, items[i]);
    assert |CitationAsWritten(t, items[i])[0].children| != |Citation(t, items[i])[0].children|;
    BracketedJoinsDiffer(items, CitationAsWrittenRender(t), CitationRender(t), i);
  }

  /** The author-only item: `[Family ]` as written, `[Family]` corrected. */
  lemma AuthorOnlyGetCitation()
    ensures GetCitationAsWritten(AsciiLetters(), [AuthorOnlyItem()]) == [Opening, ItemSpan([Text("Family"), Space]), Closing]
    ensures GetCitation(AsciiLetters(), [AuthorOnlyItem()]) == [Opening, ItemSpan([Text("Family")]), Closing]
  {
    var item := AuthorOnlyItem();
    TrailingSpaceExample();
    assert CitationPrefix(AsciiLetters(), item) == [Text("Family")];
    assert CitationSuffix(item) == [];
    assert Citation(AsciiLetters(), item) == [ItemSpan([Text("Family")])];
    assert Rendered([item], CitationAsWrittenRender(AsciiLetters())) == [[ItemSpan([Text("Family"), Space])]];
    assert Rendered([item], CitationRender(AsciiLetters())) == [[ItemSpan([Text("Family")])]];
  }

  /** `getCitationInText`: the items separated by `; `, without brackets;
      the twin of `ExampleStyle.GetCitationInText` over this style's
      renderer. */
  function GetCitationInText(t: Letters, items: seq<CiteItem>): (r: seq<Content>)
    ensures r == Join(Rendered(items, CitationInTextRender(t)), [Semicolon])
  {
    SeparatedIsJoin(items, CitationInTextRender(t));
    Separated(items, CitationInTextRender(t))
  }
}

=== FILE: wikilink_from_markdown.dfy ===
/** The mdast side of the wikilink extension (remark-obsidian-wikilink/src/fromMarkdown.ts):
    a `link` node flagged as a wikilink, whose url is the path's source text
    and whose children default to one text node holding the url. */
module WikilinkFromMarkdown {
  import opened Micromark
  import opened WikilinkSyntax

  /** Phrasing content: a text node, or any other node with its text. */
  datatype Phrasing = Text(value: seq<int>) | Other(content: seq<int>)

  /** An mdast `link`; `wikilink` is `data._isObsidianWikilink`. */
  datatype Link = Link(url: seq<int>, children: seq<Phrasing>, wikilink: bool)

  /** What one event does to the link being built. `display` stands for the
      host, which parses a display text as inline content and appends the
      resulting nodes to the link. */
  function Handle(s: seq<int>, display: seq<int> -> seq<Phrasing>, e: Event<WikilinkKind>, link: Link): (r: Link)
    ensures e == Enter(e.token) && e.token.kind == Wikilink ==> r == Link([], [], true)
    ensures e.token.kind !in {Wikilink, WikilinkPath, WikilinkText} ==> r == link
  {
    match e
    case Enter(t) =>
      if t.kind == Wikilink then Link([], [], true)
      else if t.kind == WikilinkPath then link.(url := Slice(s, t))
      else if t.kind == WikilinkText then link.(children := link.children + display(Slice(s, t)))
      else link
    case Exit(t) =>
      if t.kind == Wikilink && link.children == [] then link.(children := [Text(link.url)]) else link
  }

  /** The events, in order, applied to `link`. */
  function Compile(s: seq<int>, display: seq<int> -> seq<Phrasing>, evs: seq<Event<WikilinkKind>>, link: Link): Link
    decreases |evs|
  {
    if |evs| == 0 then link else Compile(s, display, evs[1..], Handle(s, display, evs[0], link))
  }

  lemma {:induction false} CompileConcat(s: seq<int>, display: seq<int> -> seq<Phrasing>, a: seq<Event<WikilinkKind>>, b: seq<Event<WikilinkKind>>, link: Link)
    ensures Compile(s, display, a + b, link) == Compile(s, display, b, Compile(s, display, a, link))
    decreases |a|
  {
    if |a| == 0 {
      assert a + b == b;
    } else {
      assert (a + b)[1..] == a[1..] + b;
      CompileConcat(s, display, a[1..], b, Handle(s, display, a[0], link));
    }
  }

  lemma CompileSpan(s: seq<int>, display: seq<int> -> seq<Phrasing>, kind: WikilinkKind, i: nat, j: nat, inner: seq<Event<WikilinkKind>>, link: Link)
    ensures Compile(s, display, Span(kind, i, j, inner), link)
         == Handle(s, display, Exit(Token(kind, i, j)), Compile(s, display, inner, Handle(s, display, Enter(Token(kind, i, j)), link)))
  {
    var enter, exit := [Enter(Token(kind, i, j))], [Exit(Token(kind, i, j))];
    CompileConcat(s, display, enter + inner, exit, link);
    CompileConcat(s, display, enter, inner, link);
    assert Compile(s, display, enter, link) == Handle(s, display, enter[0], link) by {
      assert enter[1..] == [];
    }
    assert exit[1..] == [];
  }

  /** The path's source text, or empty when there is no path token. */
  lemma CompilePath(s: seq<int>, display: seq<int> -> seq<Phrasing>, i: nat, j: nat, link: Link)
    requires i <= j <= |s| && link.url == []
    ensures Compile(s, display, LeafIfAny(WikilinkPath, i, j), link) == link.(url := s[i..j])
  {
    if i < j {
      CompileSpan(s, display, WikilinkPath, i, j, [], link);
    } else {
      assert link.(url := s[i..j]) == link;
    }
  }

  /** A non-empty display text appends the host's nodes for it. */
  lemma CompileText(s: seq<int>, display: seq<int> -> seq<Phrasing>, i: nat, k: nat, link: Link)
    requires i <= k <= |s|
    ensures Compile(s, display, TextEvents(i, k), link)
         == if i < k then link.(children := link.children + display(s[i..k])) else link
  {
    if i < k {
      CompileSpan(s, display, WikilinkText, i, k, Leaf(ChunkText, i, k), link);
      CompileSpan(s, display, ChunkText, i, k, [], link.(children := link.children + display(s[i..k])));
    }
  }

  /** A token the handlers ignore leaves the link as it is. */
  lemma CompileIgnored(s: seq<int>, display: seq<int> -> seq<Phrasing>, kind: WikilinkKind, i: nat, j: nat, link: Link)
    requires kind !in {Wikilink, WikilinkPath, WikilinkText}
    ensures Compile(s, display, Leaf(kind, i, j), link) == link
  {
    CompileSpan(s, display, kind, i, j, [], link);
  }

  /** The display text's nodes of the body at `i`, none without a display text. */
  function Shown(s: seq<int>, i: nat, display: seq<int> -> seq<Phrasing>): seq<Phrasing>
    requires i <= |s|
  {
    var j := PathEnd(s, i);
    if j < |s| && s[j] == VerticalBar && j + 1 < TextEnd(s, j + 1) then display(s[j + 1..TextEnd(s, j + 1)]) else []
  }

  lemma ShownText(s: seq<int>, i: nat, display: seq<int> -> seq<Phrasing>, j: nat, k: nat)
    requires i <= j < |s| && PathEnd(s, i) == j && s[j] == VerticalBar && TextEnd(s, j + 1) == k
    ensures Shown(s, i, display) == if j + 1 < k then display(s[j + 1..k]) else []
  {
  }

  /** The link an accepted wikilink compiles to. */
  function LinkOf(s: seq<int>, p: nat, display: seq<int> -> seq<Phrasing>): Link
    requires p + 2 <= |s|
  {
    var url := s[p + 2..PathEnd(s, p + 2)];
    var shown := Shown(s, p + 2, display);
    Link(url, if shown == [] then [Text(url)] else shown, true)
  }

  lemma PathCloseLink(s: seq<int>, display: seq<int> -> seq<Phrasing>, i: nat, j: nat)
    requires i <= j && j + 2 <= |s|
    ensures Compile(s, display, LeafIfAny(WikilinkPath, i, j) + Leaf(WikilinkClose, j, j + 2), Link([], [], true))
         == Link(s[i..j], [], true)
  {
    var started := Link([], [], true);
    CompileConcat(s, display, LeafIfAny(WikilinkPath, i, j), Leaf(WikilinkClose, j, j + 2), started);
    CompilePath(s, display, i, j, started);
    CompileIgnored(s, display, WikilinkClose, j, j + 2, started.(url := s[i..j]));
  }

  /** The path and the `|` before a display text set the url only. */
  lemma PathPrefixLink(s: seq<int>, display: seq<int> -> seq<Phrasing>, i: nat, j: nat)
    requires i <= j < |s|
    ensures Compile(s, display, LeafIfAny(WikilinkPath, i, j) + Leaf(WikilinkTextPrefix, j, j + 1), Link([], [], true))
         == Link(s[i..j], [], true)
  {
    var started := Link([], [], true);
    CompileConcat(s, display, LeafIfAny(WikilinkPath, i, j), Leaf(WikilinkTextPrefix, j, j + 1), started);
    CompilePath(s, display, i, j, started);
    CompileIgnored(s, display, WikilinkTextPrefix, j, j + 1, started.(url := s[i..j]));
  }

  /** The display text of a link with no children yet becomes its children. */
  lemma TextIntoLink(s: seq<int>, display: seq<int> -> seq<Phrasing>, url: seq<int>, i: nat, k: nat)
    requires i <= k <= |s|
    ensures Compile(s, display, TextEvents(i, k), Link(url, [], true))
         == Link(url, if i < k then display(s[i..k]) else [], true)
  {
    CompileText(s, display, i, k, Link(url, [], true));
    if i < k {
      assert [] + display(s[i..k]) == display(s[i..k]);
    }
  }

  lemma PathTextLink(s: seq<int>, display: seq<int> -> seq<Phrasing>, i: nat, j: nat, k: nat)
    requires i <= j < k && k + 2 <= |s|
    ensures Compile(s, display, LeafIfAny(WikilinkPath, i, j) + Leaf(WikilinkTextPrefix, j, j + 1) + TextEvents(j + 1, k) + Leaf(WikilinkClose, k, k + 2), Link([], [], true))
         == Link(s[i..j], if j + 1 < k then display(s[j + 1..k]) else [], true)
  {
    PathPrefixLink(s, display, i, j);
    TextIntoLink(s, display, s[i..j], j + 1, k);
    CompileThenClose(s, display, LeafIfAny(WikilinkPath, i, j) + Leaf(WikilinkTextPrefix, j, j + 1), TextEvents(j + 1, k), k,
      Link([], [], true), Link(s[i..j], [], true), Link(s[i..j], if j + 1 < k then display(s[j + 1..k]) else [], true));
  }

  /** Two parts compiled one after another, then the closing marker, which
      leaves the link as it is. */
  lemma CompileThenClose(s: seq<int>, display: seq<int> -> seq<Phrasing>, a: seq<Event<WikilinkKind>>, c: seq<Event<WikilinkKind>>, k: nat, l0: Link, l1: Link, l2: Link)
    requires Compile(s, display, a, l0) == l1 && Compile(s, display, c, l1) == l2
    ensures Compile(s, display, a + c + Leaf(WikilinkClose, k, k + 2), l0) == l2
  {
    CompileConcat(s, display, a, c, l0);
    CompileConcat(s, display, a + c, Leaf(WikilinkClose, k, k + 2), l0);
    CompileIgnored(s, display, WikilinkClose, k, k + 2, l2);
  }

  /** The body fills in the url and the display nodes. */
  lemma BodyLink(s: seq<int>, display: seq<int> -> seq<Phrasing>, i: nat)
    requires i <= |s| && Body(s, i).Ok?
    ensures Compile(s, display, Body(s, i).events, Link([], [], true)) == Link(s[i..PathEnd(s, i)], Shown(s, i, display), true)
  {
    var j := PathEnd(s, i);
    if s[j] == RightSquareBracket {
      assert ClosesAt(s, j);
      BodyWithClose(s, i, j);
      assert Shown(s, i, display) == [];
      PathCloseLink(s, display, i, j);
    } else {
      var k := TextEnd(s, j + 1);
      assert s[j] == VerticalBar && ClosesAt(s, k);
      BodyWithText(s, i, j, k);
      ShownText(s, i, display, j, k);
      PathTextLink(s, display, i, j, k);
    }
  }

  /** Compiling the events of a wikilink gives a flagged link whose url is the
      path's exact source text ("" without a path) and whose children are the
      display text's nodes, or one text node holding the url when there are none. */
  lemma WikilinkNode(s: seq<int>, p: nat, display: seq<int> -> seq<Phrasing>, link: Link)
    requires p <= |s| && WikilinkAt(s, p).Ok?
    ensures Compile(s, display, WikilinkAt(s, p).events, link) == LinkOf(s, p, display)
  {
    var r := WikilinkAt(s, p);
    var body := Body(s, p + 2);
    var started := Link([], [], true);
    CompileSpan(s, display, Wikilink, p, r.end, Leaf(WikilinkOpen, p, p + 2) + body.events, link);
    CompileConcat(s, display, Leaf(WikilinkOpen, p, p + 2), body.events, started);
    CompileIgnored(s, display, WikilinkOpen, p, p + 2, started);
    BodyLink(s, display, p + 2);
  }

  /** "[[path#id]]" becomes a link to "path#id" showing "path#id". */
  lemma PathLinkExample(display: seq<int> -> seq<Phrasing>)
    ensures WikilinkAt(Codes("[[path#id]]"), 0).Ok?
    ensures Compile(Codes("[[path#id]]"), display, WikilinkAt(Codes("[[path#id]]"), 0).events, Link([], [], false))
         == Link(Codes("path#id"), [Text(Codes("path#id"))], true)
  {
    var s := Codes("[[path#id]]");
    assert PathEnd(s, 2) == 9 by {
      RunEndAt(s, 2, 9, CarriageReturnLineFeed, {VerticalBar, RightSquareBracket});
    }
    assert Body(s, 2).Ok?;
    assert LinkOf(s, 0, display) == Link(Codes("path#id"), [Text(Codes("path#id"))], true) by {
      assert s[2..9] == Codes("path#id");
    }
    WikilinkNode(s, 0, display, Link([], [], false));
  }

  /** "[[|text]]" becomes a link to "" showing what the host makes of "text". */
  lemma TextLinkExample(display: seq<int> -> seq<Phrasing>)
    requires display(Codes("text")) == [Text(Codes("text"))]
    ensures WikilinkAt(Codes("[[|text]]"), 0).Ok?
    ensures Compile(Codes("[[|text]]"), display, WikilinkAt(Codes("[[|text]]"), 0).events, Link([], [], false))
         == Link([], [Text(Codes("text"))], true)
  {
    var t := Codes("[[|text]]");
    assert PathEnd(t, 2) == 2 by {
      RunEndAt(t, 2, 2, CarriageReturnLineFeed, {VerticalBar, RightSquareBracket});
    }
    assert TextEnd(t, 3) == 7 by {
      RunEndAt(t, 3, 7, CarriageReturnLineFeed, {RightSquareBracket});
    }
    assert Body(t, 2).Ok?;
    assert LinkOf(t, 0, display) == Link([], [Text(Codes("text"))], true) by {
      assert t[3..7] == Codes("text");
    }
    WikilinkNode(t, 0, display, Link([], [], false));
  }
}

=== FILE: wikilink_resolve.dfy ===
/** How a wikilink's url becomes a site url (remark-obsidian-wikilink/src/utils/resolve.ts):
    the text before the first `#` names a file, which the injected `glob`
    looks up (with ".md" added when the name has no extension); the file's
    path without extension is slugified segment by segment under the base url,
    and the text after the last `#`, if there is a `#` at all, becomes the
    slugified fragment. */
module WikilinkResolve {
  import opened Wrappers

  /** A `PathResolver`: the file lookup and the slug function are injected. */
  datatype Resolver = Resolver(
    glob: (string, string) -> Option<string>,
    slugify: string -> string,
    baseUrl: string)

  // ----- strings -----

  /** Where `c` first occurs in `s`. */
  function IndexOf(s: string, c: char): (i: nat)
    requires c in s
    ensures i < |s| && s[i] == c
    ensures forall k :: 0 <= k < i ==> s[k] != c
  {
    if s[0] == c then 0 else
      assert c in s[1..] by { var k :| 0 <= k < |s| && s[k] == c; assert s[1..][k - 1] == c; }
      1 + IndexOf(s[1..], c)
  }

  /** Where `c` last occurs in `s`. */
  function LastIndexOf(s: string, c: char): (i: nat)
    requires c in s
    ensures i < |s| && s[i] == c
    ensures forall k :: i < k < |s| ==> s[k] != c
  {
    var n := |s| - 1;
    if s[n] == c then n else
      assert c in s[..n] by { var k :| 0 <= k < |s| && s[k] == c; assert s[..n][k] == c; }
      LastIndexOf(s[..n], c)
  }

  /** `pieces.join(sep)`. */
  function Join(pieces: seq<string>, sep: string): string {
    if |pieces| == 0 then "" else if |pieces| == 1 then pieces[0] else pieces[0] + sep + Join(pieces[1..], sep)
  }

  /** `s.split(c)`: the text between the occurrences of `c`, which always has
      at least one piece. */
  function Split(s: string, c: char): (pieces: seq<string>)
    ensures |pieces| > 0
    decreases |s|
  {
    if c !in s then [s] else
      var i := IndexOf(s, c);
      [s[..i]] + Split(s[i + 1..], c)
  }

  /** Splitting at the first `c`. */
  lemma SplitCons(s: string, c: char)
    requires c in s
    ensures Split(s, c) == [s[..IndexOf(s, c)]] + Split(s[IndexOf(s, c) + 1..], c)
  {
  }

  lemma SplitNone(s: string, c: char)
    requires c !in s
    ensures Split(s, c) == [s]
  {
  }

  /** Joining the pieces with `c` puts the string back together. */
  lemma {:induction false} SplitJoin(s: string, c: char)
    ensures Join(Split(s, c), [c]) == s
    decreases |s|
  {
    if c in s {
      var i := IndexOf(s, c);
      var t := s[i + 1..];
      SplitJoin(t, c);
      SplitCons(s, c);
      JoinCons(s[..i], Split(t, c), [c]);
      assert s == s[..i] + [c] + t;
    }
  }

  /** No piece contains `c`. */
  lemma {:induction false} SplitPiecesFree(s: string, c: char)
    ensures forall i :: 0 <= i < |Split(s, c)| ==> c !in Split(s, c)[i]
    decreases |s|
  {
    if c in s {
      var i := IndexOf(s, c);
      var t := s[i + 1..];
      SplitPiecesFree(t, c);
      SplitCons(s, c);
      assert c !in s[..i] by {
        forall k | 0 <= k < i ensures s[..i][k] != c { assert s[..i][k] == s[k]; }
      }
    }
  }

  lemma JoinCons(x: string, rest: seq<string>, sep: string)
    requires |rest| > 0
    ensures Join([x] + rest, sep) == x + sep + Join(rest, sep)
  {
    assert ([x] + rest)[1..] == rest;
  }

  /** The first piece is the text before the first `c`. */
  lemma SplitFirst(s: string, c: char)
    ensures Split(s, c)[0] == if c in s then s[..IndexOf(s, c)] else s
  {
  }

  /** There is more than one piece exactly when `c` occurs. */
  lemma SplitMany(s: string, c: char)
    ensures |Split(s, c)| > 1 <==> c in s
  {
    if c in s {
      SplitCons(s, c);
    }
  }

  /** The last piece is the text after the last `c`. */
  lemma {:induction false} SplitLast(s: string, c: char)
    requires c in s
    ensures Split(s, c)[|Split(s, c)| - 1] == s[LastIndexOf(s, c) + 1..]
    decreases |s|
  {
    var i := IndexOf(s, c);
    var t := s[i + 1..];
    SplitCons(s, c);
    if c in t {
      SplitLast(t, c);
      LastIndexShift(s, c, i + 1);
    } else {
      SplitNone(t, c);
      assert forall k :: i < k < |s| ==> s[k] != c by {
        forall k | i < k < |s| ensures s[k] != c { assert t[k - i - 1] == s[k]; }
      }
      LastIndexUnique(s, c, i);
    }
  }

  /** The last occurrence in a suffix that has one is the last occurrence in
      the whole. */
  lemma LastIndexShift(s: string, c: char, d: nat)
    requires d <= |s| && c in s[d..]
    ensures LastIndexOf(s, c) == d + LastIndexOf(s[d..], c)
    ensures s[LastIndexOf(s, c) + 1..] == s[d..][LastIndexOf(s[d..], c) + 1..]
  {
    var t := s[d..];
    var m := LastIndexOf(t, c);
    assert s[d + m] == t[m];
    assert forall k :: d + m < k < |s| ==> s[k] != c by {
      forall k | d + m < k < |s| ensures s[k] != c { assert t[k - d] == s[k]; }
    }
    LastIndexUnique(s, c, d + m);
  }

  /** The last occurrence is the one with no `c` after it. */
  lemma LastIndexUnique(s: string, c: char, k: nat)
    requires k < |s| && s[k] == c
    requires forall j :: k < j < |s| ==> s[j] != c
    ensures LastIndexOf(s, c) == k
  {
  }

  // ----- node:path, POSIX flavour -----

  /** The end of `p` once trailing `/` are dropped. */
  function TrimmedEnd(p: string): (e: nat)
    ensures e <= |p|
    ensures e > 0 ==> p[e - 1] != '/'
    ensures forall k :: e <= k < |p| ==> p[k] == '/'
  {
    if |p| == 0 then 0
    else if p[|p| - 1] != '/' then |p|
    else
      var e := TrimmedEnd(p[..|p| - 1]);
      assert forall k :: e <= k < |p| - 1 ==> p[..|p| - 1][k] == p[k];
      e
  }

  /** Where the last segment of `p[..e]` begins: just after its last `/`. */
  function SegmentStart(p: string, e: nat): (st: nat)
    requires e <= |p|
    ensures st <= e
    ensures st > 0 ==> p[st - 1] == '/'
    ensures forall k :: st <= k < e ==> p[k] != '/'
  {
    if e == 0 || p[e - 1] == '/' then e else SegmentStart(p, e - 1)
  }

  /** `path.basename`: the last segment, trailing `/` ignored. */
  function Basename(p: string): (b: string)
    ensures '/' !in b
  {
    var e := TrimmedEnd(p);
    var b := p[SegmentStart(p, e)..e];
    assert forall k :: 0 <= k < |b| ==> b[k] == p[SegmentStart(p, e) + k];
    b
  }

  /** `path.extname`: the last segment from its last `.` on, or "" when the
      segment has no `.`, only a leading one, or is "..". */
  function Extname(p: string): (x: string)
    ensures x == "" || (x[0] == '.' && '.' !in x[1..] && '/' !in x)
    ensures x != "" ==> |x| < |Basename(p)| && Basename(p)[|Basename(p)| - |x|..] == x
    ensures x == "" <==> '.' !in Basename(p) || Basename(p) == ".." || LastIndexOf(Basename(p), '.') == 0
  {
    var b := Basename(p);
    if '.' !in b || b == ".." then ""
    else
      var d := LastIndexOf(b, '.');
      if d == 0 then "" else
        assert '/' !in b[d..] by { assert forall k :: 0 <= k < |b[d..]| ==> b[d..][k] == b[d + k]; }
        b[d..]
  }

  /** `join(parse(p).dir, parse(p).name)`: the path with its extension (and
      any trailing `/`) removed. */
  function Stem(p: string): string {
    p[..TrimmedEnd(p) - |Extname(p)|]
  }

  // ----- PathResolver.resolve -----

  /** The slugified segments of the found file, without its extension. */
  function Slug(r: Resolver, file: string): string {
    Join(MapSlugify(r.slugify, Split(Stem(file), '/')), "/")
  }

  function MapSlugify(f: string -> string, xs: seq<string>): (ys: seq<string>)
    ensures |ys| == |xs| && forall i :: 0 <= i < |xs| ==> ys[i] == f(xs[i])
  {
    if |xs| == 0 then [] else [f(xs[0])] + MapSlugify(f, xs[1..])
  }

  /** The name handed to `glob`: ".md" is added to a name without extension. */
  function LookupName(path: string): string {
    if Extname(path) == "" then path + ".md" else path
  }

  /** The part of the url naming the file: empty when `glob` finds nothing. */
  function FilePart(r: Resolver, path: string, sourceDir: string): string {
    var found := r.glob(LookupName(path), sourceDir);
    if found.Some? then r.baseUrl + "/" + Slug(r, found.value) else ""
  }

  /** The text before the first `#`. */
  function PathOf(input: string): string {
    if '#' in input then input[..IndexOf(input, '#')] else input
  }

  /** The text after the last `#`, if there is one. */
  function HeadingOf(input: string): Option<string> {
    if '#' in input then Some(input[LastIndexOf(input, '#') + 1..]) else None
  }

  /** `resolve(input, sourceDir)`: the file part for the text before the first
      `#`, then a fragment for the text after the last `#` exactly when the
      input has a `#`. */
  function Resolve(r: Resolver, input: string, sourceDir: string): (url: string)
    ensures HeadingOf(input).None? ==> url == FilePart(r, PathOf(input), sourceDir)
    ensures HeadingOf(input).Some? ==> url == FilePart(r, PathOf(input), sourceDir) + "#" + r.slugify(HeadingOf(input).value)
  {
    var pieces := Split(input, '#');
    SplitHash(input);
    var output := FilePart(r, pieces[0], sourceDir);
    if |pieces| > 1 then output + "#" + r.slugify(pieces[|pieces| - 1]) else output
  }

  /** The pieces `resolve` reads: the first is the path; there is a second
      exactly when there is a heading, and the last is the heading. */
  lemma SplitHash(input: string)
    ensures Split(input, '#')[0] == PathOf(input)
    ensures |Split(input, '#')| > 1 <==> HeadingOf(input).Some?
    ensures |Split(input, '#')| > 1 ==> Split(input, '#')[|Split(input, '#')| - 1] == HeadingOf(input).value
  {
    SplitFirst(input, '#');
    SplitMany(input, '#');
    HeadingPiece(input);
  }

  lemma HeadingPiece(input: string)
    ensures HeadingOf(input).Some? ==> Split(input, '#')[|Split(input, '#')| - 1] == HeadingOf(input).value
  {
    if '#' in input {
      SplitLast(input, '#');
    }
  }

  // ----- documented behaviour on concrete input -----

  /** A segment begins after the last `/` before its end. */
  lemma {:induction false} SegmentStartAt(p: string, e: nat, st: nat)
    requires st <= e <= |p|
    requires st > 0 ==> p[st - 1] == '/'
    requires forall k :: st <= k < e ==> p[k] != '/'
    ensures SegmentStart(p, e) == st
    decreases e
  {
    if e > st {
      SegmentStartAt(p, e - 1, st);
    }
  }

  /** The extension of a name without `/`: from its last `.` on, unless that
      is its first character. */
  lemma ExtnameOfName(p: string)
    requires |p| > 0 && '/' !in p
    ensures Basename(p) == p
    ensures '.' in p && LastIndexOf(p, '.') > 0 && p != ".." ==> Extname(p) == p[LastIndexOf(p, '.')..]
    ensures '.' in p && LastIndexOf(p, '.') == 0 ==> Extname(p) == ""
    ensures '.' !in p ==> Extname(p) == ""
  {
    assert p[|p| - 1] != '/';
    SegmentStartAt(p, |p|, 0);
    assert p[0..|p|] == p;
  }

  /** "name.md" has the extension ".md", so it is looked up as it is. */
  lemma ExtnameOfMarkdownName(p: string)
    requires p == "name.md"
    ensures Extname(p) == ".md" && LookupName(p) == p
  {
    ExtnameOfName(p);
    LastIndexUnique(p, '.', 4);
  }

  /** "name" has none and is looked up as "name.md". */
  lemma ExtnameOfPlainName(p: string)
    requires p == "name"
    ensures Extname(p) == "" && LookupName(p) == "name.md"
  {
    ExtnameOfName(p);
  }

  /** A leading dot does not start an extension: ".obsidian" has none. */
  lemma ExtnameOfDotFile(p: string)
    requires p == ".obsidian"
    ensures Extname(p) == ""
  {
    assert '.' !in p[1..] by { assert p[1..] == "obsidian"; }
    LastIndexUnique(p, '.', 0);
    ExtnameOfName(p);
  }

  /** Only the last dot counts: "archive.tar.gz" has the extension ".gz". */
  lemma ExtnameOfDoubleExtension(p: string)
    requires p == "archive.tar.gz"
    ensures Extname(p) == ".gz"
  {
    ExtnameOfName(p);
    LastIndexUnique(p, '.', 11);
  }

  /** "#id" with no file found: only the fragment, for the text after `#`. */
  lemma HeadingOnlyExample(r: Resolver, input: string, dir: string)
    requires input == "#id"
    requires r.glob(".md", dir) == None
    ensures Resolve(r, input, dir) == "#" + r.slugify("id")
  {
    assert PathOf(input) == "" && HeadingOf(input) == Some("id") by {
      assert input[0] == '#';
      assert IndexOf(input, '#') == 0;
      assert input[1..] == "id";
      LastIndexUnique(input, '#', 0);
    }
    assert FilePart(r, "", dir) == "" by {
      assert Extname("") == "";
      assert LookupName("") == ".md";
    }
  }
}

=== FILE: wikilink_syntax.dfy ===
/** The micromark extension for Obsidian wikilinks (remark-obsidian-wikilink/src/syntax.ts):
    `[[path|text]]`, where the path and the `|text` part are both optional.
    The path runs to the first `|` or `]`, the text to the first `]`, and the
    first `]` after them must be followed by a second one. */
module WikilinkSyntax {
  import opened Micromark

  datatype WikilinkKind =
    | Wikilink | WikilinkOpen | WikilinkPath | WikilinkTextPrefix | WikilinkText | ChunkText | WikilinkClose

  /** `]]` at `i`: the closing token, and `exit`'s check of the second `]`. */
  function CloseBrackets(s: seq<int>, i: nat): (r: Outcome<WikilinkKind>)
    ensures r.Ok? <==> i + 1 < |s| && s[i] == RightSquareBracket && s[i + 1] == RightSquareBracket
    ensures r.Ok? ==> r == Ok(Leaf(WikilinkClose, i, i + 2), i + 2)
  {
    if CodeAt(s, i) != Char(RightSquareBracket) then Fail
    else if CodeAt(s, i + 1) != Char(RightSquareBracket) then Fail
    else Ok(Leaf(WikilinkClose, i, i + 2), i + 2)
  }

  /** The display text [i, k): no token when it is empty. */
  function TextEvents(i: nat, k: nat): seq<Event<WikilinkKind>> {
    if i < k then Span(WikilinkText, i, k, Leaf(ChunkText, i, k)) else []
  }

  // ----- an independent description of the body -----

  /** Where the path ends: the first `|`, `]` or line ending after `i`. */
  function PathEnd(s: seq<int>, i: nat): (j: nat)
    requires i <= |s|
    ensures i <= j <= |s|
  {
    RunEnd(s, i, CarriageReturnLineFeed, {VerticalBar, RightSquareBracket})
  }

  /** Where the display text starting at `i` ends: the first `]` or line ending. */
  function TextEnd(s: seq<int>, i: nat): (k: nat)
    requires i <= |s|
    ensures i <= k <= |s|
  {
    RunEnd(s, i, CarriageReturnLineFeed, {RightSquareBracket})
  }

  predicate ClosesAt(s: seq<int>, i: nat) {
    i + 1 < |s| && s[i] == RightSquareBracket && s[i + 1] == RightSquareBracket
  }

  /** What the body after `[[` at `i` amounts to: a path, then either `]]`
      or `|`, a display text and `]]`. */
  function Body(s: seq<int>, i: nat): Outcome<WikilinkKind>
    requires i <= |s|
  {
    var j := PathEnd(s, i);
    if j == |s| || s[j] <= CarriageReturnLineFeed then Fail
    else if s[j] == RightSquareBracket then
      if ClosesAt(s, j) then Ok(LeafIfAny(WikilinkPath, i, j) + Leaf(WikilinkClose, j, j + 2), j + 2) else Fail
    else
      var k := TextEnd(s, j + 1);
      if ClosesAt(s, k) then
        Ok(LeafIfAny(WikilinkPath, i, j) + Leaf(WikilinkTextPrefix, j, j + 1) + TextEvents(j + 1, k) + Leaf(WikilinkClose, k, k + 2), k + 2)
      else Fail
  }

  // ----- tokenizeBody, one function per state -----

  /** `finishText`: inside a display text that began at `start`. */
  function FinishText(s: seq<int>, start: nat, i: nat): (r: Outcome<WikilinkKind>)
    requires start < i <= |s|
    ensures var k := TextEnd(s, i);
      (r.Ok? <==> ClosesAt(s, k))
      && (r.Ok? ==> r == Ok(Span(WikilinkText, start, k, Leaf(ChunkText, start, k)) + Leaf(WikilinkClose, k, k + 2), k + 2))
    decreases |s| - i
  {
    var c := CodeAt(s, i);
    if IsLineBreak(c) then Fail
    else if c == Char(RightSquareBracket) then
      Prepend(Span(WikilinkText, start, i, Leaf(ChunkText, start, i)), CloseBrackets(s, i))
    else FinishText(s, start, i + 1)
  }

  /** `startText`: just after the `|`; an empty text is allowed. */
  function StartText(s: seq<int>, i: nat): (r: Outcome<WikilinkKind>)
    requires i <= |s|
    ensures var k := TextEnd(s, i);
      (r.Ok? <==> ClosesAt(s, k))
      && (r.Ok? ==> r == Ok(TextEvents(i, k) + Leaf(WikilinkClose, k, k + 2), k + 2))
  {
    var c := CodeAt(s, i);
    if IsLineBreak(c) then Fail
    else if c == Char(RightSquareBracket) then CloseBrackets(s, i)
    else FinishText(s, i, i + 1)
  }

  /** `prestartText`: the `|` itself. */
  function PrestartText(s: seq<int>, i: nat): (r: Outcome<WikilinkKind>)
    requires i <= |s|
    ensures r.Ok? <==> i < |s| && s[i] == VerticalBar && ClosesAt(s, TextEnd(s, i + 1))
    ensures r.Ok? ==> i < |s| && var k := TextEnd(s, i + 1);
      r == Ok(Leaf(WikilinkTextPrefix, i, i + 1) + TextEvents(i + 1, k) + Leaf(WikilinkClose, k, k + 2), k + 2)
  {
    if CodeAt(s, i) != Char(VerticalBar) then Fail
    else
      var r := Prepend(Leaf(WikilinkTextPrefix, i, i + 1), StartText(s, i + 1));
      assert r.Ok? ==> r.events == Leaf(WikilinkTextPrefix, i, i + 1) + TextEvents(i + 1, TextEnd(s, i + 1)) + Leaf(WikilinkClose, TextEnd(s, i + 1), TextEnd(s, i + 1) + 2);
      r
  }

  /** `finishPath`: inside a path that began at `start`. */
  function FinishPath(s: seq<int>, start: nat, i: nat): (r: Outcome<WikilinkKind>)
    requires start < i <= |s|
    requires forall m :: start <= m < i ==> s[m] > CarriageReturnLineFeed && s[m] !in {VerticalBar, RightSquareBracket}
    ensures r == Body(s, start)
    decreases |s| - i
  {
    RunEndSkip(s, start, i, CarriageReturnLineFeed, {VerticalBar, RightSquareBracket});
    var c := CodeAt(s, i);
    if IsLineBreak(c) then Fail
    else if c == Char(VerticalBar) then
      Prepend(Leaf(WikilinkPath, start, i), PrestartText(s, i))
    else if c == Char(RightSquareBracket) then
      Prepend(Leaf(WikilinkPath, start, i), CloseBrackets(s, i))
    else FinishPath(s, start, i + 1)
  }

  /** `startPath`: the whole body, just after `[[`. */
  function StartPath(s: seq<int>, i: nat): (r: Outcome<WikilinkKind>)
    requires i <= |s|
    ensures r == Body(s, i)
  {
    var c := CodeAt(s, i);
    if IsLineBreak(c) then Fail
    else if c == Char(VerticalBar) then
      BodyAtBar(s, i);
      PrestartText(s, i)
    else if c == Char(RightSquareBracket) then
      BodyAtBracket(s, i);
      CloseBrackets(s, i)
    else FinishPath(s, i, i + 1)
  }

  /** A body that begins with `|` has an empty path. */
  lemma BodyAtBar(s: seq<int>, i: nat)
    requires i < |s| && s[i] == VerticalBar
    ensures Body(s, i) == PrestartText(s, i)
  {
    assert PathEnd(s, i) == i by {
      RunEndAt(s, i, i, CarriageReturnLineFeed, {VerticalBar, RightSquareBracket});
    }
    var k := TextEnd(s, i + 1);
    if ClosesAt(s, k) {
      BodyWithText(s, i, i, k);
      var rest := Leaf(WikilinkTextPrefix, i, i + 1) + TextEvents(i + 1, k) + Leaf(WikilinkClose, k, k + 2);
      assert LeafIfAny(WikilinkPath, i, i) + Leaf(WikilinkTextPrefix, i, i + 1) + TextEvents(i + 1, k) + Leaf(WikilinkClose, k, k + 2) == rest;
      assert PrestartText(s, i) == Ok(rest, k + 2);
    }
  }

  /** A body that begins with `]` has an empty path. */
  lemma BodyAtBracket(s: seq<int>, i: nat)
    requires i < |s| && s[i] == RightSquareBracket
    ensures Body(s, i) == CloseBrackets(s, i)
  {
    assert PathEnd(s, i) == i by {
      RunEndAt(s, i, i, CarriageReturnLineFeed, {VerticalBar, RightSquareBracket});
    }
    assert LeafIfAny(WikilinkPath, i, i) + Leaf(WikilinkClose, i, i + 2) == Leaf(WikilinkClose, i, i + 2);
  }

  // ----- tokenizeBodyWithBrackets and tokenizeNormalLink -----

  /** `open` and the state after it: both `[` of the opening, then the body. */
  function BodyWithBrackets(s: seq<int>, p: nat): (r: Outcome<WikilinkKind>)
    requires p <= |s|
    ensures r.Ok? <==> p + 1 < |s| && s[p] == LeftSquareBracket && s[p + 1] == LeftSquareBracket && Body(s, p + 2).Ok?
    ensures r.Ok? ==> r == Prepend(Leaf(WikilinkOpen, p, p + 2), Body(s, p + 2))
  {
    if CodeAt(s, p) != Char(LeftSquareBracket) then Fail
    else if CodeAt(s, p + 1) != Char(LeftSquareBracket) then Fail
    else Prepend(Leaf(WikilinkOpen, p, p + 2), StartPath(s, p + 2))
  }

  /** Every accepted body ends just after a `]`. */
  lemma BodyEndsWithBracket(s: seq<int>, i: nat)
    requires i <= |s|
    ensures Body(s, i).Ok? ==> i + 2 <= Body(s, i).end <= |s| && s[Body(s, i).end - 1] == RightSquareBracket
  {
  }

  /** `tokenizeNormalLink` at `p`: the `obsidianWikilink` token around the
      bracketed body; `exit` checks the code the closing consumed last. */
  function NormalLink(s: seq<int>, p: nat): (r: Outcome<WikilinkKind>)
    requires p <= |s|
    ensures r.Ok? <==> p + 1 < |s| && s[p] == LeftSquareBracket && s[p + 1] == LeftSquareBracket && Body(s, p + 2).Ok?
    ensures r.Ok? ==> r == Ok(Span(Wikilink, p, Body(s, p + 2).end, Leaf(WikilinkOpen, p, p + 2) + Body(s, p + 2).events), Body(s, p + 2).end)
  {
    if CodeAt(s, p) != Char(LeftSquareBracket) then Fail
    else
      match BodyWithBrackets(s, p)
      case Fail => Fail
      case Ok(evs, end) =>
        BodyEndsWithBracket(s, p + 2);
        if CodeAt(s, end - 1) != Char(RightSquareBracket) then Fail
        else Ok(Span(Wikilink, p, end, evs), end)
  }

  /** The construct registered under `[`: refused right after `!` (an
      embed), and run inside `effects.attempt`, so a failure emits nothing. */
  function WikilinkAt(s: seq<int>, p: nat): (r: Outcome<WikilinkKind>)
    requires p <= |s|
    ensures r.Ok? <==> !(0 < p && s[p - 1] == ExclamationMark) && NormalLink(s, p).Ok?
    ensures r.Ok? ==> r == NormalLink(s, p)
  {
    if 0 < p && s[p - 1] == ExclamationMark then Fail else NormalLink(s, p)
  }

  /** The path a wikilink accepted at `p` covers: [p + 2, PathEnd). */
  lemma WikilinkShape(s: seq<int>, p: nat)
    requires p <= |s| && WikilinkAt(s, p).Ok?
    ensures var j := PathEnd(s, p + 2);
      j < |s| && (s[j] == VerticalBar || s[j] == RightSquareBracket)
      && (s[j] == RightSquareBracket ==> WikilinkAt(s, p).end == j + 2)
      && (s[j] == VerticalBar ==> WikilinkAt(s, p).end == TextEnd(s, j + 1) + 2)
      && forall m :: p + 2 <= m < j ==> s[m] > CarriageReturnLineFeed && s[m] != VerticalBar && s[m] != RightSquareBracket
  {
  }

  // ----- well formed events -----

  lemma BodyFits(s: seq<int>, i: nat)
    requires i <= |s|
    ensures Fits(Body(s, i), i, |s|)
  {
    var j := PathEnd(s, i);
    if Body(s, i).Ok? {
      if s[j] == RightSquareBracket {
        PathOnlyFits(i, j);
      } else {
        PathAndTextFits(i, j, TextEnd(s, j + 1));
      }
    }
  }

  lemma PathOnlyFits(i: nat, j: nat)
    requires i <= j
    ensures WellFormed(LeafIfAny(WikilinkPath, i, j) + Leaf(WikilinkClose, j, j + 2), i, j + 2)
  {
    WellFormedLeaf(WikilinkPath, i, j);
    WellFormedLeaf(WikilinkClose, j, j + 2);
    WellFormedConcat(LeafIfAny(WikilinkPath, i, j), Leaf(WikilinkClose, j, j + 2), i, j, j + 2);
  }

  lemma TextEventsFit(i: nat, k: nat)
    requires i <= k
    ensures WellFormed(TextEvents(i, k), i, k)
  {
    if i < k {
      WellFormedLeaf(ChunkText, i, k);
      WellFormedSpan(WikilinkText, i, k, Leaf(ChunkText, i, k));
    }
  }

  lemma PathAndTextFits(i: nat, j: nat, k: nat)
    requires i <= j < k
    ensures WellFormed(LeafIfAny(WikilinkPath, i, j) + Leaf(WikilinkTextPrefix, j, j + 1) + TextEvents(j + 1, k) + Leaf(WikilinkClose, k, k + 2), i, k + 2)
  {
    var a, b, c, d := LeafIfAny(WikilinkPath, i, j), Leaf(WikilinkTextPrefix, j, j + 1), TextEvents(j + 1, k), Leaf(WikilinkClose, k, k + 2);
    WellFormedLeaf(WikilinkPath, i, j);
    WellFormedLeaf(WikilinkTextPrefix, j, j + 1);
    WellFormedConcat(a, b, i, j, j + 1);
    TextEventsFit(j + 1, k);
    WellFormedConcat(a + b, c, i, j + 1, k);
    WellFormedLeaf(WikilinkClose, k, k + 2);
    WellFormedConcat(a + b + c, d, i, k, k + 2);
  }

  /** Whatever the wikilink construct accepts nests properly and stays
      between the opening `[[` and the end of the closing `]]`. */
  lemma WikilinkAtFits(s: seq<int>, p: nat)
    requires p <= |s|
    ensures Fits(WikilinkAt(s, p), p, |s|)
  {
    if WikilinkAt(s, p).Ok? {
      var body := Body(s, p + 2);
      BodyFits(s, p + 2);
      WellFormedLeaf(WikilinkOpen, p, p + 2);
      WellFormedConcat(Leaf(WikilinkOpen, p, p + 2), body.events, p, p + 2, body.end);
      WellFormedSpan(Wikilink, p, body.end, Leaf(WikilinkOpen, p, p + 2) + body.events);
    }
  }

  // ----- documented behaviour on concrete input -----

  /** A body with a `|`, once the path end `j` and the text end `k` are known. */
  lemma BodyWithClose(s: seq<int>, i: nat, j: nat)
    requires i <= j < |s| && PathEnd(s, i) == j && s[j] == RightSquareBracket && ClosesAt(s, j)
    ensures Body(s, i) == Ok(LeafIfAny(WikilinkPath, i, j) + Leaf(WikilinkClose, j, j + 2), j + 2)
  {
  }

  lemma BodyWithText(s: seq<int>, i: nat, j: nat, k: nat)
    requires i <= j < k && j < |s| && PathEnd(s, i) == j && s[j] == VerticalBar
    requires TextEnd(s, j + 1) == k && ClosesAt(s, k)
    ensures Body(s, i)
         == Ok(LeafIfAny(WikilinkPath, i, j) + Leaf(WikilinkTextPrefix, j, j + 1)
               + TextEvents(j + 1, k) + Leaf(WikilinkClose, k, k + 2), k + 2)
  {
  }

  /** A link whose body is accepted: the body wrapped in the link token. */
  lemma LinkOfBody(s: seq<int>, p: nat, evs: seq<Event<WikilinkKind>>, end: nat)
    requires p + 2 <= |s| && !(0 < p && s[p - 1] == ExclamationMark)
    requires s[p] == LeftSquareBracket && s[p + 1] == LeftSquareBracket
    requires Body(s, p + 2) == Ok(evs, end)
    ensures WikilinkAt(s, p) == Ok(Span(Wikilink, p, end, Leaf(WikilinkOpen, p, p + 2) + evs), end)
  {
  }

  lemma PathAndTextEnds(s: seq<int>)
    requires s == Codes("[[path#id|text]]")
    ensures PathEnd(s, 2) == 9 && TextEnd(s, 10) == 14
  {
    RunEndAt(s, 2, 9, CarriageReturnLineFeed, {VerticalBar, RightSquareBracket});
    RunEndAt(s, 10, 14, CarriageReturnLineFeed, {RightSquareBracket});
  }

  /** "[[path#id|text]]": `#` belongs to the path, the text follows `|`. */
  lemma PathAndTextExample()
    ensures WikilinkAt(Codes("[[path#id|text]]"), 0)
         == Ok(Span(Wikilink, 0, 16, Leaf(WikilinkOpen, 0, 2)
                    + (Leaf(WikilinkPath, 2, 9) + Leaf(WikilinkTextPrefix, 9, 10)
                       + Span(WikilinkText, 10, 14, Leaf(ChunkText, 10, 14)) + Leaf(WikilinkClose, 14, 16))), 16)
  {
    var s := Codes("[[path#id|text]]");
    PathAndTextEnds(s);
    BodyWithText(s, 2, 9, 14);
    LinkOfBody(s, 0, Leaf(WikilinkPath, 2, 9) + Leaf(WikilinkTextPrefix, 9, 10)
                     + Span(WikilinkText, 10, 14, Leaf(ChunkText, 10, 14)) + Leaf(WikilinkClose, 14, 16), 16);
  }

  /** "[[|text]]": no path token. */
  lemma TextOnlyExample()
    ensures WikilinkAt(Codes("[[|text]]"), 0)
         == Ok(Span(Wikilink, 0, 9, Leaf(WikilinkOpen, 0, 2)
                    + (LeafIfAny(WikilinkPath, 2, 2) + Leaf(WikilinkTextPrefix, 2, 3)
                       + Span(WikilinkText, 3, 7, Leaf(ChunkText, 3, 7)) + Leaf(WikilinkClose, 7, 9))), 9)
  {
    var s := Codes("[[|text]]");
    RunEndAt(s, 2, 2, CarriageReturnLineFeed, {VerticalBar, RightSquareBracket});
    RunEndAt(s, 3, 7, CarriageReturnLineFeed, {RightSquareBracket});
  }

  /** "[[path#id|text]", a single `]`, is not a wikilink. */
  lemma SingleBracketRefused()
    ensures WikilinkAt(Codes("[[path#id|text]"), 0).Fail?
  {
    var s := Codes("[[path#id|text]");
    SingleBracketEnds(s);
  }

  lemma SingleBracketEnds(s: seq<int>)
    requires s == Codes("[[path#id|text]")
    ensures PathEnd(s, 2) == 9 && TextEnd(s, 10) == 14 && !ClosesAt(s, 14)
  {
    RunEndAt(s, 2, 9, CarriageReturnLineFeed, {VerticalBar, RightSquareBracket});
    RunEndAt(s, 10, 14, CarriageReturnLineFeed, {RightSquareBracket});
  }

  /** "![[path]]", an embed, is not a wikilink. */
  lemma EmbedRefused()
    ensures WikilinkAt(Codes("![[path]]"), 1).Fail?
  {
  }
}

=== FILE: wrappers.dfy ===
/** Optional values: the model's stand-in for a TypeScript `T | undefined`. */
module Wrappers {

  datatype Option<+T> = None | Some(value: T) {

    /** The value, or `default` when there is none (TypeScript's `??`). */
    function GetOr(default: T): T {
      match this
      case Some(v) => v
      case None => default
    }
  }
}
